=== FILE: README.md ===
# MPMUtils core, modelled in Dafny

This project models the deterministic core of the MPMUtils C++ utility
library and proves properties of the model. The random draws that come from
the variate buffer `rnd` are supplied from outside, so each part is a pure
function of its inputs; the draws the source takes directly from `gRandom`
(in `genAuger` and `ECapture::run`) are not modelled, and neither are the
Auger electrons they decide. The parts are:

- **Nuclear decay generator** (`Physics/NuclEvtGen.cc`):
  - `PSelector`, the cumulative-probability category sampler with its residual-variate rewrite (`pselector.dfy`, module `Selector`);
  - `ConversionGamma`'s shell and gamma categories (`conversion_gamma.dfy`);
  - the level scheme, `addTransition` flux bookkeeping, `getAtom` and `setCutoff` (`level_scheme.dfy`);
  - `NucDecaySystem` construction: level sorting and indexing, gamma, Auger, beta and electron-capture transitions, including automatic captures (`decay_system.dfy`);
  - the recursive `genDecayChain` walk and the `getNDF` count (`decay_chain.dfy`).
- **Permutations** (`Math/PermutationGroup.hh`): permutations, their inverse, product and quotient, the factorial-number-system enumeration `element`/`idx`, and signed permutations (`permutation.dfy`, `signed_permutation.dfy`).
- **Bounding boxes** (`Utility/BBox.hh`, `bbox.dfy`).
- **Data streams** (`Framework/DataSource.hh`, `data_source.dfy`): leaf streams and their concatenation, plus `skip`, `next_loop` and the optional-loop helpers.
- **HDF5 table cache** (`HDF5/HDF5_Table_Cache.hh`), with the table as a sequence of rows:
  - the chunked read cursor (`table_reader.dfy`);
  - event grouping by identifier (`table_events.dfy`);
  - writer buffering (`table_writer.dfy`);
  - identifier-filtered transfer (`table_transfer.dfy`).
- **String multimap** (`GeneralUtils/Stringmap.cc`, `stringmap.dfy`), with the string helpers it relies on (`text.dfy`).
- **Menu stack machine and name selector** (`Utility/ControlMenu.cc`, `Utility/ControlMenu.hh`, in `control_menu.dfy` and `name_selector.dfy`).
- **Tree iterator** (`GeneralUtils/TreeWrap.hh`, `tree_wrap.dfy`).
- **Polynomials** as maps from exponent vectors to coefficients (`Math/Polynomial.hh`, `polynomial.dfy`).

`wrappers.dfy` holds the `Option`/`Result` types. `events.dfy` holds the
output records of the decay generator.

Modelling conventions:

- Intensities and coefficients are Dafny `real`s.
- Source assertions that a caller can trigger become error results rather than preconditions. Examples: `select(1)`, a duplicate level name, a duplicate choice name, an unknown synonym.
- A uniform variate is read from an explicit buffer with a cursor, which is the path the source takes when a variate is passed in.
- Unsigned C++ arithmetic that can wrap is written out modulo 2^32 or 2^64 where it matters.

## Model

| member | source | states |
|---|---|---|
| Selector.New | Physics/NuclEvtGen.cc:387 | a fresh selector has no categories, zero total and is valid |
| Selector.AddProb | Physics/NuclEvtGen.cc:379 | adding a weight appends exactly one category of that width, raises the total by it and keeps every earlier width; a non-negative weight keeps the selector valid |
| Selector.FromWeights | Physics/NuclEvtGen.cc:388-391 | a selector built from a weight list has one category per weight, category i has width ws[i], the total is the weights' sum, and non-negative weights give a valid selector |
| Selector.UpperBound | Physics/NuclEvtGen.cc:16 | `upper_bound`: the returned position has every earlier boundary at most y and the boundary at it (if any) above y |
| Selector.UpperBoundSearch | Physics/NuclEvtGen.cc:16 | binary search over sorted boundaries returns the same position as the linear characterisation of `upper_bound` |
| Selector.UpperBoundUnique | Physics/NuclEvtGen.cc:16 | any position with all earlier boundaries at most y and the next above y is the upper bound |
| Selector.ResidualBounds | Physics/NuclEvtGen.cc:19 | the residual of a value inside [a, b) lies in [0, 1) and scaled back by the width gives the offset from a |
| Selector.SelectAt | Physics/NuclEvtGen.cc:16-19 | selection on raw boundaries: a chosen category is below the count, its interval contains the scaled variate and the residual is in [0, 1) |
| Selector.Select | Physics/NuclEvtGen.cc:12-21 | a variate outside [0, 1] fails the assertion; a successful selection picks category i with cumprob[i] <= x*total < cumprob[i+1], i below the count, residual in [0, 1) |
| Selector.SelectResidual | Physics/NuclEvtGen.cc:19 | the rewritten variate times the chosen width equals x*total minus the chosen lower boundary |
| Selector.SelectUnique | Physics/NuclEvtGen.cc:16-18 | on a valid selector the chosen category is the only one whose interval contains x*total |
| Selector.SelectDefined | Physics/NuclEvtGen.cc:15-18 | on a valid selector with positive total every x in [0, 1) is selected without failing an assertion |
| Selector.SelectAtOneFails | Physics/NuclEvtGen.cc:17-18 | x = 1 lands past the last category, so the assertion at line 18 fails |
| Selector.SelectLast | Physics/NuclEvtGen.cc:16-17 | the last category is chosen exactly when x*total reaches its lower boundary |
| Selector.GetProb | Physics/NuclEvtGen.cc:27-30 | `getProb(n)` times the total is category n's width, and in a valid selector it lies in [0, 1] |
| Selector.SumProbPrefix | Physics/NuclEvtGen.cc:27-30 | the probabilities of the first k categories, times the total, span cumprob[0] to cumprob[k] |
| Selector.ProbabilitiesSumToOne | Physics/NuclEvtGen.cc:27-30 | `getProb` over all categories sums to 1 |
| Selector.Scale | Physics/NuclEvtGen.cc:23-25 | `scale(k)` keeps the number of boundaries and multiplies each by k |
| Selector.ScaleAllIndex | Physics/NuclEvtGen.cc:23-25 | scaling multiplies every boundary by the factor |
| Selector.ScaleTotal | Physics/NuclEvtGen.cc:23-25 | scaling multiplies the total by the factor |
| Selector.ScalePreservesProb | Physics/NuclEvtGen.cc:23-30 | a nonzero scale factor leaves every `getProb` unchanged |
| Selector.UpperBoundScale | Physics/NuclEvtGen.cc:12-25 | scaling boundaries and probe by the same positive factor leaves `upper_bound` unchanged |
| Selector.SelectAtScale | Physics/NuclEvtGen.cc:12-25 | raw selection is invariant under a common positive scaling, residual included |
| Selector.ScalePreservesSelect | Physics/NuclEvtGen.cc:12-25 | `select` on a selector scaled by a positive factor returns the same category and residual |
| Selector.ScaleKeepsValid | Physics/NuclEvtGen.cc:23-25 | a non-negative scale factor keeps the boundaries sorted and starting at 0 |
| Conversion.UsedShells | Physics/NuclEvtGen.cc:127-130 | the loaded shells are the longest prefix of present `CE_` records; loading stops at the first missing one |
| Conversion.SubshellWeights | Physics/NuclEvtGen.cc:134-136 | a record with no `@` part stands for one subshell of weight 1, otherwise the listed weights |
| Conversion.Percent | Physics/NuclEvtGen.cc:125 | the gamma intensity is the given percentage divided by 100 |
| Conversion.New | Physics/NuclEvtGen.cc:123-145 | construction gives a well-formed transition with Egamma = E(from) - E(to), Igamma from the percentage and one subshell selector per loaded shell |
| Conversion.NewShells | Physics/NuclEvtGen.cc:131-144 | the shell selector is the CE coefficients plus a gamma category of weight 1, scaled by Igamma, and Itotal is its total |
| Conversion.SubshellSelectors | Physics/NuclEvtGen.cc:137-139 | subshell selector i is built from shell i's subshell weights |
| Conversion.ShellSelectorTotal | Physics/NuclEvtGen.cc:142-144 | the shell selector's total is Igamma times (1 + sum of CE coefficients) |
| Conversion.TotalIntensity | Physics/NuclEvtGen.cc:123-145 | a constructed transition has Itotal = Igamma * (1 + sum of CE coefficients) |
| Conversion.ShellShares | Physics/NuclEvtGen.cc:142-143 | the probability of shell i is its coefficient, and of the gamma category 1, over 1 + the coefficient sum, whatever Igamma is |
| Conversion.NewValid | Physics/NuclEvtGen.cc:131-143 | non-negative coefficients and intensity give a valid shell selector |
| Conversion.Run | Physics/NuclEvtGen.cc:147-163 | `run` touches only the current variate slot, leaves a residual in [0, 1) there, never emits a positron, and a gamma carries Egamma |
| Conversion.RunGammaIff | Physics/NuclEvtGen.cc:147-160 | a gamma is emitted iff the final category is chosen; otherwise the electron carries Egamma minus the binding of the selected shell and of the subshell selected with the residual the shell selection left, and the slot keeps the last residual |
| Conversion.RunDefined | Physics/NuclEvtGen.cc:147-163 | with valid, positive selectors and a variate in [0, 1), `run` never fails an assertion |
| LevelScheme.Unsigned | Physics/NuclEvtGen.cc:367 | conversion of a signed Z to `unsigned int` agrees with Z in range and otherwise wraps modulo 2^32 |
| LevelScheme.NewLevel | Physics/NuclEvtGen.cc:68-72 | a new level starts with zero flux in and out, and a negative half-life is replaced by DBL_MAX |
| LevelScheme.ParseLevel | Physics/NuclEvtGen.cc:61-67 | a level record is accepted exactly when its name (default "0.0.0") splits at '.' into three parts; the level then carries that name, the mass and charge numbers `atoi` reads from the first two parts, and the record's energy and half-life; otherwise the error names the bad name |
| LevelScheme.ParseLevelName | Physics/NuclEvtGen.cc:61-67 | a name written as A.Z.n parses back to mass number A and charge number Z |
| LevelScheme.ParseLevelDefault | Physics/NuclEvtGen.cc:62 | a record without a name becomes level "0.0.0" with A = Z = 0 |
| LevelScheme.ParseLevelRejects | Physics/NuclEvtGen.cc:63-64 | a two-part name such as "12.5" is rejected |
| LevelScheme.InsertByEnergy | Physics/NuclEvtGen.cc:268-282 | inserting a level into the sorted list keeps the same multiset of levels plus the new one |
| LevelScheme.InsertSorted | Physics/NuclEvtGen.cc:268-282 | insertion into an energy-sorted list keeps it sorted |
| LevelScheme.SortLevels | Physics/NuclEvtGen.cc:282 | sorting is a permutation of the loaded levels |
| LevelScheme.SortLevelsSorted | Physics/NuclEvtGen.cc:268-282 | after sorting, levels are in ascending energy order |
| LevelScheme.Number | Physics/NuclEvtGen.cc:283-288 | each level's `n` becomes its position and nothing else changes |
| LevelScheme.BuildIndex | Physics/NuclEvtGen.cc:284-288 | the name index maps every level's name to its position and only names of levels, or fails with a duplicate-name error |
| LevelScheme.BuildIndexOkIff | Physics/NuclEvtGen.cc:285 | the index is built exactly when all level names are distinct; a duplicate fails the assertion |
| LevelScheme.LevIndex | Physics/NuclEvtGen.cc:433-441 | a known name gives the position of the level with that name; an unknown name gives `UnknownLevel(name)` |
| LevelScheme.Incident | Physics/NuclEvtGen.cc:377-378 | the listed positions are transitions that leave (or enter) the level |
| LevelScheme.IncidentAppend | Physics/NuclEvtGen.cc:377-378 | adding a transition appends its position to exactly the lists of its origin (outgoing) and destination (incoming) |
| LevelScheme.NewAtom | Physics/NuclEvtGen.cc:81-86 | an atom with Z > 2 has Auger energy K - L1 - L2 binding energies, otherwise 0 |
| LevelScheme.GetAtom | Physics/NuclEvtGen.cc:367-373 | `getAtom(Z)` returns the stored atom if present, else creates and stores one; no other atom changes |
| LevelScheme.GetAtomIdempotent | Physics/NuclEvtGen.cc:367-373 | asking again for the same Z returns the same atom and changes nothing |
| LevelScheme.AddTransition | Physics/NuclEvtGen.cc:375-383 | `addTransition` appends T to the transition list, registers the destination atom and leaves levels' names, index, start selector and cutoff alone |
| LevelScheme.AddTransitionEffect | Physics/NuclEvtGen.cc:375-383 | T's position is appended to exactly transOut[from] and transIn[to], Itotal is added to exactly from.fluxOut and to.fluxIn, and exactly from's decay selector gains a category of width Itotal |
| LevelScheme.AddTransitionWellFormed | Physics/NuclEvtGen.cc:375-383 | the bookkeeping invariant (flux out/in is the sum of outgoing/incoming intensities, selectors match outgoing lists) is preserved |
| LevelScheme.AddTransitionConsistent | Physics/NuclEvtGen.cc:375-383 | sortedness, numbering and the index survive `addTransition` together with the bookkeeping invariant |
| LevelScheme.SideStep | Physics/NuclEvtGen.cc:377-381 | appending to one side's list adds the intensity to that side's flux sum and one category to its selector |
| LevelScheme.StartWeights | Physics/NuclEvtGen.cc:393-397 | there is one start weight per level |
| LevelScheme.SetCutoff | Physics/NuclEvtGen.cc:385-399 | `setCutoff(t)` records t and the start selector gets one category per level |
| LevelScheme.SetCutoffConsistent | Physics/NuclEvtGen.cc:388-391 | rebuilding every level's decay selector from its outgoing transitions reproduces the selectors `addTransition` maintained, so the system stays consistent |
| LevelScheme.StartShares | Physics/NuclEvtGen.cc:393-397 | the start weight of the highest level is 1, of another level with half-life above the cutoff and an outgoing transition its incoming flux, and otherwise 0 |
| DecaySystem.NewLevels | Physics/NuclEvtGen.cc:275-281 | one fresh level per `level` record, in record order |
| DecaySystem.SortedLevelsFacts | Physics/NuclEvtGen.cc:275-288 | the loaded levels end up sorted by energy, numbered by position, with zero fluxes |
| DecaySystem.EmptyConsistent | Physics/NuclEvtGen.cc:275-288 | sorted, numbered and indexed levels with no transitions satisfy the system invariant |
| DecaySystem.LookupPair | Physics/NuclEvtGen.cc:293 | looking up a record's `from` and `to` succeeds iff both names are levels, yielding those levels' positions, and otherwise raises `UnknownLevel` |
| DecaySystem.GammaBetween | Physics/NuclEvtGen.cc:123-145 | the conversion gamma built between two existing levels connects exactly those levels |
| DecaySystem.GammaTransition | Physics/NuclEvtGen.cc:291-294 | a `gamma` record yields a transition between the named levels iff both names are known, else `UnknownLevel` |
| DecaySystem.GammaTransitionFor | Physics/NuclEvtGen.cc:291-294 | that transition carries the conversion gamma built from the levels' energies and the record, with Itotal its total intensity |
| DecaySystem.AddGammas | Physics/NuclEvtGen.cc:291-294 | adding the gamma records appends one transition per record, keeps earlier ones and the levels, and keeps the system consistent |
| DecaySystem.AddGammasOk | Physics/NuclEvtGen.cc:291-294 | the gamma stage succeeds iff every record names two known levels |
| DecaySystem.AddGammasContents | Physics/NuclEvtGen.cc:291-294 | the k-th appended transition is the one gamma record k describes |
| DecaySystem.AddAugers | Physics/NuclEvtGen.cc:309-318 | the `AugerK` stage only adds atoms, keeps existing ones, and fails only with `BadAugerZ` |
| DecaySystem.AddAugersOk | Physics/NuclEvtGen.cc:310-317 | the stage succeeds iff no record has Z = 0, and then every record's atom exists |
| DecaySystem.BetaTransition | Physics/NuclEvtGen.cc:321-332 | a `beta` record yields a transition between the named levels with intensity I/100 and its positron flag iff both names are known |
| DecaySystem.AddBetas | Physics/NuclEvtGen.cc:321-333 | adding the beta records appends one transition per record and keeps the system consistent |
| DecaySystem.AddBetasOk | Physics/NuclEvtGen.cc:321-333 | the beta stage succeeds iff every record names two known levels |
| DecaySystem.AddBetasContents | Physics/NuclEvtGen.cc:321-333 | the k-th appended transition is the one beta record k describes |
| DecaySystem.CaptureStep | Physics/NuclEvtGen.cc:342-348 | one pass of the AUTO loop adds a capture to level k with Itotal = fluxOut - fluxIn exactly when k qualifies and is short of flux, else nothing |
| DecaySystem.CaptureStepFlux | Physics/NuclEvtGen.cc:342-348 | such a step leaves every other level's outgoing flux alone and brings the destination's incoming flux up to its outgoing flux |
| DecaySystem.AutoCaptures | Physics/NuclEvtGen.cc:340-349 | the AUTO loop keeps the invariant and the levels and only appends transitions |
| DecaySystem.CaptureStepAdded | Physics/NuclEvtGen.cc:342-348 | a transition the step adds is a capture from the origin to a qualifying level with positive intensity |
| DecaySystem.AutoCapturesContents | Physics/NuclEvtGen.cc:340-349 | every transition the AUTO loop adds starts at the origin, qualifies (same A, Z one lower, lower energy) and has positive intensity |
| DecaySystem.AutoCapturesFluxOut | Physics/NuclEvtGen.cc:340-349 | the AUTO loop changes no outgoing flux except the origin's |
| DecaySystem.AutoCapturesFills | Physics/NuclEvtGen.cc:343-347 | every level still ahead of the loop that is short of flux ends with fluxIn equal to its fluxOut |
| DecaySystem.AutoCapturesPassed | Physics/NuclEvtGen.cc:341-349 | levels the loop has already passed keep their incoming flux |
| DecaySystem.AutoCapturesKeepsIn | Physics/NuclEvtGen.cc:343-344 | a level that is not short of flux gets no capture and keeps its incoming flux |
| DecaySystem.AddCapture | Physics/NuclEvtGen.cc:337-356 | an `ecapt` record keeps the invariant and the earlier transitions, failing only with `UnknownLevel` or a capture mismatch |
| DecaySystem.AddCaptureExplicit | Physics/NuclEvtGen.cc:350-356 | an explicit destination adds exactly one capture with the record's intensity, and succeeds iff capture can connect the two levels |
| DecaySystem.AddCaptureContents | Physics/NuclEvtGen.cc:337-356 | every transition an `ecapt` record adds is a capture between qualifying levels |
| DecaySystem.AddCaptures | Physics/NuclEvtGen.cc:336-357 | all capture records together keep the invariant and only append transitions |
| DecaySystem.AddCapturesContents | Physics/NuclEvtGen.cc:336-357 | every transition the capture stage adds is a capture between qualifying levels |
| DecaySystem.Levelled | Physics/NuclEvtGen.cc:274-288 | the level stage yields a consistent system of the sorted levels with no transitions, or fails on a duplicate name |
| DecaySystem.Build | Physics/NuclEvtGen.cc:270-360 | the constructor gives a consistent system with one level and one start category per record, with cutoff t, and fails with a duplicate-name error exactly when the level stage does |
| DecaySystem.BuildLevels | Physics/NuclEvtGen.cc:274-357 | after all stages each level is the sorted, numbered level except for its fluxes |
| DecaySystem.SortedLevelFrom | Physics/NuclEvtGen.cc:278-282 | every sorted level has the name, mass and charge numbers of one of the level records |
| DecaySystem.ParseLevels | Physics/NuclEvtGen.cc:277-279 | the level records parse exactly when each does, giving one level per record in order; on failure the error is that of the first record that fails |
| DecaySystem.Construct | Physics/NuclEvtGen.cc:270-288 | construction from raw records fails with a bad-name error whenever some level name does not have three parts; a built system has one level per record, each carrying the mass and charge numbers its own name spells |
| DecaySystem.BuiltNamedAsParsed | Physics/NuclEvtGen.cc:278-288 | if every record's numbers agree with its name, so do those of every built level |
| DecaySystem.BuildDuplicate | Physics/NuclEvtGen.cc:285 | construction fails with a duplicate-name error iff two levels share a name |
| DecaySystem.BuildExtends | Physics/NuclEvtGen.cc:270-360 | the built system extends every stage: gammas first, then betas, then captures, in record order |
| DecaySystem.BuildGamma | Physics/NuclEvtGen.cc:291-294 | transition k of the built system is gamma record k |
| DecaySystem.BuildBeta | Physics/NuclEvtGen.cc:321-333 | the transition after all gammas at offset k is beta record k |
| DecaySystem.BuildCapture | Physics/NuclEvtGen.cc:336-357 | every transition after gammas and betas is an electron capture between qualifying levels |
| DecayChain.Outgoing | Physics/NuclEvtGen.cc:449 | the k-th outgoing transition of level n leaves n and, in an acyclic scheme, goes to a lower level |
| DecayChain.DecayCount | Physics/NuclEvtGen.cc:379-449 | level n's decay selector has one category per outgoing transition, so a selected category always names a transition |
| DecayChain.RunTransition | Physics/NuclEvtGen.cc:147-163 | `T->run` emits one event for a gamma or beta and none for an electron capture, touches only the current variate, and a beta carries the positron or electron its flag names |
| DecayChain.Walk | Physics/NuclEvtGen.cc:443-457 | the cascade keeps the buffer's length and every variate before the cursor, only moves the cursor forward, and emits at most one primary (transition) event per level below its start; the K-shell Auger electrons are not among the modelled events |
| DecayChain.WalkStops | Physics/NuclEvtGen.cc:447 | at a level with zero flux out, or a non-initial level with half-life above the cutoff, nothing is emitted and nothing consumed |
| DecayChain.WalkGround | Physics/NuclEvtGen.cc:447-449 | a cascade at the ground level emits nothing |
| DecayChain.GenDecayChain | Physics/NuclEvtGen.cc:443-457 | a cascade, drawn or given its start, emits fewer primary (transition) events than there are levels and never rewrites variates before the cursor; Auger electrons are not counted |
| DecayChain.StartDrawn | Physics/NuclEvtGen.cc:444-446 | a drawn starting level is a level whose start weight is not zero |
| DecayChain.NDFOutsMax | Physics/NuclEvtGen.cc:469-473 | the running maximum over the first k outgoing transitions bounds each of them and is attained by one, or is 0 for none |
| DecayChain.NDFMax | Physics/NuclEvtGen.cc:459-476 | `getNDF(n)` is 0 for a terminal level and otherwise the maximum over outgoing T of T's own count plus `getNDF(T.to)`, attained by some T |
| DecayChain.NDFStartsMax | Physics/NuclEvtGen.cc:461-467 | the running maximum over possible starting levels bounds each and is attained by one when positive |
| DecayChain.NDFAllMax | Physics/NuclEvtGen.cc:459-467 | `getNDF()` is the maximum of `getNDF(i)` over levels with nonzero start probability |
| DecayChain.WalkConsumes | Physics/NuclEvtGen.cc:443-457 | a cascade from level n advances the cursor by at most `getNDF(n)` |
| DecayChain.GenDecayChainConsumes | Physics/NuclEvtGen.cc:443-476 | a full cascade advances the cursor by at most `getNDF()`, the count the generator reserves |
| DecayChain.WalkNoVariates | Physics/NuclEvtGen.cc:451-476 | a cascade from a level with no degrees of freedom leaves the cursor where it was |
| PermutationGroup.Below | Math/PermutationGroup.hh:95-102 | the set of valid entries 0..N-1 has exactly N members |
| PermutationGroup.ValuesCard | Math/PermutationGroup.hh:96-101 | N distinct entries fill a set of size N, the final size test of `validate` |
| PermutationGroup.Onto | Math/PermutationGroup.hh:95-102 | a valid permutation takes every value 0..N-1 somewhere |
| PermutationGroup.Position | Math/PermutationGroup.hh:36-41 | each value has a position at which the permutation holds it |
| PermutationGroup.Identity | Math/PermutationGroup.hh:87-92 | the default permutation is [0, ..., N-1] and is valid |
| PermutationGroup.Validate | Math/PermutationGroup.hh:95-102 | `validate` holds iff every entry is in 0..N-1 and no entry repeats |
| PermutationGroup.ApplyPermutation | Math/PermutationGroup.hh:45-50 | permuting the first entries of a permutation by a shorter or equal one gives a permutation |
| PermutationGroup.Mul | Math/PermutationGroup.hh:52 | the product of two permutations is a permutation |
| PermutationGroup.InverseFrom | Math/PermutationGroup.hh:36-41 | after the first k passes of the loop, e[p[j]] = j for j < k and untouched entries keep their identity value |
| PermutationGroup.Inverse | Math/PermutationGroup.hh:36-41 | `inverse` is a permutation with e[p[j]] = j and p[e[x]] = x |
| PermutationGroup.Div | Math/PermutationGroup.hh:54-56 | `p / q` is a permutation |
| PermutationGroup.ApplyIdentity | Math/PermutationGroup.hh:45-50 | permuting by the identity leaves an array unchanged |
| PermutationGroup.ApplyMul | Math/PermutationGroup.hh:45-52 | permuting by p*q is permuting by q and then by p |
| PermutationGroup.ApplyInverse | Math/PermutationGroup.hh:36-50 | permuting by p and by p's inverse undo each other, in either order |
| PermutationGroup.MulInverse | Math/PermutationGroup.hh:36-52 | p.inverse()*p and p*p.inverse() are the identity |
| PermutationGroup.DivMul | Math/PermutationGroup.hh:52-56 | (p / q) * q = p |
| PermutationGroup.Factorial | Math/PermutationGroup.hh:9 | `factorial` is at least 1 |
| PermutationGroup.FactorialStep | Math/PermutationGroup.hh:9 | N! = N * (N-1)! for N >= 1 |
| PermutationGroup.OrderStep | Math/PermutationGroup.hh:128 | the symmetric group's order grows by the factor N+1 from N to N+1 elements |
| PermutationGroup.Swap | Math/PermutationGroup.hh:26 | `swap(i, j)` exchanges exactly entries i and j |
| PermutationGroup.Shifter | Math/PermutationGroup.hh:76-81 | the identity with entries j-1 and N-1 swapped (j > 0), or the identity, is a permutation |
| PermutationGroup.Element | Math/PermutationGroup.hh:74-83 | `element(i)` exists iff i < N! (the assertion) and is then a permutation of N elements |
| PermutationGroup.ElementStep | Math/PermutationGroup.hh:77-82 | for N >= 2 every `element(i)` is `element(i mod (N-1)!)` of N-1 elements applied to the swap chosen by i / (N-1)! |
| PermutationGroup.Reduce | Math/PermutationGroup.hh:62-68 | the sub-permutation `idx` builds, with N-1 moved into the last entry's slot, is a permutation of N-1 elements |
| PermutationGroup.LastMarkOf | Math/PermutationGroup.hh:64-69 | the digit `idx` takes is 0 when N-1 is already last and otherwise the last entry plus one |
| PermutationGroup.ReduceShift | Math/PermutationGroup.hh:59-83 | a permutation is its reduced sub-permutation applied to the swap of its digit, the step `element` undoes |
| PermutationGroup.ApplyShift | Math/PermutationGroup.hh:59-83 | reducing the permutation `element` builds from q and digit j gives back q and j |
| PermutationGroup.IdxIdentity | Math/PermutationGroup.hh:59-70 | the identity has index 0 |
| PermutationGroup.IdxStep | Math/PermutationGroup.hh:69 | `idx` is the sub-permutation's index plus the digit times (N-1)! |
| PermutationGroup.IdxElement | Math/PermutationGroup.hh:59-83 | `idx(element(i)) = i` for every i < N! |
| PermutationGroup.ElementIdx | Math/PermutationGroup.hh:59-83 | every permutation has an index below N! and `element(idx(p)) = p`, so the enumeration covers all N! permutations |
| SignedPermutationGroup.SIdentity | Math/PermutationGroup.hh:200-205 | the default signed permutation is [1, ..., N] and is valid |
| SignedPermutationGroup.SValidate | Math/PermutationGroup.hh:208-215 | `validate` holds iff the absolute values are in 1..N and none repeats |
| SignedPermutationGroup.ToPermutation | Math/PermutationGroup.hh:163-167 | the permutation component maps each entry c to abs(c)-1 and is a valid permutation |
| SignedPermutationGroup.SInverse | Math/PermutationGroup.hh:170-178 | `inverse` is valid and its permutation component is the inverse of the component |
| SignedPermutationGroup.SInverseOf | Math/PermutationGroup.hh:170-178 | the inverse holds ±(j+1) at abs(p[j])-1, with p[j]'s sign |
| SignedPermutationGroup.SApplySigned | Math/PermutationGroup.hh:182-190 | the signed product of two valid signed permutations is valid, with the product of their components as its component |
| SignedPermutationGroup.SMul | Math/PermutationGroup.hh:190 | `p * q` is a valid signed permutation over the product of the components |
| SignedPermutationGroup.SDiv | Math/PermutationGroup.hh:192-194 | `p / q` is a valid signed permutation |
| SignedPermutationGroup.Negate | Math/PermutationGroup.hh:196 | unary minus flips the sign of every entry and keeps its magnitude |
| SignedPermutationGroup.NegateProperties | Math/PermutationGroup.hh:196 | unary minus keeps validity and the component, and applied twice gives back the original |
| SignedPermutationGroup.SIdentityProperties | Math/PermutationGroup.hh:182-205 | applying the identity leaves an array unchanged and its component is the plain identity |
| SignedPermutationGroup.ApplyToIdentity | Math/PermutationGroup.hh:182-205 | applying a signed permutation to [1..N] gives back its own entries |
| SignedPermutationGroup.SApplyInverse | Math/PermutationGroup.hh:170-187 | applying p and p's inverse undo each other on integer arrays, in either order |
| SignedPermutationGroup.SMulInverse | Math/PermutationGroup.hh:170-190 | p.inverse()*p and p*p.inverse() are the identity |
| SignedPermutationGroup.SDivMul | Math/PermutationGroup.hh:190-194 | (p / q) * q = p |
| SignedPermutationGroup.ApplySMul | Math/PermutationGroup.hh:182-190 | signed multiplication is associative |
| Box.NullBox | Utility/BBox.hh:71-76 | the null box has every lower bound at the type's maximum and every upper bound at its negation |
| Box.Expand | Utility/BBox.hh:22-27 | after `expand(x)` the box contains x on every axis, contains the old box, and each bound either stays or moves to x's coordinate |
| Box.ExpandContained | Utility/BBox.hh:22-27 | expanding by a point already inside changes nothing |
| Box.ExpandLeast | Utility/BBox.hh:22-27 | the expanded box lies within any box containing both the old box and the point |
| Box.ExpandCommutes | Utility/BBox.hh:22-27 | the order in which two points are added does not matter |
| Box.ExpandNull | Utility/BBox.hh:22-27 | expanding the null box by one point gives the degenerate box lo = hi = x |
| Box.Offset | Utility/BBox.hh:33-38 | `offset` preserves every width `dl(i)` |
| Box.OffsetBack | Utility/BBox.hh:33-38 | offsetting by x and then by -x gives back the box |
| Box.OffsetContains | Utility/BBox.hh:33-38 | the shifted box contains y + x iff the original box contains y |
| Box.Union | Utility/BBox.hh:44-47 | `+= B` contains the original box and both corners of B |
| Box.UnionLeast | Utility/BBox.hh:44-47 | the result contains all of B, and lies within any box containing both boxes when B is proper |
| Box.Grow | Utility/BBox.hh:50-53 | `expand(margin)` widens every axis by twice the margin |
| Box.GrowBack | Utility/BBox.hh:50-53 | growing by m and then by -m gives back the box; a non-negative margin only enlarges it |
| Box.Inside | Utility/BBox.hh:56-60 | `inside` holds iff lo[i] <= x[i] < hi[i] on every axis |
| Box.InCorners | Utility/BBox.hh:56-60 | in a box with lo < hi on every axis, lo is inside; hi is never inside |
| Box.InContained | Utility/BBox.hh:56-60 | an inside point lies in the closed box, and a point of the closed box off the upper faces is inside |
| Box.PosRange | Utility/BBox.hh:63-65 | pos(0, i) = lo[i], pos(1, i) = hi[i], and pos of a fraction in [0, 1] lies between them |
| DataStream.LeafNext | Framework/DataSource.hh:24 | a leaf's `next` yields its next item and advances by one, or fails and stays put when exhausted |
| DataStream.ConcatNext | Framework/DataSource.hh:58-61 | `DataSourceSeq::next` only moves `i` forward, never past `v.size()`, and succeeds iff `i < v.size()` afterwards |
| DataStream.ConcatNextRemaining | Framework/DataSource.hh:58-61 | the concatenation yields the first remaining item of the leaves from `i` on, skipping exhausted leaves, and fails only when none remains |
| DataStream.Next | Framework/DataSource.hh:24-61 | `next` keeps the stream's invariants and its kind |
| DataStream.NextRemaining | Framework/DataSource.hh:24-61 | every stream yields its remaining items in order, one per `next`, and fails exactly when none remain |
| DataStream.Skip | Framework/DataSource.hh:26 | `skip` keeps the stream's invariants |
| DataStream.SkipRemaining | Framework/DataSource.hh:26 | `skip(n)` succeeds iff at least n items remain and then drops exactly n of them; otherwise it drains the stream |
| DataStream.LeafReset | Framework/DataSource.hh:30 | a rewound leaf yields all its items again |
| DataStream.ResetBelow | Framework/DataSource.hh:64 | the leaves below k are rewound and the others untouched |
| DataStream.ResetAsWritten | Framework/DataSource.hh:64 | `DataSourceSeq::reset` as written keeps the invariants |
| DataStream.Reset | Framework/DataSource.hh:64 | the corrected reset keeps the invariants |
| DataStream.ResetRestarts | Framework/DataSource.hh:64 | after the corrected reset the stream yields every item from the start |
| DataStream.ResetAsWrittenKeepsPosition | Framework/DataSource.hh:64 | reset as written leaves a partly read first leaf where it was, so the stream does not restart |
| DataStream.ResetAsWrittenExhausted | Framework/DataSource.hh:28-64 | on an exhausted concatenation, the only state `next_loop` resets from, the two resets agree |
| DataStream.NextLoop | Framework/DataSource.hh:28 | `next_loop` keeps the invariants |
| DataStream.NextLoopYields | Framework/DataSource.hh:28 | `next_loop` yields an item iff the stream holds any item from its start |
| DataStream.NextLoopAsWritten | Framework/DataSource.hh:28-64 | after a failed `next`, reset as written is the corrected reset, so `next_loop` is unaffected by the finding |
| DataStream.EntriesOptLoop | Framework/DataSource.hh:32 | with looping on, `entries_optloop` is `max_entries` |
| DataStream.NextOptLoop | Framework/DataSource.hh:39 | `next_optloop` keeps the invariants |
| DataStream.OptLoopProperties | Framework/DataSource.hh:32-39 | without looping `entries_optloop` is the plain `entries()` estimate, exact when every leaf still to be read reports exactly, and `next_optloop` is `next`; with looping a non-empty stream always yields |
| DataStream.ConcatEntriesSum | Framework/DataSource.hh:67-75 | the entry sum is `max_entries` iff some leaf from `i` on reports it, and otherwise the running sum plus the reference sum `Reported` of the leaves' own estimates |
| DataStream.ConcatEntriesExact | Framework/DataSource.hh:67-75 | when every leaf from `i` on reports exactly, a finite entry sum is the count of their remaining items |
| DataStream.EntriesExact | Framework/DataSource.hh:33-75 | `entries()` of a concatenation is `max_entries` iff a leaf reports it and otherwise the sum of the leaves' estimates; a finite value is the exact remaining count when every leaf still to be read reports exactly |
| DataStream.EntriesMayUndercount | Framework/DataSource.hh:33-34 | the estimate is not the remaining count in general: a leaf with two items reporting the base class's 0 gives `entries()` 0 |
| TableReader.EntriesExact | HDF5/HDF5_Table_Cache.hh:25 | `entries()` is the load limit (nLoad when 0 <= nLoad < nRows, else nRows) minus `nread`, which is the number of rows still to come minus those already cached |
| TableReader.SetFile | HDF5/HDF5_Table_Cache.hh:147-161 | `setFile` clears the cache and `nread`, and the reader will deliver the table's first rows up to the load limit, or nothing without a table |
| TableReader.Reset | HDF5/HDF5_Table_Cache.hh:23 | `reset` re-opens the same file, so the reader delivers its whole readable table again |
| TableReader.Next | HDF5/HDF5_Table_Cache.hh:164-188 | `next` keeps the invariants and never changes the table, the load limit or the chunk size |
| TableReader.NextRemaining | HDF5/HDF5_Table_Cache.hh:164-188 | `next` returns the table rows in order; once they are used up it returns false and rewinds to the first row |
| TableReader.NextCounts | HDF5/HDF5_Table_Cache.hh:168-183 | a delivered row leaves `nread` positive; a failure leaves `nread` at 0 |
| TableReader.NextFromCache | HDF5/HDF5_Table_Cache.hh:186-187 | with rows left in the cache, `next` delivers the next cached row |
| TableReader.NextAtEnd | HDF5/HDF5_Table_Cache.hh:167-173 | with the cache used up and `nread` at nRows or nLoad, `next` fails and the reader restarts from row 0 |
| TableReader.NextReadsChunk | HDF5/HDF5_Table_Cache.hh:175-187 | otherwise `next` reads a chunk of min(nchunk, entries) rows and delivers its first, failing only with a zero chunk size |
| TableReader.Skip | HDF5/HDF5_Table_Cache.hh:191-212 | the corrected `skip` keeps the invariants and the table, load limit and chunk size |
| TableReader.SkipValid | HDF5/HDF5_Table_Cache.hh:191-212 | clamping at the load limit keeps `nread` within it and the cache consistent |
| TableReader.SkipRemaining | HDF5/HDF5_Table_Cache.hh:191-212 | `skip(n)` succeeds iff n rows remain and then drops exactly n; skipping past the end fails and leaves nothing to read; `skip(0)` is true |
| TableReader.SkipInCache | HDF5/HDF5_Table_Cache.hh:195-198 | a skip within the cache only advances the cache cursor, in the corrected and the written version alike |
| TableReader.SkipAsWrittenPassesLimit | HDF5/HDF5_Table_Cache.hh:206-211 | as written, `skip` clamps at nRows, so with nLoad = 3 of 10 rows `skip(5)` succeeds, sets `nread` = 5 and makes `entries()` wrap to 2^64 - 2 |
| TableReader.LoadAll | HDF5/HDF5_Table_Cache.hh:243-246 | `loadAll` collects every remaining row, in order, keyed by its identifier |
| TableEvents.SetFile | HDF5/HDF5_Table_Cache.hh:147-161 | `setFile` also resets the grouping state to "before the first group" (`id_current_evt = -1`) |
| TableEvents.Gather | HDF5/HDF5_Table_Cache.hh:224-238 | the read loop of `loadEvent` keeps the reader's and the grouping's invariants |
| TableEvents.RunLenStops | HDF5/HDF5_Table_Cache.hh:231-235 | a run of one identifier ends at the first row with another identifier |
| TableEvents.GatherStep | HDF5/HDF5_Table_Cache.hh:224-238 | one pass of the loop: at the end of data mark -2 and rewind; a row with another identifier is held over and ends the group; a row with the same identifier joins it |
| TableEvents.GatherRun | HDF5/HDF5_Table_Cache.hh:224-238 | the loop gathers the maximal run of the current identifier from the remaining rows |
| TableEvents.GatherLeaves | HDF5/HDF5_Table_Cache.hh:224-238 | after the loop the held-over row opens what is left, or the end is marked and the reader rewound |
| TableEvents.LoadEventAsWritten | HDF5/HDF5_Table_Cache.hh:215-240 | `loadEvent` as written keeps the invariants |
| TableEvents.LoadEvent | HDF5/HDF5_Table_Cache.hh:38-39 | the corrected `loadEvent` keeps the invariants |
| TableEvents.LoadHeld | HDF5/HDF5_Table_Cache.hh:222-238 | with a row held over, the call loads exactly that row's group |
| TableEvents.LoadFresh | HDF5/HDF5_Table_Cache.hh:222-238 | on the first call the group of the first row is loaded, or nothing for empty data |
| TableEvents.LoadEventGroups | HDF5/HDF5_Table_Cache.hh:215-240 | after the end marker a call answers -2 with no rows and resets the marker; otherwise it loads the maximal run of the pending rows' first identifier, holding over the row after it or marking the end |
| TableEvents.GatherEndMarked | HDF5/HDF5_Table_Cache.hh:225-228 | the loop reports the end of data exactly when it leaves the -2 marker |
| TableEvents.LoadEventAsWrittenAnswers | HDF5/HDF5_Table_Cache.hh:215-240 | as written, `loadEvent` loads the same rows and state but mid-stream answers the held-over row's identifier instead of the loaded group's |
| TableEvents.LoadEventAsWrittenMisreports | HDF5/HDF5_Table_Cache.hh:231-239 | on rows with identifiers 1 then 2, the first call loads the row of event 1 but answers 2 |
| TableWriter.Signal | HDF5/HDF5_Table_Cache.hh:133-141 | `signal` never changes the write count or the chunk size, and any signal at or above the flush level empties the cache |
| TableWriter.SignalKeeps | HDF5/HDF5_Table_Cache.hh:133-141 | a signal below the flush level is a no-op; with a file, a flush moves the cache into the table and loses nothing; without a file the cache is dropped |
| TableWriter.SignalIdempotent | HDF5/HDF5_Table_Cache.hh:133-141 | a second identical signal changes nothing more |
| TableWriter.Push | HDF5/HDF5_Table_Cache.hh:120-124 | `push(val)` adds 1 to `nwrite` modulo 2^64 and leaves the cache empty or shorter than a chunk |
| TableWriter.PushAll | HDF5/HDF5_Table_Cache.hh:113-117 | `push(vals)` adds the number of rows to `nwrite` modulo 2^64 and leaves the cache empty or shorter than a chunk |
| TableWriter.PushAllDelivers | HDF5/HDF5_Table_Cache.hh:113-117 | with a file the pushed rows follow everything delivered before; without one they sit in the cache or are dropped by the flush |
| TableWriter.PushIsPushAll | HDF5/HDF5_Table_Cache.hh:113-124 | pushing one row is pushing a one-row vector |
| TableWriter.PushEach | HDF5/HDF5_Table_Cache.hh:120-124 | pushing rows one at a time keeps the chunk size and file |
| TableWriter.PushEachDelivers | HDF5/HDF5_Table_Cache.hh:120-124 | with a file, rows pushed one at a time are delivered in order after the earlier ones |
| TableWriter.PushEachCounts | HDF5/HDF5_Table_Cache.hh:120-124 | pushing k rows one at a time adds k to `nwrite` modulo 2^64 |
| TableWriter.PushEachAppend | HDF5/HDF5_Table_Cache.hh:120-124 | pushing a + b one at a time is pushing a and then b |
| TableWriter.SetFile | HDF5/HDF5_Table_Cache.hh:127-130 | `setFile` flushes to the old file, then switches files with an empty cache and the same count |
| TableWriter.SetFileCloses | HDF5/HDF5_Table_Cache.hh:127-130 | the old file ends up holding everything delivered to it |
| TableTransfer.Picked | HDF5/HDF5_Table_Cache.hh:256-260 | the rows chosen for one request are at most the rows scanned |
| TableTransfer.Upto | HDF5/HDF5_Table_Cache.hh:256 | the scan for one request stops within the stream |
| TableTransfer.Loop | HDF5/HDF5_Table_Cache.hh:256-262 | the scan loop of `transferID` keeps the transfer's invariants |
| TableTransfer.TransferID | HDF5/HDF5_Table_Cache.hh:253-264 | `transferID` keeps the invariants and the reader's chunk size |
| TableTransfer.TransferIDTransfers | HDF5/HDF5_Table_Cache.hh:253-264 | `transferID(id)` consumes the rows up to the first identifier above id, pushes exactly those equal to id (renumbered when newID >= 0) in order, and succeeds iff such a later row exists; otherwise the input rewinds |
| TableTransfer.LoopEnd | HDF5/HDF5_Table_Cache.hh:257-261 | on the last row the loop pushes it if it matches and fails with the reader rewound |
| TableTransfer.LoopOn | HDF5/HDF5_Table_Cache.hh:257-261 | otherwise the loop pushes a matching row and continues with the next one |
| TableTransfer.TransferIDs | HDF5/HDF5_Table_Cache.hh:266-274 | `transferIDs` keeps the invariants |
| TableTransfer.UptoSorted | HDF5/HDF5_Table_Cache.hh:256 | on ascending identifiers the scan stops exactly at the first identifier above id |
| TableTransfer.PickedAppend | HDF5/HDF5_Table_Cache.hh:256-260 | picking distributes over concatenation |
| TableTransfer.CollectStep | HDF5/HDF5_Table_Cache.hh:268-271 | the rows collected for a list of requests are those of the first request, then the rest on what follows with newID advanced by one |
| TableTransfer.TransferIDsCollects | HDF5/HDF5_Table_Cache.hh:266-274 | on ascending rows and requests, `transferIDs` succeeds iff some row lies beyond the last request; then the output holds, for each request in turn, its rows renumbered to newID, newID+1, ..., and the cache is flushed |
| Stringmap.LessTrans | GeneralUtils/Stringmap.cc:43 | the lexicographic key order the multimap keeps is transitive |
| Stringmap.LessTotal | GeneralUtils/Stringmap.cc:43 | any two distinct keys are ordered one way or the other |
| Stringmap.KeyedAppend | GeneralUtils/Stringmap.cc:52-57 | the values stored under a key in two runs of entries are those of the first run followed by those of the second |
| Stringmap.Upper | GeneralUtils/Stringmap.cc:54 | `upper_bound(k)` is the first position whose key is above k |
| Stringmap.Lower | GeneralUtils/Stringmap.cc:54 | `lower_bound(k)` is the first position whose key is not below k |
| Stringmap.EqualRange | GeneralUtils/Stringmap.cc:54 | in a sorted multimap the entries with key k are exactly those between `lower_bound` and `upper_bound` |
| Stringmap.KeyedSplit | GeneralUtils/Stringmap.cc:52-57 | every value under k lies between the two bounds, in stored order |
| Stringmap.Insert | GeneralUtils/Stringmap.cc:42-44 | `insert` adds exactly one entry and never overwrites |
| Stringmap.InsertSorted | GeneralUtils/Stringmap.cc:42-44 | `insert` keeps the multimap sorted by key |
| Stringmap.InsertKeyed | GeneralUtils/Stringmap.cc:42-44 | after `insert(k, v)` the values under k are the old ones followed by v, and other keys' values are unchanged |
| Stringmap.Erase | GeneralUtils/Stringmap.cc:50 | `erase` only removes entries |
| Stringmap.EraseKeyed | GeneralUtils/Stringmap.cc:50 | `erase(k)` removes every entry for k and no others |
| Stringmap.EraseSorted | GeneralUtils/Stringmap.cc:50 | `erase` keeps the multimap sorted |
| Stringmap.RetrieveKeyed | GeneralUtils/Stringmap.cc:52-57 | `retrieve(k)` returns every value stored under k in order, empty if none |
| Stringmap.GetDefaultKeyed | GeneralUtils/Stringmap.cc:59-64 | `getDefault(k, d)` is d iff k is absent and otherwise the first value stored under k |
| Stringmap.Lines | GeneralUtils/Stringmap.cc:66-71 | `toString` writes one `key = value` piece per entry |
| Stringmap.ParseSorted | GeneralUtils/Stringmap.cc:32-40 | the string constructor yields a sorted multimap |
| Stringmap.SplitLine | GeneralUtils/Stringmap.cc:35-69 | splitting a written piece at `=` gives the key and value with their separating spaces |
| Stringmap.StripSides | GeneralUtils/Stringmap.cc:38 | stripping removes exactly the spaces `toString` added |
| Stringmap.ParseLine | GeneralUtils/Stringmap.cc:32-40 | a written piece whose key and value hold no tab, `=` or edge blanks parses back to its entry |
| Stringmap.ParseLines | GeneralUtils/Stringmap.cc:32-40 | re-inserting the written pieces of the later entries after the earlier ones rebuilds the multimap |
| Stringmap.ParseToString | GeneralUtils/Stringmap.cc:32-71 | parsing `toString`'s output gives back the same entries when keys and values hold no tab, `=` or edge whitespace |
| Stringmap.MergeIntoKeyed | GeneralUtils/Stringmap.cc:99-101 | `mergeInto(S)` keeps S sorted, removes nothing from it, and appends this map's values under every key |
| Text.WordLen | GeneralUtils/Stringmap.cc:33 | the first word of a string ends at the first separator or at the end, and holds no separator |
| Text.Split | GeneralUtils/Stringmap.cc:33 | `split` yields only non-empty words free of separators |
| Text.SplitThree | GeneralUtils/Stringmap.cc:33-35 | three clean words joined by a separator split back into exactly those three words |
| Text.SplitWord | GeneralUtils/Stringmap.cc:33-35 | a word followed by a separator (or nothing) splits off as the first piece |
| Text.SplitPrefixed | GeneralUtils/Stringmap.cc:33 | words joined by a separator character split back into exactly those words |
| Text.StripLeft | GeneralUtils/Stringmap.cc:38 | stripping the left leaves no blank at the start |
| Text.StripRight | GeneralUtils/Stringmap.cc:38 | stripping the right leaves no blank at the end and keeps the first character |
| Text.Strip | GeneralUtils/Stringmap.cc:38 | `strip` leaves no blank at either end |
| Text.StripPadded | GeneralUtils/Stringmap.cc:38 | stripping blank padding around a trimmed string gives back that string |
| Text.StripLeftPadded | GeneralUtils/Stringmap.cc:38 | left stripping removes exactly a blank prefix |
| Text.StripLeftAll | GeneralUtils/Stringmap.cc:38 | an all-blank string strips to nothing |
| Text.StripRightPadded | GeneralUtils/Stringmap.cc:38 | right stripping removes exactly a blank suffix |
| Text.Lower | Utility/ControlMenu.cc:128 | `lower` keeps the length and lowers each character independently |
| Text.NatToStr | Utility/ControlMenu.cc:285 | `to_str` of a count is a non-empty run of decimal digits |
| Text.DigitRun | Utility/ControlMenu.hh:60 | `atoi` reads a prefix made only of digits |
| Text.DigitRunAll | Utility/ControlMenu.hh:60 | `atoi` reads all of a digits-only string |
| Text.DigitsValueNatToStr | Utility/ControlMenu.cc:285 | reading the digits written by `to_str` gives back the number |
| Text.AtoiNatToStr | Utility/ControlMenu.hh:60 | `atoi(to_str(n)) == n` for every non-negative n, so a stack size pushed as text pops back as the same integer |
| ControlMenu.Unsigned | Utility/ControlMenu.cc:303 | an int read into an `unsigned int`, as drop-n does here and rot does at line 327, keeps its value when in range and always lands below 2^32 |
| ControlMenu.PopString | Utility/ControlMenu.hh:58 | `popString` returns the top of the stack and removes only it |
| ControlMenu.PopStringD | Utility/ControlMenu.hh:51 | `popStringD` returns the front of the deque and removes only it |
| ControlMenu.PopInt | Utility/ControlMenu.hh:60 | `popInt` removes the top of the stack and returns its `atoi` value |
| ControlMenu.PopIntD | Utility/ControlMenu.hh:53 | `popIntD` removes the front of the deque and returns its `atoi` value |
| ControlMenu.PopPush | Utility/ControlMenu.hh:58 | popping right after a push returns the pushed string and the earlier state |
| ControlMenu.StackSize | Utility/ControlMenu.cc:284-286 | the stack-size command pushes one item on top of an unchanged stack |
| ControlMenu.CheckStackSize | Utility/ControlMenu.cc:25-34 | the check succeeds iff the stack holds at least n items, leaves the stack as it was, and on failure queues one barf message naming the shortfall |
| ControlMenu.Drop | Utility/ControlMenu.cc:288-292 | drop removes exactly the top item, or barfs on an empty stack |
| ControlMenu.Dup | Utility/ControlMenu.cc:294-298 | dup pushes a copy of the top item, or barfs on an empty stack |
| ControlMenu.DropDup | Utility/ControlMenu.cc:288-298 | drop undoes dup on a non-empty stack |
| ControlMenu.Swap | Utility/ControlMenu.cc:315-322 | swap exchanges the two top items, or barfs with the shortfall |
| ControlMenu.SwapSwap | Utility/ControlMenu.cc:315-322 | swap is its own inverse on a stack of two or more |
| ControlMenu.ClearStack | Utility/ControlMenu.cc:310-313 | clearing empties the stack and leaves the deque alone |
| ControlMenu.DropN | Utility/ControlMenu.cc:300-308 | drop-n pops the count and then n more items, or barfs with the shortfall keeping the rest |
| ControlMenu.PopN | Utility/ControlMenu.cc:306-307 | the pop loop removes exactly the top n items |
| ControlMenu.Rotated | Utility/ControlMenu.cc:324-336 | rotating the top n items permutes the stack and leaves the items below them in place |
| ControlMenu.RotatedOne | Utility/ControlMenu.cc:324-336 | rotating one item changes nothing |
| ControlMenu.RotatedTwo | Utility/ControlMenu.cc:324-336 | rotating two items is a swap |
| ControlMenu.Rot | Utility/ControlMenu.cc:324-336 | rot pops the count and brings the n-th item to the top (nothing for n = 0), or barfs with the shortfall |
| ControlMenu.RotateTop | Utility/ControlMenu.cc:330-335 | parking n-1 items on the deque and taking them back rotates the top n items, leaving the deque as it was |
| ControlMenu.Park | Utility/ControlMenu.cc:330-331 | the first loop moves the top k items to the front of the deque in stack order |
| ControlMenu.Unpark | Utility/ControlMenu.cc:333-334 | the second loop moves the first k deque items back onto the stack in order |
| ControlMenu.Select | Utility/ControlMenu.cc:338-348 | select replaces the top three items by the first when the condition is "true" or numerically non-zero and by the second otherwise, or barfs with the shortfall |
| ControlMenu.Exec | Utility/ControlMenu.cc:350-358 | exec pops the top item and queues its words at the front of the deque in their order, or barfs on an empty stack |
| ControlMenu.PrependAll | Utility/ControlMenu.cc:354-357 | pushing the words to the front back to front leaves them in their original order ahead of the deque |
| ControlMenu.ExecWords | Utility/ControlMenu.cc:350-358 | a space-joined command line of clean words is executed as exactly those words |
| ControlMenu.Barf | Utility/ControlMenu.cc:360-362 | barf queues one control word at the front of the deque and touches nothing else |
| ControlMenu.Exit | Utility/ControlMenu.cc:364-366 | exit queues the exit control word at the front of the deque and touches nothing else |
| NameSelector.FlagsDistinct | Utility/ControlMenu.hh:111-116 | the hidden, disabled and synonym flags are distinct single bits and normal is no bit |
| NameSelector.New | Utility/ControlMenu.cc:134-137 | a new selector has no choices and a consistent name index |
| NameSelector.ChoiceName | Utility/ControlMenu.cc:140-141 | a choice's name is never empty: an empty name becomes the choice's 1-based number |
| NameSelector.AddChoice | Utility/ControlMenu.cc:139-152 | `addChoice` fails iff the name is taken, and otherwise appends one choice with the given description, flags and action, output under mname or else the name |
| NameSelector.AddChoiceIndex | Utility/ControlMenu.cc:139-152 | after `addChoice` the name index still agrees with the choice list and maps the new name to the new position |
| NameSelector.AddSynonym | Utility/ControlMenu.cc:154-160 | `addSynonym` succeeds exactly when the original is known and the synonym's name is new; it then appends a choice under the synonym's name with the original's description, output and action, and the original's flags plus `SYNONYM` and `HIDDEN` |
| NameSelector.SynonymResolves | Utility/ControlMenu.cc:154-160 | typing the synonym's name selects the new choice, which gives the original's output and action, unless the original is disabled, in which case the synonym is rejected like it |
| NameSelector.SoftmatchPrefix | Utility/ControlMenu.cc:127-129 | the default soft match holds iff a is, ignoring case, a prefix of b |
| NameSelector.HitsBelow | Utility/ControlMenu.cc:218-221 | the soft-match scan collects, in increasing order, exactly the enabled choices the argument soft-matches |
| NameSelector.HitsOne | Utility/ControlMenu.cc:224-227 | the scan finds exactly one match iff exactly one enabled choice soft-matches |
| NameSelector.OnlyHitBelow | Utility/ControlMenu.cc:218-221 | with one soft-matching choice, a partial scan finds it iff it lies in the scanned part |
| NameSelector.HitsMany | Utility/ControlMenu.cc:229-234 | the selection is ambiguous iff two different enabled choices soft-match |
| NameSelector.HitsManyPair | Utility/ControlMenu.cc:229-234 | an ambiguous scan names two distinct soft-matching choices |
| NameSelector.HitsPairMany | Utility/ControlMenu.cc:229-234 | any two soft-matching choices make the scan ambiguous |
| NameSelector.HitsNone | Utility/ControlMenu.cc:215-235 | the scan finds nothing iff no enabled choice soft-matches |
| NameSelector.ResolveChosen | Utility/ControlMenu.cc:211-250 | an argument selects choice j iff j is its enabled exact match, or there is no exact name, soft matching is on and j is the only soft match |
| NameSelector.ResolveAmbiguous | Utility/ControlMenu.cc:229-234 | an argument is reported ambiguous iff it names no choice, soft matching is on and two choices soft-match |
| NameSelector.ResolveRejects | Utility/ControlMenu.cc:237-245 | an argument falls to the catch-all or the unknown-selection error iff its exact match is disabled, or it has no exact match and soft matching is off or finds nothing |
| NameSelector.Settle | Utility/ControlMenu.cc:196-250 | a barf word goes back to the front of the deque with the stack unchanged, and a choice without an action pushes its output |
| NameSelector.BarfLeaves | Utility/ControlMenu.cc:196-201 | the word queued by the barf command makes a selector leave and pass the barf on |
| NameSelector.ExitLeaves | Utility/ControlMenu.cc:196-201 | the word queued by the exit command makes a selector leave without passing anything on |
| NameSelector.JoinSnoc | Utility/ControlMenu.cc:115-116 | joining one more word adds the separator and the word at the end |
| NameSelector.Texts | Utility/ControlMenu.cc:108-113 | each argument is described by its filter when it has no name, else by its name and any default |
| NameSelector.Describe | Utility/ControlMenu.cc:103-121 | a description is the bare name without arguments, and otherwise the name and the arguments' texts, comma-separated in parentheses |
| NameSelector.JoinTexts | Utility/ControlMenu.cc:106-119 | the description loop emits the argument texts with ", " between consecutive ones only |
| NameSelector.AddArg | Utility/ControlMenu.cc:84-89 | `addArg` appends one argument and keeps the earlier ones |
| NameSelector.AddArgDescribed | Utility/ControlMenu.cc:84-121 | after `addArg` the description gains exactly the new argument's text, after a comma when there were others |
| NameSelector.SetDefault | Utility/ControlMenu.hh:135 | `setDefault` changes the default and leaves the choices and index alone |
| NameSelector.SetDefaultDescribed | Utility/ControlMenu.cc:169-174 | after `setDefault(s)` a selector is described by its title, followed by ` = s` exactly when s is nonempty |
| NameSelector.MenuAddChoice | Utility/ControlMenu.cc:259-261 | an options-menu choice fails iff its name is taken and otherwise runs the interactor and outputs its own name |
| NameSelector.SelectorAddArg | Utility/ControlMenu.hh:139-141 | adding an argument to a selector always fails |
| NameSelector.MenuAddPlainChoice | Utility/ControlMenu.hh:171 | adding a plain choice to an options menu always fails |
| TreeWrap.Next | GeneralUtils/TreeWrap.hh:27-37 | `++` leaves the end iterator and an exhausted one alone, and otherwise descends one level or climbs one, keeping the rest of the branch history |
| TreeWrap.Iterate | GeneralUtils/TreeWrap.hh:27-37 | repeated `++` keeps the iterator on nodes of the tree |
| TreeWrap.NotEqual | GeneralUtils/TreeWrap.hh:39 | two iterators differ iff their node or branch history differs |
| TreeWrap.IterateAdd | GeneralUtils/TreeWrap.hh:27-37 | a+b steps are a steps followed by b steps |
| TreeWrap.Size | GeneralUtils/TreeWrap.hh:63 | every subtree holds at least its own root |
| TreeWrap.DeepChain | GeneralUtils/TreeWrap.hh:27-37 | two stretches of iteration that stay below depth d join into one |
| TreeWrap.DeepStep | GeneralUtils/TreeWrap.hh:27-37 | one `++` between two positions deeper than d stays below depth d |
| TreeWrap.DeepWeaken | GeneralUtils/TreeWrap.hh:27-37 | staying below depth d implies staying below any shallower depth |
| TreeWrap.WalkSubtree | GeneralUtils/TreeWrap.hh:27-37 | from a node, twice the size of its subtrees' sum in steps visits every child subtree and returns to the node with all children consumed |
| TreeWrap.WalkChildren | GeneralUtils/TreeWrap.hh:27-37 | the walk through the first i children of a node takes twice their total size in steps |
| TreeWrap.WalkInto | GeneralUtils/TreeWrap.hh:29-35 | descending into child i and climbing back after its whole subtree extends the walk by one child |
| TreeWrap.ChildStretch | GeneralUtils/TreeWrap.hh:29-35 | going into a child, touring its subtree and returning takes twice the subtree size plus two steps, all strictly below the parent |
| TreeWrap.Tour | GeneralUtils/TreeWrap.hh:23-53 | iterating from `begin()` of a root reaches `end()` after exactly 2·size − 1 steps and not before |
| TreeWrap.NonRootStalls | GeneralUtils/TreeWrap.hh:23-53 | `++` as written, begun at a node with a parent, climbs to the parent with no positions left after 2·size − 1 steps and stays there, so it never equals `end()` |
| TreeWrap.StaysStuck | GeneralUtils/TreeWrap.hh:28 | an iterator with an empty position stack is left unchanged by any number of `++` |
| TreeWrap.NextStopping | GeneralUtils/TreeWrap.hh:27-37 | the corrected `++` keeps the same position stack as the original and moves alike, except that popping the last position gives `end()` |
| TreeWrap.IterateStopping | GeneralUtils/TreeWrap.hh:27-37 | repeated corrected `++` keeps the iterator on nodes of the tree |
| TreeWrap.StoppingStep | GeneralUtils/TreeWrap.hh:27-37 | n+1 corrected steps are n steps followed by one more |
| TreeWrap.StoppingAgrees | GeneralUtils/TreeWrap.hh:27-37 | while the position stack stays non-empty the corrected and original iterators are at the same place |
| TreeWrap.TourFrom | GeneralUtils/TreeWrap.hh:23-53 | from `begin()` at any node the corrected iterator follows the original through the subtree and reaches `end()` after exactly 2·size − 1 steps and not before |
| TreeWrap.AddChild | GeneralUtils/TreeWrap.hh:63 | `addChild(W)` returns W, does nothing for null, and otherwise appends W to the children and makes this its parent, leaving other nodes unchanged |
| TreeWrap.AddChildOrdered | GeneralUtils/TreeWrap.hh:63 | attaching a parentless later node as a child keeps the tree well formed |
| Polynomial.Zeros | Math/Polynomial.hh:55 | a fresh monomial has every exponent zero |
| Polynomial.Constant | Math/Polynomial.hh:49 | the constant polynomial c is empty iff c is zero, and otherwise its only term is c on the all-zero exponents |
| Polynomial.FromTerm | Math/Polynomial.hh:51 | a polynomial built from one monomial holds exactly that term with its coefficient |
| Polynomial.ValueInjective | Math/Polynomial.hh:54-66 | exponent vectors inside the box of order o are told apart by their base-(o+1) value, so the odometer never revisits a term |
| Polynomial.KeysBelowAdd | Math/Polynomial.hh:61 | each inserted monomial is new: it lies above every earlier one in odometer order |
| Polynomial.OdometerStart | Math/Polynomial.hh:55-57 | the loop starts with just the zero monomial inserted |
| Polynomial.OdometerBump | Math/Polynomial.hh:59-62 | incrementing digit i inserts a new monomial and advances the odometer by one step |
| Polynomial.OdometerCarry | Math/Polynomial.hh:63 | resetting a full digit and moving to the next keeps the loop invariant |
| Polynomial.OdometerDone | Math/Polynomial.hh:58-65 | when the loop leaves, every monomial of the box has been inserted and no other |
| Polynomial.AllTerms | Math/Polynomial.hh:54-66 | `allTerms(o, c)` holds exactly the monomials whose every exponent is at most o, each with coefficient c |
| Polynomial.OrderBounds | Math/Polynomial.hh:73 | each exponent is at most the monomial's total order |
| Polynomial.LowerTriangleTerms | Math/Polynomial.hh:69-76 | `lowerTriangleTerms(o, c)` holds exactly the monomials of total order at most o, each with coefficient c |
| Polynomial.Even | Math/Polynomial.hh:79-83 | `even()` keeps exactly the even terms with their coefficients |
| Polynomial.EvenPlus | Math/Polynomial.hh:79-83 | taking the even part commutes with addition |
| Polynomial.Prune | Math/Polynomial.hh:138-143 | `prune(c)` keeps exactly the terms whose coefficient exceeds c in magnitude, unchanged |
| Polynomial.PruneTwice | Math/Polynomial.hh:138-143 | pruning at c and then at d is pruning once at the larger threshold |
| Polynomial.PlusCoef | Math/Polynomial.hh:175 | the sum has a term where either summand does, with the coefficients added |
| Polynomial.Ext | Math/Polynomial.hh:46 | two polynomials with the same terms and coefficients are equal |
| Polynomial.AddTerm | Math/Polynomial.hh:146-151 | adding a monomial adds its coefficient to that term, creating it if absent, and leaves every other term alone |
| Polynomial.AddTermIsPlus | Math/Polynomial.hh:146-151 | adding a monomial is adding the polynomial made of that monomial |
| Polynomial.RestrictCoef | Math/Polynomial.hh:153 | the part of q already added keeps q's coefficients on those terms and nothing else |
| Polynomial.Add | Math/Polynomial.hh:153 | in-place addition of a polynomial, term by term, yields the sum |
| Polynomial.AddingStep | Math/Polynomial.hh:153 | adding one more term of the right operand keeps the loop invariant |
| Polynomial.AddNone | Math/Polynomial.hh:153 | before the loop nothing of the right operand has been added |
| Polynomial.AddAll | Math/Polynomial.hh:153 | once every term is added the result is the sum |
| Polynomial.AddStep | Math/Polynomial.hh:146-153 | adding a new term of q to p plus the part of q already added gives p plus one more term of q |
| Polynomial.PlusComm | Math/Polynomial.hh:175 | addition is commutative |
| Polynomial.PlusZero | Math/Polynomial.hh:49 | adding the zero polynomial changes nothing |
| Polynomial.Raise | Math/Polynomial.hh:127 | raising exponent i by one changes only that exponent |
| Polynomial.Lower | Math/Polynomial.hh:127 | lowering a positive exponent is undone by raising it |
| Polynomial.RaiseInjective | Math/Polynomial.hh:127 | different monomials have different derivatives' exponents, so derivative terms never collide |
| Polynomial.TimesSum | Math/Polynomial.hh:127 | scaling by an exponent distributes over addition of coefficients |
| Polynomial.Derivative | Math/Polynomial.hh:125-129 | `derivative(i)` drops the terms without variable i and maps each other term to one with exponent i lowered and coefficient multiplied by it |
| Polynomial.SoundStep | Math/Polynomial.hh:127 | inserting one more differentiated term keeps every derivative term accounted for |
| Polynomial.CompleteStep | Math/Polynomial.hh:127 | after inserting a differentiated term it is present in the result |
| Polynomial.CompleteSkip | Math/Polynomial.hh:127 | a term without variable i contributes nothing |
| Polynomial.DerivValid | Math/Polynomial.hh:125-129 | the derivative has well-formed exponent vectors |
| Polynomial.PlusSumAt | Math/Polynomial.hh:175 | each coefficient of the sum is the sum of the coefficients |
| Polynomial.DerivativePlus | Math/Polynomial.hh:125-175 | the derivative of a sum is the sum of the derivatives |
| Polynomial.DerivativeSumAt | Math/Polynomial.hh:125-175 | the derivative of a sum agrees with the sum of derivatives at every exponent vector |
| Polynomial.DerivativeSumIn | Math/Polynomial.hh:125-175 | the derivative of a sum agrees with the sum of derivatives at each exponent vector long enough to hold variable i |
| Polynomial.DerivativeAt | Math/Polynomial.hh:125-129 | a derivative term at w exists iff the term with exponent i one higher exists, and its coefficient is that one scaled by the exponent |
| Polynomial.DerivativeHas | Math/Polynomial.hh:125-129 | the derivative has a term at w iff w holds variable i and the term raised at i is in the polynomial |
| Polynomial.DerivativeCoef | Math/Polynomial.hh:125-129 | the derivative's coefficient at w is (w[i]+1) times the polynomial's coefficient at w raised at i, zero when absent |
| Polynomial.AlgebraicForm | Math/Polynomial.hh:188-192 | the algebraic form is "0" exactly for the empty polynomial |
| Polynomial.Spaced | Math/Polynomial.hh:188-192 | each printed term is followed by a space |

## Left out

- Groundstate normalisation (`Physics/NuclEvtGen.cc:295-304`): `TransitionBase::scale` and `NucLevel::scale` are not part of this model, so the optional rescaling of all intensities is omitted.
- The K-shell vacancy accumulation (`ICEK`) and `DecayAtom`'s Auger and K x-ray tables are not modelled. They come from floating-point parsing (`atof`) and from classes that are not part of this model. An Auger atom is kept only as its Z and its record.
- Event kinematics are not modelled: `randomDirection`, the beta spectrum, `averageE`, `shellAverageE` and all `display`/`printf` output. The beta spectrum enters only as a caller-supplied quantile function.
- `particleName` and `particleType` are not modelled, because events carry the particle as a datatype constructor.
- The random generator (`gRandom`) is not modelled. Variates come from a caller-supplied buffer, and a buffer that runs short makes the walk fail instead of reading past its end.
- DecayChain.Walk: the K-shell Auger electrons that `genDecayChain` appends after each transition (one `genAuger` call per K vacancy, `nVacant(0)`) are not emitted, and the event-count bounds cover only the transitions' own events. `genAuger` and `ECapture::run` draw their variates from the global `gRandom` rather than from the buffer, and the model has no such global source. DecayChain.GenDecayChain inherits the same gap.
- DecayChain.Walk and DecayChain.GenDecayChain require each transition to go from a higher to a lower level index. Every electron capture satisfies it: the automatic ones are kept only when the destination's energy is strictly lower (Physics/NuclEvtGen.cc:343), and explicit ones are checked by an assertion (Physics/NuclEvtGen.cc:352). Since levels are sorted by energy, a lower energy means a lower index. Gamma and beta transitions carry no such check and rely on the data being ordered that way.
- LevelScheme.ParseLevel reads only the mass and charge numbers from a level's name. The third part is parsed by the source too, but `NucDecaySystem` overwrites it with the sorted position, so the model sets the number only there. The `E` and `hl` lookups with default 0 are done by the caller, and the record carries the reals.
- The per-kind degrees-of-freedom table (`NdfTable`) is a parameter. Each transition class's `getNDF()` is not part of this model, so the count a transition of each kind consumes is supplied by the caller.
- LevelScheme.SortLevels is an insertion sort that fixes one order for levels of equal energy. `std::sort` is not stable, so the source leaves the order of levels with equal energy unspecified. The properties proved (sorted by energy, same multiset) hold for every order the source may produce.
- Selector.UpperBound is a linear scan that is defined on any sequence. `std::upper_bound` is meaningful only on sorted input, and `select` is proved only for valid selectors, whose boundaries are sorted and non-negative. UpperBoundSearch shows the binary search agrees on sorted input.
- Selector.GetProb requires a nonzero total. The source divides by the total, and a zero total gives a non-finite quotient, which real arithmetic cannot express.
- Box: coordinates of type `T` are modelled as reals, and `numeric_limits<T>::max()` is the parameter `M` of Box.NullBox. Integer coordinate types, with their overflow and truncation, are not modelled.
- PermutationGroup.Factorial: `factorial` returns `size_t`, which overflows for N > 20. The model computes the exact factorial with unbounded integers.
- The `StringManip` helpers (`split`, `strip`, `lower`, `to_str`, `atoi`, `startsWith`) are not part of this model. `text.dfy` gives them concrete behaviour: `split` cuts at every separator character and drops empty pieces, and `atoi` reads optional leading blanks, an optional sign and decimal digits.
- Text.AtoiNatToStr: `atoi` overflow beyond `int` is not modelled, so the round trip is stated for every natural number.
- The `atof` parse in `menutils_Select` is not modelled. It is a caller-supplied predicate that says whether a string reads as non-zero.
- `Stringmap::insert(string, double)`, `getDefault` with a `double` default and the floating-point `to_str` are not modelled, because they involve floating-point formatting.
- Stringmap.GetDefaultKeyed: `multimap::find` may return any entry with the key. The model returns the first entry in insertion order, which is what the common library implementations do.
- `NameSelector::doIt`'s input loop, prompts, the catch-all hand-over and the actions' own `doIt` are not modelled. The model covers only the matching rule and its outcome.
- `InputRequester::doIt` (reading stdin), `setArgOpts`, `displayOptions` and custom soft-match functions are not modelled. Soft matching is either the default rule or off.
- TreeWrap.AddChildOrdered assumes the added node has no parent and sits after its new parent in the arena. The source does not detach a node from an earlier parent, and the tree that would result is not modelled.
- TreeWrap.Tour is stated only for well-formed trees (each child's parent pointer names the node that lists it, and children are stored after their parent) and only from `begin()` at a root. From a node with a parent the source's iterator never reaches `end()` (see Findings); TreeWrap.TourFrom states the corrected iterator's tour from any node. The tree is an arena of nodes indexed by position, and pointers are those indices.
- HDF5 library calls (`H5TBread_records`, `H5TBappend_records`, `H5Lexists`, table creation) and their error exceptions are not modelled. A table is a sequence of rows, reading is slicing, and appending is concatenation.
- The numeric value of `DATASTREAM_FLUSH` is not modelled. It is a parameter of the writer's `signal`.
- DataStream.ConcatEntriesSum: the estimates are unbounded naturals and `max_entries` is a value of its own. In the source they are `size_t` (Framework/DataSource.hh:67-72): the sum wraps modulo 2^64, and a finite sum of exactly 2^64 − 1 cannot be told apart from `max_entries`. Neither is modelled.
- TableTransfer.TransferIDs: the `int64_t` new identifier is incremented (HDF5/HDF5_Table_Cache.hh:270) as an unbounded integer; its overflow past 2^63 − 1 is not modelled.
- TableEvents.LoadEventGroups assumes that row identifiers are non-negative. The values -1 and -2 are the grouping markers, and a row carrying one of them is not modelled.
- Leaf data streams are modelled as rewindable lists. The base class's `reset` does nothing, and the subclasses that override it are not part of this model. Each leaf's `entries()` estimate is an arbitrary per-position input (the base class's 0 where none is given), since the subclasses that compute it are not part of this model. A `DataSourceSeq` holds `DataSource` pointers and so may contain other concatenations; the model's concatenations hold leaves only, so nested concatenations are not modelled.
- `Monomial` internals are not part of this model. A monomial is an exponent vector with a coefficient, and its derivative lowers the exponent and multiplies the coefficient by it.
- Polynomial: coefficients are reals, so floating-point rounding is not modelled. `isEven` is a caller-supplied predicate on exponent vectors.
- Polynomial operations outside the modelled set are not covered: evaluation, `replace`, `recentered`, `integral`, `eval`, subtraction, multiplication and division.
- Polynomial.AlgebraicForm takes the printed terms as given, because the monomials' own printing is not part of this model.

## Findings

| source | as written | input that shows it | evidently intended | confidence | as-written member | corrected member |
|---|---|---|---|---|---|---|
| GeneralUtils/TreeWrap.hh:27-37 | after the subtree of a non-root start node, `++` pops the last position and moves to the parent; with no positions left every later `++` returns unchanged | a root r with one child c: from `c->begin()` one increment reaches (r, no positions), never `end()` | iteration from `begin()` of any node stops at `end()` once its subtree is done | medium, not executed | TreeWrap.NonRootStalls | TreeWrap.TourFrom |
| Framework/DataSource.hh:64 | `DataSourceSeq::reset` rewinds only the sources below the current index and leaves the current one where it stopped | one source holding [1, 2] with one item already read, current index 0: after `reset` the stream yields [2] instead of [1, 2] | reset rewinds every source, so the whole concatenation restarts | medium, not executed | DataStream.ResetAsWrittenKeepsPosition | DataStream.ResetRestarts |
| HDF5/HDF5_Table_Cache.hh:206-211 | `skip` clamps only at `nRows` and ignores the `nLoad` read limit | a table of 10 rows with `nLoad` = 3, then `skip(5)`: it returns true with `nread` = 5, and `entries()` wraps to 2^64 - 2 | skipping past the read limit returns false and leaves nothing to read | medium, not executed | TableReader.SkipAsWrittenPassesLimit | TableReader.SkipRemaining |
| HDF5/HDF5_Table_Cache.hh:231-239 | mid-stream, `loadEvent` returns the identifier of the held-over next row rather than that of the rows it loaded | rows with identifiers 1 then 2: the first call loads the row of event 1 but returns 2 | return the identifier of the event loaded, as the declaration's comment says | medium, not executed | TableEvents.LoadEventAsWrittenMisreports | TableEvents.LoadEventGroups |

=== FILE: bbox.dfy ===
/**
  D-dimensional axis-aligned bounding boxes (`BBox<D,T>`), with T modelled as
  `real`. A box is its lower and upper corner; D is the common length of the
  two corners, and every point handed to an operation has that length.
 */
module Box {
  datatype BBox = BBox(lo: seq<real>, hi: seq<real>)

  /** A box of D dimensions: both corners carry D coordinates. */
  predicate Dim(b: BBox, D: nat) {
    |b.lo| == D && |b.hi| == D
  }

  /** The closed box contains x: `lo[i] <= x[i] <= hi[i]` on every axis. */
  predicate Contains(b: BBox, x: seq<real>)
    requires |x| == |b.lo| == |b.hi|
  {
    forall i :: 0 <= i < |x| ==> b.lo[i] <= x[i] <= b.hi[i]
  }

  /** No axis is inverted: `lo[i] <= hi[i]`. */
  predicate Proper(b: BBox)
    requires Dim(b, |b.lo|)
  {
    forall i :: 0 <= i < |b.lo| ==> b.lo[i] <= b.hi[i]
  }

  /** Box a lies within box b on every axis. */
  predicate Within(a: BBox, b: BBox)
    requires Dim(a, |b.lo|) && Dim(b, |b.lo|)
  {
    forall i :: 0 <= i < |b.lo| ==> b.lo[i] <= a.lo[i] && a.hi[i] <= b.hi[i]
  }

  /**
    `nullBox`: every lower bound is the largest representable value M and
    every upper bound is -M, so that expanding by any representable point
    replaces both. M stands for `numeric_limits<T>::max()`.
   */
  function NullBox(D: nat, M: real): (b: BBox)
    ensures Dim(b, D)
    ensures forall i :: 0 <= i < D ==> b.lo[i] == M && b.hi[i] == -M
  {
    BBox(seq(D, _ => M), seq(D, _ => -M))
  }

  /** `expand(x)`: lower each bound that x undercuts, raise each that x exceeds. */
  function Expand(b: BBox, x: seq<real>): (r: BBox)
    requires Dim(b, |x|)
    ensures Dim(r, |x|)
    ensures Contains(r, x) && Within(b, r)
    ensures forall i :: 0 <= i < |x| ==> (r.lo[i] == b.lo[i] || r.lo[i] == x[i]) && (r.hi[i] == b.hi[i] || r.hi[i] == x[i])
  {
    BBox(seq(|x|, i requires 0 <= i < |x| => if x[i] < b.lo[i] then x[i] else b.lo[i]),
         seq(|x|, i requires 0 <= i < |x| => if x[i] > b.hi[i] then x[i] else b.hi[i]))
  }

  /** Expanding by a point already in the box changes nothing. */
  lemma ExpandContained(b: BBox, x: seq<real>)
    requires Dim(b, |x|) && Contains(b, x)
    ensures Expand(b, x) == b
  {
    var r := Expand(b, x);
    assert r.lo == b.lo;
    assert r.hi == b.hi;
  }

  /** The expanded box is the smallest box holding both b and x. */
  lemma ExpandLeast(b: BBox, x: seq<real>, c: BBox)
    requires Dim(b, |x|) && Dim(c, |x|) && Within(b, c) && Contains(c, x)
    ensures Within(Expand(b, x), c)
  {
  }

  /** Expanding by two points gives the same box in either order. */
  lemma ExpandCommutes(b: BBox, x: seq<real>, y: seq<real>)
    requires Dim(b, |x|) && |y| == |x|
    ensures Expand(Expand(b, x), y) == Expand(Expand(b, y), x)
  {
    var l := Expand(Expand(b, x), y);
    var r := Expand(Expand(b, y), x);
    assert l.lo == r.lo;
    assert l.hi == r.hi;
  }

  /** Expanding the null box by a representable point gives the degenerate box at that point. */
  lemma ExpandNull(x: seq<real>, M: real)
    requires forall i :: 0 <= i < |x| ==> -M <= x[i] <= M
    ensures Expand(NullBox(|x|, M), x) == BBox(x, x)
  {
    var r := Expand(NullBox(|x|, M), x);
    assert r.lo == x;
    assert r.hi == x;
  }

  /** `offset(x)`: move both corners by x. */
  function Offset(b: BBox, x: seq<real>): (r: BBox)
    requires Dim(b, |x|)
    ensures Dim(r, |x|)
    ensures forall i :: 0 <= i < |x| ==> Dl(r, i) == Dl(b, i)
  {
    BBox(seq(|x|, i requires 0 <= i < |x| => b.lo[i] + x[i]),
         seq(|x|, i requires 0 <= i < |x| => b.hi[i] + x[i]))
  }

  /** Negated vector. */
  function Neg(x: seq<real>): (n: seq<real>)
    ensures |n| == |x|
  {
    seq(|x|, i requires 0 <= i < |x| => -x[i])
  }

  /** Offsetting by x and then by -x restores the box. */
  lemma OffsetBack(b: BBox, x: seq<real>)
    requires Dim(b, |x|)
    ensures Offset(Offset(b, x), Neg(x)) == b
  {
    var r := Offset(Offset(b, x), Neg(x));
    assert r.lo == b.lo;
    assert r.hi == b.hi;
  }

  /** A point moves into the offset box exactly when it was in the original box. */
  lemma OffsetContains(b: BBox, x: seq<real>, y: seq<real>)
    requires Dim(b, |x|) && |y| == |x|
    ensures Contains(Offset(b, x), seq(|y|, i requires 0 <= i < |y| => y[i] + x[i])) <==> Contains(b, y)
  {
    var z := seq(|y|, i requires 0 <= i < |y| => y[i] + x[i]);
    var r := Offset(b, x);
    if Contains(r, z) {
      forall i | 0 <= i < |y|
        ensures b.lo[i] <= y[i] <= b.hi[i]
      {
        assert r.lo[i] <= z[i] <= r.hi[i];
      }
    }
  }

  /** `operator+=(B)`: expand by B's lower corner, then by its upper corner. */
  function Union(b: BBox, B: BBox): (r: BBox)
    requires Dim(b, |B.lo|) && Dim(B, |B.lo|)
    ensures Dim(r, |B.lo|)
    ensures Within(b, r) && Contains(r, B.lo) && Contains(r, B.hi)
  {
    Expand(Expand(b, B.lo), B.hi)
  }

  /** The union holds B whole, and is the smallest box holding both boxes when B is not inverted. */
  lemma UnionLeast(b: BBox, B: BBox, c: BBox)
    requires Dim(b, |B.lo|) && Dim(B, |B.lo|) && Dim(c, |B.lo|)
    ensures Within(B, Union(b, B))
    ensures Proper(B) && Within(b, c) && Within(B, c) ==> Within(Union(b, B), c)
  {
    if Proper(B) && Within(b, c) && Within(B, c) {
      ExpandLeast(b, B.lo, c);
      ExpandLeast(Expand(b, B.lo), B.hi, c);
    }
  }

  /** `expand(T x)`: push every lower bound down and every upper bound up by the margin m. */
  function Grow(b: BBox, m: real): (r: BBox)
    requires Dim(b, |b.lo|)
    ensures Dim(r, |b.lo|)
    ensures forall i :: 0 <= i < |b.lo| ==> Dl(r, i) == Dl(b, i) + 2.0 * m
  {
    BBox(seq(|b.lo|, i requires 0 <= i < |b.lo| => b.lo[i] - m),
         seq(|b.lo|, i requires 0 <= i < |b.lo| => b.hi[i] + m))
  }

  /** Growing by m and then by -m restores the box; a non-negative margin only enlarges it. */
  lemma GrowBack(b: BBox, m: real)
    requires Dim(b, |b.lo|)
    ensures Grow(Grow(b, m), -m) == b
    ensures m >= 0.0 ==> Within(b, Grow(b, m))
  {
    var r := Grow(Grow(b, m), -m);
    assert r.lo == b.lo;
    assert r.hi == b.hi;
  }

  /** The half-open interior test: `lo[i] <= x[i] < hi[i]` on every axis. */
  predicate In(b: BBox, x: seq<real>)
    requires Dim(b, |x|)
  {
    forall i :: 0 <= i < |x| ==> b.lo[i] <= x[i] < b.hi[i]
  }

  /** `inside(x)`: test the axes in turn, stopping at the first that fails. */
  method Inside(b: BBox, x: seq<real>) returns (ok: bool)
    requires Dim(b, |x|)
    ensures ok <==> In(b, x)
  {
    var i := 0;
    while i < |x|
      invariant i <= |x|
      invariant forall j :: 0 <= j < i ==> b.lo[j] <= x[j] < b.hi[j]
    {
      if !(b.lo[i] <= x[i] && x[i] < b.hi[i]) {
        return false;
      }
      i := i + 1;
    }
    return true;
  }

  /** The test is half-open: the lower corner of a box with positive widths is inside, the upper corner never is. */
  lemma InCorners(b: BBox)
    requires Dim(b, |b.lo|)
    ensures (forall i :: 0 <= i < |b.lo| ==> b.lo[i] < b.hi[i]) ==> In(b, b.lo)
    ensures |b.lo| > 0 ==> !In(b, b.hi)
  {
    if forall i :: 0 <= i < |b.lo| ==> b.lo[i] < b.hi[i] {
      forall i | 0 <= i < |b.lo|
        ensures b.lo[i] <= b.lo[i] < b.hi[i]
      {
      }
    }
    if |b.lo| > 0 {
      assert !(b.lo[0] <= b.hi[0] < b.hi[0]);
    }
  }

  /** Every point inside is contained; the converse fails only on an upper face. */
  lemma InContained(b: BBox, x: seq<real>)
    requires Dim(b, |x|)
    ensures In(b, x) ==> Contains(b, x)
    ensures Contains(b, x) && (forall i :: 0 <= i < |x| ==> x[i] != b.hi[i]) ==> In(b, x)
  {
  }

  /** `dl(i)`: the width along axis i. */
  function Dl(b: BBox, i: nat): real
    requires i < |b.lo| && i < |b.hi|
  {
    b.hi[i] - b.lo[i]
  }

  /** `pos(x, i)`: the point at local coordinate x along axis i. */
  function Pos(b: BBox, x: real, i: nat): real
    requires i < |b.lo| && i < |b.hi|
  {
    b.lo[i] + x * Dl(b, i)
  }

  /** Local coordinate 0 is the lower bound, 1 the upper; coordinates in [0, 1] stay in a non-inverted box. */
  lemma PosRange(b: BBox, x: real, i: nat)
    requires i < |b.lo| && i < |b.hi|
    ensures Pos(b, 0.0, i) == b.lo[i] && Pos(b, 1.0, i) == b.hi[i]
    ensures b.lo[i] <= b.hi[i] && 0.0 <= x <= 1.0 ==> b.lo[i] <= Pos(b, x, i) <= b.hi[i]
  {
    if b.lo[i] <= b.hi[i] && 0.0 <= x <= 1.0 {
      var d := Dl(b, i);
      MulNonneg(x, d);
      MulNonneg(1.0 - x, d);
      assert (1.0 - x) * d == d - x * d;
    }
  }

  lemma MulNonneg(a: real, b: real)
    requires 0.0 <= a && 0.0 <= b
    ensures 0.0 <= a * b
  {
  }
}

=== FILE: control_menu.dfy ===
/**
  The stack machine the text menus share (`StreamInteractor` and the
  `menutils_*` utilities): a working stack of strings and a command deque.

  The stack's top is its LAST element; the deque's front is its FIRST.
  Popping from an empty stack or deque is undefined behaviour in the
  program, so the pop helpers require a nonempty container; every utility
  checks the stack size first and so never pops from an empty stack.
 */
module ControlMenu {
  import opened Text

  datatype Machine = Machine(stack: seq<string>, deque: seq<string>)

  /** `NameSelector::barf_control`: escape, then `_BARF`. */
  const BarfControl: string := "\U{1B}_BARF"
  /** `NameSelector::exit_control`: escape, then `_EXIT`. */
  const ExitControl: string := "\U{1B}_EXIT"

  /** `unsigned int` from `int`: reduction modulo 2^32. */
  const U32: nat := 0x1_0000_0000

  function Unsigned(i: int): (u: nat)
    ensures u < U32 && (0 <= i < U32 ==> u == i)
  {
    i % U32
  }

  // ------------------------------------------------------------ pop helpers

  function Push(m: Machine, s: string): Machine {
    m.(stack := m.stack + [s])
  }

  /** `popString()`: take the stack's top. */
  function PopString(m: Machine): (r: (string, Machine))
    requires |m.stack| > 0
    ensures r.1.stack + [r.0] == m.stack && r.1.deque == m.deque
  {
    (m.stack[|m.stack| - 1], m.(stack := m.stack[..|m.stack| - 1]))
  }

  /** `popStringD()`: take the deque's front. */
  function PopStringD(m: Machine): (r: (string, Machine))
    requires |m.deque| > 0
    ensures [r.0] + r.1.deque == m.deque && r.1.stack == m.stack
  {
    (m.deque[0], m.(deque := m.deque[1..]))
  }

  /** `popInt()`: `atoi` of the popped top. */
  function PopInt(m: Machine): (r: (int, Machine))
    requires |m.stack| > 0
    ensures r.0 == Atoi(m.stack[|m.stack| - 1]) && r.1.stack + [m.stack[|m.stack| - 1]] == m.stack
    ensures r.1.deque == m.deque
  {
    var (s, m') := PopString(m);
    (Atoi(s), m')
  }

  /** `popIntD()`: `atoi` of the popped front. */
  function PopIntD(m: Machine): (r: (int, Machine))
    requires |m.deque| > 0
    ensures r.0 == Atoi(m.deque[0]) && [m.deque[0]] + r.1.deque == m.deque
    ensures r.1.stack == m.stack
  {
    var (s, m') := PopStringD(m);
    (Atoi(s), m')
  }

  /** Popping what was just pushed gives the string and the machine back. */
  lemma PopPush(m: Machine, s: string)
    ensures PopString(Push(m, s)) == (s, m)
  {
    assert (m.stack + [s])[..|m.stack|] == m.stack;
  }

  // ---------------------------------------------------------- stack utilities

  /** `menutils_StackSize`: push the stack's size in decimal. */
  function StackSize(m: Machine): (r: Machine)
    ensures |r.stack| == |m.stack| + 1 && r.stack[..|m.stack|] == m.stack && r.deque == m.deque
  {
    assert (m.stack + [NatToStr(|m.stack|)])[..|m.stack|] == m.stack;
    Push(m, NatToStr(|m.stack|))
  }

  /** The complaint a failed size check puts at the front of the deque. */
  function Insufficient(k: nat): string {
    BarfControl + " Insufficient Arguments [" + NatToStr(k) + "]"
  }

  /**
    `menutils_CheckStackSize(n)`: push the stack size, pop it back as a
    number, and compare it with n; when short by k, put the complaint about
    k at the deque's front.
   */
  function CheckStackSize(m: Machine, n: nat): (r: (bool, Machine))
    ensures r.0 <==> |m.stack| >= n
    ensures r.1.stack == m.stack
    ensures r.0 ==> r.1.deque == m.deque
    ensures !r.0 ==> r.1.deque == [Insufficient(n - |m.stack|)] + m.deque
  {
    var (nstack, m') := PopInt(StackSize(m));
    AtoiNatToStr(|m.stack|);
    if nstack < n then
      (false, m'.(deque := [Insufficient(n - nstack)] + m'.deque))
    else
      (true, m')
  }

  /** `menutils_Drop`: remove the top. */
  function Drop(m: Machine): (r: Machine)
    ensures |m.stack| > 0 ==> r.stack + [m.stack[|m.stack| - 1]] == m.stack && r.deque == m.deque
    ensures |m.stack| == 0 ==> r == Machine([], [Insufficient(1)] + m.deque)
  {
    var (ok, m') := CheckStackSize(m, 1);
    if !ok then m' else PopString(m').1
  }

  /** `menutils_Dup`: push a copy of the top. */
  function Dup(m: Machine): (r: Machine)
    ensures |m.stack| > 0 ==> r == Machine(m.stack + [m.stack[|m.stack| - 1]], m.deque)
    ensures |m.stack| == 0 ==> r == Machine([], [Insufficient(1)] + m.deque)
  {
    var (ok, m') := CheckStackSize(m, 1);
    if !ok then m' else Push(m', m'.stack[|m'.stack| - 1])
  }

  /** Dropping a duplicate restores the machine. */
  lemma DropDup(m: Machine)
    requires |m.stack| > 0
    ensures Drop(Dup(m)) == m
  {
    var d := Dup(m);
    assert d.stack[..|d.stack| - 1] == m.stack;
  }

  /** `menutils_Swap`: exchange the top two. */
  function Swap(m: Machine): (r: Machine)
    ensures |m.stack| >= 2 ==>
      var L := |m.stack|;
      r == Machine(m.stack[..L - 2] + [m.stack[L - 1], m.stack[L - 2]], m.deque)
    ensures |m.stack| < 2 ==> r == Machine(m.stack, [Insufficient(2 - |m.stack|)] + m.deque)
  {
    var (ok, m1) := CheckStackSize(m, 2);
    if !ok then m1
    else
      var (a, m2) := PopString(m1);
      var (b, m3) := PopString(m2);
      assert m3.stack == m.stack[..|m.stack| - 2];
      Push(Push(m3, a), b)
  }

  /** Swapping twice changes nothing. */
  lemma SwapSwap(m: Machine)
    requires |m.stack| >= 2
    ensures Swap(Swap(m)) == m
  {
    var L := |m.stack|;
    var s := Swap(m);
    assert s.stack[..L - 2] == m.stack[..L - 2];
    assert m.stack[..L - 2] + [m.stack[L - 2], m.stack[L - 1]] == m.stack;
  }

  /** `menutils_ClearStack`: pop until empty. */
  function ClearStack(m: Machine): (r: Machine)
    ensures r.stack == [] && r.deque == m.deque
    decreases |m.stack|
  {
    if |m.stack| == 0 then m else ClearStack(PopString(m).1)
  }

  /**
    `menutils_DropN`: pop a count n (read as `unsigned int`), then remove n
    more items, or none if fewer than n remain.
   */
  method DropN(m: Machine) returns (r: Machine)
    ensures |m.stack| == 0 ==> r == Machine([], [Insufficient(1)] + m.deque)
    ensures |m.stack| > 0 ==>
      var st, n := m.stack[..|m.stack| - 1], Unsigned(Atoi(m.stack[|m.stack| - 1]));
      r == if n <= |st| then Machine(st[..|st| - n], m.deque)
           else Machine(st, [Insufficient(n - |st|)] + m.deque)
  {
    var (ok, m1) := CheckStackSize(m, 1);
    if !ok {
      return m1;
    }
    var (k, m2) := PopInt(m1);
    var n := Unsigned(k);
    var (ok2, m3) := CheckStackSize(m2, n);
    if !ok2 {
      return m3;
    }
    r := PopN(m3, n);
  }

  /** The loop of `menutils_DropN`: pop n times. */
  method PopN(m: Machine, n: nat) returns (r: Machine)
    requires n <= |m.stack|
    ensures r == Machine(m.stack[..|m.stack| - n], m.deque)
  {
    r := m;
    var i := 0;
    while i < n
      invariant 0 <= i <= n && r == Machine(m.stack[..|m.stack| - i], m.deque)
    {
      r := PopString(r).1;
      i := i + 1;
    }
  }

  /**
    The order `menutils_Rot(n)` leaves: the n-th item from the top moves to
    the top, and the n-1 above it move down one place in their order.
   */
  function Rotated(st: seq<string>, n: nat): (r: seq<string>)
    requires 0 < n <= |st|
    ensures |r| == |st| && multiset(r) == multiset(st)
    ensures r[..|st| - n] == st[..|st| - n]
  {
    var L := |st|;
    assert st == st[..L - n] + [st[L - n]] + st[L - n + 1..];
    st[..L - n] + st[L - n + 1..] + [st[L - n]]
  }

  /** Rotating one item leaves the stack alone. */
  lemma RotatedOne(st: seq<string>)
    requires |st| > 0
    ensures Rotated(st, 1) == st
  {
    assert st[|st|..] == [];
    assert st[..|st| - 1] + [st[|st| - 1]] == st;
  }

  /** Rotating two items is the swap of the top two. */
  lemma RotatedTwo(st: seq<string>)
    requires |st| >= 2
    ensures Rotated(st, 2) == st[..|st| - 2] + [st[|st| - 1], st[|st| - 2]]
  {
    assert st[|st| - 1..] == [st[|st| - 1]];
  }

  /**
    `menutils_Rot`: pop a count n; when n is nonzero and the stack holds n
    items, park the top n-1 at the deque's front, lift the n-th, bring the
    parked items back, and push the lifted one. The deque ends as it began.
   */
  method Rot(m: Machine) returns (r: Machine)
    ensures |m.stack| == 0 ==> r == Machine([], [Insufficient(1)] + m.deque)
    ensures |m.stack| > 0 ==>
      var st, n := m.stack[..|m.stack| - 1], Unsigned(Atoi(m.stack[|m.stack| - 1]));
      r == if n == 0 then Machine(st, m.deque)
           else if n <= |st| then Machine(Rotated(st, n), m.deque)
           else Machine(st, [Insufficient(n - |st|)] + m.deque)
  {
    var (ok, m1) := CheckStackSize(m, 1);
    if !ok {
      return m1;
    }
    var (k, m2) := PopInt(m1);
    var n := Unsigned(k);
    if n == 0 {
      return m2;
    }
    var (ok2, m3) := CheckStackSize(m2, n);
    if !ok2 {
      return m3;
    }
    r := RotateTop(m3, n);
  }

  /**
    The moves `menutils_Rot` makes once the count is known: park the top
    n-1 items at the deque's front, lift the n-th, bring the parked items
    back, and push the lifted one.
   */
  method RotateTop(m: Machine, n: nat) returns (r: Machine)
    requires 0 < n <= |m.stack|
    ensures r == Machine(Rotated(m.stack, n), m.deque)
  {
    ghost var st, L := m.stack, |m.stack|;
    var parked := Park(m, n - 1);
    var (lifted, c) := PopString(parked);
    assert c.stack == st[..L - n] && lifted == st[L - n];
    var back := Unpark(c, n - 1);
    assert back.stack == st[..L - n] + st[L - n + 1..];
    r := Push(back, lifted);
  }

  /** The first loop of `menutils_Rot`: move the top k items, one by one, to the deque's front. */
  method Park(m: Machine, k: nat) returns (r: Machine)
    requires k <= |m.stack|
    ensures r.stack == m.stack[..|m.stack| - k] && r.deque == m.stack[|m.stack| - k..] + m.deque
  {
    var L := |m.stack|;
    r := m;
    var i := 0;
    while i < k
      invariant 0 <= i <= k
      invariant r.stack == m.stack[..L - i] && r.deque == m.stack[L - i..] + m.deque
    {
      var (s, c) := PopString(r);
      assert m.stack[L - i - 1..] == [s] + m.stack[L - i..];
      r := c.(deque := [s] + c.deque);
      i := i + 1;
    }
  }

  /** The second loop of `menutils_Rot`: move the first k deque items, one by one, onto the stack. */
  method Unpark(m: Machine, k: nat) returns (r: Machine)
    requires k <= |m.deque|
    ensures r.stack == m.stack + m.deque[..k] && r.deque == m.deque[k..]
  {
    r := m;
    var j := 0;
    while j < k
      invariant 0 <= j <= k
      invariant r.stack == m.stack + m.deque[..j] && r.deque == m.deque[j..]
    {
      var (s, c) := PopStringD(r);
      assert m.deque[..j + 1] == m.deque[..j] + [s];
      r := Push(c, s);
      j := j + 1;
    }
  }

  /**
    `menutils_Select`: pop c, b, a; push a when c is `"true"` or reads as a
    nonzero number, else b. `nonzero` stands for `atof(c) != 0`.
   */
  function Select(m: Machine, nonzero: string -> bool): (r: Machine)
    ensures |m.stack| >= 3 ==>
      var L := |m.stack|;
      var c := m.stack[L - 1];
      r == Machine(m.stack[..L - 3] + [if c == "true" || nonzero(c) then m.stack[L - 3] else m.stack[L - 2]], m.deque)
    ensures |m.stack| < 3 ==> r == Machine(m.stack, [Insufficient(3 - |m.stack|)] + m.deque)
  {
    var (ok, m1) := CheckStackSize(m, 3);
    if !ok then m1
    else
      var (c, m2) := PopString(m1);
      var (b, m3) := PopString(m2);
      var (a, m4) := PopString(m3);
      assert m4.stack == m.stack[..|m.stack| - 3];
      Push(m4, if c == "true" || nonzero(c) then a else b)
  }

  /**
    `menutils_Exec`: pop a string, split it into blank-separated words, and
    put them at the deque's front in their original order, pushing the last
    word first.
   */
  method Exec(m: Machine) returns (r: Machine)
    ensures |m.stack| == 0 ==> r == Machine([], [Insufficient(1)] + m.deque)
    ensures |m.stack| > 0 ==>
      r == Machine(m.stack[..|m.stack| - 1], Split(m.stack[|m.stack| - 1], Blanks) + m.deque)
  {
    var (ok, m1) := CheckStackSize(m, 1);
    if !ok {
      return m1;
    }
    var (top, m2) := PopString(m1);
    var d := PrependAll(Split(top, Blanks), m2.deque);
    r := Machine(m2.stack, d);
  }

  /** Push the words to a deque's front from the last one back, so they end up in order. */
  method PrependAll(w: seq<string>, d0: seq<string>) returns (d: seq<string>)
    ensures d == w + d0
  {
    var v := w;
    d := d0;
    while |v| > 0
      invariant v == w[..|v|] && d == w[|v|..] + d0
    {
      assert w[|v| - 1..] == [v[|v| - 1]] + w[|v|..];
      d := [v[|v| - 1]] + d;
      v := v[..|v| - 1];
    }
  }

  /** Words written one per blank-led field come back whole and in order. */
  lemma ExecWords(ws: seq<string>)
    requires forall i :: 0 <= i < |ws| ==> |ws[i]| > 0 && Clean(ws[i], Blanks)
    ensures Split(Prefixed(ws, ' '), Blanks) == ws
  {
    SplitPrefixed(ws, ' ', Blanks);
  }

  /** `menutils_Barf`: the error control string goes to the deque's front. */
  function Barf(m: Machine): (r: Machine)
    ensures r.stack == m.stack && |r.deque| > 0 && r.deque[1..] == m.deque && StartsWith(r.deque[0], BarfControl)
  {
    m.(deque := [BarfControl] + m.deque)
  }

  /** `menutils_Exit`: the exit control string goes to the deque's front. */
  function Exit(m: Machine): (r: Machine)
    ensures r.stack == m.stack && |r.deque| > 0 && r.deque[1..] == m.deque && StartsWith(r.deque[0], ExitControl)
  {
    m.(deque := [ExitControl] + m.deque)
  }
}

=== FILE: conversion_gamma.dfy ===
/**
  A gamma transition with internal conversion (`ConversionGamma`). The
  transition either emits the gamma or, with the shells' relative
  probabilities, a conversion electron from one atomic subshell, whose energy
  is the gamma energy less that subshell's binding energy.
 */
module Conversion {
  import opened Wrappers
  import opened Selector
  import opened Events

  /**
    One `CE_<shell>` record: the shell's conversion coefficient and, after the
    `@`, its subshell weights (None when the record names no subshells, which
    stands for a single subshell of weight 1).
   */
  datatype ShellSpec = ShellSpec(coeff: real, subshells: Option<seq<real>>)

  /**
    `shells` holds one category per conversion shell plus a final gamma
    category; `subshells[i]` chooses the subshell of shell i.
   */
  datatype ConversionGamma = ConversionGamma(
    Egamma: real,
    Igamma: real,
    shells: PSelector,
    subshells: seq<PSelector>,
    Itotal: real)

  /** Shape every constructed transition has: one shell category per subshell selector, plus the gamma. */
  predicate WellFormed(cg: ConversionGamma) {
    && |cg.shells.cumprob| >= 1
    && Count(cg.shells) == |cg.subshells| + 1
    && forall i :: 0 <= i < |cg.subshells| ==> |cg.subshells[i].cumprob| >= 1
  }

  /** The shell records that are read: those before the first absent one (the loop's `break`). */
  function UsedShells(specs: seq<Option<ShellSpec>>): (used: seq<ShellSpec>)
    ensures |used| <= |specs|
    ensures forall i :: 0 <= i < |used| ==> specs[i] == Some(used[i])
    ensures |used| < |specs| ==> specs[|used|].None?
  {
    if |specs| == 0 || specs[0].None? then []
    else [specs[0].value] + UsedShells(specs[1..])
  }

  /** Subshell weights of one record; a record without subshells has the single weight 1. */
  function SubshellWeights(sh: ShellSpec): (ws: seq<real>)
    ensures sh.subshells.None? ==> ws == [1.0]
    ensures sh.subshells.Some? ==> ws == sh.subshells.value
  {
    match sh.subshells
    case None => [1.0]
    case Some(ws) => ws
  }

  function Coefficients(used: seq<ShellSpec>): (cs: seq<real>)
    ensures |cs| == |used|
    ensures forall i :: 0 <= i < |used| ==> cs[i] == used[i].coeff
  {
    seq(|used|, i requires 0 <= i < |used| => used[i].coeff)
  }

  /** An intensity given in percent, as a fraction. */
  function Percent(p: real): (f: real)
    ensures Mul(f, 100.0) == p
  {
    p / 100.0
  }

  /**
    The constructor: gamma energy from the two level energies, `Igamma` from
    a percentage, shells plus gamma category scaled by `Igamma`, and the
    total intensity read off the scaled selector.
   */
  function New(Efrom: real, Eto: real, percent: real, specs: seq<Option<ShellSpec>>): (cg: ConversionGamma)
    ensures WellFormed(cg)
    ensures cg.Egamma == Efrom - Eto
    ensures cg.Igamma == Percent(percent)
    ensures |cg.subshells| == |UsedShells(specs)|
  {
    var used := UsedShells(specs);
    var Igamma := Percent(percent);
    var shells := ShellSelector(Coefficients(used), Igamma);
    ConversionGamma(Efrom - Eto, Igamma, shells, SubshellSelectors(used), Total(shells))
  }

  /** The shell selector and total intensity of a constructed transition, spelled out. */
  lemma NewShells(Efrom: real, Eto: real, percent: real, specs: seq<Option<ShellSpec>>)
    ensures var cg := New(Efrom, Eto, percent, specs);
      && cg.shells == ShellSelector(Coefficients(UsedShells(specs)), Percent(percent))
      && cg.Itotal == Total(cg.shells)
      && cg.shells == ShellSelector(Coefficients(UsedShells(specs)), cg.Igamma)
  {
  }

  /** One subshell selector per used shell record, with that record's subshell weights. */
  function SubshellSelectors(used: seq<ShellSpec>): (subs: seq<PSelector>)
    ensures |subs| == |used|
    ensures forall i :: 0 <= i < |used| ==> subs[i] == FromWeights(SubshellWeights(used[i]))
  {
    seq(|used|, i requires 0 <= i < |used| => FromWeights(SubshellWeights(used[i])))
  }

  /** One category per conversion coefficient, then the gamma's weight 1, all scaled by `Igamma`. */
  function ShellSelector(cs: seq<real>, Igamma: real): (s: PSelector)
    ensures |s.cumprob| == |cs| + 2
  {
    Scale(AddProb(FromWeights(cs), 1.0), Igamma)
  }

  lemma ShellSelectorTotal(cs: seq<real>, Igamma: real)
    ensures Total(ShellSelector(cs, Igamma)) == Mul(Igamma, Sum(cs) + 1.0)
  {
    var unscaled := AddProb(FromWeights(cs), 1.0);
    var t := Total(unscaled);
    assert t == Sum(cs) + 1.0;
    ScaleTotal(unscaled, Igamma);
    MulRight(Igamma, t, Sum(cs) + 1.0);
  }

  /** The total intensity is `Igamma` times one plus the sum of the conversion coefficients. */
  lemma TotalIntensity(Efrom: real, Eto: real, percent: real, specs: seq<Option<ShellSpec>>,
                        cg: ConversionGamma, cs: seq<real>)
    requires cg == New(Efrom, Eto, percent, specs) && cs == Coefficients(UsedShells(specs))
    ensures cg.Itotal == Mul(cg.Igamma, Sum(cs) + 1.0)
  {
    NewShells(Efrom, Eto, percent, specs);
    ShellTotalOf(cg, cs);
  }

  lemma ShellTotalOf(cg: ConversionGamma, cs: seq<real>)
    requires cg.shells == ShellSelector(cs, cg.Igamma) && cg.Itotal == Total(cg.shells)
    ensures cg.Itotal == Mul(cg.Igamma, Sum(cs) + 1.0)
  {
    ShellSelectorTotal(cs, cg.Igamma);
  }

  /**
    Shell i's share of the intensity is its coefficient over one plus the sum
    of all coefficients, and the gamma's share is one over the same sum:
    scaling by `Igamma` does not change the shares.
   */
  lemma ShellShares(Efrom: real, Eto: real, percent: real, specs: seq<Option<ShellSpec>>,
                     cg: ConversionGamma, cs: seq<real>, i: nat)
    requires cg == New(Efrom, Eto, percent, specs) && cs == Coefficients(UsedShells(specs))
    requires percent != 0.0 && Sum(cs) + 1.0 != 0.0 && i <= |cs|
    ensures Total(cg.shells) != 0.0
    ensures GetProb(cg.shells, i) == (if i < |cs| then cs[i] else 1.0) / (Sum(cs) + 1.0)
  {
    NewShells(Efrom, Eto, percent, specs);
    ShellSharesOf(cs, cg.Igamma, i);
  }

  lemma ShellSharesOf(cs: seq<real>, k: real, i: nat)
    requires k != 0.0 && Sum(cs) + 1.0 != 0.0 && i <= |cs|
    ensures Total(ShellSelector(cs, k)) != 0.0
    ensures GetProb(ShellSelector(cs, k), i) == (if i < |cs| then cs[i] else 1.0) / (Sum(cs) + 1.0)
  {
    var unscaled := AddProb(FromWeights(cs), 1.0);
    assert Width(unscaled, i) == (if i < |cs| then cs[i] else 1.0);
    assert Total(unscaled) == Sum(cs) + 1.0;
    ScalePreservesProb(unscaled, k, i);
  }

  /** With non-negative coefficients and intensity, the shell selector is a valid one. */
  lemma NewValid(Efrom: real, Eto: real, percent: real, specs: seq<Option<ShellSpec>>, cg: ConversionGamma)
    requires cg == New(Efrom, Eto, percent, specs)
    requires percent >= 0.0
    requires NonNegative(Coefficients(UsedShells(specs)))
    ensures Valid(cg.shells)
  {
    NewShells(Efrom, Eto, percent, specs);
    ScaleKeepsValid(AddProb(FromWeights(Coefficients(UsedShells(specs))), 1.0), cg.Igamma);
  }

  /** The final buffer and the event of one `run`; the transition remembers nothing else the model uses. */
  datatype Emission = Emission(event: Event, buf: seq<real>)

  /**
    `run` with caller-supplied variates at `buf[pos]`: select a shell, which
    overwrites the variate with its residual; if a conversion shell was chosen,
    select its subshell with that residual. The variate slot ends up holding
    the last residual. A failed selection (variate outside [0,1] or no
    category below it) and a cursor past the buffer give None.
    `binding(shell, subshell)` is the destination atom's binding energy.
   */
  function Run(cg: ConversionGamma, buf: seq<real>, pos: nat, binding: (nat, nat) -> real): (r: Option<Emission>)
    requires WellFormed(cg)
    ensures r.Some? ==> pos < |buf| && |r.value.buf| == |buf|
    ensures r.Some? ==> forall j :: 0 <= j < |buf| && j != pos ==> r.value.buf[j] == buf[j]
    ensures r.Some? ==> 0.0 <= r.value.buf[pos] < 1.0
    ensures r.Some? && r.value.event.d == Gamma ==> r.value.event.E == cg.Egamma
    ensures r.Some? ==> r.value.event.d != Positron
  {
    if pos >= |buf| then None
    else
      match Select(cg.shells, buf[pos])
      case None => None
      case Some(sh) =>
        if sh.index < |cg.subshells| then
          match Select(cg.subshells[sh.index], sh.residual)
          case None => None
          case Some(sub) =>
            Some(Emission(Event(Electron, cg.Egamma - binding(sh.index, sub.index)), buf[pos := sub.residual]))
        else
          Some(Emission(Event(Gamma, cg.Egamma), buf[pos := sh.residual]))
  }

  /**
    On a valid shell selector the gamma is emitted exactly when the variate,
    rescaled by the total intensity, reaches the gamma category's lower
    boundary; any other outcome is a conversion electron whose energy is the
    gamma energy less the binding energy of the chosen shell's subshell, and
    that subshell is the one drawn with the residual the shell selection left
    in the variate slot.
   */
  lemma RunGammaIff(cg: ConversionGamma, buf: seq<real>, pos: nat, binding: (nat, nat) -> real)
    requires WellFormed(cg) && Valid(cg.shells)
    requires Run(cg, buf, pos, binding).Some?
    ensures var e := Run(cg, buf, pos, binding).value.event;
      e.d == Gamma <==> Mul(buf[pos], Total(cg.shells)) >= cg.shells.cumprob[|cg.subshells|]
    ensures var e := Run(cg, buf, pos, binding).value.event;
      e.d == Electron <==> exists i, j ::
        && 0 <= i < |cg.subshells| && 0 <= j < Count(cg.subshells[i])
        && cg.shells.cumprob[i] <= Mul(buf[pos], Total(cg.shells)) < cg.shells.cumprob[i + 1]
        && e.E == cg.Egamma - binding(i, j)
    ensures var r := Run(cg, buf, pos, binding).value;
      var sh := Select(cg.shells, buf[pos]);
      && sh.Some?
      && (r.event.d == Gamma ==> r.buf[pos] == sh.value.residual)
      && (r.event.d == Electron ==>
            && sh.value.index < |cg.subshells|
            && var sub := Select(cg.subshells[sh.value.index], sh.value.residual);
            && sub.Some?
            && r.event.E == cg.Egamma - binding(sh.value.index, sub.value.index)
            && r.buf[pos] == sub.value.residual)
  {
    var sh := Select(cg.shells, buf[pos]).value;
    SelectLast(cg.shells, buf[pos]);
    if sh.index < |cg.subshells| {
      var sub := Select(cg.subshells[sh.index], sh.residual).value;
      assert sub.index < Count(cg.subshells[sh.index]);
    }
  }

  /**
    A valid transition with positive intensity and subshell selectors of
    positive mass emits an event for every variate in [0,1).
   */
  lemma RunDefined(cg: ConversionGamma, buf: seq<real>, pos: nat, binding: (nat, nat) -> real)
    requires WellFormed(cg) && Valid(cg.shells) && Total(cg.shells) > 0.0
    requires forall i :: 0 <= i < |cg.subshells| ==> Valid(cg.subshells[i]) && Total(cg.subshells[i]) > 0.0
    requires pos < |buf| && 0.0 <= buf[pos] < 1.0
    ensures Run(cg, buf, pos, binding).Some?
  {
    SelectDefined(cg.shells, buf[pos]);
    var sh := Select(cg.shells, buf[pos]).value;
    if sh.index < |cg.subshells| {
      SelectDefined(cg.subshells[sh.index], sh.residual);
    }
  }
}

=== FILE: data_source.dfy ===
/**
  Sequential object streams (`DataSource`) and the concatenation of several
  streams (`DataSourceSeq`).

  The base class leaves `next` to its subclasses; a leaf stream is modelled
  as a rewindable list: its items, a cursor, and the remaining-size
  estimate its `entries()` reports at each cursor position. The estimate is
  the subclass's own and need not be the true count; where none is given,
  the base class's 0 is reported. A concatenation holds leaf streams and the
  index `i` of the one being read.
 */
module DataStream {
  import opened Wrappers

  /** A remaining-size estimate: a count, or `max_entries` ("unknown / unbounded"). */
  datatype Count = Finite(n: nat) | Max

  /** A leaf stream over `items`, positioned at `pos`; `reports[p]` is what `entries()` says at position p. */
  datatype List<T> = List(items: seq<T>, pos: nat, reports: seq<Count>)

  /** A stream: a leaf, or `DataSourceSeq` over leaf streams `v` reading the i-th. */
  datatype Source<T> = Leaf(l: List<T>) | Concat(v: seq<List<T>>, i: nat)

  predicate LeafValid<T>(l: List<T>) {
    l.pos <= |l.items|
  }

  /** The class invariants: cursors within their lists, `i <= v.size()`. */
  predicate Valid<T>(s: Source<T>) {
    match s
    case Leaf(l) => LeafValid(l)
    case Concat(v, i) => i <= |v| && forall j :: 0 <= j < |v| ==> LeafValid(v[j])
  }

  // ---------------------------------------------------------------- what a stream still holds

  function LeafRest<T>(l: List<T>): seq<T>
    requires LeafValid(l)
  {
    l.items[l.pos..]
  }

  /** The items of leaves j, j+1, ... in order. */
  function Flatten<T>(v: seq<List<T>>, j: nat): seq<T>
    requires forall k :: 0 <= k < |v| ==> LeafValid(v[k])
    decreases |v| - j
  {
    if j >= |v| then [] else LeafRest(v[j]) + Flatten(v, j + 1)
  }

  /** The items the stream will still yield, in order. */
  function Remaining<T>(s: Source<T>): seq<T>
    requires Valid(s)
  {
    match s
    case Leaf(l) => LeafRest(l)
    case Concat(v, i) => Flatten(v, i)
  }

  /** Flatten reads only the leaves from j on. */
  lemma {:induction false} FlattenFrom<T>(v: seq<List<T>>, w: seq<List<T>>, j: nat)
    requires |v| == |w|
    requires forall k :: 0 <= k < |v| ==> LeafValid(v[k]) && LeafValid(w[k])
    requires forall k :: j <= k < |v| ==> v[k] == w[k]
    ensures Flatten(v, j) == Flatten(w, j)
    decreases |v| - j
  {
    if j < |v| {
      FlattenFrom(v, w, j + 1);
    }
  }

  // ---------------------------------------------------------------- next

  /** A leaf's `next`: the item at the cursor, advancing it, or failure at the end. */
  function LeafNext<T>(l: List<T>): (r: (Option<T>, List<T>))
    requires LeafValid(l)
    ensures LeafValid(r.1) && r.1.items == l.items && r.1.reports == l.reports
    ensures r.0.Some? <==> |LeafRest(l)| > 0
    ensures r.0.Some? ==> r.0.value == LeafRest(l)[0] && LeafRest(r.1) == LeafRest(l)[1..]
    ensures r.0.None? ==> r.1 == l
  {
    if l.pos < |l.items| then (Some(l.items[l.pos]), l.(pos := l.pos + 1)) else (None, l)
  }

  /**
    `DataSourceSeq::next`: while the current leaf fails, move to the next
    one; succeed when a leaf yields an item, fail once past the last.
   */
  function ConcatNext<T>(v: seq<List<T>>, i: nat): (r: (Option<T>, Source<T>))
    requires Valid(Concat(v, i))
    ensures r.1.Concat? && Valid(r.1) && |r.1.v| == |v| && i <= r.1.i
    ensures forall k :: 0 <= k < |v| ==> r.1.v[k].items == v[k].items
    ensures r.0.Some? <==> r.1.i < |v|
    decreases |v| - i
  {
    if i == |v| then (None, Concat(v, i))
    else
      var (o, l) := LeafNext(v[i]);
      if o.Some? then (o, Concat(v[i := l], i))
      else ConcatNext(v[i := l], i + 1)
  }

  /** `next` of either kind of stream. */
  function Next<T>(s: Source<T>): (r: (Option<T>, Source<T>))
    requires Valid(s)
    ensures Valid(r.1) && r.1.Leaf? == s.Leaf?
  {
    match s
    case Leaf(l) => var (o, l') := LeafNext(l); (o, Leaf(l'))
    case Concat(v, i) => ConcatNext(v, i)
  }

  /** A concatenation yields exactly what the leaves hold, in order: the head of the remainder, if any. */
  lemma {:induction false} ConcatNextRemaining<T>(v: seq<List<T>>, i: nat)
    requires Valid(Concat(v, i))
    ensures var r := ConcatNext(v, i);
      && (r.0.Some? <==> |Flatten(v, i)| > 0)
      && (r.0.Some? ==> r.0.value == Flatten(v, i)[0] && Remaining(r.1) == Flatten(v, i)[1..])
      && (r.0.None? ==> Remaining(r.1) == [])
    decreases |v| - i
  {
    if i < |v| {
      var (o, l) := LeafNext(v[i]);
      var w := v[i := l];
      assert Flatten(v, i) == LeafRest(v[i]) + Flatten(v, i + 1);
      FlattenFrom(v, w, i + 1);
      if o.None? {
        assert LeafRest(v[i]) == [];
        ConcatNextRemaining(w, i + 1);
      } else {
        ConsTail(LeafRest(v[i]), Flatten(v, i + 1));
        assert Flatten(w, i) == LeafRest(l) + Flatten(w, i + 1);
      }
    }
  }

  lemma ConsTail<T>(a: seq<T>, b: seq<T>)
    requires |a| > 0
    ensures (a + b)[0] == a[0] && (a + b)[1..] == a[1..] + b
  {
  }

  /** Either kind of stream yields the head of what it still holds, and fails exactly when it holds nothing. */
  lemma NextRemaining<T>(s: Source<T>)
    requires Valid(s)
    ensures var r := Next(s);
      && (r.0.Some? <==> |Remaining(s)| > 0)
      && (r.0.Some? ==> r.0.value == Remaining(s)[0] && Remaining(r.1) == Remaining(s)[1..])
      && (r.0.None? ==> Remaining(r.1) == [])
  {
    if s.Concat? {
      ConcatNextRemaining(s.v, s.i);
    }
  }

  // ---------------------------------------------------------------- skip

  /** The default `skip(n)`: call `next` up to n times, failing at the first call that fails. */
  function Skip<T>(s: Source<T>, n: nat): (r: (bool, Source<T>))
    requires Valid(s)
    ensures Valid(r.1)
    decreases n
  {
    if n == 0 then (true, s)
    else
      var (o, s') := Next(s);
      if o.None? then (false, s') else Skip(s', n - 1)
  }

  /** Skipping n items succeeds exactly when n items remain, and drops that many (or all) from the front. */
  lemma {:induction false} SkipRemaining<T>(s: Source<T>, n: nat)
    requires Valid(s)
    ensures var r := Skip(s, n);
      var R := Remaining(s);
      && (r.0 <==> n <= |R|)
      && Remaining(r.1) == (if n <= |R| then R[n..] else [])
    decreases n
  {
    if n > 0 {
      NextRemaining(s);
      var p := Next(s);
      var R := Remaining(s);
      if p.0.Some? {
        assert Remaining(p.1) == R[1..];
        SkipRemaining(p.1, n - 1);
        if n <= |R| {
          assert R[1..][n - 1..] == R[n..];
        }
      }
    }
  }

  // ---------------------------------------------------------------- reset

  /** Every item of leaves j, j+1, ... from their starts. */
  function FlattenAll<T>(v: seq<List<T>>, j: nat): seq<T>
    decreases |v| - j
  {
    if j >= |v| then [] else v[j].items + FlattenAll(v, j + 1)
  }

  /** What the stream yields from its start: every item of every leaf. */
  function All<T>(s: Source<T>): seq<T> {
    match s
    case Leaf(l) => l.items
    case Concat(v, _) => FlattenAll(v, 0)
  }

  function LeafReset<T>(l: List<T>): (r: List<T>)
    ensures LeafValid(r) && LeafRest(r) == l.items && r.items == l.items
  {
    l.(pos := 0)
  }

  /** Leaves below k rewound, the others untouched. */
  function ResetBelow<T>(v: seq<List<T>>, k: nat): (w: seq<List<T>>)
    requires k <= |v|
    ensures |w| == |v|
    ensures forall j :: 0 <= j < k ==> w[j] == LeafReset(v[j])
    ensures forall j :: k <= j < |v| ==> w[j] == v[j]
  {
    seq(|v|, j requires 0 <= j < |v| => if j < k then LeafReset(v[j]) else v[j])
  }

  /**
    `DataSourceSeq::reset` as written: rewind leaves i-1 down to 0 and set
    i to 0. The leaf being read, v[i], is not rewound.
   */
  function ResetAsWritten<T>(s: Source<T>): (r: Source<T>)
    requires Valid(s)
    ensures Valid(r)
  {
    match s
    case Leaf(l) => Leaf(LeafReset(l))
    case Concat(v, i) => Concat(ResetBelow(v, i), 0)
  }

  /** Reset as evidently intended ("reset to start"): every leaf is rewound, the one being read included. */
  function Reset<T>(s: Source<T>): (r: Source<T>)
    requires Valid(s)
    ensures Valid(r)
  {
    match s
    case Leaf(l) => Leaf(LeafReset(l))
    case Concat(v, i) => Concat(ResetBelow(v, |v|), 0)
  }

  /** Rewound leaves yield their items whole. */
  lemma {:induction false} FlattenRewound<T>(v: seq<List<T>>, j: nat)
    ensures Flatten(ResetBelow(v, |v|), j) == FlattenAll(v, j)
    decreases |v| - j
  {
    if j < |v| {
      FlattenRewound(v, j + 1);
    }
  }

  /** After a reset the stream yields everything again from the start. */
  lemma ResetRestarts<T>(s: Source<T>)
    requires Valid(s)
    ensures Remaining(Reset(s)) == All(s)
  {
    if s.Concat? {
      FlattenRewound(s.v, 0);
    }
  }

  /** Reset as written does not restart a concatenation whose first leaf is partly read. */
  lemma ResetAsWrittenKeepsPosition()
    ensures var s := Concat([List([1, 2], 1, [])], 0);
      Valid(s) && Remaining(ResetAsWritten(s)) == [2] && All(s) == [1, 2]
  {
    var s := Concat([List([1, 2], 1, [])], 0);
    var w := ResetAsWritten(s);
    assert w.v[0] == List([1, 2], 1, []);
    assert Flatten(w.v, 0) == [2] + Flatten(w.v, 1);
  }

  /** Once the concatenation is exhausted (the only state `next_loop` resets from), both resets agree. */
  lemma ResetAsWrittenExhausted<T>(s: Source<T>)
    requires Valid(s) && (s.Concat? ==> s.i == |s.v|)
    ensures ResetAsWritten(s) == Reset(s)
  {
  }

  // ---------------------------------------------------------------- looping

  /** `next_loop`: on failure, reset and try once more. */
  function NextLoop<T>(s: Source<T>): (r: (Option<T>, Source<T>))
    requires Valid(s)
    ensures Valid(r.1)
  {
    var (o, s') := Next(s);
    if o.Some? then (o, s') else Next(Reset(s'))
  }

  /** A looping stream yields an item whenever it holds any from its start. */
  lemma NextLoopYields<T>(s: Source<T>)
    requires Valid(s)
    ensures NextLoop(s).0.Some? <==> |All(s)| > 0
  {
    NextRemaining(s);
    var (o, s') := Next(s);
    if o.None? {
      assert All(s') == All(s) by {
        if s.Concat? {
          AllKeeps(s.v, s'.v, 0);
        }
      }
      ResetRestarts(s');
      NextRemaining(Reset(s'));
    } else if s.Concat? {
      NonEmptyAll(s.v, s.i);
      AllSuffix(s.v, 0, s.i);
    } else {
      assert |s.l.items| > 0;
    }
  }

  /** The retry inside `next_loop` happens only after the stream is exhausted, so reset as written is harmless there. */
  lemma NextLoopAsWritten<T>(s: Source<T>)
    requires Valid(s)
    ensures var (o, s') := Next(s);
      o.None? ==> ResetAsWritten(s') == Reset(s')
  {
  }

  /** `max_entries` when looping, else `entries()`. */
  function EntriesOptLoop<T>(s: Source<T>, doLoop: bool): (c: Count)
    requires Valid(s)
    ensures doLoop ==> c == Max
  {
    if doLoop then Max else Entries(s)
  }

  /** `next_optloop`: `next_loop` when looping, else `next`. */
  function NextOptLoop<T>(s: Source<T>, doLoop: bool): (r: (Option<T>, Source<T>))
    requires Valid(s)
    ensures Valid(r.1)
  {
    if doLoop then NextLoop(s) else Next(s)
  }

  /**
    `entries_optloop` is `max_entries` when looping and otherwise the plain
    estimate, exact when every leaf still to be read reports exactly; a
    looping stream never runs dry while it has items.
   */
  lemma OptLoopProperties<T>(s: Source<T>, doLoop: bool)
    requires Valid(s)
    ensures EntriesOptLoop(s, doLoop).Finite? ==> !doLoop && EntriesOptLoop(s, doLoop) == Entries(s)
    ensures EntriesOptLoop(s, doLoop).Finite? && ExactFrom(s) ==> EntriesOptLoop(s, doLoop).n == |Remaining(s)|
    ensures doLoop && |All(s)| > 0 ==> NextOptLoop(s, doLoop).0.Some?
    ensures !doLoop ==> NextOptLoop(s, doLoop) == Next(s)
  {
    EntriesExact(s);
    if doLoop {
      NextLoopYields(s);
    }
  }

  // ---------------------------------------------------------------- entries

  /** A leaf's `entries()`: its own report at the cursor, or the base class's 0 without one. */
  function LeafEntries<T>(l: List<T>): Count
  {
    if l.pos < |l.reports| then l.reports[l.pos] else Finite(0)
  }

  /** `DataSourceSeq::entries`: the sum over leaves j, j+1, ..., or `max_entries` as soon as one reports it. */
  function ConcatEntries<T>(v: seq<List<T>>, j: nat, e: nat): Count
    decreases |v| - j
  {
    if j >= |v| then Finite(e)
    else match LeafEntries(v[j])
      case Max => Max
      case Finite(ee) => ConcatEntries(v, j + 1, e + ee)
  }

  /** `entries()` of either kind of stream. */
  function Entries<T>(s: Source<T>): Count
    requires Valid(s)
  {
    match s
    case Leaf(l) => LeafEntries(l)
    case Concat(v, i) => ConcatEntries(v, i, 0)
  }

  /** Some leaf from j on reports `max_entries`. */
  predicate SomeMax<T>(v: seq<List<T>>, j: nat) {
    exists k :: j <= k < |v| && LeafEntries(v[k]).Max?
  }

  /** The reference sum of the finite reports of leaves j, j+1, ... */
  function Reported<T>(v: seq<List<T>>, j: nat): nat
    decreases |v| - j
  {
    if j >= |v| then 0
    else (match LeafEntries(v[j]) case Max => 0 case Finite(n) => n) + Reported(v, j + 1)
  }

  /**
    The loop reports `max_entries` exactly when a leaf from j on reports it,
    and otherwise the running sum plus every leaf's reported estimate.
   */
  lemma {:induction false} ConcatEntriesSum<T>(v: seq<List<T>>, j: nat, e: nat)
    ensures ConcatEntries(v, j, e).Max? <==> SomeMax(v, j)
    ensures ConcatEntries(v, j, e).Finite? ==> ConcatEntries(v, j, e).n == e + Reported(v, j)
    decreases |v| - j
  {
    if j < |v| {
      var ee := match LeafEntries(v[j]) case Max => 0 case Finite(n) => n;
      ConcatEntriesSum(v, j + 1, e + ee);
      if SomeMax(v, j + 1) {
        var k :| j + 1 <= k < |v| && LeafEntries(v[k]).Max?;
        assert j <= k;
      }
      if SomeMax(v, j) && !LeafEntries(v[j]).Max? {
        var k :| j <= k < |v| && LeafEntries(v[k]).Max?;
        assert k != j;
      }
    }
  }

  /** A leaf reports exactly: its estimate, when finite, is the number of items it still holds. */
  predicate LeafExact<T>(l: List<T>)
    requires LeafValid(l)
  {
    LeafEntries(l).Finite? ==> LeafEntries(l).n == |LeafRest(l)|
  }

  /** Every leaf still to be read reports exactly. */
  predicate ExactFrom<T>(s: Source<T>)
    requires Valid(s)
  {
    match s
    case Leaf(l) => LeafExact(l)
    case Concat(v, i) => forall k :: i <= k < |v| ==> LeafExact(v[k])
  }

  /** Over leaves that report exactly, a finite sum is the exact remaining count. */
  lemma {:induction false} ConcatEntriesExact<T>(v: seq<List<T>>, j: nat, e: nat)
    requires forall k :: 0 <= k < |v| ==> LeafValid(v[k])
    ensures (forall k :: j <= k < |v| ==> LeafExact(v[k])) && ConcatEntries(v, j, e).Finite? ==>
      ConcatEntries(v, j, e).n == e + |Flatten(v, j)|
    decreases |v| - j
  {
    if j < |v| && (forall k :: j <= k < |v| ==> LeafExact(v[k])) && ConcatEntries(v, j, e).Finite? {
      assert LeafExact(v[j]);
      ConcatEntriesExact(v, j + 1, e + |LeafRest(v[j])|);
    }
  }

  /** A finite estimate is the exact remaining count when every leaf still to be read reports exactly. */
  lemma EntriesExact<T>(s: Source<T>)
    requires Valid(s)
    ensures ExactFrom(s) && Entries(s).Finite? ==> Entries(s).n == |Remaining(s)|
    ensures s.Concat? ==> (Entries(s).Max? <==> SomeMax(s.v, s.i))
    ensures s.Concat? && Entries(s).Finite? ==> Entries(s).n == Reported(s.v, s.i)
  {
    if s.Concat? {
      ConcatEntriesExact(s.v, s.i, 0);
      ConcatEntriesSum(s.v, s.i, 0);
    }
  }

  /**
    The estimate is not the remaining count in general: a leaf holding two
    items that reports the base class's 0 makes `entries()` 0.
   */
  lemma EntriesMayUndercount()
    ensures var s := Concat([List([1, 2], 0, [])], 0);
      Valid(s) && Entries(s) == Finite(0) && |Remaining(s)| == 2
  {
    var s := Concat([List([1, 2], 0, [])], 0);
    assert Flatten(s.v, 0) == [1, 2] + Flatten(s.v, 1);
  }

  // ---------------------------------------------------------------- helpers for the looping lemma

  /** Reading changes cursors only, so the items from the start stay the same. */
  lemma {:induction false} AllKeeps<T>(v: seq<List<T>>, w: seq<List<T>>, j: nat)
    requires |v| == |w| && forall k :: 0 <= k < |v| ==> v[k].items == w[k].items
    ensures FlattenAll(v, j) == FlattenAll(w, j)
    decreases |v| - j
  {
    if j < |v| {
      AllKeeps(v, w, j + 1);
    }
  }

  /** Items still to come are items of the whole. */
  lemma {:induction false} NonEmptyAll<T>(v: seq<List<T>>, j: nat)
    requires forall k :: 0 <= k < |v| ==> LeafValid(v[k])
    ensures |Flatten(v, j)| <= |FlattenAll(v, j)|
    decreases |v| - j
  {
    if j < |v| {
      NonEmptyAll(v, j + 1);
    }
  }

  /** The items of later leaves are part of the items of earlier ones on. */
  lemma {:induction false} AllSuffix<T>(v: seq<List<T>>, k: nat, j: nat)
    requires k <= j
    ensures |FlattenAll(v, j)| <= |FlattenAll(v, k)|
    decreases j - k
  {
    if k < j && k < |v| {
      AllSuffix(v, k + 1, j);
    }
  }
}

=== FILE: decay_chain.dfy ===
/**
  Generating one decay cascade (`NucDecaySystem::genDecayChain`) and counting
  the variates a cascade may consume (`NucDecaySystem::getNDF`). The
  caller supplies the variates as a buffer with a cursor; every selection
  rewrites the variate under the cursor with its residual, and each
  transition moves the cursor on by the number of variates it consumes.
 */
module DecayChain {
  import opened Wrappers
  import opened Selector
  import opened Events
  import opened LevelScheme
  import Conversion

  /** The beta spectrum's quantile function `(transition, variate) -> energy`, a stand-in for `TF1_Quantiles`. */
  type Quantile = (Transition, real) -> real

  /** The events of a cascade, the variate buffer it leaves behind and the final cursor. */
  datatype Chain = Chain(events: seq<Event>, buf: seq<real>, pos: nat)

  /** A transition leads to a level of lower index, that is of no higher energy. */
  predicate Downward(t: Transition) {
    t.to < t.from
  }

  /** Every transition leads downward, so cascades end. */
  predicate Acyclic(sys: System) {
    forall j :: 0 <= j < |sys.transitions| ==> Downward(sys.transitions[j])
  }

  /** The k-th transition leaving level n. */
  function Outgoing(sys: System, n: nat, k: nat): (t: Transition)
    requires WellFormed(sys) && n < |sys.levels| && k < |sys.transOut[n]|
    ensures t.from == n && TransitionOK(t, |sys.levels|)
    ensures Acyclic(sys) ==> t.to < n
  {
    assert LevelOK(sys, n);
    var j := sys.transOut[n][k];
    assert TransitionOK(sys.transitions[j], |sys.levels|);
    assert Acyclic(sys) ==> Downward(sys.transitions[j]);
    sys.transitions[j]
  }

  /** Level n's decay selector has one category per outgoing transition. */
  lemma DecayCount(sys: System, n: nat)
    requires WellFormed(sys) && n < |sys.levels|
    ensures |sys.levelDecays[n].cumprob| >= 1 && Count(sys.levelDecays[n]) == |sys.transOut[n]|
  {
    assert LevelOK(sys, n);
  }

  // ---------------------------------------------------------------- running one transition

  /**
    `T->run(v, rnd)` for the variates at `buf[pos..]`: a conversion gamma
    selects its shell and subshell at `buf[pos]` and emits one event, with
    binding energies taken from the atom of atomic number Z; a beta
    emits its particle with the energy the quantile function gives for
    `buf[pos + 2]`; an electron capture emits nothing. A failed selection or
    a variate beyond the buffer gives None.
   */
  function RunTransition(t: Transition, Z: nat, buf: seq<real>, pos: nat, B: Binding, q: Quantile):
    (r: Option<(seq<Event>, seq<real>)>)
    requires t.kind.ConversionKind? ==> Conversion.WellFormed(t.kind.cg)
    ensures r.Some? ==> |r.value.0| <= 1 && |r.value.1| == |buf|
    ensures r.Some? ==> forall j :: 0 <= j < |buf| && j != pos ==> r.value.1[j] == buf[j]
    ensures r.Some? ==> (|r.value.0| == 0 <==> t.kind.CaptureKind?)
    ensures r.Some? && t.kind.BetaKind? ==>
      r.value.0[0].d == (if t.kind.positron then Positron else Electron)
    ensures r.Some? && t.kind.ConversionKind? ==> r.value.0[0].d != Positron
    ensures t.kind.CaptureKind? ==> r == Some(([], buf))
  {
    match t.kind
    case ConversionKind(cg) =>
      (match Conversion.Run(cg, buf, pos, (sh: nat, sub: nat) => B(Z, sh, sub))
       case None => None
       case Some(em) => Some(([em.event], em.buf)))
    case BetaKind(positron) =>
      if pos + 2 < |buf| then Some(([Event(if positron then Positron else Electron, q(t, buf[pos + 2]))], buf))
      else None
    case CaptureKind => Some(([], buf))
  }

  // ---------------------------------------------------------------- the cascade

  /** The cascade stops at level n: nothing leaves it, or it is a long-lived level it was not started at. */
  predicate Stops(sys: System, n: nat, init: bool)
    requires n < |sys.levels|
  {
    sys.levels[n].fluxOut == 0.0 || (!init && sys.levels[n].hl > sys.tcut)
  }

  /**
    The cascade from level n (`init` when n was drawn as the starting level):
    unless it stops here, select an outgoing transition with the variate
    under the cursor, run it on the rewritten buffer, move the cursor past
    its variates and continue from its destination.
   */
  function Walk(sys: System, n: nat, init: bool, buf: seq<real>, pos: nat, B: Binding, q: Quantile): (r: Option<Chain>)
    requires WellFormed(sys) && Acyclic(sys) && n < |sys.levels|
    ensures r.Some? ==> |r.value.buf| == |buf| && pos <= r.value.pos
    ensures r.Some? ==> forall j :: 0 <= j < pos && j < |buf| ==> r.value.buf[j] == buf[j]
    ensures r.Some? ==> |r.value.events| <= n
    decreases n
  {
    if Stops(sys, n, init) then Some(Chain([], buf, pos))
    else if pos >= |buf| then None
    else
      DecayCount(sys, n);
      match Select(sys.levelDecays[n], buf[pos])
      case None => None
      case Some(sel) =>
        var t := Outgoing(sys, n, sel.index);
        match RunTransition(t, Unsigned(sys.levels[t.to].Z), buf[pos := sel.residual], pos, B, q)
        case None => None
        case Some(out) =>
          match Walk(sys, t.to, false, out.1, pos + t.ndf, B, q)
          case None => None
          case Some(rest) => Some(Chain(out.0 + rest.events, rest.buf, rest.pos))
  }

  /** The start-level selector covers every level, as `setCutoff` leaves it. */
  predicate StartReady(sys: System) {
    |sys.lStart.cumprob| >= 1 && Count(sys.lStart) == |sys.levels|
  }

  /**
    `genDecayChain(v, rnd, n)`: a level index at or past the last level
    means "draw the starting level" with the variate under the cursor;
    otherwise the cascade starts at level n as a non-initial level.
   */
  function GenDecayChain(sys: System, n: nat, buf: seq<real>, pos: nat, B: Binding, q: Quantile): (r: Option<Chain>)
    requires WellFormed(sys) && Acyclic(sys) && StartReady(sys)
    ensures r.Some? ==> |r.value.buf| == |buf| && pos <= r.value.pos
    ensures r.Some? ==> forall j :: 0 <= j < pos && j < |buf| ==> r.value.buf[j] == buf[j]
    ensures r.Some? ==> |r.value.events| < |sys.levels|
  {
    if n >= |sys.levels| then
      if pos >= |buf| then None
      else
        match Select(sys.lStart, buf[pos])
        case None => None
        case Some(s) => Walk(sys, s.index, true, buf[pos := s.residual], pos, B, q)
    else Walk(sys, n, false, buf, pos, B, q)
  }

  // ---------------------------------------------------------------- degrees of freedom

  /**
    `getNDF(n)`: the most variates a cascade from level n can consume, the
    maximum over its outgoing transitions of the transition's own count
    plus that of its destination; 0 for a level nothing leaves.
   */
  function NDF(sys: System, n: nat): (d: nat)
    requires WellFormed(sys) && Acyclic(sys) && n < |sys.levels|
    decreases n, 1, 0
  {
    NDFOuts(sys, n, |sys.transOut[n]|)
  }

  /** The maximum of `T.ndf + getNDF(T.to)` over the first k transitions leaving level n. */
  function NDFOuts(sys: System, n: nat, k: nat): (d: nat)
    requires WellFormed(sys) && Acyclic(sys) && n < |sys.levels| && k <= |sys.transOut[n]|
    decreases n, 0, k
  {
    if k == 0 then 0
    else
      var t := Outgoing(sys, n, k - 1);
      var l := t.ndf + NDF(sys, t.to);
      var d := NDFOuts(sys, n, k - 1);
      if l > d then l else d
  }

  /** What one outgoing transition and its destination can consume. */
  function Through(sys: System, n: nat, k: nat): nat
    requires WellFormed(sys) && Acyclic(sys) && n < |sys.levels| && k < |sys.transOut[n]|
  {
    var t := Outgoing(sys, n, k);
    t.ndf + NDF(sys, t.to)
  }

  /** NDFOuts is the maximum of Through over the first k transitions: an upper bound that is attained. */
  lemma {:induction false} NDFOutsMax(sys: System, n: nat, k: nat)
    requires WellFormed(sys) && Acyclic(sys) && n < |sys.levels| && k <= |sys.transOut[n]|
    ensures forall i :: 0 <= i < k ==> Through(sys, n, i) <= NDFOuts(sys, n, k)
    ensures k == 0 ==> NDFOuts(sys, n, k) == 0
    ensures k > 0 ==> exists i :: 0 <= i < k && Through(sys, n, i) == NDFOuts(sys, n, k)
  {
    if k > 0 {
      NDFOutsMax(sys, n, k - 1);
      assert Through(sys, n, k - 1) == Outgoing(sys, n, k - 1).ndf + NDF(sys, Outgoing(sys, n, k - 1).to);
      if k - 1 > 0 {
        var i :| 0 <= i < k - 1 && Through(sys, n, i) == NDFOuts(sys, n, k - 1);
      }
    }
  }

  /**
    `getNDF(n)` bounds what every outgoing transition and its destination
    can consume, is reached by one of them, and is 0 exactly for levels that
    nothing leaves or whose every path consumes nothing.
   */
  lemma NDFMax(sys: System, n: nat)
    requires WellFormed(sys) && Acyclic(sys) && n < |sys.levels|
    ensures forall k :: 0 <= k < |sys.transOut[n]| ==> Through(sys, n, k) <= NDF(sys, n)
    ensures |sys.transOut[n]| == 0 ==> NDF(sys, n) == 0
    ensures |sys.transOut[n]| > 0 ==> exists k :: 0 <= k < |sys.transOut[n]| && Through(sys, n, k) == NDF(sys, n)
  {
    NDFOutsMax(sys, n, |sys.transOut[n]|);
  }

  /**
    Whether level i can start a cascade: its start probability is nonzero.
    When the total start mass is zero, `getProb` divides by zero; the
    quotient is not a number or infinite, neither of which is false, so
    the level counts.
   */
  predicate MayStart(sys: System, i: nat)
    requires StartReady(sys) && i < |sys.levels|
  {
    Total(sys.lStart) == 0.0 || GetProb(sys.lStart, i) != 0.0
  }

  /** `getNDF()` with no level: the maximum of `getNDF(i)` over the levels that can start a cascade. */
  function NDFAll(sys: System): (d: nat)
    requires WellFormed(sys) && Acyclic(sys) && StartReady(sys)
  {
    NDFStarts(sys, |sys.levels|)
  }

  /** The maximum of `getNDF(i)` over the first k levels that can start a cascade. */
  function NDFStarts(sys: System, k: nat): (d: nat)
    requires WellFormed(sys) && Acyclic(sys) && StartReady(sys) && k <= |sys.levels|
  {
    if k == 0 then 0
    else
      var d := NDFStarts(sys, k - 1);
      if !MayStart(sys, k - 1) then d
      else
        var l := NDF(sys, k - 1);
        if l > d then l else d
  }

  /** NDFStarts bounds `getNDF(i)` for every level that can start, and is reached by one when it is positive. */
  lemma {:induction false} NDFStartsMax(sys: System, k: nat)
    requires WellFormed(sys) && Acyclic(sys) && StartReady(sys) && k <= |sys.levels|
    ensures forall i :: 0 <= i < k && MayStart(sys, i) ==> NDF(sys, i) <= NDFStarts(sys, k)
    ensures NDFStarts(sys, k) > 0 ==> exists i :: 0 <= i < k && MayStart(sys, i) && NDF(sys, i) == NDFStarts(sys, k)
  {
    if k > 0 {
      NDFStartsMax(sys, k - 1);
    }
  }

  lemma NDFAllMax(sys: System)
    requires WellFormed(sys) && Acyclic(sys) && StartReady(sys)
    ensures forall i :: 0 <= i < |sys.levels| && MayStart(sys, i) ==> NDF(sys, i) <= NDFAll(sys)
    ensures NDFAll(sys) > 0 ==> exists i :: 0 <= i < |sys.levels| && MayStart(sys, i) && NDF(sys, i) == NDFAll(sys)
  {
    NDFStartsMax(sys, |sys.levels|);
  }

  // ---------------------------------------------------------------- properties of cascades

  /** A cascade from level n consumes at most `getNDF(n)` variates. */
  lemma {:induction false} WalkConsumes(sys: System, n: nat, init: bool, buf: seq<real>, pos: nat, B: Binding, q: Quantile)
    requires WellFormed(sys) && Acyclic(sys) && n < |sys.levels|
    requires Walk(sys, n, init, buf, pos, B, q).Some?
    ensures Walk(sys, n, init, buf, pos, B, q).value.pos <= pos + NDF(sys, n)
    decreases n
  {
    if !Stops(sys, n, init) {
      DecayCount(sys, n);
      var sel := Select(sys.levelDecays[n], buf[pos]).value;
      var t := Outgoing(sys, n, sel.index);
      var out := RunTransition(t, Unsigned(sys.levels[t.to].Z), buf[pos := sel.residual], pos, B, q).value;
      WalkConsumes(sys, t.to, false, out.1, pos + t.ndf, B, q);
      NDFMax(sys, n);
      assert Through(sys, n, sel.index) <= NDF(sys, n);
    }
  }

  /** A cascade drawn from the start distribution consumes at most `getNDF()` variates. */
  lemma GenDecayChainConsumes(sys: System, buf: seq<real>, pos: nat, B: Binding, q: Quantile)
    requires WellFormed(sys) && Acyclic(sys) && StartReady(sys)
    requires GenDecayChain(sys, |sys.levels|, buf, pos, B, q).Some?
    ensures GenDecayChain(sys, |sys.levels|, buf, pos, B, q).value.pos <= pos + NDFAll(sys)
  {
    var s := Select(sys.lStart, buf[pos]).value;
    StartDrawn(sys, buf[pos]);
    WalkConsumes(sys, s.index, true, buf[pos := s.residual], pos, B, q);
    NDFAllMax(sys);
  }

  /** The drawn starting level is one that can start a cascade: its category has positive mass. */
  lemma StartDrawn(sys: System, x: real)
    requires StartReady(sys) && Select(sys.lStart, x).Some?
    ensures Select(sys.lStart, x).value.index < |sys.levels|
    ensures MayStart(sys, Select(sys.lStart, x).value.index)
  {
    var i := Select(sys.lStart, x).value.index;
    assert Width(sys.lStart, i) > 0.0;
  }

  /**
    A level with no outgoing intensity, and a long-lived level reached
    during a cascade, end it at once: no events, and the buffer and cursor
    are left as they were.
   */
  lemma WalkStops(sys: System, n: nat, init: bool, buf: seq<real>, pos: nat, B: Binding, q: Quantile)
    requires WellFormed(sys) && Acyclic(sys) && n < |sys.levels| && Stops(sys, n, init)
    ensures Walk(sys, n, init, buf, pos, B, q) == Some(Chain([], buf, pos))
  {
  }

  /** A cascade from a level of index 0, the lowest in energy, is empty. */
  lemma WalkGround(sys: System, init: bool, buf: seq<real>, pos: nat, B: Binding, q: Quantile)
    requires WellFormed(sys) && Acyclic(sys) && |sys.levels| > 0
    requires Walk(sys, 0, init, buf, pos, B, q).Some?
    ensures Walk(sys, 0, init, buf, pos, B, q).value == Chain([], buf, pos)
  {
  }

  /** If every path from level n consumes nothing, the cursor does not move. */
  lemma WalkNoVariates(sys: System, n: nat, init: bool, buf: seq<real>, pos: nat, B: Binding, q: Quantile)
    requires WellFormed(sys) && Acyclic(sys) && n < |sys.levels| && NDF(sys, n) == 0
    requires Walk(sys, n, init, buf, pos, B, q).Some?
    ensures Walk(sys, n, init, buf, pos, B, q).value.pos == pos
  {
    WalkConsumes(sys, n, init, buf, pos, B, q);
  }
}

=== FILE: decay_system.dfy ===
/**
  The `NucDecaySystem` constructor: levels from their records, then gamma
  transitions, Auger atoms, beta decays and electron captures, each group in
  record order, then the cutoff. A record that names an unknown level, a
  second level of the same name, a blank Auger Z, or a capture between
  levels that cannot be connected makes construction fail.
 */
module DecaySystem {
  import opened Wrappers
  import opened Selector
  import Conversion
  import opened LevelScheme

  /** A `gamma` record: levels, `Igamma` in percent, and the `CE_<shell>` records in shell order. */
  datatype GammaSpec = GammaSpec(from: string, to: string, Igamma: real, shells: seq<Option<Conversion.ShellSpec>>)

  /** A `beta` record: levels, intensity `I` in percent, and whether a positron is emitted. */
  datatype BetaSpec = BetaSpec(from: string, to: string, I: real, positron: bool)

  /** An `ecapt` record: `to` is `Auto` when the record names no destination; `I` is used as is. */
  datatype CaptureSpec = CaptureSpec(from: string, to: string, I: real)

  /** The parsed decay-scheme file: records of each kind, in file order. */
  datatype SystemSpec = SystemSpec(
    levels: seq<LevelSpec>,
    gammas: seq<GammaSpec>,
    augerZ: seq<int>,
    betas: seq<BetaSpec>,
    captures: seq<CaptureSpec>)

  /** The destination meaning "every level the capture can reach". */
  const Auto: string := "AUTO"

  // ---------------------------------------------------------------- what a transition came from

  /** t connects the levels with the given names. */
  predicate Links(sys: System, t: Transition, from: string, to: string) {
    && t.from < |sys.levels| && t.to < |sys.levels|
    && sys.levels[t.from].name == from && sys.levels[t.to].name == to
  }

  /** Electron capture can connect orig to d: same mass number, one less charge, lower energy. */
  predicate Qualifies(sys: System, orig: nat, d: nat)
    requires orig < |sys.levels| && d < |sys.levels|
  {
    && sys.levels[d].A == sys.levels[orig].A
    && sys.levels[d].Z + 1 == sys.levels[orig].Z
    && sys.levels[d].E < sys.levels[orig].E
  }

  /** t is the conversion gamma record g describes. */
  predicate GammaFor(sys: System, g: GammaSpec, ndf: NdfTable, t: Transition) {
    && Links(sys, t, g.from, g.to)
    && t.kind == ConversionKind(Conversion.New(sys.levels[t.from].E, sys.levels[t.to].E, g.Igamma, g.shells))
    && t.Itotal == t.kind.cg.Itotal
    && t.ndf == ndf.conversion
  }

  /** t is the beta decay record b describes, its intensity converted from percent. */
  predicate BetaFor(sys: System, b: BetaSpec, ndf: NdfTable, t: Transition) {
    && Links(sys, t, b.from, b.to)
    && t.kind == BetaKind(b.positron)
    && t.Itotal == Conversion.Percent(b.I)
    && t.ndf == ndf.beta
  }

  /** t is an electron capture between levels that capture can connect. */
  predicate CaptureFor(sys: System, ndf: NdfTable, t: Transition) {
    && t.from < |sys.levels| && t.to < |sys.levels|
    && t.kind == CaptureKind
    && Qualifies(sys, t.from, t.to)
    && t.ndf == ndf.capture
  }

  /** The descriptions above read only level names, numbers and energies. */
  lemma SameLevelsKeepsLinks(a: System, b: System, t: Transition)
    requires SameLevels(a, b) && t.from < |a.levels| && t.to < |a.levels|
    ensures b.levels[t.from].name == a.levels[t.from].name && b.levels[t.to].name == a.levels[t.to].name
    ensures b.levels[t.from].E == a.levels[t.from].E && b.levels[t.to].E == a.levels[t.to].E
    ensures b.levels[t.from].A == a.levels[t.from].A && b.levels[t.to].A == a.levels[t.to].A
    ensures b.levels[t.from].Z == a.levels[t.from].Z && b.levels[t.to].Z == a.levels[t.to].Z
  {
    assert SameLevel(a, b, t.from) && SameLevel(a, b, t.to);
  }

  lemma SameLevelsKeepsGamma(a: System, b: System, g: GammaSpec, ndf: NdfTable, t: Transition)
    requires SameLevels(a, b) && GammaFor(a, g, ndf, t)
    ensures GammaFor(b, g, ndf, t)
  {
    SameLevelsKeepsLinks(a, b, t);
  }

  lemma SameLevelsKeepsBeta(a: System, b: System, be: BetaSpec, ndf: NdfTable, t: Transition)
    requires SameLevels(a, b) && BetaFor(a, be, ndf, t)
    ensures BetaFor(b, be, ndf, t)
  {
    SameLevelsKeepsLinks(a, b, t);
  }

  lemma SameLevelsKeepsCapture(a: System, b: System, ndf: NdfTable, t: Transition)
    requires SameLevels(a, b) && CaptureFor(a, ndf, t)
    ensures CaptureFor(b, ndf, t)
  {
    SameLevelsKeepsLinks(a, b, t);
  }

  /** Both named levels exist. */
  predicate Known(sys: System, from: string, to: string) {
    from in sys.index && to in sys.index
  }

  /** A property holds of every element exactly when it holds of all but the last and of the last. */
  lemma AllSplit<T>(xs: seq<T>, prefix: seq<T>, P: T -> bool)
    requires |xs| > 0 && prefix == xs[..|xs| - 1]
    ensures (forall k :: 0 <= k < |xs| ==> P(xs[k])) <==>
      (forall k :: 0 <= k < |prefix| ==> P(prefix[k])) && P(xs[|xs| - 1])
  {
    assert forall k :: 0 <= k < |prefix| ==> prefix[k] == xs[k];
  }

  // ---------------------------------------------------------------- levels

  function NewLevels(specs: seq<LevelSpec>): (ls: seq<Level>)
    ensures |ls| == |specs|
    ensures forall i :: 0 <= i < |specs| ==> ls[i] == NewLevel(specs[i])
  {
    seq(|specs|, i requires 0 <= i < |specs| => NewLevel(specs[i]))
  }

  /** The level records as levels, sorted by energy and numbered by position. */
  function SortedLevels(specs: seq<LevelSpec>): (ls: seq<Level>)
    ensures |ls| == |specs|
  {
    Number(SortLevels(NewLevels(specs)))
  }

  /** The sorted levels are in order, numbered, and carry no flux yet. */
  lemma SortedLevelsFacts(specs: seq<LevelSpec>)
    ensures var ls := SortedLevels(specs);
      && SortedByEnergy(ls)
      && (forall i :: 0 <= i < |ls| ==> ls[i].n == i && ls[i].fluxIn == 0.0 && ls[i].fluxOut == 0.0)
  {
    var raw := NewLevels(specs);
    var sorted := SortLevels(raw);
    var ls := SortedLevels(specs);
    SortLevelsSorted(raw);
    forall i | 0 <= i < |sorted|
      ensures sorted[i].fluxIn == 0.0 && sorted[i].fluxOut == 0.0
    {
      assert sorted[i] in multiset(raw);
    }
    forall i, j | 0 <= i < j < |ls|
      ensures EnergyOrdered(ls, i, j)
    {
      assert EnergyOrdered(sorted, i, j);
    }
  }

  /** The system before any transition is added. */
  function Empty(levels: seq<Level>, index: map<string, nat>): (sys: System)
  {
    System(levels, index, [],
      seq(|levels|, _ => []), seq(|levels|, _ => []), seq(|levels|, _ => New()),
      map[], New(), 0.0)
  }

  lemma EmptyConsistent(specs: seq<LevelSpec>, index: map<string, nat>)
    requires BuildIndex(SortedLevels(specs)) == Ok(index)
    ensures Consistent(Empty(SortedLevels(specs), index))
  {
    var ls := SortedLevels(specs);
    var sys := Empty(ls, index);
    SortedLevelsFacts(specs);
    forall i | 0 <= i < |ls|
      ensures LevelOK(sys, i) && LevelIndexed(sys, i)
    {
      assert Intensities([], []) == [];
    }
    forall k | k in index
      ensures IndexEntry(sys, k)
    {
    }
  }

  // ---------------------------------------------------------------- gammas

  /**
    The positions of the two named levels (the two `levIndex` calls of a record).
    When both names are unknown the error names `from`; C++ leaves the order
    in which the two constructor arguments are evaluated unspecified, so the
    source may report either.
   */
  function LookupPair(sys: System, from: string, to: string): (r: Result<(nat, nat), BuildError>)
    requires Indexed(sys)
    ensures r.Ok? <==> from in sys.index && to in sys.index
    ensures r.Ok? ==> r.value.0 < |sys.levels| && r.value.1 < |sys.levels|
    ensures r.Ok? ==> sys.levels[r.value.0].name == from && sys.levels[r.value.1].name == to
    ensures r.Err? ==> r.error.UnknownLevel?
  {
    var i :- LevIndex(sys, from);
    var j :- LevIndex(sys, to);
    Ok((i, j))
  }

  /** The conversion gamma between two levels, built from record g. */
  function GammaBetween(sys: System, from: nat, to: nat, g: GammaSpec, ndf: NdfTable): (t: Transition)
    requires from < |sys.levels| && to < |sys.levels|
    ensures TransitionOK(t, |sys.levels|) && t.from == from && t.to == to
  {
    var cg := Conversion.New(sys.levels[from].E, sys.levels[to].E, g.Igamma, g.shells);
    Transition(from, to, cg.Itotal, ndf.conversion, ConversionKind(cg))
  }

  /** One `gamma` record as a transition between the named levels. */
  function GammaTransition(sys: System, g: GammaSpec, ndf: NdfTable): (r: Result<Transition, BuildError>)
    requires Indexed(sys)
    ensures r.Ok? <==> g.from in sys.index && g.to in sys.index
    ensures r.Ok? ==> TransitionOK(r.value, |sys.levels|) && Links(sys, r.value, g.from, g.to)
    ensures r.Err? ==> r.error.UnknownLevel?
  {
    var p :- LookupPair(sys, g.from, g.to);
    Ok(GammaBetween(sys, p.0, p.1, g, ndf))
  }

  /** The transition of a gamma record is the conversion gamma that record describes. */
  lemma GammaTransitionFor(sys: System, g: GammaSpec, ndf: NdfTable)
    requires Indexed(sys) && GammaTransition(sys, g, ndf).Ok?
    ensures GammaFor(sys, g, ndf, GammaTransition(sys, g, ndf).value)
  {
    var p := LookupPair(sys, g.from, g.to).value;
    assert GammaTransition(sys, g, ndf) == Ok(GammaBetween(sys, p.0, p.1, g, ndf));
  }

  /** The gamma records, in order. */
  function AddGammas(sys: System, gs: seq<GammaSpec>, B: Binding, ndf: NdfTable): (r: Result<System, BuildError>)
    requires Consistent(sys)
    ensures r.Ok? ==> Consistent(r.value) && SameLevels(sys, r.value)
    ensures r.Ok? ==> |r.value.transitions| == |sys.transitions| + |gs|
    ensures r.Ok? ==> r.value.transitions[..|sys.transitions|] == sys.transitions
    ensures r.Err? ==> r.error.UnknownLevel?
  {
    if |gs| == 0 then Ok(sys)
    else
      match AddGammas(sys, gs[..|gs| - 1], B, ndf)
      case Err(e) => Err(e)
      case Ok(s) =>
        match GammaTransition(s, gs[|gs| - 1], ndf)
        case Err(e) => Err(e)
        case Ok(T) =>
          AddTransitionConsistent(s, T, B);
          SameLevelsTrans(sys, s, AddTransition(s, T, B));
          Ok(AddTransition(s, T, B))
  }

  /** Construction succeeds exactly when every record names two known levels. */
  lemma {:induction false} AddGammasOk(sys: System, gs: seq<GammaSpec>, B: Binding, ndf: NdfTable)
    requires Consistent(sys)
    ensures AddGammas(sys, gs, B, ndf).Ok? <==> forall k :: 0 <= k < |gs| ==> Known(sys, gs[k].from, gs[k].to)
  {
    if |gs| > 0 {
      var prefix := gs[..|gs| - 1];
      var last := gs[|gs| - 1];
      AddGammasOk(sys, prefix, B, ndf);
      AllSplit(gs, prefix, (g: GammaSpec) => Known(sys, g.from, g.to));
      match AddGammas(sys, prefix, B, ndf)
      case Err(_) =>
      case Ok(s) =>
        assert s.index == sys.index;
        assert GammaTransition(s, last, ndf).Ok? <==> Known(sys, last.from, last.to);
    }
  }

  /** The k-th new transition is the k-th gamma record's transition. */
  lemma {:induction false} AddGammasContents(sys: System, gs: seq<GammaSpec>, B: Binding, ndf: NdfTable, k: nat)
    requires Consistent(sys) && AddGammas(sys, gs, B, ndf).Ok? && k < |gs|
    ensures var r := AddGammas(sys, gs, B, ndf).value;
      GammaFor(r, gs[k], ndf, r.transitions[|sys.transitions| + k])
  {
    var r := AddGammas(sys, gs, B, ndf).value;
    var s := AddGammas(sys, gs[..|gs| - 1], B, ndf).value;
    var T := GammaTransition(s, gs[|gs| - 1], ndf).value;
    assert r == AddTransition(s, T, B);
    GammaTransitionFor(s, gs[|gs| - 1], ndf);
    AddTransitionSameLevels(s, T, B);
    if k < |gs| - 1 {
      AddGammasContents(sys, gs[..|gs| - 1], B, ndf, k);
      assert r.transitions[|sys.transitions| + k] == s.transitions[|sys.transitions| + k];
      SameLevelsKeepsGamma(s, r, gs[k], ndf, s.transitions[|sys.transitions| + k]);
    } else {
      SameLevelsKeepsGamma(s, r, gs[k], ndf, T);
    }
  }

  // ---------------------------------------------------------------- Auger atoms

  /**
    The `AugerK` records: a blank (zero) Z is rejected; otherwise the atom of
    that Z is created if it is not cached yet. Nothing but the atom cache changes.
   */
  function AddAugers(sys: System, zs: seq<int>, B: Binding): (r: Result<System, BuildError>)
    ensures r.Ok? ==> r.value == sys.(atoms := r.value.atoms)
    ensures r.Ok? ==> forall z :: z in sys.atoms ==> z in r.value.atoms && r.value.atoms[z] == sys.atoms[z]
    ensures r.Err? ==> r.error.BadAugerZ?
  {
    if |zs| == 0 then Ok(sys)
    else
      match AddAugers(sys, zs[..|zs| - 1], B)
      case Err(e) => Err(e)
      case Ok(s) =>
        var z := zs[|zs| - 1];
        if z == 0 then Err(BadAugerZ(z)) else Ok(GetAtom(s, Unsigned(z), B).0)
  }

  /** The Auger records are accepted exactly when none has Z = 0, and then every named atom is cached. */
  lemma {:induction false} AddAugersOk(sys: System, zs: seq<int>, B: Binding)
    ensures AddAugers(sys, zs, B).Ok? <==> forall k :: 0 <= k < |zs| ==> zs[k] != 0
    ensures AddAugers(sys, zs, B).Ok? ==> forall k :: 0 <= k < |zs| ==> Unsigned(zs[k]) in AddAugers(sys, zs, B).value.atoms
  {
    if |zs| > 0 {
      var prefix := zs[..|zs| - 1];
      AddAugersOk(sys, prefix, B);
      AllSplit(zs, prefix, (z: int) => z != 0);
      match AddAugers(sys, prefix, B)
      case Err(_) =>
      case Ok(s) =>
        var r := AddAugers(sys, zs, B);
        if r.Ok? {
          forall k | 0 <= k < |zs|
            ensures Unsigned(zs[k]) in r.value.atoms
          {
            if k < |prefix| {
              assert prefix[k] == zs[k];
            }
          }
        }
    }
  }

  // ---------------------------------------------------------------- betas

  /** One `beta` record as a transition between the named levels. */
  function BetaTransition(sys: System, b: BetaSpec, ndf: NdfTable): (r: Result<Transition, BuildError>)
    requires Indexed(sys)
    ensures r.Ok? <==> b.from in sys.index && b.to in sys.index
    ensures r.Ok? ==> TransitionOK(r.value, |sys.levels|) && BetaFor(sys, b, ndf, r.value)
    ensures r.Err? ==> r.error.UnknownLevel?
  {
    var p :- LookupPair(sys, b.from, b.to);
    Ok(Transition(p.0, p.1, Conversion.Percent(b.I), ndf.beta, BetaKind(b.positron)))
  }

  /** The beta records, in order. */
  function AddBetas(sys: System, bs: seq<BetaSpec>, B: Binding, ndf: NdfTable): (r: Result<System, BuildError>)
    requires Consistent(sys)
    ensures r.Ok? ==> Consistent(r.value) && SameLevels(sys, r.value)
    ensures r.Ok? ==> |r.value.transitions| == |sys.transitions| + |bs|
    ensures r.Ok? ==> r.value.transitions[..|sys.transitions|] == sys.transitions
    ensures r.Err? ==> r.error.UnknownLevel?
  {
    if |bs| == 0 then Ok(sys)
    else
      match AddBetas(sys, bs[..|bs| - 1], B, ndf)
      case Err(e) => Err(e)
      case Ok(s) =>
        match BetaTransition(s, bs[|bs| - 1], ndf)
        case Err(e) => Err(e)
        case Ok(T) =>
          AddTransitionConsistent(s, T, B);
          SameLevelsTrans(sys, s, AddTransition(s, T, B));
          Ok(AddTransition(s, T, B))
  }

  /** Construction succeeds exactly when every record names two known levels. */
  lemma {:induction false} AddBetasOk(sys: System, bs: seq<BetaSpec>, B: Binding, ndf: NdfTable)
    requires Consistent(sys)
    ensures AddBetas(sys, bs, B, ndf).Ok? <==> forall k :: 0 <= k < |bs| ==> Known(sys, bs[k].from, bs[k].to)
  {
    if |bs| > 0 {
      var prefix := bs[..|bs| - 1];
      var last := bs[|bs| - 1];
      AddBetasOk(sys, prefix, B, ndf);
      AllSplit(bs, prefix, (b: BetaSpec) => Known(sys, b.from, b.to));
      match AddBetas(sys, prefix, B, ndf)
      case Err(_) =>
      case Ok(s) =>
        assert s.index == sys.index;
        assert BetaTransition(s, last, ndf).Ok? <==> Known(sys, last.from, last.to);
    }
  }

  /** The k-th new transition is the k-th beta record's transition. */
  lemma {:induction false} AddBetasContents(sys: System, bs: seq<BetaSpec>, B: Binding, ndf: NdfTable, k: nat)
    requires Consistent(sys) && AddBetas(sys, bs, B, ndf).Ok? && k < |bs|
    ensures var r := AddBetas(sys, bs, B, ndf).value;
      BetaFor(r, bs[k], ndf, r.transitions[|sys.transitions| + k])
  {
    var r := AddBetas(sys, bs, B, ndf).value;
    var s := AddBetas(sys, bs[..|bs| - 1], B, ndf).value;
    var T := BetaTransition(s, bs[|bs| - 1], ndf).value;
    assert r == AddTransition(s, T, B);
    AddTransitionSameLevels(s, T, B);
    if k < |bs| - 1 {
      AddBetasContents(sys, bs[..|bs| - 1], B, ndf, k);
      assert r.transitions[|sys.transitions| + k] == s.transitions[|sys.transitions| + k];
      SameLevelsKeepsBeta(s, r, bs[k], ndf, s.transitions[|sys.transitions| + k]);
    } else {
      SameLevelsKeepsBeta(s, r, bs[k], ndf, T);
    }
  }

  // ---------------------------------------------------------------- electron captures

  /** Flux a level loses beyond what it is fed: what capture to it must make up. */
  function Missing(sys: System, d: nat): real
    requires d < |sys.levels|
  {
    sys.levels[d].fluxOut - sys.levels[d].fluxIn
  }

  /** Whether the `AUTO` loop adds a capture from orig to d: d is reachable and short of flux. */
  predicate Short(sys: System, orig: nat, d: nat)
    requires orig < |sys.levels| && d < |sys.levels|
  {
    Qualifies(sys, orig, d) && Missing(sys, d) > 0.0
  }

  /** One pass of the `AUTO` loop: the capture to level k, if k is short of flux. */
  function CaptureStep(sys: System, orig: nat, k: nat, B: Binding, ndf: NdfTable): (r: System)
    requires WellFormed(sys) && orig < |sys.levels| && k < |sys.levels|
    ensures WellFormed(r) && SameLevels(sys, r)
    ensures Short(sys, orig, k) ==> r.transitions == sys.transitions + [Transition(orig, k, Missing(sys, k), ndf.capture, CaptureKind)]
    ensures !Short(sys, orig, k) ==> r.transitions == sys.transitions
  {
    if Short(sys, orig, k) then
      var T := Transition(orig, k, Missing(sys, k), ndf.capture, CaptureKind);
      AddTransitionWellFormed(sys, T, B);
      AddTransitionSameLevels(sys, T, B);
      AddTransition(sys, T, B)
    else sys
  }

  /** The step changes the fluxes of no level but orig and k, and fills k's shortfall exactly. */
  lemma CaptureStepFlux(sys: System, orig: nat, k: nat, B: Binding, ndf: NdfTable, d: nat)
    requires WellFormed(sys) && orig < |sys.levels| && k < |sys.levels| && d < |sys.levels| && d != orig
    ensures var r := CaptureStep(sys, orig, k, B, ndf);
      && r.levels[d].fluxOut == sys.levels[d].fluxOut
      && r.levels[d].fluxIn == (if d == k && Short(sys, orig, d) then sys.levels[d].fluxOut else sys.levels[d].fluxIn)
  {
    if Short(sys, orig, k) {
      AddTransitionEffect(sys, Transition(orig, k, Missing(sys, k), ndf.capture, CaptureKind), B, d);
    }
  }

  /**
    The `AUTO` loop from level k on: a capture from orig to every level it can
    reach whose flux is short, with the shortfall as intensity.
   */
  function AutoCaptures(sys: System, orig: nat, k: nat, B: Binding, ndf: NdfTable): (r: System)
    requires WellFormed(sys) && orig < |sys.levels| && k <= |sys.levels|
    ensures WellFormed(r) && SameLevels(sys, r)
    ensures |r.transitions| >= |sys.transitions| && r.transitions[..|sys.transitions|] == sys.transitions
    decreases |sys.levels| - k
  {
    if k == |sys.levels| then sys
    else
      var s := CaptureStep(sys, orig, k, B, ndf);
      var r := AutoCaptures(s, orig, k + 1, B, ndf);
      assert r.transitions[..|sys.transitions|] == r.transitions[..|s.transitions|][..|sys.transitions|];
      SameLevelsTrans(sys, s, r);
      r
  }

  /** A capture the step adds leaves orig, can connect its levels, and carries the positive shortfall. */
  lemma CaptureStepAdded(sys: System, orig: nat, k: nat, B: Binding, ndf: NdfTable)
    requires WellFormed(sys) && orig < |sys.levels| && k < |sys.levels|
    requires |CaptureStep(sys, orig, k, B, ndf).transitions| > |sys.transitions|
    ensures var t := CaptureStep(sys, orig, k, B, ndf).transitions[|sys.transitions|];
      CaptureFor(sys, ndf, t) && t.from == orig && t.Itotal > 0.0
  {
  }

  /** Every automatic capture leaves orig, can connect its levels, and carries a positive shortfall. */
  lemma {:induction false} AutoCapturesContents(sys: System, orig: nat, k: nat, B: Binding, ndf: NdfTable, j: nat)
    requires WellFormed(sys) && orig < |sys.levels| && k <= |sys.levels|
    requires |sys.transitions| <= j < |AutoCaptures(sys, orig, k, B, ndf).transitions|
    ensures var r := AutoCaptures(sys, orig, k, B, ndf);
      var t := r.transitions[j];
      CaptureFor(r, ndf, t) && t.from == orig && t.Itotal > 0.0
    decreases |sys.levels| - k
  {
    var r := AutoCaptures(sys, orig, k, B, ndf);
    var s := CaptureStep(sys, orig, k, B, ndf);
    assert r == AutoCaptures(s, orig, k + 1, B, ndf);
    if j < |s.transitions| {
      CaptureStepAdded(sys, orig, k, B, ndf);
      var T := s.transitions[j];
      assert r.transitions[j] == r.transitions[..|s.transitions|][j];
      SameLevelsKeepsCapture(sys, r, ndf, T);
    } else {
      AutoCapturesContents(s, orig, k + 1, B, ndf, j);
    }
  }

  /** The step does not change whether another level is short of flux. */
  lemma CaptureStepShort(sys: System, orig: nat, k: nat, B: Binding, ndf: NdfTable, d: nat)
    requires WellFormed(sys) && orig < |sys.levels| && k < |sys.levels| && d < |sys.levels| && d != orig && d != k
    ensures Short(CaptureStep(sys, orig, k, B, ndf), orig, d) == Short(sys, orig, d)
  {
    var s := CaptureStep(sys, orig, k, B, ndf);
    CaptureStepFlux(sys, orig, k, B, ndf, d);
    SameLevelsKeepsLinks(sys, s, Transition(orig, d, 0.0, 0, CaptureKind));
  }

  /** Automatic capture adds no outgoing flux to any level but orig. */
  lemma {:induction false} AutoCapturesFluxOut(sys: System, orig: nat, k: nat, B: Binding, ndf: NdfTable, d: nat)
    requires WellFormed(sys) && orig < |sys.levels| && k <= |sys.levels| && d < |sys.levels| && d != orig
    ensures AutoCaptures(sys, orig, k, B, ndf).levels[d].fluxOut == sys.levels[d].fluxOut
    decreases |sys.levels| - k
  {
    if k < |sys.levels| {
      var s := CaptureStep(sys, orig, k, B, ndf);
      CaptureStepFlux(sys, orig, k, B, ndf, d);
      AutoCapturesFluxOut(s, orig, k + 1, B, ndf, d);
    }
  }

  /**
    Automatic capture balances the levels it reaches: a level at or after k
    that capture from orig can reach and whose flux was short ends with its
    incoming flux equal to its outgoing flux.
   */
  lemma {:induction false} AutoCapturesFills(sys: System, orig: nat, k: nat, B: Binding, ndf: NdfTable, d: nat)
    requires WellFormed(sys) && orig < |sys.levels| && k <= d < |sys.levels| && d != orig
    requires Short(sys, orig, d)
    ensures AutoCaptures(sys, orig, k, B, ndf).levels[d].fluxIn == sys.levels[d].fluxOut
    decreases |sys.levels| - k
  {
    var s := CaptureStep(sys, orig, k, B, ndf);
    assert AutoCaptures(sys, orig, k, B, ndf) == AutoCaptures(s, orig, k + 1, B, ndf);
    CaptureStepFlux(sys, orig, k, B, ndf, d);
    if d == k {
      AutoCapturesPassed(s, orig, k + 1, B, ndf, d);
    } else {
      CaptureStepShort(sys, orig, k, B, ndf, d);
      AutoCapturesFills(s, orig, k + 1, B, ndf, d);
    }
  }

  /** A level the loop has passed keeps its incoming flux. */
  lemma {:induction false} AutoCapturesPassed(sys: System, orig: nat, k: nat, B: Binding, ndf: NdfTable, d: nat)
    requires WellFormed(sys) && orig < |sys.levels| && d < k <= |sys.levels| && d != orig
    ensures AutoCaptures(sys, orig, k, B, ndf).levels[d].fluxIn == sys.levels[d].fluxIn
    decreases |sys.levels| - k
  {
    if k < |sys.levels| {
      var s := CaptureStep(sys, orig, k, B, ndf);
      assert AutoCaptures(sys, orig, k, B, ndf) == AutoCaptures(s, orig, k + 1, B, ndf);
      CaptureStepFlux(sys, orig, k, B, ndf, d);
      AutoCapturesPassed(s, orig, k + 1, B, ndf, d);
    }
  }

  /** A level that was not short of flux keeps its incoming flux. */
  lemma {:induction false} AutoCapturesKeepsIn(sys: System, orig: nat, k: nat, B: Binding, ndf: NdfTable, d: nat)
    requires WellFormed(sys) && orig < |sys.levels| && k <= d < |sys.levels| && d != orig
    requires !Short(sys, orig, d)
    ensures AutoCaptures(sys, orig, k, B, ndf).levels[d].fluxIn == sys.levels[d].fluxIn
    decreases |sys.levels| - k
  {
    var s := CaptureStep(sys, orig, k, B, ndf);
    assert AutoCaptures(sys, orig, k, B, ndf) == AutoCaptures(s, orig, k + 1, B, ndf);
    CaptureStepFlux(sys, orig, k, B, ndf, d);
    if d == k {
      AutoCapturesPassed(s, orig, k + 1, B, ndf, d);
    } else {
      CaptureStepShort(sys, orig, k, B, ndf, d);
      AutoCapturesKeepsIn(s, orig, k + 1, B, ndf, d);
    }
  }

  /**
    One `ecapt` record: from the named level either to every level it can
    reach (`Auto`) or to the named level, which it must be able to reach.
   */
  function AddCapture(sys: System, c: CaptureSpec, B: Binding, ndf: NdfTable): (r: Result<System, BuildError>)
    requires Consistent(sys)
    ensures r.Ok? ==> Consistent(r.value) && SameLevels(sys, r.value)
    ensures r.Ok? ==> |r.value.transitions| >= |sys.transitions| && r.value.transitions[..|sys.transitions|] == sys.transitions
    ensures r.Err? ==> r.error.UnknownLevel? || r.error == CaptureMismatch(c.from, c.to)
  {
    var orig :- LevIndex(sys, c.from);
    if c.to == Auto then
      var r := AutoCaptures(sys, orig, 0, B, ndf);
      IndexedSame(sys, r);
      Ok(r)
    else
      var dest :- LevIndex(sys, c.to);
      if Qualifies(sys, orig, dest) then
        var T := Transition(orig, dest, c.I, ndf.capture, CaptureKind);
        AddTransitionConsistent(sys, T, B);
        Ok(AddTransition(sys, T, B))
      else Err(CaptureMismatch(c.from, c.to))
  }

  /**
    A record with a named destination adds exactly one capture between the
    named levels, with the record's intensity, and fails when capture
    cannot connect them.
   */
  lemma AddCaptureExplicit(sys: System, c: CaptureSpec, B: Binding, ndf: NdfTable)
    requires Consistent(sys) && c.to != Auto && Known(sys, c.from, c.to)
    ensures var r := AddCapture(sys, c, B, ndf);
      var orig := sys.index[c.from];
      var dest := sys.index[c.to];
      && orig < |sys.levels| && dest < |sys.levels|
      && (r.Ok? <==> Qualifies(sys, orig, dest))
      && (r.Ok? ==> r.value.transitions == sys.transitions + [Transition(orig, dest, c.I, ndf.capture, CaptureKind)])
      && (r.Ok? ==> Links(r.value, r.value.transitions[|sys.transitions|], c.from, c.to))
  {
    assert IndexEntry(sys, c.from) && IndexEntry(sys, c.to);
    var r := AddCapture(sys, c, B, ndf);
    if r.Ok? {
      var T := Transition(sys.index[c.from], sys.index[c.to], c.I, ndf.capture, CaptureKind);
      SameLevelsKeepsLinks(sys, r.value, T);
    }
  }

  /** Every transition a capture record adds is a capture between levels capture can connect. */
  lemma AddCaptureContents(sys: System, c: CaptureSpec, B: Binding, ndf: NdfTable, j: nat)
    requires Consistent(sys) && AddCapture(sys, c, B, ndf).Ok?
    requires |sys.transitions| <= j < |AddCapture(sys, c, B, ndf).value.transitions|
    ensures var r := AddCapture(sys, c, B, ndf).value;
      CaptureFor(r, ndf, r.transitions[j])
  {
    var orig := sys.index[c.from];
    if c.to == Auto {
      AutoCapturesContents(sys, orig, 0, B, ndf, j);
    } else {
      AddCaptureExplicit(sys, c, B, ndf);
      var r := AddCapture(sys, c, B, ndf).value;
      var T := r.transitions[j];
      assert CaptureFor(sys, ndf, T);
      SameLevelsKeepsCapture(sys, r, ndf, T);
    }
  }

  /** The capture records, in order. */
  function AddCaptures(sys: System, cs: seq<CaptureSpec>, B: Binding, ndf: NdfTable): (r: Result<System, BuildError>)
    requires Consistent(sys)
    ensures r.Ok? ==> Consistent(r.value) && SameLevels(sys, r.value)
    ensures r.Ok? ==> |r.value.transitions| >= |sys.transitions| && r.value.transitions[..|sys.transitions|] == sys.transitions
    ensures r.Err? ==> r.error.UnknownLevel? || r.error.CaptureMismatch?
  {
    if |cs| == 0 then Ok(sys)
    else
      match AddCaptures(sys, cs[..|cs| - 1], B, ndf)
      case Err(e) => Err(e)
      case Ok(s) =>
        var r := AddCapture(s, cs[|cs| - 1], B, ndf);
        if r.Ok? then
          assert r.value.transitions[..|sys.transitions|] == r.value.transitions[..|s.transitions|][..|sys.transitions|];
          SameLevelsTrans(sys, s, r.value);
          r
        else r
  }

  /** Every transition the capture records add is a capture between levels capture can connect. */
  lemma {:induction false} AddCapturesContents(sys: System, cs: seq<CaptureSpec>, B: Binding, ndf: NdfTable, j: nat)
    requires Consistent(sys) && AddCaptures(sys, cs, B, ndf).Ok?
    requires |sys.transitions| <= j < |AddCaptures(sys, cs, B, ndf).value.transitions|
    ensures var r := AddCaptures(sys, cs, B, ndf).value;
      CaptureFor(r, ndf, r.transitions[j])
  {
    var r := AddCaptures(sys, cs, B, ndf).value;
    var s := AddCaptures(sys, cs[..|cs| - 1], B, ndf).value;
    assert r == AddCapture(s, cs[|cs| - 1], B, ndf).value;
    if j < |s.transitions| {
      AddCapturesContents(sys, cs[..|cs| - 1], B, ndf, j);
      assert r.transitions[j] == r.transitions[..|s.transitions|][j] == s.transitions[j];
      SameLevelsKeepsCapture(s, r, ndf, s.transitions[j]);
    } else {
      AddCaptureContents(s, cs[|cs| - 1], B, ndf, j);
    }
  }

  // ---------------------------------------------------------------- the whole constructor

  /** Levels sorted, numbered and indexed; no transitions yet. A repeated name fails. */
  function Levelled(spec: SystemSpec): (r: Result<System, BuildError>)
    ensures r.Ok? ==> Consistent(r.value) && r.value.levels == SortedLevels(spec.levels) && r.value.transitions == []
    ensures r.Err? ==> r.error.DuplicateLevel?
  {
    var levels := SortedLevels(spec.levels);
    var index :- BuildIndex(levels);
    EmptyConsistent(spec.levels, index);
    Ok(Empty(levels, index))
  }

  /** Then the gamma records. */
  function WithGammas(spec: SystemSpec, B: Binding, ndf: NdfTable): (r: Result<System, BuildError>)
    ensures r.Ok? ==> Consistent(r.value)
    ensures (r.Err? && r.error.DuplicateLevel?) <==> Levelled(spec).Err?
  {
    var s :- Levelled(spec);
    AddGammas(s, spec.gammas, B, ndf)
  }

  /** Then the Auger records, which change only the atoms. */
  function WithAugers(spec: SystemSpec, B: Binding, ndf: NdfTable): (r: Result<System, BuildError>)
    ensures r.Ok? ==> Consistent(r.value)
    ensures (r.Err? && r.error.DuplicateLevel?) <==> Levelled(spec).Err?
  {
    var s :- WithGammas(spec, B, ndf);
    var a :- AddAugers(s, spec.augerZ, B);
    ConsistentFrame(s, a);
    Ok(a)
  }

  /** Then the beta records. */
  function WithBetas(spec: SystemSpec, B: Binding, ndf: NdfTable): (r: Result<System, BuildError>)
    ensures r.Ok? ==> Consistent(r.value)
    ensures (r.Err? && r.error.DuplicateLevel?) <==> Levelled(spec).Err?
  {
    var s :- WithAugers(spec, B, ndf);
    AddBetas(s, spec.betas, B, ndf)
  }

  /** Then the electron-capture records. */
  function WithCaptures(spec: SystemSpec, B: Binding, ndf: NdfTable): (r: Result<System, BuildError>)
    ensures r.Ok? ==> Consistent(r.value)
    ensures (r.Err? && r.error.DuplicateLevel?) <==> Levelled(spec).Err?
  {
    var s :- WithBetas(spec, B, ndf);
    AddCaptures(s, spec.captures, B, ndf)
  }

  /**
    The `NucDecaySystem` constructor: levels, gammas, Augers, betas,
    captures, then `setCutoff(t)`. The result has one start category per level.
   */
  function Build(spec: SystemSpec, B: Binding, ndf: NdfTable, t: real): (r: Result<System, BuildError>)
    ensures r.Ok? ==> Consistent(r.value) && |r.value.levels| == |spec.levels|
    ensures r.Ok? ==> |r.value.lStart.cumprob| >= 1 && Count(r.value.lStart) == |spec.levels| && r.value.tcut == t
    ensures (r.Err? && r.error.DuplicateLevel?) <==> Levelled(spec).Err?
  {
    var s :- WithCaptures(spec, B, ndf);
    SetCutoffConsistent(s, t);
    BuildLevels(spec, B, ndf, s);
    Ok(SetCutoff(s, t))
  }

  /** The stages keep the sorted levels, apart from their fluxes. */
  lemma BuildLevels(spec: SystemSpec, B: Binding, ndf: NdfTable, s: System)
    requires WithCaptures(spec, B, ndf) == Ok(s)
    ensures |s.levels| == |spec.levels|
    ensures forall i :: 0 <= i < |s.levels| ==> SameButFlux(s.levels[i], SortedLevels(spec.levels)[i])
  {
    var s0 := Levelled(spec).value;
    var s1 := WithGammas(spec, B, ndf).value;
    var s2 := WithAugers(spec, B, ndf).value;
    var s3 := WithBetas(spec, B, ndf).value;
    ConsistentFrame(s1, s2);
    SameLevelsTrans(s0, s1, s2);
    SameLevelsTrans(s0, s2, s3);
    SameLevelsTrans(s0, s3, s);
    forall i | 0 <= i < |s.levels|
      ensures SameButFlux(s.levels[i], SortedLevels(spec.levels)[i])
    {
      assert SameLevel(s0, s, i);
    }
  }

  /**
    Construction fails on a repeated level name exactly when two level
    records share a name.
   */
  lemma BuildDuplicate(spec: SystemSpec, B: Binding, ndf: NdfTable, t: real)
    ensures (Build(spec, B, ndf, t).Err? && Build(spec, B, ndf, t).error.DuplicateLevel?)
            <==> !DistinctNames(SortedLevels(spec.levels))
  {
    BuildIndexOkIff(SortedLevels(spec.levels));
    assert Levelled(spec).Err? <==> BuildIndex(SortedLevels(spec.levels)).Err?;
  }

  /** Each sorted level comes from one of the level records, with its name and nucleus. */
  lemma SortedLevelFrom(specs: seq<LevelSpec>, i: nat)
    requires i < |specs|
    ensures exists j :: (0 <= j < |specs| && SortedLevels(specs)[i].name == specs[j].name
      && SortedLevels(specs)[i].A == specs[j].A && SortedLevels(specs)[i].Z == specs[j].Z)
  {
    var raw := NewLevels(specs);
    var sorted := SortLevels(raw);
    assert sorted[i] in multiset(raw);
    var j :| 0 <= j < |raw| && raw[j] == sorted[i];
    assert raw[j] == NewLevel(specs[j]);
  }

  /**
    The `level` records parsed in file order; the first record whose name
    does not split into three parts stops the construction.
   */
  function ParseLevels(recs: seq<LevelRecord>): (r: Result<seq<LevelSpec>, BuildError>)
    ensures r.Ok? <==> forall i :: 0 <= i < |recs| ==> ParseLevel(recs[i]).Ok?
    ensures r.Ok? ==> |r.value| == |recs| && forall i :: 0 <= i < |recs| ==> r.value[i] == ParseLevel(recs[i]).value
    ensures r.Err? ==> exists i :: (0 <= i < |recs| && ParseLevel(recs[i]) == Err(r.error)
      && forall j :: 0 <= j < i ==> ParseLevel(recs[j]).Ok?)
  {
    if |recs| == 0 then Ok([])
    else
      var head := ParseLevel(recs[0]);
      if head.Err? then Err(head.error)
      else
        var tail := ParseLevels(recs[1..]);
        if tail.Err? then
          ParseLevelsShift(recs, tail.error);
          Err(tail.error)
        else
          assert forall i :: 1 <= i < |recs| ==> recs[i] == recs[1..][i - 1];
          Ok([head.value] + tail.value)
  }

  /** A failure in the tail of the records, after a head that parses, is a failure of the whole. */
  lemma ParseLevelsShift(recs: seq<LevelRecord>, e: BuildError)
    requires |recs| > 0 && ParseLevel(recs[0]).Ok?
    requires exists i :: (0 <= i < |recs| - 1 && ParseLevel(recs[1..][i]) == Err(e)
      && forall j :: 0 <= j < i ==> ParseLevel(recs[1..][j]).Ok?)
    ensures exists i :: (0 <= i < |recs| && ParseLevel(recs[i]) == Err(e)
      && forall j :: 0 <= j < i ==> ParseLevel(recs[j]).Ok?)
    ensures exists i :: 0 <= i < |recs| && ParseLevel(recs[i]).Err?
  {
    var i :| 0 <= i < |recs| - 1 && ParseLevel(recs[1..][i]) == Err(e)
      && forall j :: 0 <= j < i ==> ParseLevel(recs[1..][j]).Ok?;
    assert ParseLevel(recs[i + 1]) == Err(e);
    forall j | 0 <= j < i + 1
      ensures ParseLevel(recs[j]).Ok?
    {
      if j > 0 { assert recs[j] == recs[1..][j - 1]; }
    }
  }

  /**
    The constructor from the raw `level` records: each name is parsed for its
    mass and charge numbers, then the system is built. The parsed records
    replace whatever `spec.levels` holds; only its other records are used.
    Every level of the result carries the numbers its own name spells.
   */
  function Construct(recs: seq<LevelRecord>, spec: SystemSpec, B: Binding, ndf: NdfTable, t: real)
    : (r: Result<System, BuildError>)
    ensures (exists i :: 0 <= i < |recs| && ParseLevel(recs[i]).Err?) ==> r.Err? && r.error.BadLevelName?
    ensures r.Ok? ==> Consistent(r.value) && |r.value.levels| == |recs|
    ensures r.Ok? ==> forall i :: 0 <= i < |r.value.levels| ==>
      NamedAsParsed(r.value.levels[i].name, r.value.levels[i].A, r.value.levels[i].Z)
  {
    ParseLevelsFacts(recs);
    var specs :- ParseLevels(recs);
    var full := spec.(levels := specs);
    var r := Build(full, B, ndf, t);
    if r.Ok? then
      BuiltNamedAsParsed(full, B, ndf, t);
      r
    else r
  }

  /** Parsed levels agree with their names, and a failed parse reports a bad name. */
  lemma ParseLevelsFacts(recs: seq<LevelRecord>)
    ensures var r := ParseLevels(recs);
      && (r.Ok? ==> forall i :: 0 <= i < |r.value| ==> NamedAsParsed(r.value[i].name, r.value[i].A, r.value[i].Z))
      && ((exists i :: 0 <= i < |recs| && ParseLevel(recs[i]).Err?) ==> r.Err? && r.error.BadLevelName?)
  {
    var r := ParseLevels(recs);
    if r.Ok? {
      forall i | 0 <= i < |r.value|
        ensures NamedAsParsed(r.value[i].name, r.value[i].A, r.value[i].Z)
      {
        assert ParseLevel(recs[i]).Ok?;
      }
    } else {
      var i :| 0 <= i < |recs| && ParseLevel(recs[i]) == Err(r.error);
    }
  }

  /** Building keeps every level's name, mass and charge from some record. */
  lemma BuiltNamedAsParsed(spec: SystemSpec, B: Binding, ndf: NdfTable, t: real)
    requires Build(spec, B, ndf, t).Ok?
    requires forall i :: 0 <= i < |spec.levels| ==>
      NamedAsParsed(spec.levels[i].name, spec.levels[i].A, spec.levels[i].Z)
    ensures var ls := Build(spec, B, ndf, t).value.levels;
      forall i :: 0 <= i < |ls| ==> NamedAsParsed(ls[i].name, ls[i].A, ls[i].Z)
  {
    var s := WithCaptures(spec, B, ndf).value;
    BuildLevels(spec, B, ndf, s);
    var ls := Build(spec, B, ndf, t).value.levels;
    assert ls == s.levels;
    forall i | 0 <= i < |ls|
      ensures NamedAsParsed(ls[i].name, ls[i].A, ls[i].Z)
    {
      assert SameButFlux(s.levels[i], SortedLevels(spec.levels)[i]);
      SortedLevelFrom(spec.levels, i);
    }
  }

  /** `b` grows `a` by appending transitions, keeping the levels apart from their fluxes. */
  predicate Extends(a: System, b: System) {
    && SameLevels(a, b)
    && |a.transitions| <= |b.transitions|
    && b.transitions[..|a.transitions|] == a.transitions
  }

  lemma ExtendsTrans(a: System, b: System, c: System)
    requires Extends(a, b) && Extends(b, c)
    ensures Extends(a, c)
  {
    SameLevelsTrans(a, b, c);
    assert c.transitions[..|a.transitions|] == c.transitions[..|b.transitions|][..|a.transitions|];
  }

  /** Each construction stage extends the one before it. */
  lemma AugerStage(spec: SystemSpec, B: Binding, ndf: NdfTable)
    requires WithAugers(spec, B, ndf).Ok?
    ensures WithGammas(spec, B, ndf).Ok?
    ensures var s1 := WithGammas(spec, B, ndf).value;
      var s2 := WithAugers(spec, B, ndf).value;
      Extends(s1, s2) && s2.transitions == s1.transitions && |s1.transitions| == |spec.gammas|
  {
    var s1 := WithGammas(spec, B, ndf).value;
    var s2 := WithAugers(spec, B, ndf).value;
    ConsistentFrame(s1, s2);
    assert s2.transitions[..|s1.transitions|] == s2.transitions;
  }

  lemma BetaStage(spec: SystemSpec, B: Binding, ndf: NdfTable)
    requires WithBetas(spec, B, ndf).Ok?
    ensures WithAugers(spec, B, ndf).Ok?
    ensures Extends(WithAugers(spec, B, ndf).value, WithBetas(spec, B, ndf).value)
  {
  }

  lemma CaptureStage(spec: SystemSpec, B: Binding, ndf: NdfTable)
    requires WithCaptures(spec, B, ndf).Ok?
    ensures WithBetas(spec, B, ndf).Ok?
    ensures Extends(WithBetas(spec, B, ndf).value, WithCaptures(spec, B, ndf).value)
  {
  }

  lemma ExtendsSame(a: System, b: System)
    requires SameLevels(a, b) && b.transitions == a.transitions
    ensures Extends(a, b)
  {
    assert b.transitions[..|a.transitions|] == a.transitions;
  }

  lemma CutoffStage(spec: SystemSpec, B: Binding, ndf: NdfTable, t: real)
    requires Build(spec, B, ndf, t).Ok?
    ensures WithCaptures(spec, B, ndf).Ok?
    ensures var s4 := WithCaptures(spec, B, ndf).value;
      var r := Build(spec, B, ndf, t).value;
      Extends(s4, r) && r.transitions == s4.transitions
  {
    var s4 := WithCaptures(spec, B, ndf).value;
    SetCutoffConsistent(s4, t);
    ExtendsSame(s4, SetCutoff(s4, t));
  }

  /** The built system extends each stage after the levels. */
  lemma BuildExtends(spec: SystemSpec, B: Binding, ndf: NdfTable, t: real)
    requires Build(spec, B, ndf, t).Ok?
    ensures WithGammas(spec, B, ndf).Ok? && WithAugers(spec, B, ndf).Ok?
    ensures WithBetas(spec, B, ndf).Ok? && WithCaptures(spec, B, ndf).Ok?
    ensures var r := Build(spec, B, ndf, t).value;
      && Extends(WithGammas(spec, B, ndf).value, r)
      && Extends(WithBetas(spec, B, ndf).value, r)
      && r.transitions == WithCaptures(spec, B, ndf).value.transitions
  {
    CutoffStage(spec, B, ndf, t);
    CaptureStage(spec, B, ndf);
    BetaStage(spec, B, ndf);
    AugerStage(spec, B, ndf);
    var s1 := WithGammas(spec, B, ndf).value;
    var s2 := WithAugers(spec, B, ndf).value;
    var s3 := WithBetas(spec, B, ndf).value;
    var s4 := WithCaptures(spec, B, ndf).value;
    var r := Build(spec, B, ndf, t).value;
    ExtendsTrans(s3, s4, r);
    ExtendsTrans(s1, s2, s3);
    ExtendsTrans(s1, s3, r);
  }

  /** The k-th gamma record's transition, as the gamma stage leaves it. */
  lemma GammaStageContents(spec: SystemSpec, B: Binding, ndf: NdfTable, k: nat)
    requires WithGammas(spec, B, ndf).Ok? && k < |spec.gammas|
    ensures var s1 := WithGammas(spec, B, ndf).value;
      k < |s1.transitions| && GammaFor(s1, spec.gammas[k], ndf, s1.transitions[k])
  {
    AddGammasContents(Levelled(spec).value, spec.gammas, B, ndf, k);
  }

  /** The k-th beta record's transition, as the beta stage leaves it. */
  lemma BetaStageContents(spec: SystemSpec, B: Binding, ndf: NdfTable, k: nat)
    requires WithBetas(spec, B, ndf).Ok? && k < |spec.betas|
    ensures var s3 := WithBetas(spec, B, ndf).value;
      |spec.gammas| + k < |s3.transitions| && BetaFor(s3, spec.betas[k], ndf, s3.transitions[|spec.gammas| + k])
  {
    BetaStage(spec, B, ndf);
    AugerStage(spec, B, ndf);
    AddBetasContents(WithAugers(spec, B, ndf).value, spec.betas, B, ndf, k);
  }

  /** Transition k of the built system is the k-th gamma record's. */
  lemma BuildGamma(spec: SystemSpec, B: Binding, ndf: NdfTable, t: real, k: nat)
    requires Build(spec, B, ndf, t).Ok? && k < |spec.gammas|
    ensures var r := Build(spec, B, ndf, t).value;
      k < |r.transitions| && GammaFor(r, spec.gammas[k], ndf, r.transitions[k])
  {
    BuildExtends(spec, B, ndf, t);
    GammaStageContents(spec, B, ndf, k);
    var s1 := WithGammas(spec, B, ndf).value;
    var r := Build(spec, B, ndf, t).value;
    assert r.transitions[k] == r.transitions[..|s1.transitions|][k] == s1.transitions[k];
    SameLevelsKeepsGamma(s1, r, spec.gammas[k], ndf, s1.transitions[k]);
  }

  /** The beta records' transitions follow the gammas', in order. */
  lemma BuildBeta(spec: SystemSpec, B: Binding, ndf: NdfTable, t: real, k: nat)
    requires Build(spec, B, ndf, t).Ok? && k < |spec.betas|
    ensures var r := Build(spec, B, ndf, t).value;
      |spec.gammas| + k < |r.transitions| && BetaFor(r, spec.betas[k], ndf, r.transitions[|spec.gammas| + k])
  {
    BuildExtends(spec, B, ndf, t);
    BetaStageContents(spec, B, ndf, k);
    var s3 := WithBetas(spec, B, ndf).value;
    var r := Build(spec, B, ndf, t).value;
    var j := |spec.gammas| + k;
    assert r.transitions[j] == r.transitions[..|s3.transitions|][j] == s3.transitions[j];
    SameLevelsKeepsBeta(s3, r, spec.betas[k], ndf, s3.transitions[j]);
  }

  /** Every transition after the gamma and beta records' is an electron capture. */
  lemma BuildCapture(spec: SystemSpec, B: Binding, ndf: NdfTable, t: real, j: nat)
    requires Build(spec, B, ndf, t).Ok?
    requires |spec.gammas| + |spec.betas| <= j < |Build(spec, B, ndf, t).value.transitions|
    ensures var r := Build(spec, B, ndf, t).value;
      CaptureFor(r, ndf, r.transitions[j])
  {
    CutoffStage(spec, B, ndf, t);
    CaptureStage(spec, B, ndf);
    BetaStage(spec, B, ndf);
    AugerStage(spec, B, ndf);
    var s3 := WithBetas(spec, B, ndf).value;
    var s4 := WithCaptures(spec, B, ndf).value;
    var r := Build(spec, B, ndf, t).value;
    AddCapturesContents(s3, spec.captures, B, ndf, j);
    SameLevelsKeepsCapture(s4, r, ndf, s4.transitions[j]);
  }
}

=== FILE: events.dfy ===
/** The particles a decay step emits (`DecayType`) and the emitted event record. */
module Events {

  /** Particle kinds emitted by the transitions of the model. */
  datatype Particle = Gamma | Electron | Positron

  /** One emitted particle and its kinetic energy in keV. Directions are not part of the model. */
  datatype Event = Event(d: Particle, E: real)
}

=== FILE: level_scheme.dfy ===
/**
  The nuclear level scheme (`NucDecaySystem`): energy levels sorted by energy
  and numbered densely, the transitions between them with their intensity
  bookkeeping, the atoms the transitions land in, and the distribution of
  starting levels. Transitions are kept in one sequence; `transIn[i]` and
  `transOut[i]` hold positions in it, in the order the transitions were added.
 */
module LevelScheme {
  import opened Wrappers
  import opened Selector
  import Conversion
  import Text

  /** `DBL_MAX`, the half-life given to levels whose half-life is negative (stable). */
  const DblMax: real := 1.7976931348623157e308

  /** Number of values of a 32-bit `unsigned int`. */
  const UintRange: int := 0x1_0000_0000

  /** A `level` record: name, mass and atomic numbers, energy (keV) and half-life (s). */
  datatype LevelSpec = LevelSpec(name: string, A: int, Z: int, E: real, hl: real)

  datatype Level = Level(name: string, A: int, Z: int, E: real, hl: real, fluxIn: real, fluxOut: real, n: nat)

  /** What a transition does when it runs. */
  datatype Kind =
    | ConversionKind(cg: Conversion.ConversionGamma)
    | BetaKind(positron: bool)
    | CaptureKind

  /** `from` and `to` are level positions; `ndf` is the number of variates the transition consumes. */
  datatype Transition = Transition(from: nat, to: nat, Itotal: real, ndf: nat, kind: Kind)

  /** The atom a transition lands in; only the K-shell Auger energy is kept. */
  datatype Atom = Atom(Z: nat, Eauger: real)

  /** Subshell binding energy `(Z, shell, subshell)`, the stand-in for the binding-energy library. */
  type Binding = (nat, nat, nat) -> real

  /**
    Variates consumed by each transition kind: the value each transition
    class's `getNDF()` reports, supplied by the caller.
   */
  datatype NdfTable = NdfTable(conversion: nat, beta: nat, capture: nat)

  datatype BuildError =
    | DuplicateLevel(name: string)
    | UnknownLevel(name: string)
    | BadAugerZ(Z: int)
    | BadLevelName(name: string)
    | CaptureMismatch(from: string, to: string)

  datatype System = System(
    levels: seq<Level>,
    index: map<string, nat>,
    transitions: seq<Transition>,
    transIn: seq<seq<nat>>,
    transOut: seq<seq<nat>>,
    levelDecays: seq<PSelector>,
    atoms: map<nat, Atom>,
    lStart: PSelector,
    tcut: real)

  /** The conversion of an `int` to a 32-bit `unsigned int` (two's complement wrap-around). */
  function Unsigned(z: int): (u: nat)
    ensures u < UintRange
    ensures 0 <= z < UintRange ==> u == z
    ensures (u - z) % UintRange == 0
  {
    z % UintRange
  }

  // ---------------------------------------------------------------- levels

  /** A `level` record as stored: its `nm` entry (absent: None), energy `E` and half-life `hl`. */
  datatype LevelRecord = LevelRecord(nm: Option<string>, E: real, hl: real)

  /** The level name a record gives: its `nm` entry, or "0.0.0" without one. */
  function RecordName(rec: LevelRecord): string {
    if rec.nm.Some? then rec.nm.value else "0.0.0"
  }

  /** A level name has the form `A.Z.n`, and the level's A and Z are read from it. */
  predicate NamedAsParsed(name: string, A: int, Z: int) {
    var parts := Text.Split(name, {'.'});
    |parts| == 3 && A == Text.Atoi(parts[0]) && Z == Text.Atoi(parts[1])
  }

  /**
    `NucLevel(m)` reading a record: the name must split at '.' into exactly
    three pieces (otherwise the program stops), and A and Z are the `atoi`
    values of the first two. The third piece, the level number, is replaced
    when the levels are numbered, so it is not kept.
   */
  function ParseLevel(rec: LevelRecord): (r: Result<LevelSpec, BuildError>)
    ensures r.Ok? <==> |Text.Split(RecordName(rec), {'.'})| == 3
    ensures r.Ok? ==> var l := r.value;
      l.name == RecordName(rec) && NamedAsParsed(l.name, l.A, l.Z) && l.E == rec.E && l.hl == rec.hl
    ensures r.Err? ==> r.error == BadLevelName(RecordName(rec))
  {
    var name := RecordName(rec);
    var parts := Text.Split(name, {'.'});
    if |parts| != 3 then Err(BadLevelName(name))
    else Ok(LevelSpec(name, Text.Atoi(parts[0]), Text.Atoi(parts[1]), rec.E, rec.hl))
  }

  /** A name written as `A.Z.n` from natural numbers reads back A and Z. */
  lemma ParseLevelName(A: nat, Z: nat, n: nat, E: real, hl: real)
    ensures var name := Text.NatToStr(A) + ("." + Text.NatToStr(Z) + "." + Text.NatToStr(n));
      ParseLevel(LevelRecord(Some(name), E, hl)) == Ok(LevelSpec(name, A, Z, E, hl))
  {
    var a, z, m := Text.NatToStr(A), Text.NatToStr(Z), Text.NatToStr(n);
    DigitsClean(a);
    DigitsClean(z);
    DigitsClean(m);
    Text.SplitThree(a, z, m, '.', {'.'});
    Text.AtoiNatToStr(A);
    Text.AtoiNatToStr(Z);
  }

  /** A string of decimal digits holds no '.'. */
  lemma DigitsClean(w: string)
    requires forall i :: 0 <= i < |w| ==> Text.IsDigit(w[i])
    ensures Text.Clean(w, {'.'})
  {
  }

  /** A record without a name is read as the default level `0.0.0`: A = 0 and Z = 0. */
  lemma ParseLevelDefault(E: real, hl: real)
    ensures ParseLevel(LevelRecord(None, E, hl)) == Ok(LevelSpec("0.0.0", 0, 0, E, hl))
  {
    Text.SplitThree("0", "0", "0", '.', {'.'});
    assert "0.0.0" == "0" + (['.'] + "0" + ['.'] + "0");
    Text.AtoiNatToStr(0);
    assert Text.NatToStr(0) == "0";
  }

  /** A name without two dots cannot be read, and stops the program. */
  lemma ParseLevelRejects(E: real, hl: real)
    ensures ParseLevel(LevelRecord(Some("12.5"), E, hl)) == Err(BadLevelName("12.5"))
  {
    var D: set<char> := {'.'};
    assert Text.Split("12.5", D) == ["12", "5"] by {
      Text.SplitWord("12", ".5", D);
      Text.SplitPrefixed(["5"], '.', D);
      assert "12" + ".5" == "12.5";
      assert Text.Prefixed(["5"], '.') == ".5";
    }
  }

  /** The level a record describes, before numbering; a negative half-life means stable. */
  function NewLevel(spec: LevelSpec): (l: Level)
    ensures l.hl >= 0.0 || l.hl == spec.hl
    ensures spec.hl < 0.0 ==> l.hl == DblMax
    ensures l.fluxIn == 0.0 && l.fluxOut == 0.0
  {
    Level(spec.name, spec.A, spec.Z, spec.E, if spec.hl < 0.0 then DblMax else spec.hl, 0.0, 0.0, 0)
  }

  predicate SortedByEnergy(ls: seq<Level>) {
    forall i, j :: 0 <= i < j < |ls| ==> EnergyOrdered(ls, i, j)
  }

  /** Level i lies no higher than level j. */
  predicate EnergyOrdered(ls: seq<Level>, i: nat, j: nat)
    requires i < |ls| && j < |ls|
  {
    ls[i].E <= ls[j].E
  }

  /** Insertion before the first level of equal or higher energy. */
  function InsertByEnergy(l: Level, ls: seq<Level>): (r: seq<Level>)
    ensures |r| == |ls| + 1
    ensures multiset(r) == multiset(ls) + multiset{l}
  {
    if |ls| == 0 || l.E <= ls[0].E then [l] + ls
    else
      assert ls == [ls[0]] + ls[1..];
      [ls[0]] + InsertByEnergy(l, ls[1..])
  }

  /** Insertion keeps a sorted sequence sorted, and starts with the inserted or the old first level. */
  lemma {:induction false} InsertSorted(l: Level, ls: seq<Level>)
    requires SortedByEnergy(ls)
    ensures SortedByEnergy(InsertByEnergy(l, ls))
    ensures var r := InsertByEnergy(l, ls); r[0] == l || (|ls| > 0 && r[0] == ls[0])
  {
    var r := InsertByEnergy(l, ls);
    if |ls| == 0 || l.E <= ls[0].E {
      forall i, j | 0 <= i < j < |r|
        ensures EnergyOrdered(r, i, j)
      {
        if i == 0 {
          if j > 1 {
            assert EnergyOrdered(ls, 0, j - 1);
          }
        } else {
          assert EnergyOrdered(ls, i - 1, j - 1);
        }
      }
    } else {
      var tail := ls[1..];
      forall i, j | 0 <= i < j < |tail|
        ensures EnergyOrdered(tail, i, j)
      {
        assert EnergyOrdered(ls, i + 1, j + 1);
      }
      var rest := InsertByEnergy(l, tail);
      InsertSorted(l, tail);
      if |tail| > 0 {
        assert EnergyOrdered(ls, 0, 1);
      }
      assert ls[0].E <= rest[0].E;
      assert r == [ls[0]] + rest;
      forall i, j | 0 <= i < j < |r|
        ensures EnergyOrdered(r, i, j)
      {
        if i == 0 {
          if j > 1 {
            assert EnergyOrdered(rest, 0, j - 1);
          }
        } else {
          assert EnergyOrdered(rest, i - 1, j - 1);
        }
      }
    }
  }

  /**
    `std::sort(levels, sortLevels)`: ascending energy, same levels. The source
    leaves the order of equal energies unspecified; this sort keeps input order.
   */
  function SortLevels(ls: seq<Level>): (r: seq<Level>)
    ensures |r| == |ls|
    ensures multiset(r) == multiset(ls)
  {
    if |ls| == 0 then []
    else
      assert ls == [ls[0]] + ls[1..];
      InsertByEnergy(ls[0], SortLevels(ls[1..]))
  }

  /** The sorted levels are in ascending order of energy. */
  lemma {:induction false} SortLevelsSorted(ls: seq<Level>)
    ensures SortedByEnergy(SortLevels(ls))
  {
    if |ls| > 0 {
      SortLevelsSorted(ls[1..]);
      InsertSorted(ls[0], SortLevels(ls[1..]));
    }
  }

  /** Each level's `n` set to its position (`l.n = nlev++`). */
  function Number(ls: seq<Level>): (r: seq<Level>)
    ensures |r| == |ls|
    ensures forall i :: 0 <= i < |ls| ==> r[i] == ls[i].(n := i)
  {
    seq(|ls|, i requires 0 <= i < |ls| => ls[i].(n := i))
  }

  predicate DistinctNames(ls: seq<Level>) {
    forall i, j :: 0 <= i < j < |ls| ==> ls[i].name != ls[j].name
  }

  /**
    `levelIndex`, filled in level order; a name seen twice fails the
    assertion, reported as `DuplicateLevel`.
   */
  function BuildIndex(ls: seq<Level>): (r: Result<map<string, nat>, BuildError>)
    ensures r.Ok? ==> forall i :: 0 <= i < |ls| ==> ls[i].name in r.value && r.value[ls[i].name] == i
    ensures r.Ok? ==> forall k :: k in r.value ==> r.value[k] < |ls| && ls[r.value[k]].name == k
    ensures r.Err? ==> r.error.DuplicateLevel?
  {
    if |ls| == 0 then Ok(map[])
    else
      var prefix := ls[..|ls| - 1];
      var last := ls[|ls| - 1];
      match BuildIndex(prefix)
      case Err(e) => Err(e)
      case Ok(m) =>
        if last.name in m then Err(DuplicateLevel(last.name))
        else
          var m' := m[last.name := |ls| - 1];
          assert forall i :: 0 <= i < |prefix| ==> ls[i] == prefix[i];
          Ok(m')
  }

  /** The index is built exactly when no two levels share a name. */
  lemma {:induction false} BuildIndexOkIff(ls: seq<Level>)
    ensures BuildIndex(ls).Ok? <==> DistinctNames(ls)
  {
    if |ls| > 0 {
      var prefix := ls[..|ls| - 1];
      var last := ls[|ls| - 1];
      BuildIndexOkIff(prefix);
      assert DistinctNames(ls) ==> DistinctNames(prefix) by {
        assert forall i :: 0 <= i < |prefix| ==> ls[i] == prefix[i];
      }
      match BuildIndex(prefix)
      case Err(_) =>
      case Ok(m) =>
        if last.name in m {
          assert ls[m[last.name]].name == last.name;
        }
    }
  }

  /** Level i is numbered i and found under its name. */
  predicate LevelIndexed(sys: System, i: nat)
    requires i < |sys.levels|
  {
    sys.levels[i].n == i && sys.levels[i].name in sys.index && sys.index[sys.levels[i].name] == i
  }

  /** The index entry for name k points at a level of that name. */
  predicate IndexEntry(sys: System, k: string)
    requires k in sys.index
  {
    sys.index[k] < |sys.levels| && sys.levels[sys.index[k]].name == k
  }

  /** Levels sorted by energy, numbered by position, and indexed by name. */
  predicate Indexed(sys: System) {
    && SortedByEnergy(sys.levels)
    && (forall i :: 0 <= i < |sys.levels| ==> LevelIndexed(sys, i))
    && (forall k {:trigger IndexEntry(sys, k)} :: k in sys.index ==> IndexEntry(sys, k))
  }

  /** `levIndex`: the position of a named level, or `UnknownLevel`. */
  function LevIndex(sys: System, name: string): (r: Result<nat, BuildError>)
    requires Indexed(sys)
    ensures r.Ok? <==> name in sys.index
    ensures r.Ok? ==> r.value < |sys.levels| && sys.levels[r.value].name == name
    ensures r.Err? ==> r.error == UnknownLevel(name)
  {
    if name in sys.index then
      assert IndexEntry(sys, name);
      Ok(sys.index[name])
    else Err(UnknownLevel(name))
  }

  // ---------------------------------------------------------------- bookkeeping

  predicate InRange(idx: seq<nat>, n: nat) {
    forall k :: 0 <= k < |idx| ==> idx[k] < n
  }

  /** Positions of the transitions leaving (`outgoing`) or entering level i, in order. */
  function Incident(ts: seq<Transition>, i: nat, outgoing: bool): (r: seq<nat>)
    ensures InRange(r, |ts|)
    ensures forall k :: 0 <= k < |r| ==> (if outgoing then ts[r[k]].from else ts[r[k]].to) == i
  {
    if |ts| == 0 then []
    else
      var t := ts[|ts| - 1];
      Incident(ts[..|ts| - 1], i, outgoing) + (if (if outgoing then t.from else t.to) == i then [|ts| - 1] else [])
  }

  /** The intensities of the transitions at the given positions. */
  function Intensities(ts: seq<Transition>, idx: seq<nat>): (ws: seq<real>)
    requires InRange(idx, |ts|)
    ensures |ws| == |idx|
    ensures forall k :: 0 <= k < |idx| ==> ws[k] == ts[idx[k]].Itotal
  {
    seq(|idx|, k requires 0 <= k < |idx| => ts[idx[k]].Itotal)
  }

  predicate LevelOK(sys: System, i: nat)
    requires i < |sys.levels| && i < |sys.transIn| && i < |sys.transOut| && i < |sys.levelDecays|
  {
    && sys.transOut[i] == Incident(sys.transitions, i, true)
    && sys.transIn[i] == Incident(sys.transitions, i, false)
    && sys.levels[i].fluxOut == Sum(Intensities(sys.transitions, sys.transOut[i]))
    && sys.levels[i].fluxIn == Sum(Intensities(sys.transitions, sys.transIn[i]))
    && sys.levelDecays[i] == FromWeights(Intensities(sys.transitions, sys.transOut[i]))
  }

  predicate TransitionOK(t: Transition, nlev: nat) {
    && t.from < nlev && t.to < nlev
    && (t.kind.ConversionKind? ==> Conversion.WellFormed(t.kind.cg))
  }

  /**
    The bookkeeping `addTransition` maintains: `transOut[i]`/`transIn[i]` list
    exactly the transitions leaving/entering level i in order of addition,
    `fluxOut`/`fluxIn` are the sums of their intensities, and level i's
    decay selector has one category per outgoing transition.
   */
  predicate WellFormed(sys: System) {
    && |sys.transIn| == |sys.levels|
    && |sys.transOut| == |sys.levels|
    && |sys.levelDecays| == |sys.levels|
    && (forall j :: 0 <= j < |sys.transitions| ==> TransitionOK(sys.transitions[j], |sys.levels|))
    && (forall i :: 0 <= i < |sys.levels| ==> LevelOK(sys, i))
  }

  // ---------------------------------------------------------------- atoms and transitions

  /** The atom of atomic number Z: the K-shell Auger energy for Z > 2, else 0. */
  function NewAtom(Z: nat, B: Binding): (a: Atom)
    ensures a.Z == Z
    ensures Z <= 2 ==> a.Eauger == 0.0
    ensures Z > 2 ==> a.Eauger + B(Z, 1, 0) + B(Z, 1, 1) == B(Z, 0, 0)
  {
    Atom(Z, if Z > 2 then B(Z, 0, 0) - B(Z, 1, 0) - B(Z, 1, 1) else 0.0)
  }

  /** `getAtom`: the cached atom for Z, created and cached on first use. */
  function GetAtom(sys: System, Z: nat, B: Binding): (r: (System, Atom))
    ensures Z in r.0.atoms && r.0.atoms[Z] == r.1 && r.1.Z == (if Z in sys.atoms then sys.atoms[Z].Z else Z)
    ensures Z in sys.atoms ==> r.0 == sys
    ensures r.0.atoms.Keys == sys.atoms.Keys + {Z}
    ensures forall z :: z in sys.atoms ==> r.0.atoms[z] == sys.atoms[z]
    ensures r.0 == sys.(atoms := r.0.atoms)
  {
    if Z in sys.atoms then (sys, sys.atoms[Z])
    else
      var a := NewAtom(Z, B);
      (sys.(atoms := sys.atoms[Z := a]), a)
  }

  /** Asking twice for the same atom gives the same atom and changes nothing the second time. */
  lemma GetAtomIdempotent(sys: System, Z: nat, B: Binding)
    ensures var (s1, a1) := GetAtom(sys, Z, B);
      GetAtom(s1, Z, B) == (s1, a1)
  {
  }

  /**
    `addTransition`: look up the destination's atom, list the transition
    under its destination and origin, add an origin decay category, and add
    the intensity to the origin's outgoing and the destination's incoming flux.
   */
  function AddTransition(sys: System, T: Transition, B: Binding): (r: System)
    requires WellFormed(sys) && TransitionOK(T, |sys.levels|)
    ensures |r.levels| == |sys.levels| && r.index == sys.index && r.lStart == sys.lStart && r.tcut == sys.tcut
    ensures r.transitions == sys.transitions + [T]
    ensures Unsigned(sys.levels[T.to].Z) in r.atoms
  {
    assert LevelOK(sys, T.from);
    var (s1, _) := GetAtom(sys, Unsigned(sys.levels[T.to].Z), B);
    var k := |s1.transitions|;
    var lf := s1.levels[T.from];
    var levels1 := s1.levels[T.from := lf.(fluxOut := lf.fluxOut + T.Itotal)];
    var lt := levels1[T.to];
    var levels2 := levels1[T.to := lt.(fluxIn := lt.fluxIn + T.Itotal)];
    s1.(levels := levels2,
        transitions := s1.transitions + [T],
        transIn := s1.transIn[T.to := s1.transIn[T.to] + [k]],
        transOut := s1.transOut[T.from := s1.transOut[T.from] + [k]],
        levelDecays := s1.levelDecays[T.from := AddProb(s1.levelDecays[T.from], T.Itotal)])
  }

  lemma IncidentAppend(ts: seq<Transition>, T: Transition, i: nat, outgoing: bool)
    ensures Incident(ts + [T], i, outgoing) ==
      Incident(ts, i, outgoing) + (if (if outgoing then T.from else T.to) == i then [|ts|] else [])
  {
    assert (ts + [T])[..|ts|] == ts;
  }

  lemma SumAppend(ws: seq<real>, w: real)
    ensures Sum(ws + [w]) == Sum(ws) + w
  {
    assert (ws + [w])[..|ws|] == ws;
  }

  lemma FromWeightsAppend(ws: seq<real>, w: real)
    ensures FromWeights(ws + [w]) == AddProb(FromWeights(ws), w)
  {
    assert (ws + [w])[..|ws|] == ws;
  }

  /** One level's bookkeeping after appending T, from its bookkeeping before and the per-field effect. */
  lemma LevelStep(sys: System, r: System, T: Transition, i: nat)
    requires i < |sys.levels| && i < |sys.transIn| && i < |sys.transOut| && i < |sys.levelDecays|
    requires i < |r.levels| && i < |r.transIn| && i < |r.transOut| && i < |r.levelDecays|
    requires LevelOK(sys, i)
    requires r.transitions == sys.transitions + [T]
    requires r.transOut[i] == sys.transOut[i] + (if i == T.from then [|sys.transitions|] else [])
    requires r.transIn[i] == sys.transIn[i] + (if i == T.to then [|sys.transitions|] else [])
    requires r.levels[i].fluxOut == sys.levels[i].fluxOut + (if i == T.from then T.Itotal else 0.0)
    requires r.levels[i].fluxIn == sys.levels[i].fluxIn + (if i == T.to then T.Itotal else 0.0)
    requires r.levelDecays[i] == (if i == T.from then AddProb(sys.levelDecays[i], T.Itotal) else sys.levelDecays[i])
    ensures LevelOK(r, i)
  {
    var ts := sys.transitions;
    IncidentAppend(ts, T, i, true);
    IncidentAppend(ts, T, i, false);
    SideStep(ts, T, sys.transOut[i], r.transOut[i], sys.levels[i].fluxOut, r.levels[i].fluxOut, i == T.from);
    SideStep(ts, T, sys.transIn[i], r.transIn[i], sys.levels[i].fluxIn, r.levels[i].fluxIn, i == T.to);
  }

  /** One side (outgoing or incoming) of a level when T is appended: `hit` says whether T is on that side. */
  lemma SideStep(ts: seq<Transition>, T: Transition, idx: seq<nat>, idx': seq<nat>, flux: real, flux': real, hit: bool)
    requires InRange(idx, |ts|)
    requires idx' == idx + (if hit then [|ts|] else [])
    requires flux == Sum(Intensities(ts, idx))
    requires flux' == flux + (if hit then T.Itotal else 0.0)
    ensures InRange(idx', |ts + [T]|)
    ensures flux' == Sum(Intensities(ts + [T], idx'))
    ensures hit ==> FromWeights(Intensities(ts + [T], idx')) == AddProb(FromWeights(Intensities(ts, idx)), T.Itotal)
    ensures !hit ==> Intensities(ts + [T], idx') == Intensities(ts, idx)
  {
    var ws := Intensities(ts, idx);
    if hit {
      assert Intensities(ts + [T], idx') == ws + [T.Itotal];
      SumAppend(ws, T.Itotal);
      FromWeightsAppend(ws, T.Itotal);
    } else {
      assert idx' == idx;
      assert Intensities(ts + [T], idx') == ws;
      assert flux' == flux;
    }
  }

  /** Adding a transition keeps the flux bookkeeping exact. */
  lemma AddTransitionWellFormed(sys: System, T: Transition, B: Binding)
    requires WellFormed(sys) && TransitionOK(T, |sys.levels|)
    ensures WellFormed(AddTransition(sys, T, B))
  {
    var r := AddTransition(sys, T, B);
    forall i | 0 <= i < |r.levels|
      ensures LevelOK(r, i)
    {
      assert LevelOK(sys, i);
      AddTransitionEffect(sys, T, B, i);
      LevelStep(sys, r, T, i);
    }
    forall j | 0 <= j < |r.transitions|
      ensures TransitionOK(r.transitions[j], |r.levels|)
    {
      if j < |sys.transitions| {
        assert r.transitions[j] == sys.transitions[j];
      }
    }
  }

  /**
    Adding T appends its position to exactly `transOut[T.from]` and
    `transIn[T.to]` and raises exactly those two fluxes by its intensity.
   */
  lemma AddTransitionEffect(sys: System, T: Transition, B: Binding, i: nat)
    requires WellFormed(sys) && TransitionOK(T, |sys.levels|) && i < |sys.levels|
    ensures var r := AddTransition(sys, T, B);
      && r.transOut[i] == sys.transOut[i] + (if i == T.from then [|sys.transitions|] else [])
      && r.transIn[i] == sys.transIn[i] + (if i == T.to then [|sys.transitions|] else [])
      && r.levels[i].fluxOut == sys.levels[i].fluxOut + (if i == T.from then T.Itotal else 0.0)
      && r.levels[i].fluxIn == sys.levels[i].fluxIn + (if i == T.to then T.Itotal else 0.0)
      && r.levelDecays[i] == (if i == T.from then AddProb(sys.levelDecays[i], T.Itotal) else sys.levelDecays[i])
      && r.levels[i] == sys.levels[i].(fluxIn := r.levels[i].fluxIn, fluxOut := r.levels[i].fluxOut)
  {
    assert LevelOK(sys, T.from);
  }

  // ---------------------------------------------------------------- levels unchanged

  /** The two levels agree in everything but their flux counters, which `addTransition` alone updates. */
  predicate SameButFlux(x: Level, y: Level) {
    x.name == y.name && x.A == y.A && x.Z == y.Z && x.E == y.E && x.hl == y.hl && x.n == y.n
  }

  /** Same levels (apart from their fluxes) and the same name index. */
  predicate SameLevels(a: System, b: System) {
    && |a.levels| == |b.levels|
    && a.index == b.index
    && forall i :: 0 <= i < |a.levels| ==> SameLevel(a, b, i)
  }

  /** Level i is the same in both systems, apart from its fluxes. */
  predicate SameLevel(a: System, b: System, i: nat)
    requires i < |a.levels| && i < |b.levels|
  {
    SameButFlux(a.levels[i], b.levels[i])
  }

  lemma SameLevelsTrans(a: System, b: System, c: System)
    requires SameLevels(a, b) && SameLevels(b, c)
    ensures SameLevels(a, c)
  {
    forall i | 0 <= i < |a.levels|
      ensures SameLevel(a, c, i)
    {
      assert SameLevel(a, b, i) && SameLevel(b, c, i);
    }
  }

  predicate Consistent(sys: System) {
    WellFormed(sys) && Indexed(sys)
  }

  lemma AddTransitionSameLevels(sys: System, T: Transition, B: Binding)
    requires WellFormed(sys) && TransitionOK(T, |sys.levels|)
    ensures SameLevels(sys, AddTransition(sys, T, B))
  {
    var r := AddTransition(sys, T, B);
    forall i | 0 <= i < |sys.levels|
      ensures SameLevel(sys, r, i)
    {
      AddTransitionEffect(sys, T, B, i);
    }
  }

  lemma IndexedSame(a: System, b: System)
    requires Indexed(a) && SameLevels(a, b)
    ensures Indexed(b)
  {
    forall i | 0 <= i < |b.levels|
      ensures LevelIndexed(b, i)
    {
      assert LevelIndexed(a, i) && SameLevel(a, b, i);
    }
    forall k | k in b.index
      ensures IndexEntry(b, k)
    {
      assert IndexEntry(a, k) && SameLevel(a, b, a.index[k]);
    }
    forall i, j | 0 <= i < j < |b.levels|
      ensures EnergyOrdered(b.levels, i, j)
    {
      assert EnergyOrdered(a.levels, i, j) && SameLevel(a, b, i) && SameLevel(a, b, j);
    }
  }

  /** Adding a transition keeps the system consistent and its levels unchanged. */
  lemma AddTransitionConsistent(sys: System, T: Transition, B: Binding)
    requires Consistent(sys) && TransitionOK(T, |sys.levels|)
    ensures Consistent(AddTransition(sys, T, B)) && SameLevels(sys, AddTransition(sys, T, B))
  {
    AddTransitionWellFormed(sys, T, B);
    AddTransitionSameLevels(sys, T, B);
    IndexedSame(sys, AddTransition(sys, T, B));
  }

  // ---------------------------------------------------------------- cutoff

  /**
    Start weight of level n for cutoff t: 1 for the highest level; for a
    level that is long-lived beyond the cutoff and decays, the sum of the
    intensities feeding it; otherwise 0.
   */
  function StartWeight(sys: System, t: real, n: nat): (w: real)
    requires WellFormed(sys) && n < |sys.levels|
  {
    assert LevelOK(sys, n);
    if n + 1 == |sys.levels| then 1.0
    else if sys.levels[n].hl > t && |sys.transOut[n]| > 0 then Sum(Intensities(sys.transitions, sys.transIn[n]))
    else 0.0
  }

  function StartWeights(sys: System, t: real): (ws: seq<real>)
    requires WellFormed(sys)
    ensures |ws| == |sys.levels|
    ensures forall n :: 0 <= n < |sys.levels| ==> ws[n] == StartWeight(sys, t, n)
  {
    seq(|sys.levels|, n requires 0 <= n < |sys.levels| => StartWeight(sys, t, n))
  }

  /** Each level's decay selector rebuilt from its outgoing transitions. */
  function RebuiltDecays(sys: System): (ds: seq<PSelector>)
    requires WellFormed(sys)
    ensures |ds| == |sys.levels|
  {
    seq(|sys.levels|, n requires 0 <= n < |sys.levels| =>
      assert LevelOK(sys, n); FromWeights(Intensities(sys.transitions, sys.transOut[n])))
  }

  /**
    `setCutoff(t)`: record the cutoff, rebuild every level's decay selector
    from its outgoing transitions, and rebuild the start-level selector.
   */
  function SetCutoff(sys: System, t: real): (r: System)
    requires WellFormed(sys)
    ensures |r.lStart.cumprob| >= 1 && Count(r.lStart) == |r.levels|
    ensures r.tcut == t
  {
    sys.(tcut := t, levelDecays := RebuiltDecays(sys), lStart := FromWeights(StartWeights(sys, t)))
  }

  /** A system that differs only in its atoms, cutoff or start selector is as consistent. */
  lemma ConsistentFrame(a: System, b: System)
    requires Consistent(a)
    requires b.levels == a.levels && b.index == a.index && b.transitions == a.transitions
    requires b.transIn == a.transIn && b.transOut == a.transOut && b.levelDecays == a.levelDecays
    ensures Consistent(b) && SameLevels(a, b)
  {
    forall i | 0 <= i < |b.levels|
      ensures LevelOK(b, i) && LevelIndexed(b, i)
    {
      assert LevelOK(a, i) && LevelIndexed(a, i);
    }
    forall k | k in b.index
      ensures IndexEntry(b, k)
    {
      assert IndexEntry(a, k);
    }
  }

  /** Rebuilding changes no decay selector: they were already exact. */
  lemma SetCutoffConsistent(sys: System, t: real)
    requires Consistent(sys)
    ensures var r := SetCutoff(sys, t);
      Consistent(r) && SameLevels(sys, r) && r.transitions == sys.transitions && r.levelDecays == sys.levelDecays
  {
    var r := SetCutoff(sys, t);
    forall n | 0 <= n < |sys.levels|
      ensures r.levelDecays[n] == sys.levelDecays[n]
    {
      assert LevelOK(sys, n);
    }
    assert r.levelDecays == sys.levelDecays;
    ConsistentFrame(sys, r);
  }

  /**
    The start distribution over levels: the highest level has weight 1; a
    lower level has weight equal to its incoming flux when its half-life
    exceeds the cutoff and it has a decay, and weight 0 otherwise.
   */
  lemma StartShares(sys: System, t: real, n: nat)
    requires WellFormed(sys) && n < |sys.levels|
    ensures var s := SetCutoff(sys, t).lStart;
      Width(s, n) == (if n + 1 == |sys.levels| then 1.0
                      else if sys.levels[n].hl > t && |Incident(sys.transitions, n, true)| > 0 then sys.levels[n].fluxIn
                      else 0.0)
  {
    assert LevelOK(sys, n);
  }
}

=== FILE: name_selector.dfy ===
/**
  Menus of named choices (`NameSelector`, `OptionsMenu`) and the argument
  descriptions of `InputRequester`.

  The interactors a choice or a catch-all may run are outside this model; a
  choice refers to one by an opaque identifier.
 */
module NameSelector {
  import opened Wrappers
  import opened Text
  import ControlMenu

  // ------------------------------------------------------------------ flags

  /** `Selector_Option_Flags`: one bit per property, none for a normal choice. */
  const Normal: bv32 := 0
  const Hidden: bv32 := 1
  const Disabled: bv32 := 2
  const Synonym: bv32 := 4

  /** The three properties are separate single bits. */
  lemma FlagsDistinct()
    ensures Hidden & Disabled == 0 && Hidden & Synonym == 0 && Disabled & Synonym == 0
    ensures Hidden != 0 && Disabled != 0 && Synonym != 0 && Normal == 0
  {
  }

  // --------------------------------------------------------------- choices

  /** An interactor outside this model, named by an identifier. */
  type ActionId = nat

  datatype Choice = Choice(name: string, descrip: string, out: string, flags: bv32, action: Option<ActionId>)

  /**
    A selector: its title and prompt argument (with the prompt's default),
    the choices in the order they were added, the name index `nameMap`,
    the catch-all interactor, and whether the default soft matching is on.
   */
  datatype Selector = Selector(
    title: string, prompt: string, dflt: string,
    choices: seq<Choice>, index: map<string, nat>,
    catchAll: Option<ActionId>, soft: bool)

  /** The name index and the choice list agree: each name maps to its own position. */
  predicate Valid(sel: Selector) {
    (forall i :: 0 <= i < |sel.choices| ==>
       sel.choices[i].name in sel.index && sel.index[sel.choices[i].name] == i)
    && (forall k :: k in sel.index ==> sel.index[k] < |sel.choices| && sel.choices[sel.index[k]].name == k)
    && (forall i :: 0 <= i < |sel.choices| ==> |sel.choices[i].out| > 0)
  }

  /** The constructor: no choices yet, soft matching on. */
  function New(title: string, prompt: string): (sel: Selector)
    ensures Valid(sel) && sel.choices == []
  {
    Selector(title, prompt, "", [], map[], None, true)
  }

  /** The name a new choice gets: as given, or its 1-based number when empty. */
  function ChoiceName(sel: Selector, nm: string): (r: string)
    ensures |r| > 0
  {
    if |nm| == 0 then NatToStr(|sel.choices| + 1) else nm
  }

  /**
    `addChoice`: register a choice under a fresh name; the output defaults
    to the name. A name already present fails the program's assertion.
   */
  function AddChoice(sel: Selector, d: string, nm: string, o: bv32, mname: string, action: Option<ActionId>)
    : (r: Result<Selector, string>)
    ensures r.Err? <==> ChoiceName(sel, nm) in sel.index
    ensures r.Ok? ==> |r.value.choices| == |sel.choices| + 1 && r.value.choices[..|sel.choices|] == sel.choices
    ensures r.Ok? ==> r.value.title == sel.title && r.value.dflt == sel.dflt && r.value.catchAll == sel.catchAll
    ensures r.Ok? ==>
      var name := ChoiceName(sel, nm);
      r.value.choices[|sel.choices|] == Choice(name, d, if |mname| == 0 then name else mname, o, action)
  {
    var name := ChoiceName(sel, nm);
    if name in sel.index then Err("duplicate choice name")
    else
      var c := Choice(name, d, if |mname| == 0 then name else mname, o, action);
      assert (sel.choices + [c])[..|sel.choices|] == sel.choices;
      Ok(sel.(choices := sel.choices + [c], index := sel.index[name := |sel.choices|]))
  }

  /**
    A successful `addChoice` keeps the index consistent, files the new
    choice under its name at the end, and leaves every other name where it
    was.
   */
  lemma AddChoiceIndex(sel: Selector, d: string, nm: string, o: bv32, mname: string, action: Option<ActionId>)
    requires Valid(sel)
    requires AddChoice(sel, d, nm, o, mname, action).Ok?
    ensures var s' := AddChoice(sel, d, nm, o, mname, action).value;
      var name := ChoiceName(sel, nm);
      Valid(s')
      && s'.index == sel.index[name := |sel.choices|]
  {
  }

  /** The position registered under a name, if any. */
  function Lookup(sel: Selector, k: string): Option<nat> {
    if k in sel.index then Some(sel.index[k]) else None
  }

  /**
    `addSynonym(arg0, syn)`: a new hidden synonym choice with the original's
    description, output and action; an unknown original fails the program's
    assertion.
   */
  function AddSynonym(sel: Selector, arg0: string, syn: string): (r: Result<Selector, string>)
    requires Valid(sel)
    ensures r.Ok? <==> arg0 in sel.index && ChoiceName(sel, syn) !in sel.index
    ensures r.Ok? ==> |r.value.choices| == |sel.choices| + 1
    ensures r.Ok? ==>
      var orig, c := sel.choices[sel.index[arg0]], r.value.choices[|sel.choices|];
      r.value.choices[..|sel.choices|] == sel.choices
      && c.name == ChoiceName(sel, syn) && c.descrip == orig.descrip && c.out == orig.out
      && c.action == orig.action
      && c.flags == orig.flags | Synonym | Hidden
  {
    if arg0 !in sel.index then Err("unknown choice")
    else
      var orig := sel.choices[sel.index[arg0]];
      AddChoice(sel, orig.descrip, syn, orig.flags | Synonym | Hidden, orig.out, orig.action)
  }

  /**
    Typing a synonym's name selects the synonym, which yields the original's
    output and runs its action; a synonym of a disabled choice is disabled
    too and is rejected like it.
   */
  lemma SynonymResolves(sel: Selector, arg0: string, syn: string)
    requires Valid(sel)
    requires AddSynonym(sel, arg0, syn).Ok?
    requires !IsControl(ChoiceName(sel, syn))
    ensures var s', name := AddSynonym(sel, arg0, syn).value, ChoiceName(sel, syn);
      var orig := sel.choices[sel.index[arg0]];
      && Valid(s')
      && (orig.flags & Disabled == 0 ==> Resolve(s', name) == Chosen(|sel.choices|))
      && (orig.flags & Disabled != 0 ==> Resolve(s', name) == Reject(s', name))
      && s'.choices[s'.index[name]].out == orig.out
      && s'.choices[s'.index[name]].action == orig.action
  {
    var orig := sel.choices[sel.index[arg0]];
    AddChoiceIndex(sel, orig.descrip, syn, orig.flags | Synonym | Hidden, orig.out, orig.action);
  }

  // --------------------------------------------------------------- matching

  /**
    `nameselector_default_softmatch(a, b)`: a equals the first |a|
    characters of b (fewer when b is shorter), ignoring case.
   */
  predicate Softmatch(a: string, b: string) {
    Lower(a) == Lower(b[..if |a| <= |b| then |a| else |b|])
  }

  /** Soft matching is a case-insensitive prefix test. */
  lemma SoftmatchPrefix(a: string, b: string)
    ensures Softmatch(a, b) <==> |a| <= |b| && forall i :: 0 <= i < |a| ==> LowerChar(a[i]) == LowerChar(b[i])
  {
    if |a| <= |b| && forall i :: 0 <= i < |a| ==> LowerChar(a[i]) == LowerChar(b[i]) {
      assert Lower(a) == Lower(b[..|a|]);
    }
  }

  predicate Enabled(sel: Selector, i: nat)
    requires i < |sel.choices|
  {
    sel.choices[i].flags & Disabled == 0
  }

  /** Choice i is enabled and its name soft-matches arg. */
  predicate SoftHit(sel: Selector, arg: string, i: nat) {
    i < |sel.choices| && Enabled(sel, i) && Softmatch(arg, sel.choices[i].name)
  }

  predicate Increasing(s: seq<nat>) {
    forall a, b :: 0 <= a < b < |s| ==> s[a] < s[b]
  }

  /** The soft hits among the first n choices, in order. */
  function HitsBelow(sel: Selector, arg: string, n: nat): (r: seq<nat>)
    ensures forall x: nat :: x in r <==> x < n && SoftHit(sel, arg, x)
    ensures Increasing(r) && forall a :: 0 <= a < |r| ==> r[a] < n
    decreases n
  {
    if n == 0 then []
    else HitsBelow(sel, arg, n - 1) + (if SoftHit(sel, arg, n - 1) then [n - 1] else [])
  }

  function Hits(sel: Selector, arg: string): (r: seq<nat>) {
    HitsBelow(sel, arg, |sel.choices|)
  }

  /** What one pass of the selection loop makes of the popped argument. */
  datatype Outcome =
    | Control(barf: bool)          // an exit or error control string: leave the menu
    | Retry                        // empty input: ask again
    | Ambiguous(hits: seq<nat>)    // several soft matches, in choice order: ask again
    | Chosen(i: nat)               // choice i is selected
    | CatchAll(arg: string)        // handed to the catch-all interactor
    | Unknown(arg: string)         // reported as unknown: ask again

  predicate IsControl(arg: string) {
    StartsWith(arg, ControlMenu.ExitControl) || StartsWith(arg, ControlMenu.BarfControl)
  }

  function Reject(sel: Selector, arg: string): Outcome {
    if sel.catchAll.Some? then CatchAll(arg) else Unknown(arg)
  }

  /**
    The matching rule of `NameSelector::doIt`: control strings leave, empty
    input retries, an exact name wins, otherwise exactly one enabled soft
    match wins and several are ambiguous; an unknown or disabled name goes
    to the catch-all when there is one.
   */
  function Resolve(sel: Selector, arg: string): Outcome
    requires Valid(sel)
  {
    if IsControl(arg) then Control(StartsWith(arg, ControlMenu.BarfControl))
    else if |arg| == 0 then Retry
    else if arg in sel.index then
      if Enabled(sel, sel.index[arg]) then Chosen(sel.index[arg]) else Reject(sel, arg)
    else if !sel.soft then Reject(sel, arg)
    else
      var hs := Hits(sel, arg);
      if |hs| == 1 then Chosen(hs[0])
      else if |hs| > 1 then Ambiguous(hs)
      else Reject(sel, arg)
  }

  /** Choice j is the only enabled choice whose name soft-matches arg. */
  predicate OnlyHit(sel: Selector, arg: string, j: nat) {
    SoftHit(sel, arg, j) && forall i :: 0 <= i < |sel.choices| && SoftHit(sel, arg, i) ==> i == j
  }

  lemma HitsOne(sel: Selector, arg: string, j: nat)
    ensures OnlyHit(sel, arg, j) <==> Hits(sel, arg) == [j]
  {
    var hs := Hits(sel, arg);
    if OnlyHit(sel, arg, j) {
      OnlyHitBelow(sel, arg, j, |sel.choices|);
    }
    if hs == [j] {
      assert j in hs;
      forall i | 0 <= i < |sel.choices| && SoftHit(sel, arg, i)
        ensures i == j
      {
        assert i in hs;
      }
    }
  }

  lemma {:induction false} OnlyHitBelow(sel: Selector, arg: string, j: nat, n: nat)
    requires OnlyHit(sel, arg, j) && n <= |sel.choices|
    ensures HitsBelow(sel, arg, n) == if j < n then [j] else []
    decreases n
  {
    if n > 0 {
      OnlyHitBelow(sel, arg, j, n - 1);
    }
  }

  /** Two or more soft hits exactly when two different choices soft-match. */
  lemma HitsMany(sel: Selector, arg: string)
    ensures |Hits(sel, arg)| > 1 <==> exists a, b :: a < b && SoftHit(sel, arg, a) && SoftHit(sel, arg, b)
  {
    if |Hits(sel, arg)| > 1 {
      HitsManyPair(sel, arg);
    }
    if exists a, b :: a < b && SoftHit(sel, arg, a) && SoftHit(sel, arg, b) {
      var a, b :| a < b && SoftHit(sel, arg, a) && SoftHit(sel, arg, b);
      HitsPairMany(sel, arg, a, b);
    }
  }

  lemma HitsManyPair(sel: Selector, arg: string)
    requires |Hits(sel, arg)| > 1
    ensures var hs := Hits(sel, arg); hs[0] < hs[1] && SoftHit(sel, arg, hs[0]) && SoftHit(sel, arg, hs[1])
  {
    var hs := Hits(sel, arg);
    assert hs[0] in hs && hs[1] in hs;
  }

  lemma HitsPairMany(sel: Selector, arg: string, a: nat, b: nat)
    requires a < b && SoftHit(sel, arg, a) && SoftHit(sel, arg, b)
    ensures |Hits(sel, arg)| > 1
  {
    var hs := Hits(sel, arg);
    assert a in hs && b in hs;
    TwoMembers(hs, a, b);
  }

  lemma TwoMembers(s: seq<nat>, a: nat, b: nat)
    requires a in s && b in s && a != b
    ensures |s| > 1
  {
    var i :| 0 <= i < |s| && s[i] == a;
    var j :| 0 <= j < |s| && s[j] == b;
    assert i != j;
  }

  /** No soft hits exactly when no choice soft-matches. */
  lemma HitsNone(sel: Selector, arg: string)
    ensures |Hits(sel, arg)| == 0 <==> forall i :: 0 <= i < |sel.choices| ==> !SoftHit(sel, arg, i)
  {
    var hs := Hits(sel, arg);
    if |hs| > 0 {
      assert hs[0] in hs;
    }
    forall i | 0 <= i < |sel.choices| && SoftHit(sel, arg, i)
      ensures i in hs
    {
    }
  }

  /**
    When a name is chosen: exactly when it is the argument itself and
    enabled, or the argument names nothing, soft matching is on, and this
    is the only enabled soft match.
   */
  lemma ResolveChosen(sel: Selector, arg: string, j: nat)
    requires Valid(sel) && !IsControl(arg) && |arg| > 0
    ensures Resolve(sel, arg) == Chosen(j) <==>
      j < |sel.choices| &&
      ((sel.choices[j].name == arg && Enabled(sel, j))
       || (arg !in sel.index && sel.soft && OnlyHit(sel, arg, j)))
  {
    HitsOne(sel, arg, j);
    var hs := Hits(sel, arg);
    if arg !in sel.index && sel.soft && |hs| == 1 && hs[0] == j {
      assert hs == [j];
    }
  }

  /** Several soft matches are reported, never resolved by taking one of them. */
  lemma ResolveAmbiguous(sel: Selector, arg: string)
    requires Valid(sel) && !IsControl(arg) && |arg| > 0
    ensures Resolve(sel, arg).Ambiguous? <==>
      arg !in sel.index && sel.soft
      && exists a, b :: a < b && SoftHit(sel, arg, a) && SoftHit(sel, arg, b)
  {
    HitsMany(sel, arg);
  }

  /**
    An argument is rejected (to the catch-all, or reported unknown) exactly
    when it names a disabled choice, or names nothing and no enabled choice
    soft-matches it (or soft matching is off).
   */
  lemma ResolveRejects(sel: Selector, arg: string)
    requires Valid(sel) && !IsControl(arg) && |arg| > 0
    ensures Resolve(sel, arg) == Reject(sel, arg) <==>
      (arg in sel.index && !Enabled(sel, sel.index[arg]))
      || (arg !in sel.index && (!sel.soft || forall i :: 0 <= i < |sel.choices| ==> !SoftHit(sel, arg, i)))
  {
    HitsNone(sel, arg);
  }

  /**
    What the pass leaves on the machine: an error control string goes back
    to the deque for the enclosing menu, a choice without an action pushes
    its output name, and the catch-all receives the argument on the stack.
   */
  function Settle(sel: Selector, m: ControlMenu.Machine, arg: string): (r: ControlMenu.Machine)
    requires Valid(sel)
    ensures Resolve(sel, arg) == Control(true) ==> r.deque == [arg] + m.deque && r.stack == m.stack
    ensures Resolve(sel, arg).Chosen? && sel.choices[Resolve(sel, arg).i].action.None? ==>
      r == ControlMenu.Push(m, sel.choices[Resolve(sel, arg).i].out)
  {
    match Resolve(sel, arg)
    case Control(barf) => if barf then m.(deque := [arg] + m.deque) else m
    case Chosen(i) => if sel.choices[i].action.None? then ControlMenu.Push(m, sel.choices[i].out) else m
    case CatchAll(a) => ControlMenu.Push(m, a)
    case _ => m
  }

  /** `menutils_Barf` makes the next selection pass leave with the error passed on. */
  lemma BarfLeaves(sel: Selector, m: ControlMenu.Machine)
    requires Valid(sel)
    ensures Resolve(sel, ControlMenu.Barf(m).deque[0]) == Control(true)
  {
  }

  /** `menutils_Exit` makes it leave quietly. */
  lemma ExitLeaves(sel: Selector, m: ControlMenu.Machine)
    requires Valid(sel)
    ensures Resolve(sel, ControlMenu.Exit(m).deque[0]) == Control(false)
  {
    var e := ControlMenu.Exit(m).deque[0];
    assert e[..|ControlMenu.BarfControl|] != ControlMenu.BarfControl by {
      assert e[2] == 'E' && ControlMenu.BarfControl[2] == 'B';
    }
  }

  // ---------------------------------------------------------- descriptions

  /** An `InputRequester` argument; `filter` is the description of its input filter, if any. */
  datatype Arg = Arg(name: string, dflt: string, descrip: string, filter: Option<string>)

  /** How one argument is described: by its filter when it has one and no name, else `name[ = default]`. */
  function ArgText(a: Arg): string {
    if a.filter.Some? && |a.name| == 0 then a.filter.value
    else a.name + (if |a.dflt| > 0 then " = " + a.dflt else "")
  }

  /** The words joined with sep between consecutive ones. */
  function Join(ws: seq<string>, sep: string): string
    decreases |ws|
  {
    if |ws| == 0 then "" else if |ws| == 1 then ws[0] else ws[0] + sep + Join(ws[1..], sep)
  }

  lemma {:induction false} JoinSnoc(ws: seq<string>, x: string, sep: string)
    requires |ws| > 0
    ensures Join(ws + [x], sep) == Join(ws, sep) + sep + x
    decreases |ws|
  {
    if |ws| > 1 {
      assert (ws + [x])[1..] == ws[1..] + [x];
      JoinSnoc(ws[1..], x, sep);
    } else {
      assert ws + [x] == [ws[0], x];
      assert [ws[0], x][1..] == [x];
    }
  }

  function Texts(args: seq<Arg>): (r: seq<string>)
    ensures |r| == |args| && forall i :: 0 <= i < |args| ==> r[i] == ArgText(args[i])
  {
    seq(|args|, i requires 0 <= i < |args| => ArgText(args[i]))
  }

  /**
    `InputRequester::getDescription`: the name, then the argument texts in
    parentheses separated by commas when there are arguments.
   */
  method Describe(name: string, args: seq<Arg>) returns (s: string)
    ensures |args| == 0 ==> s == name
    ensures |args| > 0 ==> s == name + " (" + Join(Texts(args), ", ") + ")"
  {
    s := name;
    if |args| > 0 {
      var j := JoinTexts(args);
      s := s + " (" + j + ")";
    }
  }

  /** The loop of `getDescription`: each argument's text, with `, ` after all but the last. */
  method JoinTexts(args: seq<Arg>) returns (s: string)
    requires |args| > 0
    ensures s == Join(Texts(args), ", ")
  {
    s := "";
    var i := 0;
    while i < |args|
      invariant 0 <= i <= |args|
      invariant i == 0 ==> s == ""
      invariant 0 < i < |args| ==> s == Join(Texts(args[..i]), ", ") + ", "
      invariant i == |args| ==> s == Join(Texts(args), ", ")
    {
      s := s + ArgText(args[i]);
      ghost var ts := Texts(args[..i + 1]);
      if i > 0 {
        assert ts == Texts(args[..i]) + [ArgText(args[i])];
        JoinSnoc(Texts(args[..i]), ArgText(args[i]), ", ");
      } else {
        assert ts == [ArgText(args[0])];
      }
      if i < |args| - 1 {
        s := s + ", ";
      } else {
        assert args[..i + 1] == args;
      }
      i := i + 1;
    }
  }

  /** `addArg`: one more argument, described after the others. */
  function AddArg(args: seq<Arg>, name: string, dflt: string, descrip: string, filter: Option<string>): (r: seq<Arg>)
    ensures |r| == |args| + 1 && r[..|args|] == args
  {
    assert (args + [Arg(name, dflt, descrip, filter)])[..|args|] == args;
    args + [Arg(name, dflt, descrip, filter)]
  }

  /** Adding an argument appends `, text` inside the parentheses (or opens them). */
  lemma AddArgDescribed(args: seq<Arg>, name: string, dflt: string, descrip: string, filter: Option<string>)
    ensures var a := Arg(name, dflt, descrip, filter);
      Join(Texts(AddArg(args, name, dflt, descrip, filter)), ", ")
      == if |args| == 0 then ArgText(a) else Join(Texts(args), ", ") + ", " + ArgText(a)
  {
    var a := Arg(name, dflt, descrip, filter);
    var r := AddArg(args, name, dflt, descrip, filter);
    assert Texts(r) == Texts(args) + [ArgText(a)];
    if |args| > 0 {
      JoinSnoc(Texts(args), ArgText(a), ", ");
    } else {
      assert Texts(r) == [ArgText(a)];
    }
  }

  /** `NameSelector::getDescription`: the title, and ` = default` when a default is set. */
  function SelectorDescription(sel: Selector): string {
    sel.title + (if |sel.dflt| > 0 then " = " + sel.dflt else "")
  }

  /** `setDefault(s)`: replace the prompt's default. */
  function SetDefault(sel: Selector, s: string): (r: Selector)
    ensures r.dflt == s && r.choices == sel.choices && r.index == sel.index
  {
    sel.(dflt := s)
  }

  /** After `setDefault(s)` the description shows s exactly when s is nonempty. */
  lemma SetDefaultDescribed(sel: Selector, s: string)
    ensures SelectorDescription(SetDefault(sel, s)) == if |s| > 0 then sel.title + " = " + s else sel.title
  {
  }

  // ------------------------------------------------------- options menus

  /**
    `OptionsMenu::addChoice(M, nm, o)`: a choice whose action is the
    interactor M, described by M's description and output under its own name.
   */
  function MenuAddChoice(sel: Selector, descr: string, m: ActionId, nm: string, o: bv32): (r: Result<Selector, string>)
    ensures r.Err? <==> ChoiceName(sel, nm) in sel.index
    ensures r.Ok? ==> |r.value.choices| == |sel.choices| + 1
    ensures r.Ok? ==>
      r.value.choices[|sel.choices|] == Choice(ChoiceName(sel, nm), descr, ChoiceName(sel, nm), o, Some(m))
  {
    AddChoice(sel, descr, nm, o, "", Some(m))
  }

  /** `NameSelector::addArg` (either form): a selector takes no further arguments; the call terminates the program. */
  function SelectorAddArg(sel: Selector, a: Arg): (r: Result<Selector, string>)
    ensures r.Err?
  {
    Err("terminate: arguments cannot be added to a selector")
  }

  /** The base-signature `OptionsMenu::addChoice`: options menus take interactors only; the call terminates the program. */
  function MenuAddPlainChoice(sel: Selector, d: string, nm: string, o: bv32, mname: string, action: Option<ActionId>)
    : (r: Result<Selector, string>)
    ensures r.Err?
  {
    Err("terminate: options menus take interactors")
  }
}

=== FILE: permutation.dfy ===
/**
  Fixed-size permutations (`Permutation<N>`, `SymmetricGroup<N>`): a
  permutation of N elements is the sequence of its N images, a rearrangement
  of 0..N-1. Permutations act on the first N entries of any sequence, and the
  N! permutations are numbered by a factorial-base enumeration (`idx` and
  `element`).
 */
module PermutationGroup {
  import opened Wrappers

  /** Every entry is in 0..|p|-1 and no two entries are equal (the class invariant `validate`). */
  predicate IsPermutation(p: seq<int>) {
    && (forall i :: 0 <= i < |p| ==> 0 <= p[i] < |p|)
    && (forall i, j :: 0 <= i < j < |p| ==> p[i] != p[j])
  }

  // ---------------------------------------------------------------- counting helpers

  /** The set of the first k entries. */
  function Values(p: seq<int>, k: nat): set<int>
    requires k <= |p|
  {
    if k == 0 then {} else Values(p, k - 1) + {p[k - 1]}
  }

  lemma {:induction false} ValuesHas(p: seq<int>, k: nat, i: nat)
    requires i < k <= |p|
    ensures p[i] in Values(p, k)
  {
    if i < k - 1 {
      ValuesHas(p, k - 1, i);
    }
  }

  lemma {:induction false} ValuesOnly(p: seq<int>, k: nat, x: int)
    requires k <= |p| && x in Values(p, k)
    ensures exists i :: 0 <= i < k && p[i] == x
  {
    if x != p[k - 1] {
      ValuesOnly(p, k - 1, x);
    }
  }

  /** Distinct entries make a set of the same size. */
  lemma {:induction false} ValuesCard(p: seq<int>, k: nat)
    requires k <= |p| && forall i, j :: 0 <= i < j < k ==> p[i] != p[j]
    ensures |Values(p, k)| == k
  {
    if k > 0 {
      ValuesCard(p, k - 1);
      if p[k - 1] in Values(p, k - 1) {
        ValuesOnly(p, k - 1, p[k - 1]);
      }
    }
  }

  /** The set 0..n-1. */
  function Below(n: nat): (s: set<int>)
    ensures forall x :: x in s <==> 0 <= x < n
    ensures |s| == n
  {
    if n == 0 then {} else Below(n - 1) + {n - 1}
  }

  /** A subset's size plus that of what it leaves out is the whole set's size. */
  lemma SubsetSize(a: set<int>, b: set<int>)
    requires a <= b
    ensures |b| == |a| + |b - a|
  {
    assert b == a + (b - a);
    assert a * (b - a) == {};
  }

  lemma SubsetSameSize(a: set<int>, b: set<int>)
    requires a <= b && |a| == |b|
    ensures a == b
  {
    SubsetSize(a, b);
    assert b - a == {};
    assert b == a + (b - a);
  }

  /** Pigeonhole: a permutation takes every value in 0..N-1. */
  lemma Onto(p: seq<int>, x: int)
    requires IsPermutation(p) && 0 <= x < |p|
    ensures exists i :: 0 <= i < |p| && p[i] == x
  {
    var vs := Values(p, |p|);
    ValuesCard(p, |p|);
    forall y | y in vs
      ensures y in Below(|p|)
    {
      ValuesOnly(p, |p|, y);
    }
    SubsetSameSize(vs, Below(|p|));
    assert x in vs;
    ValuesOnly(p, |p|, x);
  }

  /** The position at which a permutation takes value x. */
  function Position(p: seq<int>, x: int): (i: nat)
    requires IsPermutation(p) && 0 <= x < |p|
    ensures i < |p| && p[i] == x
  {
    Onto(p, x);
    var i :| 0 <= i < |p| && p[i] == x;
    i
  }

  // ---------------------------------------------------------------- identity, validation

  /** The default constructor's identity permutation 0, 1, ..., n-1. */
  function Identity(n: nat): (p: seq<int>)
    ensures |p| == n && IsPermutation(p)
    ensures forall i :: 0 <= i < n ==> p[i] == i
  {
    seq(n, i => i)
  }

  /**
    `validate`: scan the entries, failing on one out of range or already
    seen; succeed when N distinct entries were seen.
   */
  method Validate(p: seq<int>) returns (ok: bool)
    ensures ok <==> IsPermutation(p)
  {
    var seen: set<int> := {};
    var k := 0;
    while k < |p|
      invariant k <= |p|
      invariant seen == Values(p, k)
      invariant forall i :: 0 <= i < k ==> 0 <= p[i] < |p|
      invariant forall i, j :: 0 <= i < j < k ==> p[i] != p[j]
    {
      var c := p[k];
      if c < 0 || c >= |p| {
        return false;
      }
      if c in seen {
        ValuesOnly(p, k, c);
        return false;
      }
      forall i | 0 <= i < k
        ensures p[i] != c
      {
        ValuesHas(p, k, i);
      }
      seen := seen + {c};
      k := k + 1;
    }
    ValuesCard(p, |p|);
    return |seen| == |p|;
  }

  // ---------------------------------------------------------------- action, product, inverse

  /**
    `p * a`: entry j of the result is `a[p[j]]` for j below N; the entries of
    a beyond the first N are kept.
   */
  function Apply<T>(p: seq<int>, a: seq<T>): (b: seq<T>)
    requires IsPermutation(p) && |p| <= |a|
    ensures |b| == |a|
  {
    seq(|a|, j requires 0 <= j < |a| => if j < |p| then a[p[j]] else a[j])
  }

  /** A permutation applied to a longer permutation yields a permutation. */
  lemma ApplyPermutation(q: seq<int>, p: seq<int>)
    requires IsPermutation(q) && IsPermutation(p) && |q| <= |p|
    ensures IsPermutation(Apply(q, p))
  {
    var b := Apply(q, p);
    forall i, j | 0 <= i < j < |b|
      ensures b[i] != b[j]
    {
      if j < |q| {
        assert q[i] != q[j];
      }
    }
  }

  /** The product `p * q` of two permutations of the same size. */
  function Mul(p: seq<int>, q: seq<int>): (r: seq<int>)
    requires IsPermutation(p) && IsPermutation(q) && |p| == |q|
    ensures |r| == |p| && IsPermutation(r)
  {
    ApplyPermutation(p, q);
    Apply(p, q)
  }

  /**
    The inverse as `inverse` builds it: start from the identity and, for
    each position j in turn, set entry `p[j]` to j. After k steps the
    entries at the first k images are their positions and the others are
    untouched.
   */
  function InverseFrom(p: seq<int>, k: nat): (e: seq<int>)
    requires IsPermutation(p) && k <= |p|
    ensures |e| == |p|
    ensures forall j :: 0 <= j < k ==> e[p[j]] == j
    ensures forall x :: 0 <= x < |p| && x !in p[..k] ==> e[x] == x
  {
    if k == 0 then Identity(|p|)
    else
      var e := InverseFrom(p, k - 1);
      assert forall x :: x !in p[..k] ==> x !in p[..k - 1] && x != p[k - 1] by {
        assert p[..k] == p[..k - 1] + [p[k - 1]];
      }
      e[p[k - 1] := k - 1]
  }

  /** `inverse`: entry `p[j]` of the inverse is j, and the inverse is a permutation. */
  function Inverse(p: seq<int>): (e: seq<int>)
    requires IsPermutation(p)
    ensures |e| == |p| && IsPermutation(e)
    ensures forall j :: 0 <= j < |p| ==> e[p[j]] == j
    ensures forall x :: 0 <= x < |p| ==> p[e[x]] == x
  {
    var e := InverseFrom(p, |p|);
    forall x | 0 <= x < |p|
      ensures 0 <= e[x] < |p| && p[e[x]] == x
    {
      var i := Position(p, x);
      assert e[p[i]] == i;
    }
    forall i, j | 0 <= i < j < |p|
      ensures e[i] != e[j]
    {
      assert p[e[i]] == i && p[e[j]] == j;
    }
    e
  }

  /** `p / q`, that is `p * q.inverse()`. */
  function Div(p: seq<int>, q: seq<int>): (r: seq<int>)
    requires IsPermutation(p) && IsPermutation(q) && |p| == |q|
    ensures |r| == |p| && IsPermutation(r)
  {
    Mul(p, Inverse(q))
  }

  /** The identity acts trivially. */
  lemma ApplyIdentity<T>(n: nat, a: seq<T>)
    requires n <= |a|
    ensures Apply(Identity(n), a) == a
  {
  }

  /** Acting by a product is acting by each factor in turn: `(p*q)*a == p*(q*a)`. */
  lemma ApplyMul<T>(p: seq<int>, q: seq<int>, a: seq<T>)
    requires IsPermutation(p) && IsPermutation(q) && |p| == |q| <= |a|
    ensures Apply(Mul(p, q), a) == Apply(p, Apply(q, a))
  {
    var l := Apply(Mul(p, q), a);
    var r := Apply(p, Apply(q, a));
    forall j | 0 <= j < |a|
      ensures l[j] == r[j]
    {
      if j < |p| {
        assert Mul(p, q)[j] == q[p[j]];
      }
    }
  }

  /** Undoing a permutation with its inverse, in either order, restores the sequence. */
  lemma ApplyInverse<T>(p: seq<int>, a: seq<T>)
    requires IsPermutation(p) && |p| <= |a|
    ensures Apply(Inverse(p), Apply(p, a)) == a
    ensures Apply(p, Apply(Inverse(p), a)) == a
  {
    var e := Inverse(p);
    var l := Apply(e, Apply(p, a));
    var r := Apply(p, Apply(e, a));
    forall j | 0 <= j < |a|
      ensures l[j] == a[j] && r[j] == a[j]
    {
    }
  }

  /** The inverse is a two-sided inverse for the product. */
  lemma MulInverse(p: seq<int>)
    requires IsPermutation(p)
    ensures Mul(Inverse(p), p) == Identity(|p|)
    ensures Mul(p, Inverse(p)) == Identity(|p|)
  {
    var e := Inverse(p);
    assert forall j :: 0 <= j < |p| ==> Mul(e, p)[j] == p[e[j]];
    assert forall j :: 0 <= j < |p| ==> Mul(p, e)[j] == e[p[j]];
  }

  /** Division undoes multiplication: `(p / q) * q == p`. */
  lemma DivMul(p: seq<int>, q: seq<int>)
    requires IsPermutation(p) && IsPermutation(q) && |p| == |q|
    ensures Mul(Div(p, q), q) == p
  {
    var e := Inverse(q);
    var d := Div(p, q);
    forall j | 0 <= j < |p|
      ensures Mul(d, q)[j] == p[j]
    {
      assert d[j] == e[p[j]];
    }
  }

  // ---------------------------------------------------------------- enumeration

  /** `factorial(i)`: i! (1 for i <= 1); also `SymmetricGroup<N>::order`. */
  function Factorial(n: nat): (f: nat)
    ensures f >= 1
  {
    if n > 1 then n * Factorial(n - 1) else 1
  }

  /** `SymmetricGroup<N>::order`. */
  function Order(n: nat): nat
  {
    Factorial(n)
  }

  /** One more element multiplies the order of the symmetric group by the new size. */
  lemma OrderStep(n: nat)
    ensures Order(n + 1) == (n + 1) * Order(n)
  {
  }

  /** Exchange entries a and b. */
  function Swap(s: seq<int>, a: nat, b: nat): (r: seq<int>)
    requires a < |s| && b < |s|
    ensures |r| == |s| && r[a] == s[b] && r[b] == s[a]
    ensures forall k :: 0 <= k < |s| && k != a && k != b ==> r[k] == s[k]
  {
    s[a := s[b]][b := s[a]]
  }

  /** The permutation `element` builds for leading digit j: the identity with j-1 and N-1 exchanged, or the identity for j = 0. */
  function Shifter(n: nat, j: nat): (p: seq<int>)
    requires 1 <= n && j < n
    ensures |p| == n && IsPermutation(p)
    ensures j > 0 ==> p[j - 1] == n - 1 && p[n - 1] == j - 1
    ensures j == 0 ==> p[n - 1] == n - 1
    ensures forall k :: 0 <= k < n - 1 && k != j - 1 ==> p[k] == k
  {
    var id := Identity(n);
    if j > 0 then
      var p := Swap(id, j - 1, n - 1);
      forall a, b | 0 <= a < b < n
        ensures p[a] != p[b]
      {
        assert id[a] == a && id[b] == b;
      }
      p
    else id
  }

  lemma FactorialStep(n: nat)
    requires n >= 1
    ensures Factorial(n) == n * Factorial(n - 1)
  {
  }

  /** The leading digit of an index below N!, in base (N-1)!, is a digit below N. */
  lemma DivBelow(i: nat, f: nat, n: nat)
    requires f > 0 && i < n * f
    ensures 0 <= i / f < n
  {
    var q := i / f;
    if q >= n {
      MulMono(q, n, f);
    }
  }

  lemma MulMono(a: nat, b: nat, f: nat)
    requires a >= b
    ensures a * f >= b * f
  {
    assert a * f == b * f + (a - b) * f;
  }

  /** Digits below their bases determine the quotient and remainder. */
  lemma DivModUnique(i: nat, f: nat, c: nat, r: nat)
    requires f > 0 && r < f && i == c * f + r
    ensures i / f == c && i % f == r
  {
    var q := i / f;
    var s := i % f;
    assert i == q * f + s;
    if q > c {
      MulMono(q, c + 1, f);
    } else if q < c {
      MulMono(c, q + 1, f);
    }
  }

  /** Two digits below their bases make a number below the next base. */
  lemma DigitsBelow(r: nat, c: nat, f: nat, n: nat)
    requires r < f && c < n
    ensures c * f + r < n * f
  {
    MulMono(n, c + 1, f);
    assert (c + 1) * f == c * f + f;
  }

  /**
    `element(i)`, permutation number i of N!: none for i >= N! (the
    assertion); the identity for N < 2 or i = 0; otherwise, with
    j = i / (N-1)!, the identity with entries j-1 and N-1 exchanged when
    j > 0, permuted by permutation number i mod (N-1)! of N-1 elements.
   */
  function Element(n: nat, i: nat): (r: Option<seq<int>>)
    ensures r.Some? <==> i < Factorial(n)
    ensures r.Some? ==> |r.value| == n && IsPermutation(r.value)
    decreases n
  {
    if i >= Factorial(n) then None
    else if n < 2 || i == 0 then Some(Identity(n))
    else
      var f := Factorial(n - 1);
      FactorialStep(n);
      DivBelow(i, f, n);
      var q := Element(n - 1, i % f).value;
      var p := Shifter(n, i / f);
      ApplyPermutation(q, p);
      Some(Apply(q, p))
  }

  /** Every index below N! (including 0) is built from its digits the same way. */
  lemma ElementStep(n: nat, i: nat)
    requires n >= 2 && i < Factorial(n)
    ensures 0 <= i / Factorial(n - 1) < n && Element(n - 1, i % Factorial(n - 1)).Some?
    ensures Element(n, i) == Some(Apply(Element(n - 1, i % Factorial(n - 1)).value, Shifter(n, i / Factorial(n - 1))))
  {
    var f := Factorial(n - 1);
    FactorialStep(n);
    DivBelow(i, f, n);
    if i == 0 {
      assert i / f == 0 && i % f == 0;
      assert Apply(Identity(n - 1), Identity(n)) == Identity(n);
    }
  }

  /** The first N-1 entries with N-1 replaced by the last entry: a permutation of N-1 elements. */
  function Reduce(p: seq<int>): (e: seq<int>)
    requires IsPermutation(p) && |p| >= 1
    ensures |e| == |p| - 1 && IsPermutation(e)
  {
    var n := |p|;
    var e := seq(n - 1, i requires 0 <= i < n - 1 => if p[i] == n - 1 then p[n - 1] else p[i]);
    forall a, b | 0 <= a < b < n - 1
      ensures e[a] != e[b]
    {
      assert p[a] != p[b] && p[a] != p[n - 1] && p[b] != p[n - 1];
    }
    forall a | 0 <= a < n - 1
      ensures 0 <= e[a] < n - 1
    {
      assert p[a] != p[n - 1];
    }
    e
  }

  /** The value `idx` records for the last place: the last entry when N-1 occurs before it, else N. */
  function LastMark(p: seq<int>): int
    requires |p| >= 1
  {
    if |p| - 1 in p[..|p| - 1] then p[|p| - 1] else |p|
  }

  /** The leading digit `idx` gives a permutation: the mark plus one, or 0 when the mark is N. */
  function Digit(p: seq<int>): int
    requires |p| >= 1
  {
    var j := LastMark(p);
    if j < |p| then j + 1 else 0
  }

  /**
    `idx(e)`: 0 for N < 2; otherwise the index of the reduced permutation
    plus the leading digit times (N-1)!.
   */
  function Idx(p: seq<int>): (k: nat)
    requires IsPermutation(p)
    decreases |p|
  {
    if |p| < 2 then 0
    else
      LastMarkOf(p);
      Idx(Reduce(p)) + Digit(p) * Factorial(|p| - 1)
  }

  /** The mark is N exactly when N-1 sits in the last place, and the last entry otherwise. */
  lemma LastMarkOf(p: seq<int>)
    requires IsPermutation(p) && |p| >= 1
    ensures p[|p| - 1] == |p| - 1 ==> LastMark(p) == |p| && Digit(p) == 0
    ensures p[|p| - 1] != |p| - 1 ==> LastMark(p) == p[|p| - 1] < |p| - 1 && Digit(p) == p[|p| - 1] + 1
  {
    var n := |p|;
    var init := p[..n - 1];
    if p[n - 1] != n - 1 {
      var i := Position(p, n - 1);
      assert init[i] == n - 1;
    } else {
      forall i | 0 <= i < n - 1
        ensures init[i] != n - 1
      {
        assert init[i] == p[i];
      }
    }
  }

  /** A permutation is rebuilt from its reduced form and its leading digit. */
  lemma ReduceShift(p: seq<int>)
    requires IsPermutation(p) && |p| >= 2
    ensures 0 <= Digit(p) < |p|
    ensures p == Apply(Reduce(p), Shifter(|p|, Digit(p)))
  {
    var n := |p|;
    LastMarkOf(p);
    var e0 := Reduce(p);
    var b := Apply(e0, Shifter(n, Digit(p)));
    forall k | 0 <= k < n
      ensures b[k] == p[k]
    {
      if k < n - 1 {
        assert p[k] != p[n - 1];
      }
    }
  }

  /** Reducing the permutation `element` builds recovers its parts. */
  lemma ApplyShift(q: seq<int>, n: nat, j: nat)
    requires IsPermutation(q) && |q| + 1 == n && j < n
    ensures IsPermutation(Apply(q, Shifter(n, j)))
    ensures Reduce(Apply(q, Shifter(n, j))) == q
    ensures Digit(Apply(q, Shifter(n, j))) == j
  {
    var p := Shifter(n, j);
    ApplyPermutation(q, p);
    var b := Apply(q, p);
    LastMarkOf(b);
    forall k | 0 <= k < n - 1
      ensures Reduce(b)[k] == q[k]
    {
      assert b[k] == p[q[k]];
    }
    if j > 0 {
      var k := Position(q, j - 1);
      assert b[k] == n - 1;
    }
  }

  lemma {:induction false} IdxIdentity(n: nat)
    ensures Idx(Identity(n)) == 0
  {
    if n >= 2 {
      LastMarkOf(Identity(n));
      assert Reduce(Identity(n)) == Identity(n - 1);
      IdxIdentity(n - 1);
    }
  }

  /** Numbering is the inverse of enumeration: `idx(element(i)) == i` for every i < N!. */
  lemma {:induction false} IdxElement(n: nat, i: nat)
    requires i < Factorial(n)
    ensures Idx(Element(n, i).value) == i
    decreases n
  {
    if n < 2 {
      IdxIdentity(n);
    } else {
      var f := Factorial(n - 1);
      var j, k := i / f, i % f;
      ElementStep(n, i);
      var q := Element(n - 1, k).value;
      var b := Element(n, i).value;
      IdxElement(n - 1, k);
      ApplyShift(q, n, j);
      IdxStep(b);
      DivModSum(i, f);
    }
  }

  lemma IdxStep(p: seq<int>)
    requires IsPermutation(p) && |p| >= 2
    ensures Idx(p) == Idx(Reduce(p)) + Digit(p) * Factorial(|p| - 1)
  {
  }

  lemma DivModSum(i: nat, f: nat)
    requires f > 0
    ensures (i / f) * f + i % f == i
  {
  }

  /**
    Enumeration is onto: every permutation of N elements has an index below
    N!, and `element` of that index gives it back.
   */
  lemma {:induction false} ElementIdx(p: seq<int>)
    requires IsPermutation(p)
    ensures Idx(p) < Factorial(|p|)
    ensures Element(|p|, Idx(p)) == Some(p)
    decreases |p|
  {
    var n := |p|;
    if n < 2 {
      assert p == Identity(n) by {
        if n == 1 {
          assert p[0] == 0;
        }
      }
    } else {
      var e0 := Reduce(p);
      var f := Factorial(n - 1);
      ElementIdx(e0);
      ReduceShift(p);
      var c := Digit(p);
      var i := Idx(p);
      DigitsBelow(Idx(e0), c, f, n);
      FactorialStep(n);
      DivModUnique(i, f, c, Idx(e0));
      ElementStep(n, i);
    }
  }
}

=== FILE: polynomial.dfy ===
/**
  `Polynomial`: a set of monomials in n variables, ordered (and therefore
  told apart) by their exponent vectors alone. Such a set is a finite map
  from exponent vectors to coefficients.

  The monomial type itself is not part of this model; a monomial is taken
  to be an exponent vector with a coefficient, whose derivative in variable
  i lowers exponent i by one and multiplies the coefficient by the old
  exponent. Coefficients are reals: floating-point rounding is not modelled.
 */
module Polynomial {

  type Exps = seq<nat>

  datatype Poly = Poly(n: nat, terms: map<Exps, real>)

  /** Every exponent vector has one entry per variable. */
  predicate Valid(p: Poly) {
    forall e :: e in p.terms ==> |e| == p.n
  }

  /** The coefficient of e, zero when e is absent. */
  function Coef(p: Poly, e: Exps): real {
    if e in p.terms then p.terms[e] else 0.0
  }

  function Zeros(n: nat): (z: Exps)
    ensures |z| == n && forall k :: 0 <= k < n ==> z[k] == 0
  {
    seq(n, k => 0)
  }

  /** `Polynomial(c)`: empty for zero, else the single constant term c. */
  function Constant(n: nat, c: real): (p: Poly)
    ensures Valid(p) && p.n == n
    ensures c == 0.0 <==> |p.terms| == 0
    ensures forall e :: e in p.terms ==> e == Zeros(n) && p.terms[e] == c
  {
    if c != 0.0 then Poly(n, map[Zeros(n) := c]) else Poly(n, map[])
  }

  /** `Polynomial(m)`: the one term m, whatever its coefficient. */
  function FromTerm(n: nat, e: Exps, c: real): (p: Poly)
    requires |e| == n
    ensures Valid(p) && p.terms.Keys == {e} && Coef(p, e) == c
  {
    Poly(n, map[e := c])
  }

  // ------------------------------------------------------------ all terms

  /** Each exponent between 0 and o. */
  predicate InBox(e: Exps, n: nat, o: nat) {
    |e| == n && forall k :: 0 <= k < |e| ==> e[k] <= o
  }

  function Pow(b: nat, k: nat): (r: nat)
    requires b >= 1
    ensures r >= 1
  {
    if k == 0 then 1 else b * Pow(b, k - 1)
  }

  /** The exponent vector read as a number in base b, exponent 0 the lowest digit. */
  function Value(e: Exps, b: nat): nat
    decreases |e|
  {
    if |e| == 0 then 0 else e[0] + b * Value(e[1..], b)
  }

  lemma Distribute(b: nat, x: nat, y: nat)
    ensures b * (x + y) == b * x + b * y
  {
  }

  lemma {:induction false} ValueBump(e: Exps, i: nat, b: nat)
    requires i < |e| && b >= 1
    ensures Value(e[i := e[i] + 1], b) == Value(e, b) + Pow(b, i)
    decreases i
  {
    var e' := e[i := e[i] + 1];
    if i > 0 {
      assert e'[1..] == e[1..][i - 1 := e[1..][i - 1] + 1];
      ValueBump(e[1..], i - 1, b);
      Distribute(b, Value(e[1..], b), Pow(b, i - 1));
    } else {
      assert e'[1..] == e[1..];
    }
  }

  lemma {:induction false} ValueClear(e: Exps, i: nat, b: nat)
    requires i < |e| && b >= 1
    ensures Value(e[i := 0], b) + e[i] * Pow(b, i) == Value(e, b)
    decreases i
  {
    var e' := e[i := 0];
    if i > 0 {
      assert e'[1..] == e[1..][i - 1 := 0];
      ValueClear(e[1..], i - 1, b);
      var x, y := Value(e'[1..], b), e[i] * Pow(b, i - 1);
      Distribute(b, x, y);
      assert b * y == e[i] * Pow(b, i) by {
        MulComm3(b, e[i], Pow(b, i - 1));
      }
    } else {
      assert e'[1..] == e[1..];
    }
  }

  lemma MulComm3(a: nat, b: nat, c: nat)
    ensures a * (b * c) == b * (a * c)
  {
  }

  lemma {:induction false} ValueZeros(e: Exps, b: nat)
    requires forall k :: 0 <= k < |e| ==> e[k] == 0
    ensures Value(e, b) == 0
    decreases |e|
  {
    if |e| > 0 {
      ValueZeros(e[1..], b);
    }
  }

  /** A vector in the box is below b^n, for b = o + 1. */
  lemma {:induction false} ValueBelow(e: Exps, n: nat, o: nat)
    requires InBox(e, n, o)
    ensures Value(e, o + 1) < Pow(o + 1, n)
    decreases n
  {
    if n > 0 {
      var b := o + 1;
      ValueBelow(e[1..], n - 1, o);
      var v := Value(e[1..], b);
      assert v + 1 <= Pow(b, n - 1);
      MulMono(b, v + 1, Pow(b, n - 1));
      Distribute(b, v, 1);
    }
  }

  lemma PowStep(o: nat, i: nat)
    ensures Pow(o + 1, i + 1) == Pow(o + 1, i) + o * Pow(o + 1, i)
  {
    var x := Pow(o + 1, i);
    assert Pow(o + 1, i + 1) == (o + 1) * x;
    assert (o + 1) * x == o * x + x;
  }

  lemma MulMono(b: nat, x: nat, y: nat)
    requires x <= y
    ensures b * x <= b * y
  {
  }

  /** Two digits below b with the same higher part give the same number only if equal. */
  lemma {:induction false} Digits(a: nat, c: nat, b: nat, x: nat, y: nat)
    requires a < b && c < b && a + b * x == c + b * y
    ensures a == c && x == y
    decreases x
  {
    MulAtLeast(b, x);
    MulAtLeast(b, y);
    if x > 0 && y > 0 {
      MulPred(b, x);
      MulPred(b, y);
      Digits(a, c, b, x - 1, y - 1);
    }
  }

  lemma MulAtLeast(b: nat, x: nat)
    ensures x >= 1 ==> b * x >= b
  {
    if x >= 1 {
      MulMono(b, 1, x);
    }
  }

  lemma MulPred(b: nat, x: nat)
    ensures x >= 1 ==> b * x == b * (x - 1) + b
  {
  }

  /** Within the box, the base-(o+1) reading tells vectors apart. */
  lemma {:induction false} ValueInjective(u: Exps, v: Exps, n: nat, o: nat)
    requires InBox(u, n, o) && InBox(v, n, o) && Value(u, o + 1) == Value(v, o + 1)
    ensures u == v
    decreases n
  {
    if n > 0 {
      Digits(u[0], v[0], o + 1, Value(u[1..], o + 1), Value(v[1..], o + 1));
      ValueInjective(u[1..], v[1..], n - 1, o);
      assert u == [u[0]] + u[1..] && v == [v[0]] + v[1..];
    }
  }

  /** The keys are exactly the box vectors whose reading is below the bound. */
  ghost predicate KeysBelow(terms: map<Exps, real>, n: nat, o: nat, bound: nat) {
    forall e :: e in terms <==> InBox(e, n, o) && Value(e, o + 1) < bound
  }

  lemma KeysBelowAdd(terms: map<Exps, real>, n: nat, o: nat, m: Exps, c: real)
    requires InBox(m, n, o) && KeysBelow(terms, n, o, Value(m, o + 1))
    ensures m !in terms && KeysBelow(terms[m := c], n, o, Value(m, o + 1) + 1)
  {
    forall e | InBox(e, n, o) && Value(e, o + 1) == Value(m, o + 1)
      ensures e == m
    {
      ValueInjective(e, m, n, o);
    }
  }

  /**
    The odometer's state between turns: digits below i are zero, every
    vector read below the current reading plus b^i has been inserted with
    coefficient c, and that bound is at most b^n.
   */
  ghost predicate Odometer(m: Exps, i: nat, terms: map<Exps, real>, n: nat, o: nat, c: real) {
    InBox(m, n, o) && i <= n
    && (forall k :: 0 <= k < i ==> m[k] == 0)
    && Value(m, o + 1) + Pow(o + 1, i) <= Pow(o + 1, n)
    && KeysBelow(terms, n, o, Value(m, o + 1) + Pow(o + 1, i))
    && (forall e :: e in terms ==> terms[e] == c)
  }

  lemma OdometerStart(n: nat, o: nat, c: real)
    ensures Odometer(Zeros(n), 0, map[Zeros(n) := c], n, o, c)
  {
    var m := Zeros(n);
    ValueZeros(m, o + 1);
    forall e | InBox(e, n, o) && Value(e, o + 1) < 1
      ensures e == m
    {
      ValueInjective(e, m, n, o);
    }
  }

  /** Digit i turns over: the new reading is inserted and counting restarts at digit 0. */
  lemma OdometerBump(m: Exps, i: nat, terms: map<Exps, real>, n: nat, o: nat, c: real)
    requires Odometer(m, i, terms, n, o, c) && i < n && m[i] < o
    ensures m[i := m[i] + 1] !in terms
    ensures Odometer(m[i := m[i] + 1], 0, terms[m[i := m[i] + 1] := c], n, o, c)
    ensures Value(m[i := m[i] + 1], o + 1) + Pow(o + 1, 0) == Value(m, o + 1) + Pow(o + 1, i) + 1
  {
    var m' := m[i := m[i] + 1];
    ValueBump(m, i, o + 1);
    KeysBelowAdd(terms, n, o, m', c);
    ValueBelow(m', n, o);
  }

  /** Digit i is at o: it resets to zero and the carry moves to digit i+1. */
  lemma OdometerCarry(m: Exps, i: nat, terms: map<Exps, real>, n: nat, o: nat, c: real)
    requires Odometer(m, i, terms, n, o, c) && i < n && m[i] >= o
    ensures Odometer(m[i := 0], i + 1, terms, n, o, c)
    ensures Value(m[i := 0], o + 1) + Pow(o + 1, i + 1) == Value(m, o + 1) + Pow(o + 1, i)
  {
    ValueClear(m, i, o + 1);
    PowStep(o, i);
  }

  /** With every digit carried out, every vector of the box has been inserted. */
  lemma OdometerDone(m: Exps, terms: map<Exps, real>, n: nat, o: nat, c: real)
    requires Odometer(m, n, terms, n, o, c)
    ensures forall e :: e in terms <==> InBox(e, n, o)
  {
    ValueZeros(m, o + 1);
    forall e | InBox(e, n, o)
      ensures e in terms
    {
      ValueBelow(e, n, o);
    }
  }

  /**
    `allTerms(o, c)`: run an odometer over the exponent vector (digit i
    counts from 0 to o, then resets and carries into digit i+1), inserting
    every reading; the result holds every vector with each exponent at
    most o, all with coefficient c.
   */
  method AllTerms(n: nat, o: nat, c: real) returns (p: Poly)
    ensures Valid(p) && p.n == n
    ensures forall e :: e in p.terms <==> InBox(e, n, o)
    ensures forall e :: e in p.terms ==> p.terms[e] == c
  {
    var m: Exps := Zeros(n);
    var terms: map<Exps, real> := map[m := c];
    var i := 0;
    OdometerStart(n, o, c);
    while i < n
      invariant Odometer(m, i, terms, n, o, c)
      decreases Pow(o + 1, n) - (Value(m, o + 1) + Pow(o + 1, i)), n - i
    {
      if m[i] < o {
        OdometerBump(m, i, terms, n, o, c);
        m := m[i := m[i] + 1];
        if m !in terms {
          terms := terms[m := c];
        }
        i := 0;
      } else {
        OdometerCarry(m, i, terms, n, o, c);
        m := m[i := 0];
        i := i + 1;
      }
    }
    OdometerDone(m, terms, n, o, c);
    p := Poly(n, terms);
  }

  /** The total order of a term: the sum of its exponents. */
  function Order(e: Exps): nat
    decreases |e|
  {
    if |e| == 0 then 0 else e[0] + Order(e[1..])
  }

  lemma {:induction false} OrderBounds(e: Exps, k: nat)
    requires k < |e|
    ensures e[k] <= Order(e)
    decreases k
  {
    if k > 0 {
      OrderBounds(e[1..], k - 1);
    }
  }

  /**
    `lowerTriangleTerms(o, c)`: the terms of `allTerms(o, c)` of total order
    at most o, which is every vector of total order at most o.
   */
  method LowerTriangleTerms(n: nat, o: nat, c: real) returns (p: Poly)
    ensures Valid(p) && p.n == n
    ensures forall e :: e in p.terms <==> |e| == n && Order(e) <= o
    ensures forall e :: e in p.terms ==> p.terms[e] == c
  {
    var all := AllTerms(n, o, c);
    p := Poly(n, map e | e in all.terms && Order(e) <= o :: all.terms[e]);
    forall e | |e| == n && Order(e) <= o
      ensures InBox(e, n, o)
    {
      forall k | 0 <= k < |e|
        ensures e[k] <= o
      {
        OrderBounds(e, k);
      }
    }
  }

  // -------------------------------------------------------------- filters

  /** `even()`: the terms the monomial's evenness test accepts; `isEven` stands for that test. */
  function Even(p: Poly, isEven: Exps -> bool): (r: Poly)
    ensures Valid(p) ==> Valid(r)
    ensures r.terms.Keys <= p.terms.Keys && r.n == p.n
    ensures forall e :: e in p.terms ==> (e in r.terms <==> isEven(e))
    ensures forall e :: e in r.terms ==> r.terms[e] == p.terms[e]
  {
    Poly(p.n, map e | e in p.terms && isEven(e) :: p.terms[e])
  }

  function Abs(x: real): real {
    if x < 0.0 then -x else x
  }

  /** `prune(c)`: the terms whose coefficient exceeds c in magnitude. */
  function Prune(p: Poly, c: real): (r: Poly)
    ensures Valid(p) ==> Valid(r)
    ensures r.terms.Keys <= p.terms.Keys && r.n == p.n
    ensures forall e :: e in p.terms ==> (e in r.terms <==> Abs(p.terms[e]) > c)
    ensures forall e :: e in r.terms ==> r.terms[e] == p.terms[e]
  {
    Poly(p.n, map e | e in p.terms && Abs(p.terms[e]) > c :: p.terms[e])
  }

  /** Pruning twice is pruning once at the larger threshold. */
  lemma PruneTwice(p: Poly, c: real, d: real)
    ensures Prune(Prune(p, c), d) == Prune(p, if c < d then d else c)
  {
  }

  // -------------------------------------------------------------- addition

  /** The sum of two polynomials: every term of either, coefficients added. */
  function Plus(p: Poly, q: Poly): (r: Poly)
    requires p.n == q.n
  {
    Poly(p.n, map e | e in p.terms.Keys + q.terms.Keys :: Coef(p, e) + Coef(q, e))
  }

  lemma PlusCoef(p: Poly, q: Poly, e: Exps)
    requires p.n == q.n
    ensures e in Plus(p, q).terms <==> e in p.terms || e in q.terms
    ensures Coef(Plus(p, q), e) == Coef(p, e) + Coef(q, e)
  {
  }

  /** a and b agree at e: both hold it or neither does, with the same coefficient. */
  predicate SameAt(a: Poly, b: Poly, e: Exps) {
    (e in a.terms <==> e in b.terms) && Coef(a, e) == Coef(b, e)
  }

  lemma Ext(a: Poly, b: Poly)
    requires a.n == b.n && forall e :: SameAt(a, b, e)
    ensures a == b
  {
    forall e
      ensures e in a.terms <==> e in b.terms
    {
      assert SameAt(a, b, e);
    }
    forall e | e in a.terms
      ensures a.terms[e] == b.terms[e]
    {
      assert SameAt(a, b, e);
    }
    assert a.terms == b.terms;
  }

  /**
    `operator+=(m)`: add into the like term when one is present, otherwise
    insert m; at most one new term appears, and no other term changes.
   */
  function AddTerm(p: Poly, e: Exps, c: real): (r: Poly)
    ensures r.n == p.n && r.terms.Keys == p.terms.Keys + {e}
    ensures |r.terms| <= |p.terms| + 1
    ensures Coef(r, e) == Coef(p, e) + c
    ensures forall e' :: e' != e ==> Coef(r, e') == Coef(p, e')
  {
    if e in p.terms then Poly(p.n, p.terms[e := p.terms[e] + c])
    else Poly(p.n, p.terms[e := c])
  }

  /** Adding one term is adding the one-term polynomial. */
  lemma AddTermIsPlus(p: Poly, e: Exps, c: real)
    requires |e| == p.n
    ensures AddTerm(p, e, c) == Plus(p, FromTerm(p.n, e, c))
  {
    var a, b := AddTerm(p, e, c), Plus(p, FromTerm(p.n, e, c));
    forall k
      ensures SameAt(a, b, k)
    {
      PlusCoef(p, FromTerm(p.n, e, c), k);
    }
    Ext(a, b);
  }

  /** The terms of q whose exponent vectors are in s. */
  function Restrict(q: Poly, s: set<Exps>): Poly {
    Poly(q.n, map e | e in q.terms && e in s :: q.terms[e])
  }

  lemma RestrictCoef(q: Poly, s: set<Exps>, e: Exps)
    ensures e in Restrict(q, s).terms <==> e in q.terms && e in s
    ensures Coef(Restrict(q, s), e) == if e in s then Coef(q, e) else 0.0
  {
  }

  /**
    `operator+=(rhs)` and `operator+`: add rhs's terms in one at a time.
    The result is the sum, whatever order the terms are visited in.
   */
  method Add(p: Poly, q: Poly) returns (r: Poly)
    requires p.n == q.n
    ensures r == Plus(p, q)
  {
    r := p;
    var rest := q.terms.Keys;
    ghost var done: set<Exps> := {};
    AddNone(p, q);
    while rest != {}
      invariant Adding(p, q, rest, done, r)
      decreases |rest|
    {
      var e :| e in rest;
      AddingStep(p, q, rest, done, r, e);
      r := AddTerm(r, e, q.terms[e]);
      rest := rest - {e};
      done := done + {e};
    }
    AddAll(p, q, done, r);
  }

  /** Midway through `Add`: the terms of q in `done` have been added, those in `rest` not yet. */
  ghost predicate Adding(p: Poly, q: Poly, rest: set<Exps>, done: set<Exps>, r: Poly) {
    p.n == q.n && rest + done == q.terms.Keys && rest !! done && r == Plus(p, Restrict(q, done))
  }

  lemma AddingStep(p: Poly, q: Poly, rest: set<Exps>, done: set<Exps>, r: Poly, e: Exps)
    requires Adding(p, q, rest, done, r) && e in rest
    ensures Adding(p, q, rest - {e}, done + {e}, AddTerm(r, e, q.terms[e]))
    ensures |rest - {e}| < |rest|
  {
    SetsStep(q.terms.Keys, rest, done, e);
    AddStep(p, q, done, e, r);
  }

  lemma SetsStep(all: set<Exps>, rest: set<Exps>, done: set<Exps>, e: Exps)
    requires rest + done == all && rest !! done && e in rest
    ensures (rest - {e}) + (done + {e}) == all && (rest - {e}) !! (done + {e})
    ensures |rest - {e}| < |rest|
  {
    assert rest == (rest - {e}) + {e};
  }

  lemma AddNone(p: Poly, q: Poly)
    requires p.n == q.n
    ensures Adding(p, q, q.terms.Keys, {}, p)
  {
    forall k
      ensures SameAt(p, Plus(p, Restrict(q, {})), k)
    {
      PlusCoef(p, Restrict(q, {}), k);
      RestrictCoef(q, {}, k);
    }
    Ext(p, Plus(p, Restrict(q, {})));
  }

  lemma AddAll(p: Poly, q: Poly, done: set<Exps>, r: Poly)
    requires Adding(p, q, {}, done, r)
    ensures r == Plus(p, q)
  {
    forall k
      ensures SameAt(Restrict(q, done), q, k)
    {
      RestrictCoef(q, done, k);
    }
    Ext(Restrict(q, done), q);
  }

  lemma AddStep(p: Poly, q: Poly, done: set<Exps>, e: Exps, s: Poly)
    requires p.n == q.n && e in q.terms && e !in done && s == Plus(p, Restrict(q, done))
    ensures AddTerm(s, e, q.terms[e]) == Plus(p, Restrict(q, done + {e}))
  {
    var a := AddTerm(s, e, q.terms[e]);
    var b := Plus(p, Restrict(q, done + {e}));
    forall k
      ensures SameAt(a, b, k)
    {
      PlusCoef(p, Restrict(q, done), k);
      PlusCoef(p, Restrict(q, done + {e}), k);
      RestrictCoef(q, done, k);
      RestrictCoef(q, done + {e}, k);
    }
    Ext(a, b);
  }

  /** Addition does not depend on the order of the operands. */
  lemma PlusComm(p: Poly, q: Poly)
    requires p.n == q.n
    ensures Plus(p, q) == Plus(q, p)
  {
    forall k
      ensures SameAt(Plus(p, q), Plus(q, p), k)
    {
      PlusCoef(p, q, k);
      PlusCoef(q, p, k);
    }
    Ext(Plus(p, q), Plus(q, p));
  }

  /** Adding the zero polynomial changes nothing. */
  lemma PlusZero(p: Poly)
    ensures Plus(p, Constant(p.n, 0.0)) == p
  {
    forall k
      ensures SameAt(Plus(p, Constant(p.n, 0.0)), p, k)
    {
      PlusCoef(p, Constant(p.n, 0.0), k);
    }
    Ext(Plus(p, Constant(p.n, 0.0)), p);
  }

  /** Keeping the even terms of a sum is summing the even parts. */
  lemma EvenPlus(p: Poly, q: Poly, isEven: Exps -> bool)
    requires p.n == q.n
    ensures Even(Plus(p, q), isEven) == Plus(Even(p, isEven), Even(q, isEven))
  {
    var a, b := Even(Plus(p, q), isEven), Plus(Even(p, isEven), Even(q, isEven));
    forall k
      ensures SameAt(a, b, k)
    {
      PlusCoef(p, q, k);
      PlusCoef(Even(p, isEven), Even(q, isEven), k);
    }
    Ext(a, b);
  }

  // ------------------------------------------------------------ derivative

  /** Exponent vector w with exponent i raised by one. */
  function Raise(w: Exps, i: nat): (e: Exps)
    requires i < |w|
    ensures |e| == |w| && e[i] == w[i] + 1
  {
    w[i := w[i] + 1]
  }

  /** Exponent vector e with exponent i lowered by one; undoes `Raise`. */
  function Lower(e: Exps, i: nat): (w: Exps)
    requires i < |e| && e[i] > 0
    ensures |w| == |e| && Raise(w, i) == e
  {
    e[i := e[i] - 1]
  }

  lemma RaiseInjective(v: Exps, w: Exps, i: nat)
    requires i < |v| && i < |w| && Raise(v, i) == Raise(w, i)
    ensures v == w
  {
    assert v == Raise(v, i)[i := v[i]];
    assert w == Raise(w, i)[i := w[i]];
  }

  /** A coefficient multiplied by an exponent. */
  function Times(k: nat, x: real): real {
    if k == 0 then 0.0 else x + Times(k - 1, x)
  }

  lemma {:induction false} TimesZero(k: nat)
    ensures Times(k, 0.0) == 0.0
  {
    if k > 0 {
      TimesZero(k - 1);
    }
  }

  lemma {:induction false} TimesSum(k: nat, x: real, y: real)
    ensures Times(k, x + y) == Times(k, x) + Times(k, y)
  {
    if k > 0 {
      TimesSum(k - 1, x, y);
    }
  }

  /**
    Every term of d is the derivative of a term of p whose exponent vector
    is in s: raising w in exponent i gives that term, and w's coefficient is
    the term's coefficient times its exponent i.
   */
  ghost predicate DerivSound(p: Poly, i: nat, s: set<Exps>, d: Poly) {
    forall w :: w in d.terms ==>
      i < |w| && Raise(w, i) in s && Raise(w, i) in p.terms
      && d.terms[w] == Times(w[i] + 1, p.terms[Raise(w, i)])
  }

  /** Every term in s with variable i has its derivative in d. */
  ghost predicate DerivComplete(i: nat, s: set<Exps>, d: Poly) {
    forall w :: i < |w| && Raise(w, i) in s ==> w in d.terms
  }

  /**
    d is the derivative of p in variable i: d holds exactly the vectors w
    whose raise in exponent i is a term of p, each with that term's
    coefficient times its exponent i. A term of p without variable i is
    the raise of nothing, so it leaves no trace in d.
   */
  ghost predicate IsDerivative(p: Poly, i: nat, d: Poly) {
    d.n == p.n && DerivSound(p, i, p.terms.Keys, d) && DerivComplete(i, p.terms.Keys, d)
  }

  /**
    `derivative(i)`: differentiate every term with a nonzero exponent i and
    insert it. No inserted term is ever already present, since lowering
    exponent i is one-to-one.
   */
  method Derivative(p: Poly, i: nat) returns (d: Poly)
    requires Valid(p) && i < p.n
    ensures Valid(d) && IsDerivative(p, i, d)
  {
    d := Poly(p.n, map[]);
    var rest := p.terms.Keys;
    ghost var done: set<Exps> := {};
    while rest != {}
      invariant rest + done == p.terms.Keys && rest !! done && d.n == p.n
      invariant DerivSound(p, i, done, d) && DerivComplete(i, done, d)
      decreases |rest|
    {
      var e :| e in rest;
      SetsStep(p.terms.Keys, rest, done, e);
      if e[i] > 0 {
        var w := Lower(e, i);
        var c := Times(e[i], p.terms[e]);
        SoundStep(p, i, done, d, e);
        CompleteStep(i, done, d, e, c);
        if w !in d.terms {
          d := Poly(d.n, d.terms[w := c]);
        }
      } else {
        CompleteSkip(i, done, d, e);
      }
      rest := rest - {e};
      done := done + {e};
    }
    DerivValid(p, i, d);
  }

  lemma SoundStep(p: Poly, i: nat, s: set<Exps>, d: Poly, e: Exps)
    requires DerivSound(p, i, s, d) && e in p.terms && e !in s && i < |e| && e[i] > 0
    ensures Lower(e, i) !in d.terms
    ensures DerivSound(p, i, s + {e}, Poly(d.n, d.terms[Lower(e, i) := Times(e[i], p.terms[e])]))
  {
  }

  lemma CompleteStep(i: nat, s: set<Exps>, d: Poly, e: Exps, c: real)
    requires DerivComplete(i, s, d) && i < |e| && e[i] > 0
    ensures DerivComplete(i, s + {e}, Poly(d.n, d.terms[Lower(e, i) := c]))
  {
    forall v | i < |v| && Raise(v, i) in s + {e}
      ensures v in d.terms[Lower(e, i) := c]
    {
      if Raise(v, i) == e {
        RaiseInjective(v, Lower(e, i), i);
      }
    }
  }

  lemma CompleteSkip(i: nat, s: set<Exps>, d: Poly, e: Exps)
    requires DerivComplete(i, s, d) && i < |e| && e[i] == 0
    ensures DerivComplete(i, s + {e}, d)
  {
  }

  lemma DerivValid(p: Poly, i: nat, d: Poly)
    requires Valid(p) && d.n == p.n && DerivSound(p, i, p.terms.Keys, d)
    ensures Valid(d)
  {
  }

  /** s agrees with the sum of p and q at e. */
  predicate SumAt(p: Poly, q: Poly, s: Poly, e: Exps) {
    (e in s.terms <==> e in p.terms || e in q.terms) && Coef(s, e) == Coef(p, e) + Coef(q, e)
  }

  lemma PlusSumAt(p: Poly, q: Poly)
    requires p.n == q.n
    ensures forall e :: SumAt(p, q, Plus(p, q), e)
  {
    forall e
      ensures SumAt(p, q, Plus(p, q), e)
    {
      PlusCoef(p, q, e);
    }
  }

  /** The derivative of a sum is the sum of the derivatives. */
  lemma DerivativePlus(p: Poly, q: Poly, i: nat, dp: Poly, dq: Poly, ds: Poly)
    requires p.n == q.n
    requires IsDerivative(p, i, dp) && IsDerivative(q, i, dq) && IsDerivative(Plus(p, q), i, ds)
    ensures ds == Plus(dp, dq)
  {
    PlusSumAt(p, q);
    PlusSumAt(dp, dq);
    forall w
      ensures SameAt(ds, Plus(dp, dq), w)
    {
      DerivativeSumAt(p, q, Plus(p, q), i, dp, dq, ds, Plus(dp, dq), w);
    }
    Ext(ds, Plus(dp, dq));
  }

  lemma DerivativeSumAt(p: Poly, q: Poly, s: Poly, i: nat, dp: Poly, dq: Poly, ds: Poly, b: Poly, w: Exps)
    requires forall e :: SumAt(p, q, s, e)
    requires forall v :: SumAt(dp, dq, b, v)
    requires IsDerivative(p, i, dp) && IsDerivative(q, i, dq) && IsDerivative(s, i, ds)
    ensures SameAt(ds, b, w)
  {
    assert SumAt(dp, dq, b, w);
    if i < |w| {
      assert SumAt(p, q, s, Raise(w, i));
      DerivativeSumIn(p, q, s, i, dp, dq, ds, b, w);
    } else {
      DerivativeHas(s, i, ds, w);
      DerivativeHas(p, i, dp, w);
      DerivativeHas(q, i, dq, w);
    }
  }

  lemma DerivativeSumIn(p: Poly, q: Poly, s: Poly, i: nat, dp: Poly, dq: Poly, ds: Poly, b: Poly, w: Exps)
    requires i < |w| && SumAt(p, q, s, Raise(w, i)) && SumAt(dp, dq, b, w)
    requires IsDerivative(p, i, dp) && IsDerivative(q, i, dq) && IsDerivative(s, i, ds)
    ensures SameAt(ds, b, w)
  {
    var e := Raise(w, i);
    DerivativeAt(p, i, dp, w);
    DerivativeAt(q, i, dq, w);
    DerivativeAt(s, i, ds, w);
    CombineAt(Coef(p, e), Coef(q, e), Coef(s, e), w[i] + 1, Coef(dp, w), Coef(dq, w), Coef(ds, w), Coef(b, w));
  }

  /** The coefficient arithmetic of `DerivativeSumAt`, on plain numbers. */
  lemma CombineAt(cp: real, cq: real, cs: real, k: nat, dp: real, dq: real, ds: real, b: real)
    requires cs == cp + cq && b == dp + dq
    requires dp == Times(k, cp) && dq == Times(k, cq) && ds == Times(k, cs)
    ensures ds == b
  {
    TimesSum(k, cp, cq);
  }

  /** Membership and coefficient of a derivative at one vector with at least i+1 entries. */
  lemma DerivativeAt(p: Poly, i: nat, d: Poly, w: Exps)
    requires IsDerivative(p, i, d) && i < |w|
    ensures w in d.terms <==> Raise(w, i) in p.terms
    ensures Coef(d, w) == Times(w[i] + 1, Coef(p, Raise(w, i)))
  {
    DerivativeCoef(p, i, d, w);
  }

  lemma DerivativeHas(p: Poly, i: nat, d: Poly, w: Exps)
    requires IsDerivative(p, i, d)
    ensures w in d.terms <==> i < |w| && Raise(w, i) in p.terms
  {
  }

  /** A coefficient of a derivative, in terms of the differentiated polynomial's. */
  lemma DerivativeCoef(p: Poly, i: nat, d: Poly, w: Exps)
    requires IsDerivative(p, i, d) && i < |w|
    ensures Coef(d, w) == Times(w[i] + 1, Coef(p, Raise(w, i)))
  {
    if w !in d.terms {
      assert Coef(p, Raise(w, i)) == 0.0;
      TimesZero(w[i] + 1);
    }
  }

  // --------------------------------------------------------------- printing

  /**
    `algebraicForm`: each term's printed form followed by a space, or `0`
    for the empty polynomial. `printed` holds the terms' printed forms in
    the set's order.
   */
  function AlgebraicForm(printed: seq<string>): (s: string)
    ensures s == "0" <==> |printed| == 0
  {
    if |printed| == 0 then "0" else Spaced(printed)
  }

  function Spaced(printed: seq<string>): (s: string)
    ensures |printed| > 0 ==> |s| > 0 && s[|s| - 1] == ' '
    decreases |printed|
  {
    if |printed| == 0 then ""
    else
      var rest := Spaced(printed[..|printed| - 1]);
      rest + printed[|printed| - 1] + " "
  }
}

=== FILE: pselector.dfy ===
/**
  The cumulative-probability category sampler (`PSelector`) of the nuclear
  decay generator. A selector holds the running boundaries `cumprob` of N
  categories; category i covers `[cumprob[i], cumprob[i+1])`. Selecting with a
  caller-supplied uniform variate rescales it by the total mass, picks the
  category with `upper_bound`, and hands back the position inside the chosen
  sub-interval as a fresh uniform variate (the "residual").
 */
module Selector {
  import opened Wrappers

  datatype PSelector = PSelector(cumprob: seq<real>)

  /** Result of one selection: the chosen category and the residual variate. */
  datatype Selection = Selection(index: nat, residual: real)

  /** Boundaries start at zero and never decrease (every added mass is non-negative). */
  predicate Valid(s: PSelector) {
    && |s.cumprob| >= 1
    && s.cumprob[0] == 0.0
    && Sorted(s.cumprob)
  }

  predicate Sorted(c: seq<real>) {
    forall i, j :: 0 <= i <= j < |c| ==> c[i] <= c[j]
  }

  /** An empty selector: the single boundary 0 and no categories. */
  function New(): (s: PSelector)
    ensures Valid(s) && Count(s) == 0 && Total(s) == 0.0
  {
    PSelector([0.0])
  }

  /** Number of categories (`getN`). */
  function Count(s: PSelector): nat
    requires |s.cumprob| >= 1
  {
    |s.cumprob| - 1
  }

  /** Total mass (`getCumProb`): the last boundary. */
  function Total(s: PSelector): real
    requires |s.cumprob| >= 1
  {
    s.cumprob[|s.cumprob| - 1]
  }

  /** Unnormalised mass of category i. */
  function Width(s: PSelector, i: nat): real
    requires |s.cumprob| >= 1 && i < Count(s)
  {
    s.cumprob[i + 1] - s.cumprob[i]
  }

  /** Sum of a sequence of masses, left to right. */
  function Sum(ws: seq<real>): real
  {
    if |ws| == 0 then 0.0 else Sum(ws[..|ws| - 1]) + ws[|ws| - 1]
  }

  predicate NonNegative(ws: seq<real>) {
    forall i :: 0 <= i < |ws| ==> ws[i] >= 0.0
  }

  /** `addProb(p)`: a new last category of mass p; the earlier categories keep their masses. */
  function AddProb(s: PSelector, p: real): (r: PSelector)
    requires |s.cumprob| >= 1
    ensures |r.cumprob| >= 1
    ensures Count(r) == Count(s) + 1
    ensures Total(r) == Total(s) + p
    ensures Width(r, Count(s)) == p
    ensures forall i :: 0 <= i < Count(s) ==> Width(r, i) == Width(s, i)
    ensures Valid(s) && p >= 0.0 ==> Valid(r)
  {
    PSelector(s.cumprob + [Total(s) + p])
  }

  /** A selector built by adding the masses `ws` in order to an empty one. */
  function FromWeights(ws: seq<real>): (r: PSelector)
    ensures |r.cumprob| >= 1
    ensures Count(r) == |ws|
    ensures Total(r) == Sum(ws)
    ensures forall i :: 0 <= i < |ws| ==> Width(r, i) == ws[i]
    ensures NonNegative(ws) ==> Valid(r)
  {
    if |ws| == 0 then New()
    else AddProb(FromWeights(ws[..|ws| - 1]), ws[|ws| - 1])
  }

  /** The index `std::upper_bound` yields on a sorted range: the first boundary above y. */
  function UpperBound(c: seq<real>, y: real): (k: nat)
    ensures k <= |c|
    ensures forall j :: 0 <= j < k ==> c[j] <= y
    ensures k < |c| ==> c[k] > y
  {
    if |c| == 0 then 0
    else if c[0] > y then 0
    else 1 + UpperBound(c[1..], y)
  }

  /** The binary search behind `std::upper_bound`, which finds the same index on sorted input. */
  method UpperBoundSearch(c: seq<real>, y: real) returns (k: nat)
    requires Sorted(c)
    ensures k == UpperBound(c, y)
  {
    var lo, hi := 0, |c|;
    while lo < hi
      invariant 0 <= lo <= hi <= |c|
      invariant forall j :: 0 <= j < lo ==> c[j] <= y
      invariant forall j :: hi <= j < |c| ==> c[j] > y
      decreases hi - lo
    {
      var mid := (lo + hi) / 2;
      if c[mid] <= y {
        lo := mid + 1;
      } else {
        hi := mid;
      }
    }
    k := lo;
    UpperBoundUnique(c, y, k);
  }

  lemma {:induction false} UpperBoundUnique(c: seq<real>, y: real, k: nat)
    requires k <= |c|
    requires forall j :: 0 <= j < k ==> c[j] <= y
    requires k < |c| ==> c[k] > y
    ensures UpperBound(c, y) == k
  {
    if |c| > 0 && k > 0 {
      UpperBoundUnique(c[1..], y, k - 1);
    }
  }

  lemma PositiveFactor(p: real, w: real)
    requires p * w > 0.0 && w > 0.0
    ensures p > 0.0
  {
  }

  /** Relative position of y inside the interval [a, b). */
  function Residual(y: real, a: real, b: real): real
    requires a < b
  {
    (y - a) / (b - a)
  }

  lemma ResidualBounds(y: real, a: real, b: real)
    requires a <= y < b
    ensures 0.0 <= Residual(y, a, b) < 1.0
    ensures Residual(y, a, b) * (b - a) == y - a
  {
    var w := b - a;
    var r := (y - a) / w;
    assert r * w == y - a;
    assert (1.0 - r) * w == b - y;
    PositiveFactor(1.0 - r, w);
  }


  /**
    Real product. Products of two variables are kept behind this function so
    that the solver multiplies out only where a proof asks for it.
   */
  function Mul(a: real, b: real): real {
    a * b
  }

  /** Equal factors give equal products; stated so that no product needs multiplying out. */
  lemma MulRight(a: real, b: real, c: real)
    requires b == c
    ensures Mul(a, b) == Mul(a, c)
  {
  }

  /**
    The selection for an already rescaled variate y: the category below the
    first boundary above y, and y's relative position inside it. No category
    lies below y when y is under the first boundary or at least the last one.
   */
  function SelectAt(c: seq<real>, y: real): (r: Option<Selection>)
    requires |c| >= 1
    ensures r.Some? ==>
      && r.value.index < |c| - 1
      && c[r.value.index] <= y < c[r.value.index + 1]
      && 0.0 <= r.value.residual < 1.0
  {
    var k := UpperBound(c, y);
    if k == 0 || k - 1 >= |c| - 1 then None
    else
      ResidualBounds(y, c[k - 1], c[k]);
      Some(Selection(k - 1, Residual(y, c[k - 1], c[k])))
  }

  /**
    `select(x)` with a caller-supplied x. The two failed assertions of the
    source (x outside [0,1]; no category below the rescaled x) give None.
   */
  function Select(s: PSelector, x: real): (r: Option<Selection>)
    requires |s.cumprob| >= 1
    ensures !(0.0 <= x <= 1.0) ==> r.None?
    ensures r.Some? ==>
      && r.value.index < Count(s)
      && s.cumprob[r.value.index] <= Mul(x, Total(s)) < s.cumprob[r.value.index + 1]
      && 0.0 <= r.value.residual < 1.0
  {
    if !(0.0 <= x <= 1.0) then None
    else SelectAt(s.cumprob, Mul(x, Total(s)))
  }

  /**
    The residual is the rescaled variate's relative position inside the chosen
    interval, so it can serve as a fresh uniform variate for a nested choice.
   */
  lemma SelectResidual(s: PSelector, x: real)
    requires |s.cumprob| >= 1 && Select(s, x).Some?
    ensures var i := Select(s, x).value.index;
      Mul(Select(s, x).value.residual, Width(s, i)) == Mul(x, Total(s)) - s.cumprob[i]
  {
    var y := Mul(x, Total(s));
    var k := UpperBound(s.cumprob, y);
    ResidualEquation(y, s.cumprob[k - 1], s.cumprob[k]);
  }

  lemma ResidualEquation(y: real, a: real, b: real)
    requires a < b
    ensures Residual(y, a, b) * (b - a) == y - a
  {
  }

  /** The category chosen is the only one whose interval holds the rescaled variate. */
  lemma SelectUnique(s: PSelector, x: real, j: nat)
    requires Valid(s) && j < Count(s)
    requires Select(s, x).Some?
    requires s.cumprob[j] <= Mul(x, Total(s)) < s.cumprob[j + 1]
    ensures Select(s, x).value.index == j
  {
  }

  /** A variate in [0,1) rescales to a point below the total mass, when the mass is positive. */
  lemma RescaledBelowTotal(x: real, t: real)
    requires 0.0 <= x < 1.0 && t > 0.0
    ensures 0.0 <= Mul(x, t) < t
  {
    assert (1.0 - x) * t > 0.0;
  }

  /** Any x in [0,1) selects a category of a selector with positive mass. */
  lemma SelectDefined(s: PSelector, x: real)
    requires Valid(s) && Total(s) > 0.0
    requires 0.0 <= x < 1.0
    ensures Select(s, x).Some?
  {
    RescaledBelowTotal(x, Total(s));
    var y := Mul(x, Total(s));
    assert s.cumprob[0] <= y;
    assert s.cumprob[|s.cumprob| - 1] > y;
  }

  /** x = 1 rescales to the total mass, which no interval holds: the assertion fails. */
  lemma SelectAtOneFails(s: PSelector)
    requires Valid(s)
    ensures Select(s, 1.0).None?
  {
    var y := Mul(1.0, Total(s));
    assert forall j :: 0 <= j < |s.cumprob| ==> s.cumprob[j] <= y;
  }

  /** `getProb(n)`: category n's share of the total mass. */
  function GetProb(s: PSelector, n: nat): (p: real)
    requires |s.cumprob| >= 1 && n < Count(s) && Total(s) != 0.0
    ensures p * Total(s) == s.cumprob[n + 1] - s.cumprob[n]
    ensures Valid(s) ==> 0.0 <= p <= 1.0
  {
    ShareBounds(s, n);
    Width(s, n) / Total(s)
  }

  /** In a valid selector a category's width lies between zero and the total. */
  lemma ShareBounds(s: PSelector, n: nat)
    requires |s.cumprob| >= 1 && n < Count(s) && Total(s) != 0.0
    ensures Valid(s) ==> 0.0 <= Width(s, n) / Total(s) <= 1.0
  {
    if Valid(s) {
      var t := Total(s);
      var w := Width(s, n);
      assert 0.0 <= s.cumprob[n] && s.cumprob[n + 1] <= t;
      assert 0.0 <= w <= t && t > 0.0;
      var q := w / t;
      assert q * t == w;
      assert (1.0 - q) * t == t - w;
    }
  }

  /** Sum of the shares of the first k categories. */
  function SumProb(s: PSelector, k: nat): real
    requires |s.cumprob| >= 1 && k <= Count(s) && Total(s) != 0.0
  {
    if k == 0 then 0.0 else SumProb(s, k - 1) + GetProb(s, k - 1)
  }

  lemma {:induction false} SumProbPrefix(s: PSelector, k: nat)
    requires |s.cumprob| >= 1 && k <= Count(s) && Total(s) != 0.0
    ensures SumProb(s, k) * Total(s) == s.cumprob[k] - s.cumprob[0]
  {
    if k > 0 {
      SumProbPrefix(s, k - 1);
      var t := Total(s);
      assert GetProb(s, k - 1) * t == Width(s, k - 1);
      assert SumProb(s, k) * t == SumProb(s, k - 1) * t + GetProb(s, k - 1) * t;
    }
  }

  /** The shares of all categories add up to one. */
  lemma ProbabilitiesSumToOne(s: PSelector)
    requires |s.cumprob| >= 1 && s.cumprob[0] == 0.0 && Total(s) != 0.0
    ensures SumProb(s, Count(s)) == 1.0
  {
    SumProbPrefix(s, Count(s));
    var t := Total(s);
    var p := SumProb(s, Count(s));
    assert p * t == 1.0 * t;
  }

  /** `scale(k)`: every boundary multiplied by k (`ScaleAllAt` states it per boundary). */
  function Scale(s: PSelector, k: real): (r: PSelector)
    ensures |r.cumprob| == |s.cumprob|
    ensures forall i :: 0 <= i < |s.cumprob| ==> r.cumprob[i] == Mul(k, s.cumprob[i])
  {
    ScaleAllIndex(s.cumprob, k);
    PSelector(ScaleAll(s.cumprob, k))
  }

  function ScaleAll(c: seq<real>, k: real): (d: seq<real>)
    ensures |d| == |c|
  {
    if |c| == 0 then [] else [Mul(k, c[0])] + ScaleAll(c[1..], k)
  }

  lemma {:induction false} ScaleAllIndex(c: seq<real>, k: real)
    ensures forall i :: 0 <= i < |c| ==> ScaleAll(c, k)[i] == Mul(k, c[i])
  {
    if |c| > 0 {
      ScaleAllIndex(c[1..], k);
    }
  }

  lemma ScaleAllAt(c: seq<real>, k: real, i: nat)
    requires i < |c|
    ensures ScaleAll(c, k)[i] == Mul(k, c[i])
  {
    ScaleAllIndex(c, k);
  }

  /** Scaling multiplies the total mass by the factor. */
  lemma ScaleTotal(s: PSelector, k: real)
    requires |s.cumprob| >= 1
    ensures Total(Scale(s, k)) == Mul(k, Total(s))
  {
    ScaleAllAt(s.cumprob, k, |s.cumprob| - 1);
  }

  lemma ShareOfScaled(w: real, t: real, k: real)
    requires t != 0.0 && k != 0.0
    ensures Mul(k, t) != 0.0
    ensures Mul(k, w) / Mul(k, t) == w / t
  {
    var p := w / t;
    assert p * t == w;
    assert p * (k * t) == k * w;
  }

  /** Scaling by a non-zero factor leaves every category's share unchanged. */
  lemma ScalePreservesProb(s: PSelector, k: real, n: nat)
    requires |s.cumprob| >= 1 && n < Count(s) && Total(s) != 0.0 && k != 0.0
    ensures Total(Scale(s, k)) != 0.0
    ensures GetProb(Scale(s, k), n) == GetProb(s, n)
  {
    ScaleAllAt(s.cumprob, k, n);
    ScaleAllAt(s.cumprob, k, n + 1);
    ScaleTotal(s, k);
    var a, b := s.cumprob[n], s.cumprob[n + 1];
    assert Mul(k, b) - Mul(k, a) == Mul(k, b - a);
    ShareOfScaled(b - a, Total(s), k);
  }

  lemma ScaleOrder(a: real, y: real, k: real)
    requires k > 0.0
    ensures Mul(k, a) > Mul(k, y) <==> a > y
    ensures Mul(k, a) <= Mul(k, y) <==> a <= y
  {
    if a > y { assert k * a - k * y == k * (a - y); }
    if k * a > k * y { assert k * (a - y) > 0.0; }
  }

  lemma {:induction false} UpperBoundScale(c: seq<real>, y: real, k: real)
    requires k > 0.0
    ensures UpperBound(ScaleAll(c, k), Mul(k, y)) == UpperBound(c, y)
  {
    if |c| > 0 {
      ScaleOrder(c[0], y, k);
      UpperBoundScale(c[1..], y, k);
    }
  }

  lemma ResidualScale(y: real, a: real, b: real, k: real)
    requires a <= y < b && k > 0.0
    ensures Mul(k, a) < Mul(k, b)
    ensures Residual(Mul(k, y), Mul(k, a), Mul(k, b)) == Residual(y, a, b)
  {
    var q := (y - a) / (b - a);
    assert q * (b - a) == y - a;
    assert k * y - k * a == k * (y - a);
    assert k * b - k * a == k * (b - a);
    assert q * (k * (b - a)) == k * (y - a);
  }

  lemma ResidualOfScaled(c: seq<real>, y: real, k: real, u: nat)
    requires 0 < u < |c| && c[u - 1] <= y < c[u] && k > 0.0
    ensures ScaleAll(c, k)[u - 1] < ScaleAll(c, k)[u]
    ensures Residual(Mul(k, y), ScaleAll(c, k)[u - 1], ScaleAll(c, k)[u]) == Residual(y, c[u - 1], c[u])
  {
    ScaleAllAt(c, k, u - 1);
    ScaleAllAt(c, k, u);
    ResidualScale(y, c[u - 1], c[u], k);
  }

  /** Two selections agree when the upper bounds agree and so do the residuals. */
  lemma SelectAtCongruent(c: seq<real>, y: real, d: seq<real>, z: real)
    requires |c| >= 1 && |d| == |c|
    requires UpperBound(d, z) == UpperBound(c, y)
    requires var u := UpperBound(c, y);
      0 < u < |c| ==> d[u - 1] < d[u] && Residual(z, d[u - 1], d[u]) == Residual(y, c[u - 1], c[u])
    ensures SelectAt(d, z) == SelectAt(c, y)
  {
  }

  /** Rescaling the boundaries and the variate together selects the same category and residual. */
  lemma SelectAtScale(c: seq<real>, y: real, k: real)
    requires |c| >= 1 && k > 0.0
    ensures SelectAt(ScaleAll(c, k), Mul(k, y)) == SelectAt(c, y)
  {
    var u := UpperBound(c, y);
    UpperBoundScale(c, y, k);
    if 0 < u < |c| {
      ResidualOfScaled(c, y, k, u);
    }
    SelectAtCongruent(c, y, ScaleAll(c, k), Mul(k, y));
  }

  lemma Reassociate(x: real, k: real, t: real)
    ensures Mul(x, Mul(k, t)) == Mul(k, Mul(x, t))
  {
  }

  /** Scaling by a positive factor changes neither the category selected nor the residual. */
  lemma ScalePreservesSelect(s: PSelector, k: real, x: real)
    requires |s.cumprob| >= 1 && k > 0.0
    ensures Select(Scale(s, k), x) == Select(s, x)
  {
    if 0.0 <= x <= 1.0 {
      ScaleTotal(s, k);
      Reassociate(x, k, Total(s));
      SelectAtScale(s.cumprob, Mul(x, Total(s)), k);
    }
  }

  lemma MulMonotone(k: real, a: real, b: real)
    requires k >= 0.0 && a <= b
    ensures Mul(k, a) <= Mul(k, b)
  {
    assert k * b - k * a == k * (b - a);
  }

  /** Scaling a valid selector by a non-negative factor keeps it valid. */
  lemma ScaleKeepsValid(s: PSelector, k: real)
    requires Valid(s) && k >= 0.0
    ensures Valid(Scale(s, k))
  {
    var c := s.cumprob;
    var d := Scale(s, k).cumprob;
    ScaleAllIndex(c, k);
    forall i, j | 0 <= i <= j < |d|
      ensures d[i] <= d[j]
    {
      MulMonotone(k, c[i], c[j]);
    }
  }

  /**
    On a valid selector the last category is chosen exactly when the rescaled
    variate reaches that category's lower boundary.
   */
  lemma SelectLast(s: PSelector, x: real)
    requires Valid(s) && Select(s, x).Some?
    ensures Select(s, x).value.index == Count(s) - 1 <==> Mul(x, Total(s)) >= s.cumprob[Count(s) - 1]
  {
    var i := Select(s, x).value.index;
    if i < Count(s) - 1 {
      assert s.cumprob[i + 1] <= s.cumprob[Count(s) - 1];
    }
  }
}

=== FILE: signed_permutation.dfy ===
/**
  Signed permutations (`SignedPermutation<N>`): a permutation combined with
  sign flips, stored as N entries whose absolute values are a
  rearrangement of 1..N and whose signs say which images are negated.
 */
module SignedPermutationGroup {
  import opened PermutationGroup

  function Abs(c: int): nat {
    if c < 0 then -c else c
  }

  /** v carrying the sign of c. */
  function WithSign(c: int, v: int): int {
    if c < 0 then -v else v
  }

  /** The absolute values are in 1..N and pairwise different (the class invariant `validate`). */
  predicate IsSigned(s: seq<int>) {
    && (forall i :: 0 <= i < |s| ==> 1 <= Abs(s[i]) <= |s|)
    && (forall i, j :: 0 <= i < j < |s| ==> Abs(s[i]) != Abs(s[j]))
  }

  /** The default constructor's identity 1, 2, ..., n. */
  function SIdentity(n: nat): (s: seq<int>)
    ensures |s| == n && IsSigned(s)
    ensures forall i :: 0 <= i < n ==> s[i] == i + 1
  {
    seq(n, i => i + 1)
  }

  /** The absolute values of the entries. */
  function Magnitudes(s: seq<int>): (m: seq<int>)
    ensures |m| == |s| && forall i :: 0 <= i < |s| ==> m[i] == Abs(s[i])
  {
    seq(|s|, i requires 0 <= i < |s| => Abs(s[i]))
  }

  /**
    `validate`: scan the entries, failing on an absolute value outside 1..N
    or one already seen; succeed when N distinct absolute values were seen.
   */
  method SValidate(s: seq<int>) returns (ok: bool)
    ensures ok <==> IsSigned(s)
  {
    var m := Magnitudes(s);
    var seen: set<int> := {};
    var k := 0;
    while k < |s|
      invariant k <= |s|
      invariant seen == Values(m, k)
      invariant forall i :: 0 <= i < k ==> 1 <= Abs(s[i]) <= |s|
      invariant forall i, j :: 0 <= i < j < k ==> Abs(s[i]) != Abs(s[j])
    {
      var c := Abs(s[k]);
      if c < 1 || c > |s| {
        return false;
      }
      if c in seen {
        ValuesOnly(m, k, c);
        assert !IsSigned(s);
        return false;
      }
      forall i | 0 <= i < k
        ensures Abs(s[i]) != c
      {
        ValuesHas(m, k, i);
      }
      seen := seen + {c};
      k := k + 1;
    }
    ValuesCard(m, |s|);
    return |seen| == |s|;
  }

  /** The permutation component (`operator Permutation<N>`): each entry c becomes |c| - 1. */
  function ToPermutation(s: seq<int>): (p: seq<int>)
    requires IsSigned(s)
    ensures |p| == |s| && IsPermutation(p)
    ensures forall i :: 0 <= i < |s| ==> p[i] == Abs(s[i]) - 1
  {
    seq(|s|, i requires 0 <= i < |s| => Abs(s[i]) - 1)
  }

  lemma SignedMagnitude(c: int, m: nat)
    ensures Abs(WithSign(c, m)) == m
  {
  }

  lemma SignBack(c: int, m: int, v: int)
    requires m > 0
    ensures WithSign(c, WithSign(WithSign(c, m), v)) == v
  {
  }

  /** Applying the same sign twice cancels. */
  lemma SignTwice(c: int, m: int, v: int)
    requires m > 0
    ensures WithSign(WithSign(c, m), WithSign(c, v)) == v
  {
  }

  /**
    `inverse`: the loop sets entry |s[j]| - 1 to j + 1 carrying the sign of
    s[j], for every j; so entry x holds one plus the position at which the
    magnitude x + 1 occurs, with that entry's sign. Its permutation
    component is the inverse of s's.
   */
  function SInverse(s: seq<int>): (e: seq<int>)
    requires IsSigned(s)
    ensures |e| == |s| && IsSigned(e)
    ensures ToPermutation(e) == Inverse(ToPermutation(s))
  {
    var ip := Inverse(ToPermutation(s));
    var e := seq(|s|, x requires 0 <= x < |s| => WithSign(s[ip[x]], ip[x] + 1));
    InverseShape(s, ip, e);
    e
  }

  lemma InverseShape(s: seq<int>, ip: seq<int>, e: seq<int>)
    requires IsSigned(s) && ip == Inverse(ToPermutation(s)) && |e| == |s|
    requires forall x :: 0 <= x < |s| ==> e[x] == WithSign(s[ip[x]], ip[x] + 1)
    ensures IsSigned(e) && ToPermutation(e) == ip
  {
    forall x | 0 <= x < |s|
      ensures Abs(e[x]) == ip[x] + 1
    {
      SignedMagnitude(s[ip[x]], ip[x] + 1);
    }
    forall i, j | 0 <= i < j < |s|
      ensures Abs(e[i]) != Abs(e[j])
    {
      assert ip[i] != ip[j];
    }
  }

  /** Entry x of the inverse: one plus the position of magnitude x + 1, with that entry's sign. */
  lemma SInverseAt(s: seq<int>, x: nat)
    requires IsSigned(s) && x < |s|
    ensures var i := Inverse(ToPermutation(s))[x];
      i < |s| && Abs(s[i]) == x + 1 && SInverse(s)[x] == WithSign(s[i], i + 1)
  {
  }

  /** The defining property of `inverse`: entry |s[j]| - 1 is j + 1 with the sign of s[j]. */
  lemma SInverseOf(s: seq<int>, j: nat)
    requires IsSigned(s) && j < |s|
    ensures SInverse(s)[Abs(s[j]) - 1] == WithSign(s[j], j + 1)
  {
    var p := ToPermutation(s);
    assert Inverse(p)[p[j]] == j;
  }

  /**
    `s * a`: entry j of the result is `a[|s[j]| - 1]`, negated when s[j] is
    negative; entries of a beyond the first N are kept.
   */
  function SApply(s: seq<int>, a: seq<int>): (b: seq<int>)
    requires IsSigned(s) && |s| <= |a|
    ensures |b| == |a|
  {
    seq(|a|, j requires 0 <= j < |a| => if j < |s| then WithSign(s[j], a[Abs(s[j]) - 1]) else a[j])
  }

  /** The product of two signed permutations is one, and its permutation component is the product of theirs. */
  lemma SApplySigned(p: seq<int>, q: seq<int>)
    requires IsSigned(p) && IsSigned(q) && |p| == |q|
    ensures IsSigned(SApply(p, q))
    ensures ToPermutation(SApply(p, q)) == Mul(ToPermutation(p), ToPermutation(q))
  {
    var b := SApply(p, q);
    var pp := ToPermutation(p);
    var pq := ToPermutation(q);
    forall j | 0 <= j < |b|
      ensures Abs(b[j]) - 1 == Mul(pp, pq)[j]
    {
      assert Mul(pp, pq)[j] == pq[pp[j]];
    }
    forall i, j | 0 <= i < j < |b|
      ensures Abs(b[i]) != Abs(b[j])
    {
      assert Mul(pp, pq)[i] != Mul(pp, pq)[j];
    }
  }

  /** `p * q` for signed permutations of the same size. */
  function SMul(p: seq<int>, q: seq<int>): (r: seq<int>)
    requires IsSigned(p) && IsSigned(q) && |p| == |q|
    ensures |r| == |p| && IsSigned(r)
    ensures ToPermutation(r) == Mul(ToPermutation(p), ToPermutation(q))
  {
    SApplySigned(p, q);
    SApply(p, q)
  }

  /** `p / q`, that is `p * q.inverse()`. */
  function SDiv(p: seq<int>, q: seq<int>): (r: seq<int>)
    requires IsSigned(p) && IsSigned(q) && |p| == |q|
    ensures |r| == |p| && IsSigned(r)
  {
    SMul(p, SInverse(q))
  }

  /** Unary minus: every sign flipped, every magnitude kept. */
  function Negate(s: seq<int>): (r: seq<int>)
    ensures |r| == |s|
    ensures forall i :: 0 <= i < |s| ==> Abs(r[i]) == Abs(s[i]) && (s[i] < 0 <==> r[i] > 0)
  {
    seq(|s|, i requires 0 <= i < |s| => -s[i])
  }

  /** Flipping every sign keeps a signed permutation valid, keeps its permutation component, and undoes itself. */
  lemma NegateProperties(s: seq<int>)
    requires IsSigned(s)
    ensures IsSigned(Negate(s))
    ensures ToPermutation(Negate(s)) == ToPermutation(s)
    ensures Negate(Negate(s)) == s
  {
    assert forall i :: 0 <= i < |s| ==> Abs(Negate(s)[i]) == Abs(s[i]);
  }

  /** The identity acts trivially and has the identity permutation as component. */
  lemma SIdentityProperties(n: nat, a: seq<int>)
    requires n <= |a|
    ensures SApply(SIdentity(n), a) == a
    ensures ToPermutation(SIdentity(n)) == Identity(n)
  {
  }

  /** Acting on the identity 1..N gives the signed permutation itself. */
  lemma ApplyToIdentity(s: seq<int>)
    requires IsSigned(s)
    ensures SApply(s, SIdentity(|s|)) == s
  {
    var b := SApply(s, SIdentity(|s|));
    forall j | 0 <= j < |s|
      ensures b[j] == s[j]
    {
    }
  }

  /** Undoing a signed permutation with its inverse, in either order, restores the sequence. */
  lemma SApplyInverse(s: seq<int>, a: seq<int>)
    requires IsSigned(s) && |s| <= |a|
    ensures SApply(SInverse(s), SApply(s, a)) == a
    ensures SApply(s, SApply(SInverse(s), a)) == a
  {
    InverseThenApply(s, a);
    ApplyThenInverse(s, a);
  }

  lemma InverseThenApply(s: seq<int>, a: seq<int>)
    requires IsSigned(s) && |s| <= |a|
    ensures SApply(SInverse(s), SApply(s, a)) == a
  {
    var e := SInverse(s);
    var sa := SApply(s, a);
    var l := SApply(e, sa);
    forall x | 0 <= x < |s|
      ensures l[x] == a[x]
    {
      SInverseAt(s, x);
      var i := Inverse(ToPermutation(s))[x];
      assert sa[i] == WithSign(s[i], a[x]);
      SignedMagnitude(s[i], i + 1);
      SignTwice(s[i], i + 1, a[x]);
    }
  }

  lemma ApplyThenInverse(s: seq<int>, a: seq<int>)
    requires IsSigned(s) && |s| <= |a|
    ensures SApply(s, SApply(SInverse(s), a)) == a
  {
    var r := SApply(s, SApply(SInverse(s), a));
    forall j | 0 <= j < |s|
      ensures r[j] == a[j]
    {
      ApplyThenInverseAt(s, a, j);
    }
  }

  lemma ApplyThenInverseAt(s: seq<int>, a: seq<int>, j: nat)
    requires IsSigned(s) && |s| <= |a| && j < |s|
    ensures SApply(s, SApply(SInverse(s), a))[j] == a[j]
  {
    var e := SInverse(s);
    var ea := SApply(e, a);
    var m := Abs(s[j]) - 1;
    SInverseOf(s, j);
    SignedMagnitude(s[j], j + 1);
    assert ea[m] == WithSign(e[m], a[j]);
    SignBack(s[j], j + 1, a[j]);
  }

  /** The inverse is a two-sided inverse for the product. */
  lemma SMulInverse(s: seq<int>)
    requires IsSigned(s)
    ensures SMul(SInverse(s), s) == SIdentity(|s|)
    ensures SMul(s, SInverse(s)) == SIdentity(|s|)
  {
    SApplyInverse(s, SIdentity(|s|));
    ApplyToIdentity(s);
    ApplyToIdentity(SInverse(s));
  }

  /** Division undoes multiplication: `(p / q) * q == p`. */
  lemma SDivMul(p: seq<int>, q: seq<int>)
    requires IsSigned(p) && IsSigned(q) && |p| == |q|
    ensures SMul(SDiv(p, q), q) == p
  {
    var e := SInverse(q);
    ApplySMul(p, e, q);
    SMulInverse(q);
    ApplyToIdentity(p);
  }

  /** Multiplication is associative: `(p * q) * r == p * (q * r)`. */
  lemma ApplySMul(p: seq<int>, q: seq<int>, r: seq<int>)
    requires IsSigned(p) && IsSigned(q) && IsSigned(r) && |p| == |q| == |r|
    ensures SMul(SMul(p, q), r) == SMul(p, SMul(q, r))
  {
    var pq := SMul(p, q);
    var qr := SMul(q, r);
    var l := SMul(pq, r);
    var rr := SMul(p, qr);
    forall j | 0 <= j < |p|
      ensures l[j] == rr[j]
    {
      var m := Abs(p[j]) - 1;
      assert pq[j] == WithSign(p[j], q[m]);
      SignedMagnitude(p[j], Abs(q[m]));
      var k := Abs(q[m]) - 1;
      assert qr[m] == WithSign(q[m], r[k]);
      assert l[j] == WithSign(pq[j], r[k]);
      assert rr[j] == WithSign(p[j], qr[m]);
      SignProduct(p[j], q[m], r[k]);
    }
  }

  /** Signs compose: carrying the sign of c then d is carrying the sign of their product. */
  lemma SignProduct(c: int, d: int, v: int)
    requires d != 0
    ensures WithSign(WithSign(c, d), v) == WithSign(c, WithSign(d, v))
  {
  }
}

=== FILE: stringmap.dfy ===
/**
  `Stringmap`: a string-to-string multimap that reads and writes itself as
  one line of `tab key = value` pairs.

  The multimap is a sequence of entries kept sorted by key (the ordering of
  `std::string`: character by character, a proper prefix first); entries
  with equal keys stay in insertion order, because `std::multimap::emplace`
  puts a new element at the end of its equal range.
 */
module Stringmap {
  import opened Wrappers
  import opened Text

  datatype Entry = Entry(key: string, val: string)

  // ------------------------------------------------------------- key order

  /** `a < b` on `std::string`: lexicographic, a proper prefix sorts first. */
  predicate Less(a: string, b: string)
    decreases |a|
  {
    |b| > 0 && (|a| == 0 || a[0] < b[0] || (a[0] == b[0] && Less(a[1..], b[1..])))
  }

  lemma {:induction false} LessIrrefl(a: string)
    ensures !Less(a, a)
    decreases |a|
  {
    if |a| > 0 {
      LessIrrefl(a[1..]);
    }
  }

  lemma {:induction false} LessTrans(a: string, b: string, c: string)
    requires Less(a, b) && Less(b, c)
    ensures Less(a, c)
    decreases |a|
  {
    if |a| > 0 && a[0] == b[0] && b[0] == c[0] {
      LessTrans(a[1..], b[1..], c[1..]);
    }
  }

  /** Any two different keys are ordered one way round. */
  lemma {:induction false} LessTotal(a: string, b: string)
    ensures a == b || Less(a, b) || Less(b, a)
    decreases |a|
  {
    if |a| > 0 && |b| > 0 && a[0] == b[0] {
      LessTotal(a[1..], b[1..]);
      if a[1..] == b[1..] {
        assert a == [a[0]] + a[1..] && b == [b[0]] + b[1..];
      }
    }
  }

  lemma LessAsym(a: string, b: string)
    requires Less(a, b)
    ensures !Less(b, a)
  {
    if Less(b, a) {
      LessTrans(a, b, a);
      LessIrrefl(a);
    }
  }

  /** `a <= b` is transitive. */
  lemma NotLessTrans(a: string, b: string, c: string)
    requires !Less(b, a) && !Less(c, b)
    ensures !Less(c, a)
  {
    LessTotal(a, b);
    LessTotal(b, c);
    if a != b && b != c {
      LessTrans(a, b, c);
      LessAsym(a, c);
    }
  }

  /** The multimap's ordering invariant: keys never decrease. */
  predicate Sorted(m: seq<Entry>) {
    forall i, j :: 0 <= i < j < |m| ==> !Less(m[j].key, m[i].key)
  }

  // --------------------------------------------------------------- contents

  /** Every value stored under k, in the order the multimap holds them. */
  function Keyed(m: seq<Entry>, k: string): seq<string>
    decreases |m|
  {
    if |m| == 0 then []
    else (if m[0].key == k then [m[0].val] else []) + Keyed(m[1..], k)
  }

  lemma {:induction false} KeyedAppend(a: seq<Entry>, b: seq<Entry>, k: string)
    ensures Keyed(a + b, k) == Keyed(a, k) + Keyed(b, k)
    decreases |a|
  {
    if |a| == 0 {
      assert a + b == b;
    } else {
      assert (a + b)[1..] == a[1..] + b;
      KeyedAppend(a[1..], b, k);
    }
  }

  predicate NoKey(s: seq<Entry>, k: string) {
    forall i :: 0 <= i < |s| ==> s[i].key != k
  }

  predicate AllKey(s: seq<Entry>, k: string) {
    forall i :: 0 <= i < |s| ==> s[i].key == k
  }

  lemma {:induction false} KeyedNone(s: seq<Entry>, k: string)
    requires NoKey(s, k)
    ensures Keyed(s, k) == []
    decreases |s|
  {
    if |s| > 0 {
      KeyedNone(s[1..], k);
    }
  }

  /** The values of a run of entries, in order. */
  function Values(s: seq<Entry>): (r: seq<string>)
    ensures |r| == |s| && forall i :: 0 <= i < |s| ==> r[i] == s[i].val
  {
    seq(|s|, i requires 0 <= i < |s| => s[i].val)
  }

  lemma {:induction false} KeyedAll(s: seq<Entry>, k: string)
    requires AllKey(s, k)
    ensures Keyed(s, k) == Values(s)
    decreases |s|
  {
    if |s| > 0 {
      KeyedAll(s[1..], k);
      assert Values(s) == [s[0].val] + Values(s[1..]);
    }
  }

  // ------------------------------------------------------------ equal range

  /** `upper_bound(k)`: the first position whose key is above k. */
  function Upper(m: seq<Entry>, k: string): (p: nat)
    ensures p <= |m|
    ensures forall i :: 0 <= i < p ==> !Less(k, m[i].key)
    ensures p < |m| ==> Less(k, m[p].key)
    decreases |m|
  {
    if |m| == 0 || Less(k, m[0].key) then 0 else 1 + Upper(m[1..], k)
  }

  /** `lower_bound(k)`: the first position whose key is not below k. */
  function Lower(m: seq<Entry>, k: string): (p: nat)
    ensures p <= |m|
    ensures forall i :: 0 <= i < p ==> Less(m[i].key, k)
    ensures p < |m| ==> !Less(m[p].key, k)
    decreases |m|
  {
    if |m| == 0 || !Less(m[0].key, k) then 0 else 1 + Lower(m[1..], k)
  }

  /** In a sorted map every key from the upper bound on is above k. */
  lemma UpperTail(m: seq<Entry>, k: string, j: int)
    requires Sorted(m) && Upper(m, k) <= j < |m|
    ensures Less(k, m[j].key)
  {
    var p := Upper(m, k);
    if j > p {
      LessTotal(m[p].key, m[j].key);
      if m[p].key != m[j].key {
        LessTrans(k, m[p].key, m[j].key);
      }
    }
  }

  /** In a sorted map every key from the lower bound on is at least k. */
  lemma LowerTail(m: seq<Entry>, k: string, j: int)
    requires Sorted(m) && Lower(m, k) <= j < |m|
    ensures !Less(m[j].key, k)
  {
    var p := Lower(m, k);
    if j > p {
      NotLessTrans(k, m[p].key, m[j].key);
    }
  }

  lemma LowerUpper(m: seq<Entry>, k: string)
    requires Sorted(m)
    ensures Lower(m, k) <= Upper(m, k)
  {
    var lo, up := Lower(m, k), Upper(m, k);
    if up < lo {
      LessAsym(m[up].key, k);
    }
  }

  /**
    The three parts of a sorted map around k: keys below k, keys equal to
    k, keys above k.
   */
  lemma EqualRange(m: seq<Entry>, k: string)
    requires Sorted(m)
    ensures Lower(m, k) <= Upper(m, k)
    ensures NoKey(m[..Lower(m, k)], k)
    ensures AllKey(m[Lower(m, k)..Upper(m, k)], k)
    ensures NoKey(m[Upper(m, k)..], k)
  {
    LowerUpper(m, k);
    var lo, up := Lower(m, k), Upper(m, k);
    LessIrrefl(k);
    forall i | lo <= i < up
      ensures m[i].key == k
    {
      LowerTail(m, k, i);
      LessTotal(m[i].key, k);
    }
    forall i | up <= i < |m|
      ensures m[i].key != k
    {
      UpperTail(m, k, i);
    }
  }

  lemma KeyedSplit(m: seq<Entry>, k: string)
    requires Sorted(m)
    ensures Lower(m, k) <= Upper(m, k)
    ensures Keyed(m, k) == Values(m[Lower(m, k)..Upper(m, k)])
  {
    EqualRange(m, k);
    var lo, up := Lower(m, k), Upper(m, k);
    assert m == m[..lo] + m[lo..up] + m[up..];
    KeyedAppend(m[..lo] + m[lo..up], m[up..], k);
    KeyedAppend(m[..lo], m[lo..up], k);
    KeyedNone(m[..lo], k);
    KeyedNone(m[up..], k);
    KeyedAll(m[lo..up], k);
  }

  // ------------------------------------------------------------ operations

  /** `insert(k, v)`: the new entry goes after every entry whose key is not above k. */
  function Insert(m: seq<Entry>, k: string, v: string): (r: seq<Entry>)
    ensures |r| == |m| + 1
  {
    var p := Upper(m, k);
    m[..p] + [Entry(k, v)] + m[p..]
  }

  /** Inserting keeps the map sorted. */
  lemma InsertSorted(m: seq<Entry>, k: string, v: string)
    requires Sorted(m)
    ensures Sorted(Insert(m, k, v))
  {
    var p := Upper(m, k);
    var r := Insert(m, k, v);
    forall i, j | 0 <= i < j < |r|
      ensures !Less(r[j].key, r[i].key)
    {
      if j < p || i > p {
      } else if i < p && j > p {
        assert r[i] == m[i] && r[j] == m[j - 1];
      } else if i == p {
        UpperTail(m, k, j - 1);
        LessAsym(k, m[j - 1].key);
      } else {
        assert j == p;
      }
    }
  }

  /**
    Insertion never overwrites: the new value joins the end of k's values,
    and every other key keeps its values.
   */
  lemma InsertKeyed(m: seq<Entry>, k: string, v: string, k': string)
    requires Sorted(m)
    ensures Keyed(Insert(m, k, v), k') == Keyed(m, k') + (if k' == k then [v] else [])
  {
    var p := Upper(m, k);
    assert m == m[..p] + m[p..];
    KeyedAppend(m[..p], m[p..], k');
    KeyedAppend(m[..p] + [Entry(k, v)], m[p..], k');
    KeyedAppend(m[..p], [Entry(k, v)], k');
    assert Keyed([Entry(k, v)], k') == (if k' == k then [v] else []);
    if k' == k {
      forall i | 0 <= i < |m[p..]|
        ensures m[p..][i].key != k
      {
        UpperTail(m, k, p + i);
        LessIrrefl(k);
      }
      KeyedNone(m[p..], k);
    }
  }

  /** `erase(k)`: drop every entry with key k. */
  function Erase(m: seq<Entry>, k: string): (r: seq<Entry>)
    ensures forall i :: 0 <= i < |r| ==> r[i] in m
    decreases |m|
  {
    if |m| == 0 then []
    else if m[0].key == k then Erase(m[1..], k)
    else [m[0]] + Erase(m[1..], k)
  }

  /** Erasing removes all of k's values and no other key's. */
  lemma {:induction false} EraseKeyed(m: seq<Entry>, k: string, k': string)
    ensures Keyed(Erase(m, k), k') == if k' == k then [] else Keyed(m, k')
    decreases |m|
  {
    if |m| > 0 {
      EraseKeyed(m[1..], k, k');
    }
  }

  lemma {:induction false} EraseSorted(m: seq<Entry>, k: string)
    requires Sorted(m)
    ensures Sorted(Erase(m, k))
    decreases |m|
  {
    if |m| > 0 {
      assert Sorted(m[1..]);
      EraseSorted(m[1..], k);
      var t := Erase(m[1..], k);
      if m[0].key != k {
        var r := [m[0]] + t;
        forall i, j | 0 <= i < j < |r|
          ensures !Less(r[j].key, r[i].key)
        {
          if i == 0 {
            var x :| 0 <= x < |m[1..]| && m[1..][x] == r[j];
            assert r[j] == m[x + 1];
          } else {
            assert r[i] == t[i - 1] && r[j] == t[j - 1];
          }
        }
      }
    }
  }

  /** `retrieve(k)`: the values from the lower to the upper bound of k. */
  function Retrieve(m: seq<Entry>, k: string): seq<string>
    requires Sorted(m)
  {
    LowerUpper(m, k);
    Values(m[Lower(m, k)..Upper(m, k)])
  }

  /** Retrieval finds every value stored under k, in order, and nothing else. */
  lemma RetrieveKeyed(m: seq<Entry>, k: string)
    requires Sorted(m)
    ensures Retrieve(m, k) == Keyed(m, k)
  {
    KeyedSplit(m, k);
  }

  /** `getDefault(k, d)`: the entry `find(k)` lands on (the first of k's), else d. */
  function GetDefault(m: seq<Entry>, k: string, d: string): string
  {
    var p := Lower(m, k);
    if p < |m| && m[p].key == k then m[p].val else d
  }

  /** The default comes back exactly when k is absent; otherwise k's first value. */
  lemma GetDefaultKeyed(m: seq<Entry>, k: string, d: string)
    requires Sorted(m)
    ensures GetDefault(m, k, d) == if Keyed(m, k) == [] then d else Keyed(m, k)[0]
  {
    KeyedSplit(m, k);
    EqualRange(m, k);
    var lo, up := Lower(m, k), Upper(m, k);
    if lo == up && lo < |m| {
      assert m[up..][0] == m[lo];
    } else if lo < up {
      assert m[lo..up][0] == m[lo];
    }
  }

  // ---------------------------------------------------------------- text form

  /** One entry as written: `key = value`. */
  function Line(e: Entry): string {
    e.key + " = " + e.val
  }

  function Lines(m: seq<Entry>): (r: seq<string>)
    ensures |r| == |m| && forall i :: 0 <= i < |m| ==> r[i] == Line(m[i])
  {
    seq(|m|, i requires 0 <= i < |m| => Line(m[i]))
  }

  /** `toString()`: a tab before every `key = value`, in key order. */
  function ToString(m: seq<Entry>): string {
    Prefixed(Lines(m), '\t')
  }

  /** One piece of the line: kept when it splits at `=` into exactly two parts, both stripped. */
  function ParsePair(piece: string): Option<Entry> {
    var kv := Split(piece, {'='});
    if |kv| == 2 then Some(Entry(Strip(kv[0], Blanks), Strip(kv[1], Blanks))) else None
  }

  function ParseInto(m: seq<Entry>, pieces: seq<string>): seq<Entry>
    decreases |pieces|
  {
    if |pieces| == 0 then m
    else
      var m' := match ParsePair(pieces[0])
        case Some(e) => Insert(m, e.key, e.val)
        case None => m;
      ParseInto(m', pieces[1..])
  }

  /** The string constructor: split at tabs, then read each piece as a pair. */
  function Parse(str: string): seq<Entry> {
    ParseInto([], Split(str, {'\t'}))
  }

  lemma {:induction false} ParseIntoSorted(m: seq<Entry>, pieces: seq<string>)
    requires Sorted(m)
    ensures Sorted(ParseInto(m, pieces))
    decreases |pieces|
  {
    if |pieces| > 0 {
      match ParsePair(pieces[0])
      case Some(e) =>
        InsertSorted(m, e.key, e.val);
        ParseIntoSorted(Insert(m, e.key, e.val), pieces[1..]);
      case None =>
        ParseIntoSorted(m, pieces[1..]);
    }
  }

  /** Whatever the input, the constructor builds a sorted multimap. */
  lemma ParseSorted(str: string)
    ensures Sorted(Parse(str))
  {
    ParseIntoSorted([], Split(str, {'\t'}));
  }

  /** An entry the text form can carry: no tab or `=` inside, no white space at either end. */
  predicate Plain(e: Entry) {
    Clean(e.key, {'\t'}) && Clean(e.key, {'='}) && Trimmed(e.key, Blanks)
    && Clean(e.val, {'\t'}) && Clean(e.val, {'='}) && Trimmed(e.val, Blanks)
  }

  lemma SplitLine(e: Entry)
    requires Clean(e.key, {'='}) && Clean(e.val, {'='})
    ensures Split(Line(e), {'='}) == [e.key + " ", " " + e.val]
  {
    var D := {'='};
    var a, b := e.key + " ", " " + e.val;
    assert Line(e) == a + ("=" + b);
    SplitWord(a, "=" + b, D);
    assert ("=" + b)[1..] == b;
    assert b + [] == b;
    SplitWord(b, [], D);
  }

  lemma StripSides(k: string, v: string)
    requires Trimmed(k, Blanks) && Trimmed(v, Blanks)
    ensures Strip(k + " ", Blanks) == k && Strip(" " + v, Blanks) == v
  {
    assert [] + k + " " == k + " ";
    StripPadded([], k, " ", Blanks);
    assert " " + v + [] == " " + v;
    StripPadded(" ", v, [], Blanks);
  }

  lemma ParseLine(e: Entry)
    requires Plain(e)
    ensures ParsePair(Line(e)) == Some(e)
  {
    SplitLine(e);
    StripSides(e.key, e.val);
  }

  /** Inserting a key no smaller than every present key appends it. */
  lemma InsertLast(m: seq<Entry>, e: Entry)
    requires forall i :: 0 <= i < |m| ==> !Less(e.key, m[i].key)
    ensures Insert(m, e.key, e.val) == m + [e]
  {
    var p := Upper(m, e.key);
    assert p == |m|;
    assert m[..p] == m && m[p..] == [];
  }

  lemma {:induction false} ParseLines(m: seq<Entry>, j: nat)
    requires Sorted(m) && j <= |m|
    requires forall i :: 0 <= i < |m| ==> Plain(m[i])
    ensures ParseInto(m[..j], Lines(m)[j..]) == m
    decreases |m| - j
  {
    if j == |m| {
      assert m[..j] == m;
    } else {
      var L := Lines(m)[j..];
      ParseLine(m[j]);
      InsertLast(m[..j], m[j]);
      assert m[..j] + [m[j]] == m[..j + 1];
      assert L[1..] == Lines(m)[j + 1..];
      ParseLines(m, j + 1);
    }
  }

  /**
    Reading back the text form of a sorted map gives the same entries in the
    same order, when no key or value holds a tab or `=` or begins or ends
    with white space.
   */
  lemma ParseToString(m: seq<Entry>)
    requires Sorted(m)
    requires forall i :: 0 <= i < |m| ==> Plain(m[i])
    ensures Parse(ToString(m)) == m
  {
    var L := Lines(m);
    forall i | 0 <= i < |L|
      ensures |L[i]| > 0 && Clean(L[i], {'\t'})
    {
      assert L[i] == m[i].key + " = " + m[i].val;
      assert Plain(m[i]);
    }
    SplitPrefixed(L, '\t', {'\t'});
    ParseLines(m, 0);
    assert m[..0] == [] && L[0..] == L;
  }

  /** `mergeInto(S)`: insert every entry of m into S, in m's order. */
  function MergeInto(m: seq<Entry>, S: seq<Entry>): seq<Entry>
    decreases |m|
  {
    if |m| == 0 then S else MergeInto(m[1..], Insert(S, m[0].key, m[0].val))
  }

  /**
    Merging keeps S sorted, keeps every value S had, and adds m's values for
    each key after them.
   */
  lemma {:induction false} MergeIntoKeyed(m: seq<Entry>, S: seq<Entry>, k: string)
    requires Sorted(S)
    ensures Sorted(MergeInto(m, S))
    ensures Keyed(MergeInto(m, S), k) == Keyed(S, k) + Keyed(m, k)
    decreases |m|
  {
    if |m| == 0 {
      assert Keyed(S, k) + [] == Keyed(S, k);
    } else {
      var S' := Insert(S, m[0].key, m[0].val);
      InsertSorted(S, m[0].key, m[0].val);
      InsertKeyed(S, m[0].key, m[0].val, k);
      MergeIntoKeyed(m[1..], S', k);
      var h := if m[0].key == k then [m[0].val] else [];
      assert Keyed(m, k) == h + Keyed(m[1..], k);
      assert Keyed(S', k) + Keyed(m[1..], k) == Keyed(S, k) + (h + Keyed(m[1..], k));
    }
  }
}

=== FILE: table_events.dfy ===
/**
  Event grouping on the table reader (`HDF5_Table_Cache::loadEvent`): the
  rows of one event are consecutive rows sharing an identifier. Reading a
  group needs one row past it; that row is held over (`next_read`) and its
  identifier kept in `id_current_evt` (-1 before the first group, -2 after
  the last) to open the next group.
 */
module TableEvents {
  import opened Wrappers
  import opened TableReader

  /** The reader with the grouping state. */
  datatype Grouper = Grouper(r: Reader, idCur: int, nextRead: Option<Row>)

  /** A held-over identifier other than the two markers is the identifier of the held row. */
  predicate Valid(e: Grouper) {
    && TableReader.Valid(e.r)
    && (e.idCur != -1 && e.idCur != -2 ==> e.nextRead.Some? && e.nextRead.value.evt == e.idCur)
  }

  /** `setFile(f)`: the reader restarts and so does the grouping. */
  function SetFile(e: Grouper, f: Option<seq<Row>>): (g: Grouper)
    requires -0x8000_0000 <= e.r.nLoad < 0x8000_0000
    requires f.Some? ==> |f.value| < 0x8000_0000_0000_0000
    ensures Valid(g) && g.idCur == -1 && Remaining(g.r) == Whole(g.r)
  {
    Grouper(TableReader.SetFile(e.r, f), -1, e.nextRead)
  }

  /** The loop of `loadEvent`: the rows gathered, the state after, whether the data ended, and the group's identifier. */
  datatype Gathered = Gathered(rows: seq<Row>, state: Grouper, ended: bool, groupId: int)

  /**
    Read rows while they carry the current identifier (adopting the first
    row's identifier when there is none yet); stop at the first row with
    another identifier, holding it over, or at the end of the data, marking
    the end with -2.
   */
  function Gather(e: Grouper, v: seq<Row>): (g: Gathered)
    requires Valid(e)
    ensures Valid(g.state)
    decreases |Remaining(e.r)|
  {
    NextRemaining(e.r);
    var n := Next(e.r);
    if n.0.None? then Gathered(v, Grouper(n.1, -2, e.nextRead), true, e.idCur)
    else
      var row := n.0.value;
      if e.idCur == -1 then Gather(Grouper(n.1, row.evt, Some(row)), v + [row])
      else if row.evt != e.idCur then Gathered(v, Grouper(n.1, row.evt, Some(row)), false, e.idCur)
      else Gather(Grouper(n.1, e.idCur, Some(row)), v + [row])
  }

  /** Rows `loadEvent` will still hand out: the held-over row, if any, then the rows `next` will deliver. */
  function Pending(e: Grouper): seq<Row>
    requires Valid(e)
  {
    (if e.idCur != -1 && e.idCur != -2 then [e.nextRead.value] else []) + Remaining(e.r)
  }

  /** The number of leading rows of s with identifier g. */
  function RunLen(s: seq<Row>, g: int): (n: nat)
    ensures n <= |s|
  {
    if |s| > 0 && s[0].evt == g then 1 + RunLen(s[1..], g) else 0
  }

  /** The first group of s: its longest prefix sharing the first row's identifier. */
  function Group(s: seq<Row>): (v: seq<Row>)
    ensures |v| <= |s|
  {
    if |s| == 0 then [] else s[..RunLen(s, s[0].evt)]
  }

  /** Identifiers are not the markers -1 and -2 (the grouping reserves them). */
  predicate PlainIds(s: seq<Row>) {
    forall k :: 0 <= k < |s| ==> s[k].evt >= 0
  }

  /** The row that ends the run of g in s carries another identifier. */
  lemma RunLenStops(s: seq<Row>, g: int)
    ensures RunLen(s, g) < |s| ==> s[RunLen(s, g)].evt != g
  {
    if |s| > 0 && s[0].evt == g {
      RunLenStops(s[1..], g);
    }
  }

  lemma PrefixCons(s: seq<Row>, k: nat)
    requires 0 < |s| && k < |s|
    ensures s[..k + 1] == [s[0]] + s[1..][..k]
  {
  }

  /** One pass of the loop, stated on the rows still to come. */
  lemma GatherStep(e: Grouper, v: seq<Row>)
    requires Valid(e) && e.r.nchunk > 0 && e.idCur != -1
    ensures var R := Remaining(e.r);
      var n := Next(e.r);
      && Valid(Grouper(n.1, e.idCur, e.nextRead))
      && (|R| == 0 ==> Gather(e, v) == Gathered(v, Grouper(n.1, -2, e.nextRead), true, e.idCur) && Remaining(n.1) == Whole(e.r))
      && (|R| > 0 ==> Remaining(n.1) == R[1..])
      && (|R| > 0 && R[0].evt != e.idCur ==> Gather(e, v) == Gathered(v, Grouper(n.1, R[0].evt, Some(R[0])), false, e.idCur))
      && (|R| > 0 && R[0].evt == e.idCur ==> Gather(e, v) == Gather(Grouper(n.1, e.idCur, Some(R[0])), v + [R[0]]))
  {
    NextRemaining(e.r);
  }

  /** The loop gathered g from the rows R while id was current: v followed by the run of id at the front of R, ending the data when the run does. */
  predicate Runs(R: seq<Row>, id: int, v: seq<Row>, g: Gathered) {
    var k := RunLen(R, id);
    && g.rows == v + R[..k]
    && g.groupId == id
    && (g.ended <==> k == |R|)
  }

  /** The state s the loop leaves after the run of id in R: the end marker and a rewind to W, or the row after the run held over. */
  predicate Leaves(R: seq<Row>, id: int, s: Grouper, W: seq<Row>)
    requires Valid(s)
  {
    var k := RunLen(R, id);
    && (k == |R| ==> s.idCur == -2 && Remaining(s.r) == W)
    && (k < |R| ==> s.idCur == R[k].evt && s.nextRead == Some(R[k]) && Remaining(s.r) == R[k + 1..])
  }

  /** The loop with a current identifier gathers exactly the run of that identifier at the front of the remaining rows. */
  lemma {:induction false} GatherRun(e: Grouper, v: seq<Row>)
    requires Valid(e) && e.r.nchunk > 0 && e.idCur != -1
    ensures Runs(Remaining(e.r), e.idCur, v, Gather(e, v))
    decreases |Remaining(e.r)|
  {
    GatherStep(e, v);
    var R := Remaining(e.r);
    if |R| > 0 && R[0].evt == e.idCur {
      var e2 := Grouper(Next(e.r).1, e.idCur, Some(R[0]));
      GatherRun(e2, v + [R[0]]);
      RunsCons(R, e.idCur, v, Gather(e2, v + [R[0]]));
    } else {
      assert R[..RunLen(R, e.idCur)] == [];
    }
  }

  /** Gathering the head of a run and then the rest of it gathers the whole run. */
  lemma RunsCons(R: seq<Row>, id: int, v: seq<Row>, g: Gathered)
    requires |R| > 0 && R[0].evt == id
    requires Runs(R[1..], id, v + [R[0]], g)
    ensures Runs(R, id, v, g)
  {
    assert RunLen(R, id) == 1 + RunLen(R[1..], id);
    PrefixCons(R, RunLen(R[1..], id));
  }

  /** The loop ends at the end of the data, marking it and rewinding, or holds over the row after the run. */
  lemma {:induction false} GatherLeaves(e: Grouper, v: seq<Row>)
    requires Valid(e) && e.r.nchunk > 0 && e.idCur != -1
    ensures Leaves(Remaining(e.r), e.idCur, Gather(e, v).state, Whole(e.r))
    decreases |Remaining(e.r)|
  {
    GatherStep(e, v);
    var R := Remaining(e.r);
    if |R| > 0 && R[0].evt == e.idCur {
      var e2 := Grouper(Next(e.r).1, e.idCur, Some(R[0]));
      GatherLeaves(e2, v + [R[0]]);
      assert Whole(e2.r) == Whole(e.r);
      LeavesCons(R, e.idCur, Gather(e2, v + [R[0]]).state, Whole(e.r));
    }
  }

  /** The state after the run of id in R[1..] is the state after the run in R when R opens with id. */
  lemma LeavesCons(R: seq<Row>, id: int, s: Grouper, W: seq<Row>)
    requires Valid(s) && |R| > 0 && R[0].evt == id
    requires Leaves(R[1..], id, s, W)
    ensures Leaves(R, id, s, W)
  {
    assert RunLen(R, id) == 1 + RunLen(R[1..], id);
  }

  /**
    `loadEvent` as written: after the end-of-data marker, answer -2 with no
    rows and restart; otherwise gather the next group and answer the
    identifier held in `id_current_evt`, which mid-stream is the identifier
    of the held-over row that opens the following group.
   */
  function LoadEventAsWritten(e: Grouper): (r: (int, seq<Row>, Grouper))
    requires Valid(e)
    ensures Valid(r.2)
  {
    if e.idCur == -2 then (-2, [], e.(idCur := -1))
    else
      var g := Gather(e, if e.idCur != -1 then [e.nextRead.value] else []);
      (if g.ended then g.groupId else g.state.idCur, g.rows, g.state)
  }

  /** `loadEvent` answering, as documented, the identifier of the group it loaded. */
  function LoadEvent(e: Grouper): (r: (int, seq<Row>, Grouper))
    requires Valid(e)
    ensures Valid(r.2)
  {
    if e.idCur == -2 then (-2, [], e.(idCur := -1))
    else
      var g := Gather(e, if e.idCur != -1 then [e.nextRead.value] else []);
      (g.groupId, g.rows, g.state)
  }

  /**
    A call's answer (id, v, e') hands out the next group of the pending rows
    P: the maximal run of P's first identifier, answered with that
    identifier (-1 when nothing is pending). A shorter group holds over the
    row after it; the last one marks the end and rewinds to W, the table's
    whole readable range.
   */
  predicate LoadsGroup(P: seq<Row>, r: (int, seq<Row>, Grouper), W: seq<Row>)
    requires Valid(r.2)
  {
    var (id, v, e') := r;
    && v == Group(P) && id == (if |P| > 0 then P[0].evt else -1)
    && (|v| < |P| ==> e'.idCur == P[|v|].evt != id && Pending(e') == P[|v|..])
    && (|v| == |P| ==> e'.idCur == -2 && Remaining(e'.r) == W)
  }

  /** With a row held over, the call gathers the held row's group. */
  lemma LoadHeld(e: Grouper)
    requires Valid(e) && e.r.nchunk > 0 && e.idCur != -1 && e.idCur != -2
    requires PlainIds(Remaining(e.r))
    ensures LoadsGroup(Pending(e), LoadEvent(e), Whole(e.r)) && |Pending(e)| > 0
  {
    var h := e.nextRead.value;
    var g := Gather(e, [h]);
    GatherRun(e, [h]);
    GatherLeaves(e, [h]);
    HeldGroup(Remaining(e.r), h, g, Whole(e.r));
    assert Pending(e) == [h] + Remaining(e.r);
  }

  /** A run gathered after the held row h, with the state it leaves, is the group opening [h] + R. */
  lemma HeldGroup(R: seq<Row>, h: Row, g: Gathered, W: seq<Row>)
    requires Valid(g.state) && PlainIds(R)
    requires Runs(R, h.evt, [h], g) && Leaves(R, h.evt, g.state, W)
    ensures LoadsGroup([h] + R, (g.groupId, g.rows, g.state), W)
  {
    var P := [h] + R;
    RunLenStops(R, h.evt);
    assert RunLen(P, h.evt) == 1 + RunLen(R, h.evt);
    assert P[..1 + RunLen(R, h.evt)] == [h] + R[..RunLen(R, h.evt)];
    var k := RunLen(R, h.evt);
    if k < |R| {
      assert R[k].evt >= 0;
      assert P[1 + k..] == [R[k]] + R[k + 1..];
    }
  }

  /** The first pass of the loop with nothing held over adopts the first row's identifier. */
  lemma GatherFirst(e: Grouper)
    requires Valid(e) && e.r.nchunk > 0 && e.idCur == -1
    requires PlainIds(Remaining(e.r))
    ensures var R := Remaining(e.r);
      var n := Next(e.r);
      && (|R| == 0 ==> Gather(e, []) == Gathered([], Grouper(n.1, -2, e.nextRead), true, -1) && Remaining(n.1) == Whole(e.r))
      && (|R| > 0 ==> var e2 := Grouper(n.1, R[0].evt, Some(R[0]));
           && Valid(e2) && e2.idCur >= 0 && Pending(e2) == R && Whole(e2.r) == Whole(e.r)
           && PlainIds(Remaining(e2.r)) && Gather(e, []) == Gather(e2, [R[0]]))
  {
    var R := Remaining(e.r);
    NextRemaining(e.r);
    var n := Next(e.r);
    if |R| > 0 {
      assert R[0].evt >= 0;
      assert [] + [R[0]] == [R[0]];
      assert PlainIds(R[1..]) by {
        forall k | 0 <= k < |R| - 1
          ensures R[1..][k].evt >= 0
        {
          assert R[1..][k] == R[k + 1];
        }
      }
    }
  }

  /** With nothing held over, the call adopts the first row's identifier and gathers its group. */
  lemma LoadFresh(e: Grouper)
    requires Valid(e) && e.r.nchunk > 0 && e.idCur == -1
    requires PlainIds(Remaining(e.r))
    ensures LoadsGroup(Pending(e), LoadEvent(e), Whole(e.r))
  {
    GatherFirst(e);
    var R := Remaining(e.r);
    assert Pending(e) == R;
    if |R| > 0 {
      var e2 := Grouper(Next(e.r).1, R[0].evt, Some(R[0]));
      LoadHeld(e2);
      assert LoadEvent(e) == LoadEvent(e2);
    }
  }

  /**
    Each call hands out the next group of the pending rows, as LoadsGroup
    states; the call after the last group answers -2 with no rows and
    starts over.
   */
  lemma LoadEventGroups(e: Grouper)
    requires Valid(e) && e.r.nchunk > 0 && PlainIds(Remaining(e.r))
    ensures e.idCur == -2 ==> LoadEvent(e) == (-2, [], e.(idCur := -1))
    ensures e.idCur != -2 ==> LoadsGroup(Pending(e), LoadEvent(e), Whole(e.r))
  {
    if e.idCur == -1 {
      LoadFresh(e);
    } else if e.idCur != -2 {
      LoadHeld(e);
    }
  }

  /** With plain identifiers, the loop ends the data exactly when it leaves the end marker behind. */
  lemma GatherEndMarked(e: Grouper, v: seq<Row>)
    requires Valid(e) && e.r.nchunk > 0 && e.idCur != -1
    requires PlainIds(Remaining(e.r))
    ensures Gather(e, v).ended <==> Gather(e, v).state.idCur == -2
  {
    GatherRun(e, v);
    GatherLeaves(e, v);
    EndMarked(Remaining(e.r), e.idCur, v, Gather(e, v), Whole(e.r));
  }

  lemma EndMarked(R: seq<Row>, id: int, v: seq<Row>, g: Gathered, W: seq<Row>)
    requires Valid(g.state) && PlainIds(R)
    requires Runs(R, id, v, g) && Leaves(R, id, g.state, W)
    ensures g.ended <==> g.state.idCur == -2
  {
    var k := RunLen(R, id);
    if k < |R| {
      assert R[k].evt >= 0;
    }
  }

  /** Both versions load the same rows; mid-stream the one as written answers the next group's identifier instead. */
  lemma LoadEventAsWrittenAnswers(e: Grouper)
    requires Valid(e) && e.r.nchunk > 0 && PlainIds(Remaining(e.r))
    ensures var (id, v, e') := LoadEvent(e);
      var (id', v', e'') := LoadEventAsWritten(e);
      && v' == v && e'' == e'
      && id' == (if e.idCur == -2 || e'.idCur == -2 then id else e'.idCur)
  {
    if e.idCur == -1 {
      GatherFirst(e);
      var R := Remaining(e.r);
      if |R| > 0 {
        GatherEndMarked(Grouper(Next(e.r).1, R[0].evt, Some(R[0])), [R[0]]);
      }
    } else if e.idCur != -2 {
      GatherEndMarked(e, [e.nextRead.value]);
    }
  }

  /** A table with events 1 then 2: the first call loads event 1 but answers 2. */
  lemma LoadEventAsWrittenMisreports()
    ensures var e := SetFile(Grouper(Reader(None, -1, [], 0, 0, 0, 4), -1, None), Some([Row(1, 0), Row(2, 0)]));
      && LoadEventAsWritten(e).0 == 2 && LoadEventAsWritten(e).1 == [Row(1, 0)]
      && LoadEvent(e).0 == 1
  {
    var e := SetFile(Grouper(Reader(None, -1, [], 0, 0, 0, 4), -1, None), Some([Row(1, 0), Row(2, 0)]));
    assert Remaining(e.r) == [Row(1, 0), Row(2, 0)];
    LoadEventGroups(e);
    assert Pending(e) == [Row(1, 0), Row(2, 0)];
    assert RunLen([Row(1, 0), Row(2, 0)], 1) == 1;
    LoadEventAsWrittenAnswers(e);
  }
}

=== FILE: table_reader.dfy ===
/**
  The chunk-cached table reader (`HDF5_Table_Cache`). The HDF5 table is an
  abstract sequence of rows, each carrying an event identifier; reading a
  chunk is taking a slice of it. The reader keeps a cache of the last chunk
  read, a cursor into it, the number `nread` of rows read from the table,
  and an optional load limit `nLoad`. The state of `loadEvent` belongs to
  the event grouping built on top of the reader.
 */
module TableReader {
  import opened Wrappers

  /** 2^64: `hsize_t` and `size_t` arithmetic is taken modulo this. */
  const U64: int := 0x1_0000_0000_0000_0000

  /** A table row: its event identifier (`evt`) and the other fields, abstracted to one value. */
  datatype Row = Row(evt: int, body: int)

  datatype Reader = Reader(
    table: Option<seq<Row>>,  // the table of the file being read; None: no file or no such table
    nLoad: int,               // load limit, applied when >= 0
    cached: seq<Row>,
    cacheIdx: nat,
    nread: nat,
    nRows: nat,
    nchunk: nat)

  /** The rows the reader may deliver: all of them, or the first nLoad when 0 <= nLoad < nRows. */
  function Limit(c: Reader): nat {
    if 0 <= c.nLoad < c.nRows then c.nLoad else c.nRows
  }

  /** `entries()`, with the unsigned subtraction wrapping modulo 2^64. */
  function Entries(c: Reader): nat {
    (if 0 <= c.nLoad < c.nRows then c.nLoad - c.nread else c.nRows - c.nread) % U64
  }

  /** Cached rows not yet delivered. */
  function Unread(c: Reader): int {
    |c.cached| - c.cacheIdx
  }

  /**
    The reader's invariants: `nLoad` is a 32-bit `int`, the table fits
    `hsize_t` comfortably, `nread` stays within the limit, and the undelivered
    cache rows are the table rows just before `nread`.
   */
  predicate Valid(c: Reader) {
    && -0x8000_0000 <= c.nLoad < 0x8000_0000
    && c.cacheIdx <= |c.cached|
    && match c.table
       case None => c.nRows == 0 && c.nread == 0 && Unread(c) == 0
       case Some(t) =>
         && c.nRows == |t| < 0x8000_0000_0000_0000
         && c.nread <= Limit(c)
         && Unread(c) <= c.nread
         && c.cached[c.cacheIdx..] == t[c.nread - Unread(c)..c.nread]
  }

  /** The rows `next` will still deliver, in order, before it reports the end. */
  function Remaining(c: Reader): seq<Row>
    requires Valid(c)
  {
    match c.table
    case None => []
    case Some(t) => t[c.nread - Unread(c)..Limit(c)]
  }

  /** The rows a fresh pass delivers. */
  function Whole(c: Reader): seq<Row>
    requires Valid(c)
  {
    match c.table
    case None => []
    case Some(t) => t[..Limit(c)]
  }

  /** Within the invariants `entries()` does not wrap: it counts the rows still to be read from the table. */
  lemma EntriesExact(c: Reader)
    requires Valid(c) && c.table.Some?
    ensures Entries(c) == Limit(c) - c.nread
    ensures Entries(c) == |Remaining(c)| - Unread(c)
  {
  }

  /**
    The reading part of `setFile(f)`: read from table `f` (None for no
    file, or a file without the table), emptying the cache and restarting
    the row count.
   */
  function SetFile(c: Reader, f: Option<seq<Row>>): (r: Reader)
    requires -0x8000_0000 <= c.nLoad < 0x8000_0000
    requires f.Some? ==> |f.value| < 0x8000_0000_0000_0000
    ensures Valid(r) && r.nread == 0 && r.cached == []
    ensures Remaining(r) == Whole(r)
    ensures Whole(r) == match f case None => [] case Some(t) => t[..if 0 <= c.nLoad < |t| then c.nLoad else |t|]
  {
    Reader(f, c.nLoad, [], 0, 0, if f.Some? then |f.value| else 0, c.nchunk)
  }

  /** The reading part of `reset()`: set the same file again. */
  function Reset(c: Reader): (r: Reader)
    requires Valid(c)
    ensures Valid(r) && Remaining(r) == Whole(c)
  {
    SetFile(c, c.table)
  }

  function Min(a: nat, b: nat): nat {
    if a < b then a else b
  }

  /**
    `next`: deliver the next cached row; with the cache used up, stop and
    rewind to row 0 once `nread` reaches `nRows` or `nLoad`, or else read
    the next chunk of at most `nchunk` rows.
   */
  function Next(c: Reader): (r: (Option<Row>, Reader))
    requires Valid(c)
    ensures Valid(r.1)
    ensures r.1.table == c.table && r.1.nLoad == c.nLoad && r.1.nchunk == c.nchunk
  {
    if c.table.None? then (None, c)
    else if c.cacheIdx >= |c.cached| then
      if c.nread == c.nRows || c.nread == c.nLoad % U64 then
        (None, c.(nread := 0, cacheIdx := 0, cached := []))
      else
        var n := Min(c.nchunk, Entries(c));
        if n == 0 then (None, c)
        else
          var chunk := c.table.value[c.nread..c.nread + n];
          (Some(chunk[0]), c.(cached := chunk, cacheIdx := 1, nread := c.nread + n))
    else
      (Some(c.cached[c.cacheIdx]), c.(cacheIdx := c.cacheIdx + 1))
  }

  /**
    `next` delivers the table rows up to the limit in order, one per call,
    and (given a non-zero chunk size) reports the end exactly when none
    remain, rewinding to the first row.
   */
  lemma NextRemaining(c: Reader)
    requires Valid(c)
    ensures var r := Next(c);
      && (c.nchunk > 0 ==> (r.0.Some? <==> |Remaining(c)| > 0))
      && (r.0.Some? ==> |Remaining(c)| > 0 && r.0.value == Remaining(c)[0] && Remaining(r.1) == Remaining(c)[1..])
      && (r.0.None? && c.nchunk > 0 ==> Remaining(r.1) == Whole(c))
  {
    if c.table.Some? {
      if c.cacheIdx < |c.cached| {
        NextFromCache(c);
      } else if c.nread == c.nRows || c.nread == c.nLoad % U64 {
        NextAtEnd(c);
      } else {
        NextReadsChunk(c);
      }
    }
  }

  /** A delivered row leaves rows counted as read; the end leaves none; either way a fresh pass is unchanged. */
  lemma NextCounts(c: Reader)
    requires Valid(c) && c.nchunk > 0
    ensures Next(c).0.Some? ==> Next(c).1.nread > 0
    ensures Next(c).0.None? ==> Next(c).1.nread == 0
    ensures Whole(Next(c).1) == Whole(c)
  {
    if c.table.Some? && c.cacheIdx >= |c.cached| && !(c.nread == c.nRows || c.nread == c.nLoad % U64) {
      EntriesExact(c);
    }
  }

  lemma NextFromCache(c: Reader)
    requires Valid(c) && c.table.Some? && c.cacheIdx < |c.cached|
    ensures var r := Next(c);
      && r.0 == Some(Remaining(c)[0]) && |Remaining(c)| > 0 && Remaining(r.1) == Remaining(c)[1..]
  {
    var t := c.table.value;
    var p := c.nread - Unread(c);
    assert c.cached[c.cacheIdx..][0] == t[p..c.nread][0];
  }

  lemma NextAtEnd(c: Reader)
    requires Valid(c) && c.table.Some? && c.cacheIdx >= |c.cached|
    requires c.nread == c.nRows || c.nread == c.nLoad % U64
    ensures c.nread == Limit(c) && |Remaining(c)| == 0
    ensures var r := Next(c); r.0.None? && Remaining(r.1) == Whole(c)
  {
  }

  lemma NextReadsChunk(c: Reader)
    requires Valid(c) && c.table.Some? && c.cacheIdx >= |c.cached|
    requires !(c.nread == c.nRows || c.nread == c.nLoad % U64)
    ensures c.nread < Limit(c) && |Remaining(c)| > 0
    ensures var r := Next(c);
      && (r.0.Some? <==> c.nchunk > 0)
      && (r.0.Some? ==> r.0.value == Remaining(c)[0] && Remaining(r.1) == Remaining(c)[1..])
  {
    EntriesExact(c);
  }

  // ---------------------------------------------------------------- skip

  /**
    The body of `skip(n)` with the clamp `cap`: move the cursor when the
    target lies inside the cache; otherwise drop the cache and advance
    `nread`, clamping it at `cap` and failing when the target lies beyond.
   */
  function SkipTo(c: Reader, n: nat, cap: nat): (r: (bool, Reader))
  {
    if n == 0 then (true, c)
    else if c.table.None? then (false, c)
    else if c.cacheIdx + n < |c.cached| then (true, c.(cacheIdx := c.cacheIdx + n))
    else
      var m := if c.cacheIdx < |c.cached| then n - (|c.cached| - c.cacheIdx) else n;
      var c1 := if c.cacheIdx < |c.cached| then c.(cacheIdx := 0, cached := []) else c;
      if c1.nread + m > cap then (false, c1.(nread := cap)) else (true, c1.(nread := c1.nread + m))
  }

  /** `skip(n)` as written: the clamp is the table size, whatever the load limit. */
  function SkipAsWritten(c: Reader, n: nat): (bool, Reader) {
    SkipTo(c, n, c.nRows)
  }

  /** `skip(n)` clamped at the load limit, as `next` and `entries()` assume. */
  function Skip(c: Reader, n: nat): (r: (bool, Reader))
    requires Valid(c)
    ensures Valid(r.1) && r.1.table == c.table && r.1.nLoad == c.nLoad && r.1.nchunk == c.nchunk
  {
    SkipValid(c, n);
    SkipTo(c, n, Limit(c))
  }

  lemma SkipValid(c: Reader, n: nat)
    requires Valid(c)
    ensures Valid(SkipTo(c, n, Limit(c)).1)
  {
    if n > 0 && c.table.Some? {
      if c.cacheIdx + n < |c.cached| {
        SkipValidInCache(c, n);
      } else {
        SkipValidPastCache(c, n);
      }
    }
  }

  lemma SkipValidInCache(c: Reader, n: nat)
    requires Valid(c) && n > 0 && c.table.Some? && c.cacheIdx + n < |c.cached|
    ensures Valid(SkipTo(c, n, Limit(c)).1)
  {
    var t := c.table.value;
    var k := c.cacheIdx + n;
    assert c.cached[k..] == c.cached[c.cacheIdx..][n..];
    assert t[c.nread - Unread(c)..c.nread][n..] == t[c.nread - (Unread(c) - n)..c.nread];
  }

  lemma SkipValidPastCache(c: Reader, n: nat)
    requires Valid(c) && n > 0 && c.table.Some? && c.cacheIdx + n >= |c.cached|
    ensures Valid(SkipTo(c, n, Limit(c)).1)
  {
    var m := if c.cacheIdx < |c.cached| then n - (|c.cached| - c.cacheIdx) else n;
    var c1 := if c.cacheIdx < |c.cached| then c.(cacheIdx := 0, cached := []) else c;
    assert Unread(c1) == 0;
    var r := SkipTo(c, n, Limit(c)).1;
    assert r == if c1.nread + m > Limit(c) then c1.(nread := Limit(c)) else c1.(nread := c1.nread + m);
    assert r.cached[r.cacheIdx..] == [];
  }

  /** Skipping n rows succeeds exactly when n rows remain, and drops that many (or all) from the front. */
  lemma SkipRemaining(c: Reader, n: nat)
    requires Valid(c)
    ensures var r := Skip(c, n);
      && (r.0 <==> n <= |Remaining(c)|)
      && Remaining(r.1) == if n <= |Remaining(c)| then Remaining(c)[n..] else []
  {
    if n > 0 && c.table.Some? {
      var t := c.table.value;
      var p := c.nread - Unread(c);
      assert Remaining(c) == t[p..Limit(c)];
      if c.cacheIdx + n >= |c.cached| {
        assert p + n == c.nread + (n - Unread(c));
      }
    }
  }

  /** Skipping within the cache moves only the cursor. */
  lemma SkipInCache(c: Reader, n: nat)
    requires Valid(c) && c.table.Some? && c.cacheIdx + n < |c.cached|
    ensures Skip(c, n).1 == c.(cacheIdx := c.cacheIdx + n)
    ensures SkipAsWritten(c, n) == Skip(c, n)
  {
  }

  /**
    As written, skipping past the load limit succeeds; `entries()` then
    wraps around, and the following `next` reads a whole chunk of rows
    beyond the limit: with 10 rows, nLoad = 3 and nchunk = 4, `skip(5)`
    answers true, leaves nread = 5, and `entries()` is 2^64 - 2.
   */
  lemma SkipAsWrittenPassesLimit()
    ensures var t := seq(10, k => Row(k, 0));
      var c := SetFile(Reader(None, 3, [], 0, 0, 0, 4), Some(t));
      var r := SkipAsWritten(c, 5);
      && Valid(c) && |Remaining(c)| == 3
      && r.0 && r.1.nread == 5 && !Valid(r.1)
      && Entries(r.1) == U64 - 2 && Min(r.1.nchunk, Entries(r.1)) == 4
      && !Skip(c, 5).0 && Remaining(Skip(c, 5).1) == []
  {
  }

  // ---------------------------------------------------------------- loadAll

  /**
    `loadAll`: every row `next` delivers, paired with its identifier, in the
    order delivered. The source inserts them into the caller's multimap,
    which is this sequence stably sorted by identifier (rows with equal
    identifiers keep their delivery order) merged after the pairs already there.
   */
  function LoadAll(c: Reader): (r: (seq<(int, Row)>, Reader))
    requires Valid(c)
    ensures Valid(r.1)
    ensures c.nchunk > 0 ==> |r.0| == |Remaining(c)| && forall k :: 0 <= k < |r.0| ==> r.0[k] == (Remaining(c)[k].evt, Remaining(c)[k])
    decreases |Remaining(c)|
  {
    NextRemaining(c);
    var (o, c1) := Next(c);
    if o.None? then ([], c1)
    else
      var (rest, c2) := LoadAll(c1);
      ([(o.value.evt, o.value)] + rest, c2)
  }
}

=== FILE: table_transfer.dfy ===
/**
  Copying selected events from one table to another (`HDF5_Table_Transfer`):
  a reader, a writer, and the row last read, which is held between calls.
  Rows are looked at in order; those of the requested identifier are
  copied, optionally renumbered, until a row with a larger identifier turns
  up, which stays held for the next request.
 */
module TableTransfer {
  import opened Wrappers
  import opened TableReader
  import opened TableWriter

  datatype Transfer = Transfer(row: Row, tin: Reader, tout: Writer)

  predicate Valid(t: Transfer) {
    TableReader.Valid(t.tin) && t.tout.nwrite < U64
  }

  /**
    The rows the transfer will still look at: the held row, when the reader
    is part-way through a pass, then the rows `next` will deliver.
   */
  function Stream(t: Transfer): seq<Row>
    requires Valid(t)
  {
    (if t.tin.nread != 0 then [t.row] else []) + Remaining(t.tin)
  }

  /** The copy written out: renumbered to newID when newID >= 0. */
  function Renumber(row: Row, newID: int): Row {
    if newID >= 0 then row.(evt := newID) else row
  }

  /** The rows of s with identifier id, in order, renumbered. */
  function Picked(s: seq<Row>, id: int, newID: int): (p: seq<Row>)
    ensures |p| <= |s|
    decreases |s|
  {
    if |s| == 0 then []
    else (if s[0].evt == id then [Renumber(s[0], newID)] else []) + Picked(s[1..], id, newID)
  }

  /** The number of leading rows of s whose identifier is at most id. */
  function Upto(s: seq<Row>, id: int): (n: nat)
    ensures n <= |s|
    decreases |s|
  {
    if |s| > 0 && s[0].evt <= id then 1 + Upto(s[1..], id) else 0
  }

  /**
    The loop of `transferID` from the held row on: while the row's
    identifier is at most id, push it (renumbered) if it is id, then read
    the next row; fail at the end of the data.
   */
  function Loop(row: Row, tin: Reader, tout: Writer, id: int, newID: int, flush: int): (r: (bool, Transfer))
    requires TableReader.Valid(tin) && tout.nwrite < U64
    ensures Valid(r.1) && r.1.tin.nchunk == tin.nchunk
    decreases |Remaining(tin)|
  {
    if row.evt > id then (true, Transfer(row, tin, tout))
    else
      var row1 := if row.evt == id then Renumber(row, newID) else row;
      var out := if row.evt == id then Push(tout, row1, flush) else tout;
      NextRemaining(tin);
      var n := Next(tin);
      if n.0.None? then (false, Transfer(row1, n.1, out))
      else Loop(n.0.value, n.1, out, id, newID, flush)
  }

  /** `transferID(id, newID)`: at the start of a pass read a first row (failing if there is none), then run the loop. */
  function TransferID(t: Transfer, id: int, newID: int, flush: int): (r: (bool, Transfer))
    requires Valid(t)
    ensures Valid(r.1) && r.1.tin.nchunk == t.tin.nchunk
  {
    if t.tin.nread == 0 then
      var n := Next(t.tin);
      if n.0.None? then (false, t.(tin := n.1))
      else Loop(n.0.value, n.1, t.tout, id, newID, flush)
    else Loop(t.row, t.tin, t.tout, id, newID, flush)
  }

  /**
    One request against the rows S answered (ok, t'): the rows up to the
    first identifier above id are consumed and those equal to id pushed,
    renumbered, one at a time. The call succeeds exactly when such a row
    exists, and it is held for the next request; otherwise the reader has
    rewound and the stream starts over at W.
   */
  predicate Transfers(S: seq<Row>, id: int, newID: int, flush: int, tout: Writer, ok: bool, t': Transfer, W: seq<Row>)
    requires Valid(t')
  {
    var k := Upto(S, id);
    && (ok <==> k < |S|)
    && t'.tout == PushEach(tout, Picked(S[..k], id, newID), flush)
    && (k < |S| ==> t'.tin.nread > 0 && Stream(t') == S[k..])
    && (k == |S| ==> t'.tin.nread == 0 && Stream(t') == W)
  }

  /** Pushing the picked part of one row is pushing its renumbered copy, or nothing. */
  lemma PushPicked(tout: Writer, row: Row, id: int, newID: int, flush: int)
    ensures PushEach(tout, Picked([row], id, newID), flush)
      == if row.evt == id then Push(tout, Renumber(row, newID), flush) else tout
  {
    assert [row][1..] == [];
  }

  /** A pass of the loop at the end of the data: the row is handled, the reader rewinds, and the call fails. */
  lemma LoopEnd(row: Row, tin: Reader, tout: Writer, id: int, newID: int, flush: int)
    requires TableReader.Valid(tin) && tout.nwrite < U64 && tin.nchunk > 0 && row.evt <= id
    requires |Remaining(tin)| == 0
    ensures var n := Next(tin);
      var row1 := if row.evt == id then Renumber(row, newID) else row;
      var out := if row.evt == id then Push(tout, row1, flush) else tout;
      && Loop(row, tin, tout, id, newID, flush) == (false, Transfer(row1, n.1, out))
      && n.1.nread == 0 && Remaining(n.1) == Whole(tin)
  {
    NextRemaining(tin);
    NextCounts(tin);
  }

  /** A pass of the loop mid-data: the row is handled and the loop goes on from the next row. */
  lemma LoopOn(row: Row, tin: Reader, tout: Writer, id: int, newID: int, flush: int)
    requires TableReader.Valid(tin) && tout.nwrite < U64 && tin.nchunk > 0 && row.evt <= id
    requires |Remaining(tin)| > 0
    ensures var R := Remaining(tin);
      var n := Next(tin);
      var out := if row.evt == id then Push(tout, Renumber(row, newID), flush) else tout;
      && Loop(row, tin, tout, id, newID, flush) == Loop(R[0], n.1, out, id, newID, flush)
      && n.1.nread > 0 && Remaining(n.1) == R[1..] && Whole(n.1) == Whole(tin)
  {
    NextRemaining(tin);
    NextCounts(tin);
  }

  /** Handling the first row and then the rest of S handles S. */
  lemma TransfersCons(S: seq<Row>, id: int, newID: int, flush: int, tout: Writer, out: Writer, ok: bool, t': Transfer, W: seq<Row>)
    requires Valid(t') && |S| > 0 && S[0].evt <= id
    requires out == PushEach(tout, Picked([S[0]], id, newID), flush)
    requires Transfers(S[1..], id, newID, flush, out, ok, t', W)
    ensures Transfers(S, id, newID, flush, tout, ok, t', W)
  {
    var k' := Upto(S[1..], id);
    assert Upto(S, id) == 1 + k';
    var P := S[..1 + k'];
    assert P[0] == S[0] && P[1..] == S[1..][..k'];
    assert Picked(P, id, newID) == Picked([S[0]], id, newID) + Picked(S[1..][..k'], id, newID) by {
      assert [S[0]][1..] == [];
    }
    PushEachAppend(tout, Picked([S[0]], id, newID), Picked(S[1..][..k'], id, newID), flush);
    assert S[1..][k'..] == S[1 + k'..];
  }

  /** The loop consumes the held row and the remaining rows as Transfers states. */
  lemma {:induction false} LoopTransfers(row: Row, tin: Reader, tout: Writer, id: int, newID: int, flush: int)
    requires TableReader.Valid(tin) && tout.nwrite < U64 && tin.nchunk > 0 && tin.nread > 0
    ensures var r := Loop(row, tin, tout, id, newID, flush);
      Transfers([row] + Remaining(tin), id, newID, flush, tout, r.0, r.1, Whole(tin))
    decreases |Remaining(tin)|
  {
    var R := Remaining(tin);
    if row.evt > id {
      LoopHolds(row, tin, tout, id, newID, flush);
    } else {
      PushPicked(tout, row, id, newID, flush);
      var out := PushEach(tout, Picked([row], id, newID), flush);
      if |R| > 0 {
        LoopOn(row, tin, tout, id, newID, flush);
        LoopTransfers(R[0], Next(tin).1, out, id, newID, flush);
        OnCons(row, R, id, newID, flush, tout, out, Loop(row, tin, tout, id, newID, flush), Whole(tin));
      } else {
        LoopEnd(row, tin, tout, id, newID, flush);
        EndCons(row, R, id, newID, flush, tout, out, Loop(row, tin, tout, id, newID, flush), Whole(tin));
      }
    }
  }

  /** A row above id ends the loop at once, held, with nothing pushed. */
  lemma LoopHolds(row: Row, tin: Reader, tout: Writer, id: int, newID: int, flush: int)
    requires TableReader.Valid(tin) && tout.nwrite < U64 && tin.nread > 0 && row.evt > id
    ensures var r := Loop(row, tin, tout, id, newID, flush);
      Transfers([row] + Remaining(tin), id, newID, flush, tout, r.0, r.1, Whole(tin))
  {
    var S := [row] + Remaining(tin);
    assert S[..0] == [];
  }

  lemma OnCons(row: Row, R: seq<Row>, id: int, newID: int, flush: int, tout: Writer, out: Writer, r: (bool, Transfer), W: seq<Row>)
    requires Valid(r.1) && row.evt <= id && |R| > 0
    requires out == PushEach(tout, Picked([row], id, newID), flush)
    requires Transfers([R[0]] + R[1..], id, newID, flush, out, r.0, r.1, W)
    ensures Transfers([row] + R, id, newID, flush, tout, r.0, r.1, W)
  {
    assert [R[0]] + R[1..] == R;
    assert ([row] + R)[1..] == R;
    TransfersCons([row] + R, id, newID, flush, tout, out, r.0, r.1, W);
  }

  lemma EndCons(row: Row, R: seq<Row>, id: int, newID: int, flush: int, tout: Writer, out: Writer, r: (bool, Transfer), W: seq<Row>)
    requires Valid(r.1) && row.evt <= id && |R| == 0
    requires out == PushEach(tout, Picked([row], id, newID), flush)
    requires !r.0 && r.1.tout == out && r.1.tin.nread == 0 && Remaining(r.1.tin) == W
    ensures Transfers([row] + R, id, newID, flush, tout, r.0, r.1, W)
  {
    assert ([row] + R)[1..] == [];
    TransfersCons([row] + R, id, newID, flush, tout, out, r.0, r.1, W);
  }

  /**
    `transferID(id, newID)` copies, renumbered, the rows of identifier id
    among the leading rows of the stream with identifiers up to id, and
    succeeds exactly when a row with a larger identifier follows them.
   */
  lemma TransferIDTransfers(t: Transfer, id: int, newID: int, flush: int)
    requires Valid(t) && t.tin.nchunk > 0
    ensures var r := TransferID(t, id, newID, flush);
      Transfers(Stream(t), id, newID, flush, t.tout, r.0, r.1, Whole(t.tin))
  {
    var R := Remaining(t.tin);
    if t.tin.nread == 0 {
      NextRemaining(t.tin);
      NextCounts(t.tin);
      assert Stream(t) == R;
      var n := Next(t.tin);
      if n.0.Some? {
        LoopTransfers(n.0.value, n.1, t.tout, id, newID, flush);
        assert [R[0]] + R[1..] == R;
      }
    } else {
      LoopTransfers(t.row, t.tin, t.tout, id, newID, flush);
    }
  }

  function Succ(newID: int): int {
    if newID >= 0 then newID + 1 else newID
  }

  /** `transferIDs(ids, newID)`: transfer each identifier in turn, the k-th renumbered to newID + k; flush after the last; stop at the first failure. */
  function TransferIDs(t: Transfer, ids: seq<int>, newID: int, flush: int): (r: (bool, Transfer))
    requires Valid(t)
    ensures Valid(r.1)
    decreases |ids|
  {
    if |ids| == 0 then (true, t.(tout := Signal(t.tout, flush, flush)))
    else
      var r1 := TransferID(t, ids[0], newID, flush);
      if !r1.0 then r1
      else TransferIDs(r1.1, ids[1..], Succ(newID), flush)
  }

  // ---------------------------------------------------------------- the reference

  /** Identifiers never decrease along s. */
  predicate Sorted(s: seq<Row>) {
    forall i, j :: 0 <= i < j < |s| ==> s[i].evt <= s[j].evt
  }

  /** Strictly ascending requests. */
  predicate Ascending(ids: seq<int>) {
    forall i, j :: 0 <= i < j < |ids| ==> ids[i] < ids[j]
  }

  /** For each requested identifier in turn, every row of S with it, renumbered as `transferIDs` numbers it. */
  function Collected(S: seq<Row>, ids: seq<int>, newID: int): seq<Row>
    decreases |ids|
  {
    if |ids| == 0 then [] else Picked(S, ids[0], newID) + Collected(S, ids[1..], Succ(newID))
  }

  /** In a sorted sequence the rows up to id are exactly those with identifier at most id. */
  lemma {:induction false} UptoSorted(s: seq<Row>, id: int)
    requires Sorted(s)
    ensures forall i :: 0 <= i < Upto(s, id) ==> s[i].evt <= id
    ensures forall i :: Upto(s, id) <= i < |s| ==> s[i].evt > id
    decreases |s|
  {
    if |s| > 0 && s[0].evt <= id {
      UptoSorted(s[1..], id);
      forall i | 1 <= i < |s|
        ensures s[i] == s[1..][i - 1]
      {
      }
    }
  }

  lemma {:induction false} PickedAppend(a: seq<Row>, b: seq<Row>, id: int, newID: int)
    ensures Picked(a + b, id, newID) == Picked(a, id, newID) + Picked(b, id, newID)
    decreases |a|
  {
    if |a| > 0 {
      assert (a + b)[0] == a[0] && (a + b)[1..] == a[1..] + b;
      PickedAppend(a[1..], b, id, newID);
    } else {
      assert a + b == b;
    }
  }

  lemma {:induction false} PickedAbsent(s: seq<Row>, id: int, newID: int)
    requires forall i :: 0 <= i < |s| ==> s[i].evt != id
    ensures Picked(s, id, newID) == []
    decreases |s|
  {
    if |s| > 0 {
      PickedAbsent(s[1..], id, newID);
    }
  }

  /** Dropping leading rows with identifiers at most m drops no row of an identifier above m. */
  lemma PickedDrop(S: seq<Row>, k: nat, m: int, id: int, newID: int)
    requires k <= |S| && id > m
    requires forall i :: 0 <= i < k ==> S[i].evt <= m
    ensures Picked(S[k..], id, newID) == Picked(S, id, newID)
  {
    assert S == S[..k] + S[k..];
    PickedAppend(S[..k], S[k..], id, newID);
    PickedAbsent(S[..k], id, newID);
  }

  /** Dropping leading rows with identifiers at most m drops nothing from the collection of requests above m. */
  lemma {:induction false} CollectedDrop(S: seq<Row>, k: nat, m: int, ids: seq<int>, newID: int)
    requires k <= |S|
    requires forall i :: 0 <= i < k ==> S[i].evt <= m
    requires forall j :: 0 <= j < |ids| ==> ids[j] > m
    ensures Collected(S[k..], ids, newID) == Collected(S, ids, newID)
    decreases |ids|
  {
    if |ids| > 0 {
      PickedDrop(S, k, m, ids[0], newID);
      assert forall j :: 0 <= j < |ids[1..]| ==> ids[1..][j] > m by {
        forall j | 0 <= j < |ids[1..]|
          ensures ids[1..][j] > m
        {
          assert ids[1..][j] == ids[j + 1];
        }
      }
      CollectedDrop(S, k, m, ids[1..], Succ(newID));
    }
  }

  /** In a sorted sequence the rows up to id hold every row with identifier id. */
  lemma PickedUpto(S: seq<Row>, id: int, newID: int)
    requires Sorted(S)
    ensures Picked(S[..Upto(S, id)], id, newID) == Picked(S, id, newID)
  {
    UptoSorted(S, id);
    var k := Upto(S, id);
    assert S == S[..k] + S[k..];
    PickedAppend(S[..k], S[k..], id, newID);
    PickedAbsent(S[k..], id, newID);
  }

  /** In a sorted sequence no later request has rows among those up to the first request. */
  lemma CollectedBeyond(S: seq<Row>, ids: seq<int>, newID: int)
    requires Sorted(S) && Ascending(ids) && |ids| > 0
    ensures Collected(S[Upto(S, ids[0])..], ids[1..], newID) == Collected(S, ids[1..], newID)
  {
    UptoSorted(S, ids[0]);
    var k := Upto(S, ids[0]);
    forall j | 0 <= j < |ids[1..]|
      ensures ids[1..][j] > ids[0]
    {
      assert ids[1..][j] == ids[j + 1];
    }
    CollectedDrop(S, k, ids[0], ids[1..], newID);
  }

  lemma AscendingTail(ids: seq<int>)
    requires Ascending(ids) && |ids| > 0
    ensures Ascending(ids[1..])
  {
    forall i, j | 0 <= i < j < |ids[1..]|
      ensures ids[1..][i] < ids[1..][j]
    {
      assert ids[1..][i] == ids[i + 1] && ids[1..][j] == ids[j + 1];
    }
  }

  /** The first request's rows, then the later requests on the rows beyond it, are the whole collection. */
  lemma CollectStep(S: seq<Row>, ids: seq<int>, newID: int)
    requires Sorted(S) && Ascending(ids) && |ids| > 0
    ensures var k := Upto(S, ids[0]);
      Picked(S[..k], ids[0], newID) + Collected(S[k..], ids[1..], Succ(newID)) == Collected(S, ids, newID)
  {
    PickedUpto(S, ids[0], newID);
    CollectedBeyond(S, ids, Succ(newID));
  }

  /** When every row is up to the first request, no row lies beyond the last. */
  lemma AnswerFails(S: seq<Row>, ids: seq<int>)
    requires Sorted(S) && Ascending(ids) && |ids| > 0 && Upto(S, ids[0]) == |S|
    ensures !(|S| > 0 && S[|S| - 1].evt > ids[|ids| - 1])
  {
    UptoSorted(S, ids[0]);
  }

  /** Otherwise the rows beyond the first request are sorted, end where S ends, and the answer is unchanged. */
  lemma AnswerGoesOn(S: seq<Row>, ids: seq<int>)
    requires Sorted(S) && Ascending(ids) && |ids| > 0 && Upto(S, ids[0]) < |S|
    ensures var S' := S[Upto(S, ids[0])..];
      && Sorted(S')
      && ((|ids[1..]| == 0 || (|S'| > 0 && S'[|S'| - 1].evt > ids[1..][|ids[1..]| - 1])) <==> S[|S| - 1].evt > ids[|ids| - 1])
  {
    UptoSorted(S, ids[0]);
    var k := Upto(S, ids[0]);
    SortedSuffix(S, k);
    assert S[k..][|S[k..]| - 1] == S[|S| - 1];
    assert S[k].evt <= S[|S| - 1].evt;
  }

  lemma SortedSuffix(S: seq<Row>, k: nat)
    requires Sorted(S) && k <= |S|
    ensures Sorted(S[k..])
  {
    forall i, j | 0 <= i < j < |S[k..]|
      ensures S[k..][i].evt <= S[k..][j].evt
    {
      assert S[k..][i] == S[k + i] && S[k..][j] == S[k + j];
    }
  }

  /**
    Requests ids against the rows S, starting from writer tout, answered r:
    success exactly when S holds a row beyond the last request; then the
    output file has received, for each request in turn, every row of that
    identifier, renumbered, and the cache is flushed.
   */
  predicate Collects(S: seq<Row>, ids: seq<int>, newID: int, tout: Writer, r: (bool, Transfer)) {
    && (r.0 <==> |ids| == 0 || (|S| > 0 && S[|S| - 1].evt > ids[|ids| - 1]))
    && (r.0 && tout.out.Some? ==> Delivered(r.1.tout) == Delivered(tout) + Collected(S, ids, newID))
    && (r.0 ==> r.1.tout.cached == [])
  }

  /** The first request, then the rest on the rows beyond it, collects all the requests. */
  lemma CollectsCons(S: seq<Row>, ids: seq<int>, newID: int, flush: int, tout: Writer, r1: (bool, Transfer), r: (bool, Transfer), W: seq<Row>)
    requires Sorted(S) && Ascending(ids) && |ids| > 0 && tout.nwrite < U64 && Valid(r1.1)
    requires Transfers(S, ids[0], newID, flush, tout, r1.0, r1.1, W)
    requires r1.0 ==> Collects(S[Upto(S, ids[0])..], ids[1..], Succ(newID), r1.1.tout, r)
    requires !r1.0 ==> r == r1
    ensures Collects(S, ids, newID, tout, r)
  {
    var k := Upto(S, ids[0]);
    if !r1.0 {
      AnswerFails(S, ids);
    } else {
      AnswerGoesOn(S, ids);
      if tout.out.Some? && r.0 {
        CollectsOutput(S, ids, newID, flush, tout, r1.1.tout, r.1.tout);
      }
    }
  }

  /** What the first request pushes, followed by what the rest deliver, is the whole collection. */
  lemma CollectsOutput(S: seq<Row>, ids: seq<int>, newID: int, flush: int, tout: Writer, mid: Writer, last: Writer)
    requires Sorted(S) && Ascending(ids) && |ids| > 0 && tout.out.Some?
    requires mid == PushEach(tout, Picked(S[..Upto(S, ids[0])], ids[0], newID), flush)
    requires Delivered(last) == Delivered(mid) + Collected(S[Upto(S, ids[0])..], ids[1..], Succ(newID))
    ensures Delivered(last) == Delivered(tout) + Collected(S, ids, newID)
  {
    var k := Upto(S, ids[0]);
    CollectStep(S, ids, newID);
    DeliveredChain(tout, Picked(S[..k], ids[0], newID), Collected(S[k..], ids[1..], Succ(newID)), mid, last, flush);
  }

  /** Pushing B and then delivering C delivers B followed by C. */
  lemma DeliveredChain(tout: Writer, B: seq<Row>, C: seq<Row>, mid: Writer, last: Writer, flush: int)
    requires tout.out.Some? && mid == PushEach(tout, B, flush)
    requires Delivered(last) == Delivered(mid) + C
    ensures Delivered(last) == Delivered(tout) + (B + C)
  {
    PushEachDelivers(tout, B, flush);
    assert (Delivered(tout) + B) + C == Delivered(tout) + (B + C);
  }

  /**
    On a sorted stream with strictly ascending requests, `transferIDs`
    succeeds exactly when the stream holds a row beyond the last request;
    then the output file receives, for each request in turn, every row of
    that identifier, renumbered, and the cache is flushed.
   */
  lemma {:induction false} TransferIDsCollects(t: Transfer, ids: seq<int>, newID: int, flush: int)
    requires Valid(t) && t.tin.nchunk > 0 && Sorted(Stream(t)) && Ascending(ids)
    ensures Collects(Stream(t), ids, newID, t.tout, TransferIDs(t, ids, newID, flush))
    decreases |ids|
  {
    var S := Stream(t);
    if |ids| == 0 {
      SignalKeeps(t.tout, flush, flush);
    } else {
      var r1 := TransferID(t, ids[0], newID, flush);
      TransferIDTransfers(t, ids[0], newID, flush);
      if r1.0 {
        AnswerGoesOn(S, ids);
        AscendingTail(ids);
        TransferIDsCollects(r1.1, ids[1..], Succ(newID), flush);
      }
      CollectsCons(S, ids, newID, flush, t.tout, r1, TransferIDs(t, ids, newID, flush), Whole(t.tin));
    }
  }
}

=== FILE: table_writer.dfy ===
/**
  The chunk-cached table writer (`HDF5_Table_Writer`). Pushed rows collect
  in a cache; a flush signal appends the cache to the output table, if a
  file is set, and empties it either way. The output table is an abstract
  sequence of rows: appending records is concatenation.

  Data-flow signals are ordered integers; `flush` stands for the level of
  `DATASTREAM_FLUSH`, at or above which a signal flushes.
 */
module TableWriter {
  import opened Wrappers
  import opened TableReader

  datatype Writer = Writer(
    out: Option<seq<Row>>,  // the output table's rows; None: no output file
    cached: seq<Row>,
    nwrite: nat,            // an hsize_t: below 2^64
    nchunk: nat)

  /** The rows already in the output table (none without a file). */
  function Written(w: Writer): seq<Row> {
    if w.out.Some? then w.out.value else []
  }

  /** Everything handed to the writer that a file would end up holding: the table, then the cache. */
  function Delivered(w: Writer): seq<Row> {
    Written(w) + w.cached
  }

  /** `signal(sig)`: below the flush level nothing happens; otherwise append the cache to the table, if any, and empty it. */
  function Signal(w: Writer, sig: int, flush: int): (r: Writer)
    ensures r.nwrite == w.nwrite && r.nchunk == w.nchunk && r.out.Some? == w.out.Some?
    ensures sig >= flush ==> r.cached == []
  {
    if sig < flush then w
    else w.(out := if w.out.Some? && |w.cached| > 0 then Some(w.out.value + w.cached) else w.out, cached := [])
  }

  /**
    A signal never loses rows bound for a file: a flush moves the cache
    into the table, and a lower signal changes nothing. Without a file a
    flush discards the cache and the table stays absent.
   */
  lemma SignalKeeps(w: Writer, sig: int, flush: int)
    ensures sig < flush ==> Signal(w, sig, flush) == w
    ensures w.out.Some? ==> Delivered(Signal(w, sig, flush)) == Delivered(w)
    ensures sig >= flush && w.out.Some? ==> Written(Signal(w, sig, flush)) == Delivered(w)
    ensures w.out.None? ==> Signal(w, sig, flush).out.None?
  {
  }

  /** Flushing twice is flushing once. */
  lemma SignalIdempotent(w: Writer, sig: int, flush: int)
    ensures Signal(Signal(w, sig, flush), sig, flush) == Signal(w, sig, flush)
  {
  }

  /** `push(val)`: cache the row, flush once the cache reaches the chunk size, and count it (modulo 2^64). */
  function Push(w: Writer, val: Row, flush: int): (r: Writer)
    ensures r.nwrite == (w.nwrite + 1) % U64 && r.nchunk == w.nchunk && r.out.Some? == w.out.Some?
    ensures r.cached == [] || |r.cached| < w.nchunk
  {
    var c := w.(cached := w.cached + [val]);
    var f := if |c.cached| >= w.nchunk then Signal(c, flush, flush) else c;
    f.(nwrite := (w.nwrite + 1) % U64)
  }

  /** `push(vals)`: cache the rows, flush once the cache reaches the chunk size, and count them (modulo 2^64). */
  function PushAll(w: Writer, vals: seq<Row>, flush: int): (r: Writer)
    ensures r.nwrite == (w.nwrite + |vals|) % U64 && r.nchunk == w.nchunk && r.out.Some? == w.out.Some?
    ensures r.cached == [] || |r.cached| < w.nchunk
  {
    var c := w.(cached := w.cached + vals);
    var f := if |c.cached| >= w.nchunk then Signal(c, flush, flush) else c;
    f.(nwrite := (w.nwrite + |vals|) % U64)
  }

  /**
    Pushing rows to a writer with a file appends them, in order, to what it
    delivers; without a file they are either still cached after the old
    cache or discarded by the flush.
   */
  lemma PushAllDelivers(w: Writer, vals: seq<Row>, flush: int)
    ensures w.out.Some? ==> Delivered(PushAll(w, vals, flush)) == Delivered(w) + vals
    ensures w.out.None? ==> (PushAll(w, vals, flush).out.None? && (PushAll(w, vals, flush).cached == [] || PushAll(w, vals, flush).cached == w.cached + vals))
  {
    var c := w.(cached := w.cached + vals);
    SignalKeeps(c, flush, flush);
  }

  /** Pushing one row is pushing the one-row vector. */
  lemma PushIsPushAll(w: Writer, val: Row, flush: int)
    ensures Push(w, val, flush) == PushAll(w, [val], flush)
  {
  }

  /** Rows pushed one at a time, as a loop of `push(val)` calls does. */
  function PushEach(w: Writer, vals: seq<Row>, flush: int): (r: Writer)
    ensures r.nchunk == w.nchunk && r.out.Some? == w.out.Some?
    decreases |vals|
  {
    if |vals| == 0 then w else PushEach(Push(w, vals[0], flush), vals[1..], flush)
  }

  /** Pushing rows one at a time delivers them in order. */
  lemma {:induction false} PushEachDelivers(w: Writer, vals: seq<Row>, flush: int)
    ensures w.out.Some? ==> Delivered(PushEach(w, vals, flush)) == Delivered(w) + vals
    decreases |vals|
  {
    if |vals| > 0 && w.out.Some? {
      var w1 := Push(w, vals[0], flush);
      PushIsPushAll(w, vals[0], flush);
      PushAllDelivers(w, [vals[0]], flush);
      PushEachDelivers(w1, vals[1..], flush);
      assert Delivered(w) + [vals[0]] + vals[1..] == Delivered(w) + vals;
    }
  }

  /** Pushing rows one at a time counts each (modulo 2^64). */
  lemma {:induction false} PushEachCounts(w: Writer, vals: seq<Row>, flush: int)
    requires w.nwrite < U64
    ensures PushEach(w, vals, flush).nwrite == (w.nwrite + |vals|) % U64
    decreases |vals|
  {
    if |vals| > 0 {
      PushEachCounts(Push(w, vals[0], flush), vals[1..], flush);
      ModAdd(w.nwrite, 1, |vals| - 1);
    }
  }

  /** Pushing a concatenation one row at a time is pushing each part in turn. */
  lemma {:induction false} PushEachAppend(w: Writer, a: seq<Row>, b: seq<Row>, flush: int)
    ensures PushEach(w, a + b, flush) == PushEach(PushEach(w, a, flush), b, flush)
    decreases |a|
  {
    if |a| > 0 {
      assert (a + b)[0] == a[0] && (a + b)[1..] == a[1..] + b;
      PushEachAppend(Push(w, a[0], flush), a[1..], b, flush);
    } else {
      assert a + b == b;
    }
  }

  lemma ModAdd(x: nat, a: nat, b: nat)
    ensures ((x + a) % U64 + b) % U64 == (x + a + b) % U64
  {
  }

  /**
    `setFile(f)`: flush to the current file, then switch to f. Answers the
    final rows of the file left behind (None if there was none) with the
    new writer.
   */
  function SetFile(w: Writer, f: Option<seq<Row>>, flush: int): (r: (Option<seq<Row>>, Writer))
    ensures r.1.out == f && r.1.cached == [] && r.1.nwrite == w.nwrite
    ensures r.0.Some? <==> w.out.Some?
  {
    var g := Signal(w, flush, flush);
    (g.out, g.(out := f))
  }

  /** The file left behind by `setFile` holds everything delivered to it. */
  lemma SetFileCloses(w: Writer, f: Option<seq<Row>>, flush: int)
    ensures w.out.Some? ==> SetFile(w, f, flush).0 == Some(Delivered(w))
  {
    SignalKeeps(w, flush, flush);
  }
}

=== FILE: text.dfy ===
/**
  The string helpers the key-value parser and the menu utilities call
  (`split`, `strip`, `lower`, `to_str` of an unsigned count, `atoi`,
  `startsWith`). They belong to the package's string-manipulation header,
  which is not part of this model; they are given here the behaviour that
  header documents: `split` cuts at every separator character and drops
  empty pieces, `strip` trims separator characters from both ends.
 */
module Text {

  /** The default separator set of `split` and `strip`: space, tab, carriage return, newline. */
  const Blanks: set<char> := {' ', '\t', '\r', '\n'}

  /** No character of s is in D. */
  predicate Clean(s: string, D: set<char>) {
    forall i :: 0 <= i < |s| ==> s[i] !in D
  }

  /** The length of the leading run of characters not in D. */
  function WordLen(s: string, D: set<char>): (n: nat)
    ensures n <= |s| && Clean(s[..n], D) && (n == |s| || s[n] in D)
    decreases |s|
  {
    if |s| == 0 || s[0] in D then 0
    else
      var m := WordLen(s[1..], D);
      assert s[..1 + m] == [s[0]] + s[1..][..m];
      1 + m
  }

  /** `split(s, D)`: the maximal runs of characters not in D, in order. */
  function Split(s: string, D: set<char>): (w: seq<string>)
    ensures forall i :: 0 <= i < |w| ==> |w[i]| > 0 && Clean(w[i], D)
    decreases |s|
  {
    if |s| == 0 then []
    else if s[0] in D then Split(s[1..], D)
    else
      var n := WordLen(s, D);
      [s[..n]] + Split(s[n..], D)
  }

  /** Each word preceded by the separator c: `c w0 c w1 ...`. */
  function Prefixed(ws: seq<string>, c: char): string
    decreases |ws|
  {
    if |ws| == 0 then [] else [c] + ws[0] + Prefixed(ws[1..], c)
  }

  /** A clean word followed by a separator (or nothing) splits off as one piece. */
  lemma SplitWord(w: string, rest: string, D: set<char>)
    requires |w| > 0 && Clean(w, D) && (|rest| == 0 || rest[0] in D)
    ensures Split(w + rest, D) == [w] + Split(rest, D)
  {
    var s := w + rest;
    WordLenClean(w, rest, D);
    assert s[..|w|] == w && s[|w|..] == rest;
  }

  lemma {:induction false} WordLenClean(w: string, rest: string, D: set<char>)
    requires Clean(w, D) && (|rest| == 0 || rest[0] in D)
    ensures WordLen(w + rest, D) == |w|
    decreases |w|
  {
    if |w| > 0 {
      assert (w + rest)[1..] == w[1..] + rest;
      WordLenClean(w[1..], rest, D);
    } else {
      assert w + rest == rest;
    }
  }

  /** Splitting words written each after a separator gives the words back. */
  lemma {:induction false} SplitPrefixed(ws: seq<string>, c: char, D: set<char>)
    requires c in D
    requires forall i :: 0 <= i < |ws| ==> |ws[i]| > 0 && Clean(ws[i], D)
    ensures Split(Prefixed(ws, c), D) == ws
    decreases |ws|
  {
    if |ws| > 0 {
      var rest := Prefixed(ws[1..], c);
      SplitPrefixed(ws[1..], c, D);
      var s := [c] + ws[0] + rest;
      assert s[1..] == ws[0] + rest;
      assert |rest| == 0 || rest[0] == c;
      SplitWord(ws[0], rest, D);
      assert ws == [ws[0]] + ws[1..];
    }
  }

  /** Three clean words joined by a separator character split back into those three words. */
  lemma SplitThree(a: string, b: string, c: string, sep: char, D: set<char>)
    requires sep in D
    requires |a| > 0 && Clean(a, D) && |b| > 0 && Clean(b, D) && |c| > 0 && Clean(c, D)
    ensures Split(a + ([sep] + b + [sep] + c), D) == [a, b, c]
  {
    SplitTwoPrefixed(b, c, sep, D);
    SplitWordSep(a, [sep] + b + [sep] + c, sep, D);
  }

  /** Two clean words, each after a separator, split back into those two words. */
  lemma SplitTwoPrefixed(b: string, c: string, sep: char, D: set<char>)
    requires sep in D
    requires |b| > 0 && Clean(b, D) && |c| > 0 && Clean(c, D)
    ensures Split([sep] + b + [sep] + c, D) == [b, c]
  {
    PrefixedTwo(b, c, sep);
    SplitPrefixed([b, c], sep, D);
  }

  /** A clean word followed by a separator and more text splits off first. */
  lemma SplitWordSep(w: string, rest: string, sep: char, D: set<char>)
    requires sep in D && |w| > 0 && Clean(w, D) && |rest| > 0 && rest[0] == sep
    ensures Split(w + rest, D) == [w] + Split(rest, D)
  {
    SplitWord(w, rest, D);
  }

  lemma PrefixedTwo(b: string, c: string, sep: char)
    ensures Prefixed([b, c], sep) == [sep] + b + [sep] + c
  {
    assert [b, c][1..] == [c];
    assert Prefixed([c], sep) == [sep] + c + Prefixed([], sep);
  }

  /** Drop the leading characters in D. */
  function StripLeft(s: string, D: set<char>): (r: string)
    ensures |r| <= |s| && (|r| == 0 || r[0] !in D)
    decreases |s|
  {
    if |s| > 0 && s[0] in D then StripLeft(s[1..], D) else s
  }

  /** Drop the trailing characters in D. */
  function StripRight(s: string, D: set<char>): (r: string)
    ensures |r| <= |s| && (|r| == 0 || r[|r| - 1] !in D)
    ensures |r| > 0 && |s| > 0 ==> r[0] == s[0]
    decreases |s|
  {
    if |s| > 0 && s[|s| - 1] in D then StripRight(s[..|s| - 1], D) else s
  }

  /** `strip(s)`: drop the characters of D from both ends. */
  function Strip(s: string, D: set<char>): (r: string)
    ensures |r| == 0 || (r[0] !in D && r[|r| - 1] !in D)
  {
    StripRight(StripLeft(s, D), D)
  }

  /** Only characters of D. */
  predicate AllIn(s: string, D: set<char>) {
    forall i :: 0 <= i < |s| ==> s[i] in D
  }

  /** Neither end of s is in D. */
  predicate Trimmed(s: string, D: set<char>) {
    |s| == 0 || (s[0] !in D && s[|s| - 1] !in D)
  }

  /** Stripping removes exactly the padding around a trimmed string. */
  lemma StripPadded(a: string, s: string, b: string, D: set<char>)
    requires AllIn(a, D) && AllIn(b, D) && Trimmed(s, D)
    ensures Strip(a + s + b, D) == s
  {
    assert a + s + b == a + (s + b);
    if |s| > 0 {
      StripLeftPadded(a, s + b, D);
      StripRightPadded(s, b, D);
    } else {
      assert a + s + b == a + b;
      assert AllIn(a + b, D);
      StripLeftAll(a + b, D);
    }
  }

  lemma {:induction false} StripLeftPadded(a: string, t: string, D: set<char>)
    requires AllIn(a, D) && (|t| == 0 || t[0] !in D)
    ensures StripLeft(a + t, D) == t
    decreases |a|
  {
    if |a| > 0 {
      assert (a + t)[1..] == a[1..] + t;
      StripLeftPadded(a[1..], t, D);
    } else {
      assert a + t == t;
    }
  }

  lemma {:induction false} StripLeftAll(b: string, D: set<char>)
    requires AllIn(b, D)
    ensures StripLeft(b, D) == []
    decreases |b|
  {
    if |b| > 0 {
      StripLeftAll(b[1..], D);
    }
  }

  lemma {:induction false} StripRightPadded(s: string, b: string, D: set<char>)
    requires AllIn(b, D) && |s| > 0 && s[|s| - 1] !in D
    ensures StripRight(s + b, D) == s
    decreases |b|
  {
    if |b| > 0 {
      assert (s + b)[..|s + b| - 1] == s + b[..|b| - 1];
      StripRightPadded(s, b[..|b| - 1], D);
    } else {
      assert s + b == s;
    }
  }

  /** `tolower` on one character (the C locale: only A-Z change). */
  function LowerChar(c: char): char {
    if 'A' <= c <= 'Z' then (c as int + 32) as char else c
  }

  /** `lower(s)`: lower-case every character. */
  function Lower(s: string): (r: string)
    ensures |r| == |s| && forall i :: 0 <= i < |s| ==> r[i] == LowerChar(s[i])
  {
    seq(|s|, i requires 0 <= i < |s| => LowerChar(s[i]))
  }

  /** `startsWith(s, p)`. */
  predicate StartsWith(s: string, p: string) {
    |p| <= |s| && s[..|p|] == p
  }

  // ---------------------------------------------------------------- numbers

  function DigitChar(d: nat): char
    requires d < 10
  {
    ('0' as int + d) as char
  }

  predicate IsDigit(c: char) {
    '0' <= c <= '9'
  }

  /** `to_str(n)` of an unsigned count: its decimal digits, most significant first. */
  function NatToStr(n: nat): (s: string)
    ensures |s| > 0 && forall i :: 0 <= i < |s| ==> IsDigit(s[i])
    decreases n
  {
    if n < 10 then [DigitChar(n)] else NatToStr(n / 10) + [DigitChar(n % 10)]
  }

  /** The value of a string of decimal digits. */
  function DigitsValue(s: string): nat
    requires forall i :: 0 <= i < |s| ==> IsDigit(s[i])
    decreases |s|
  {
    if |s| == 0 then 0
    else
      assert IsDigit(s[|s| - 1]);
      10 * DigitsValue(s[..|s| - 1]) + (s[|s| - 1] as int - '0' as int)
  }

  /** The length of the leading run of decimal digits. */
  function DigitRun(s: string): (n: nat)
    ensures n <= |s| && forall i :: 0 <= i < n ==> IsDigit(s[i])
    decreases |s|
  {
    if |s| > 0 && IsDigit(s[0]) then 1 + DigitRun(s[1..]) else 0
  }

  /** The white-space characters `atoi` skips (`isspace` in the C locale). */
  const Spaces: set<char> := {' ', '\t', '\n', '\U{B}', '\U{C}', '\r'}

  /**
    `atoi(s)`: skip leading white space, read an optional sign and the
    decimal digits after it; anything else ends the number, and no digits
    give 0.
   */
  function Atoi(s: string): int {
    var t := StripLeft(s, Spaces);
    var neg := |t| > 0 && t[0] == '-';
    var u := if |t| > 0 && (t[0] == '-' || t[0] == '+') then t[1..] else t;
    var v: int := DigitsValue(u[..DigitRun(u)]);
    if neg then -v else v
  }

  lemma {:induction false} DigitRunAll(s: string)
    requires forall i :: 0 <= i < |s| ==> IsDigit(s[i])
    ensures DigitRun(s) == |s|
    decreases |s|
  {
    if |s| > 0 {
      DigitRunAll(s[1..]);
    }
  }

  lemma {:induction false} DigitsValueNatToStr(n: nat)
    ensures DigitsValue(NatToStr(n)) == n
    decreases n
  {
    if n >= 10 {
      DigitsValueNatToStr(n / 10);
      var s := NatToStr(n);
      assert s[..|s| - 1] == NatToStr(n / 10);
    }
  }

  /** `atoi` reads back what `to_str` writes. */
  lemma AtoiNatToStr(n: nat)
    ensures Atoi(NatToStr(n)) == n
  {
    var s := NatToStr(n);
    DigitRunAll(s);
    DigitsValueNatToStr(n);
    assert s[..|s|] == s;
  }
}

=== FILE: tree_wrap.dfy ===
/**
  `TreeWrap`: tree nodes with parent and child pointers, and the iterator
  that walks a tree top-down as an Euler tour.

  Nodes live in an arena and pointers are indices into it; `None` is the
  null pointer. An iterator is the current node and its stack of branch
  positions: the last entry is the next child to enter at the current node.
 */
module TreeWrap {
  import opened Wrappers

  datatype Node = Node(parent: Option<nat>, children: seq<nat>)

  datatype Tree = Tree(nodes: seq<Node>)

  datatype Iter = Iter(node: Option<nat>, position: seq<nat>)

  /** Every pointer in the arena refers to a node of the arena. */
  predicate Closed(t: Tree) {
    forall v :: 0 <= v < |t.nodes| ==> PointersIn(t, t.nodes[v])
  }

  predicate PointersIn(t: Tree, n: Node) {
    (n.parent.Some? ==> n.parent.value < |t.nodes|)
    && forall j :: 0 <= j < |n.children| ==> n.children[j] < |t.nodes|
  }

  /**
    A well-formed tree: each child's parent pointer names the node that
    lists it, and children come after their parent in the arena (so there
    are no cycles).
   */
  predicate Ordered(t: Tree) {
    Closed(t) && forall v :: 0 <= v < |t.nodes| ==> Links(t, v)
  }

  predicate Links(t: Tree, v: nat)
    requires v < |t.nodes|
  {
    var n := t.nodes[v];
    (n.parent.Some? ==> n.parent.value < v)
    && forall j :: 0 <= j < |n.children| ==> ChildOf(t, v, n.children[j])
  }

  predicate ChildOf(t: Tree, v: nat, c: nat) {
    v < c < |t.nodes| && t.nodes[c].parent == Some(v)
  }

  predicate InRange(t: Tree, it: Iter) {
    it.node.Some? ==> it.node.value < |t.nodes|
  }

  // --------------------------------------------------------------- iterator

  /** `begin()`: at the node, about to enter its first child. */
  function Begin(v: nat): Iter {
    Iter(Some(v), [0])
  }

  /** `end()`: the null node with no positions. */
  function End(): Iter {
    Iter(None, [])
  }

  /**
    `operator++`: enter the next child not yet visited (pushing a fresh
    position), or, with every child done, pop a position and go back to the
    parent. An iterator at null or without positions stays where it is.
   */
  function Next(t: Tree, it: Iter): (r: Iter)
    requires Closed(t) && InRange(t, it)
    ensures InRange(t, r)
    ensures it.node.None? || |it.position| == 0 ==> r == it
    ensures it.node.Some? && |it.position| > 0 ==>
      (|r.position| == |it.position| + 1 || |r.position| == |it.position| - 1)
      && r.position[..|it.position| - 1] == it.position[..|it.position| - 1]
  {
    if it.node.None? || |it.position| == 0 then it
    else
      var n := t.nodes[it.node.value];
      assert PointersIn(t, n);
      var L := |it.position|;
      var p := it.position[L - 1];
      if p < |n.children| then
        Iter(Some(n.children[p]), it.position[..L - 1] + [p + 1] + [0])
      else
        Iter(n.parent, it.position[..L - 1])
  }

  /** The iterator after k increments. */
  function Iterate(t: Tree, it: Iter, k: nat): (r: Iter)
    requires Closed(t) && InRange(t, it)
    ensures InRange(t, r)
    decreases k
  {
    if k == 0 then it else Iterate(t, Next(t, it), k - 1)
  }

  /** `operator!=`: the node or the position stack differs. */
  function NotEqual(a: Iter, b: Iter): (r: bool)
    ensures r <==> a != b
  {
    a.node != b.node || a.position != b.position
  }

  lemma {:induction false} IterateAdd(t: Tree, it: Iter, a: nat, b: nat)
    requires Closed(t) && InRange(t, it)
    ensures Iterate(t, it, a + b) == Iterate(t, Iterate(t, it, a), b)
    decreases a
  {
    if a > 0 {
      IterateAdd(t, Next(t, it), a - 1, b);
    }
  }

  // ------------------------------------------------------------ tour length

  /** The number of nodes below and including v, counted along the child lists. */
  function Size(t: Tree, v: nat): (s: nat)
    requires Ordered(t) && v < |t.nodes|
    ensures s >= 1
    decreases |t.nodes| - v, 1
  {
    1 + SumSizes(t, v, |t.nodes[v].children|)
  }

  /** The sizes of the first i children of v, added up. */
  function SumSizes(t: Tree, v: nat, i: nat): nat
    requires Ordered(t) && v < |t.nodes| && i <= |t.nodes[v].children|
    decreases |t.nodes| - v, 0, i
  {
    if i == 0 then 0
    else
      assert Links(t, v) && ChildOf(t, v, t.nodes[v].children[i - 1]);
      SumSizes(t, v, i - 1) + Size(t, t.nodes[v].children[i - 1])
  }

  /** For the first n increments from it, the position stack stays deeper than d. */
  predicate DeepAll(t: Tree, it: Iter, n: nat, d: nat)
    requires Closed(t) && InRange(t, it)
  {
    forall k :: 0 <= k <= n ==> |Iterate(t, it, k).position| > d
  }

  lemma DeepChain(t: Tree, it: Iter, a: nat, b: nat, d: nat)
    requires Closed(t) && InRange(t, it)
    requires DeepAll(t, it, a, d) && DeepAll(t, Iterate(t, it, a), b, d)
    ensures DeepAll(t, it, a + b, d)
    ensures Iterate(t, it, a + b) == Iterate(t, Iterate(t, it, a), b)
  {
    IterateAdd(t, it, a, b);
    forall k | a < k <= a + b
      ensures |Iterate(t, it, k).position| > d
    {
      IterateAdd(t, it, a, k - a);
    }
  }

  lemma DeepStep(t: Tree, it: Iter, d: nat)
    requires Closed(t) && InRange(t, it)
    requires |it.position| > d && |Next(t, it).position| > d
    ensures DeepAll(t, it, 1, d) && Iterate(t, it, 1) == Next(t, it)
  {
    assert Iterate(t, it, 1) == Iterate(t, Next(t, it), 0);
  }

  lemma DeepWeaken(t: Tree, it: Iter, n: nat, d: nat, d': nat)
    requires Closed(t) && InRange(t, it)
    requires DeepAll(t, it, n, d) && d' <= d
    ensures DeepAll(t, it, n, d')
  {
  }

  /** The walk through a whole subtree, from entering v to having done all its children. */
  predicate Walks(t: Tree, v: nat, P: seq<nat>, i: nat, n: nat)
    requires Ordered(t) && v < |t.nodes|
  {
    var start := Iter(Some(v), P + [0]);
    Iterate(t, start, n) == Iter(Some(v), P + [i]) && DeepAll(t, start, n, |P|)
  }

  /**
    Entered at v with positions P + [0], the iterator returns to v with
    positions P + [number of children] after twice the subtree's size
    minus two increments, never popping into P on the way.
   */
  lemma {:induction false} WalkSubtree(t: Tree, v: nat, P: seq<nat>)
    requires Ordered(t) && v < |t.nodes|
    ensures Walks(t, v, P, |t.nodes[v].children|, 2 * SumSizes(t, v, |t.nodes[v].children|))
    decreases |t.nodes| - v, 1
  {
    WalkChildren(t, v, P, |t.nodes[v].children|);
  }

  lemma {:induction false} WalkChildren(t: Tree, v: nat, P: seq<nat>, i: nat)
    requires Ordered(t) && v < |t.nodes| && i <= |t.nodes[v].children|
    ensures Walks(t, v, P, i, 2 * SumSizes(t, v, i))
    decreases |t.nodes| - v, 0, i
  {
    var start := Iter(Some(v), P + [0]);
    if i == 0 {
      assert Iterate(t, start, 0) == start;
    } else {
      WalkChildren(t, v, P, i - 1);
      assert Links(t, v);
      var c := t.nodes[v].children[i - 1];
      assert ChildOf(t, v, c);
      WalkSubtree(t, c, P + [i]);
      WalkInto(t, v, P, i, c);
    }
  }

  /**
    One child's stretch of the tour: step into child c, walk its subtree,
    and step back out to v with the position advanced.
   */
  lemma WalkInto(t: Tree, v: nat, P: seq<nat>, i: nat, c: nat)
    requires Ordered(t) && v < |t.nodes| && 0 < i <= |t.nodes[v].children|
    requires c == t.nodes[v].children[i - 1] && ChildOf(t, v, c)
    requires Walks(t, v, P, i - 1, 2 * SumSizes(t, v, i - 1))
    requires Walks(t, c, P + [i], |t.nodes[c].children|, 2 * SumSizes(t, c, |t.nodes[c].children|))
    ensures Walks(t, v, P, i, 2 * SumSizes(t, v, i))
  {
    var start := Iter(Some(v), P + [0]);
    var a := 2 * SumSizes(t, v, i - 1);
    var s := 2 * SumSizes(t, c, |t.nodes[c].children|);
    ChildStretch(t, v, P, i, c);
    DeepChain(t, start, a, s + 2, |P|);
    assert 2 * SumSizes(t, v, i) == a + (s + 2);
  }

  /** Into child c, through its subtree, and back out to v: twice c's size in increments. */
  lemma ChildStretch(t: Tree, v: nat, P: seq<nat>, i: nat, c: nat)
    requires Ordered(t) && v < |t.nodes| && 0 < i <= |t.nodes[v].children|
    requires c == t.nodes[v].children[i - 1] && ChildOf(t, v, c)
    requires Walks(t, c, P + [i], |t.nodes[c].children|, 2 * SumSizes(t, c, |t.nodes[c].children|))
    ensures var at, s := Iter(Some(v), P + [i - 1]), 2 * SumSizes(t, c, |t.nodes[c].children|);
      Iterate(t, at, s + 2) == Iter(Some(v), P + [i]) && DeepAll(t, at, s + 2, |P|)
  {
    var s := 2 * SumSizes(t, c, |t.nodes[c].children|);
    var at := Iter(Some(v), P + [i - 1]);
    var inC := Iter(Some(c), P + [i] + [0]);
    var doneC := Iter(Some(c), P + [i] + [|t.nodes[c].children|]);
    var back := Iter(Some(v), P + [i]);
    assert (P + [i - 1])[..|P|] == P;
    assert Next(t, at) == inC;
    assert (P + [i] + [|t.nodes[c].children|])[..|P| + 1] == P + [i];
    assert Next(t, doneC) == back;
    DeepStep(t, at, |P|);
    DeepWeaken(t, inC, s, |P| + 1, |P|);
    DeepChain(t, at, 1, s, |P|);
    DeepStep(t, doneC, |P|);
    DeepChain(t, at, 1 + s, 1, |P|);
  }

  /**
    From `begin()` at a root, the tour yields 2·(node count)−1 positions and
    then reaches `end()`: it is not at `end()` before that.
   */
  lemma Tour(t: Tree, r: nat)
    requires Ordered(t) && r < |t.nodes| && t.nodes[r].parent.None?
    ensures Iterate(t, Begin(r), 2 * Size(t, r) - 1) == End()
    ensures forall k :: 0 <= k < 2 * Size(t, r) - 1 ==> Iterate(t, Begin(r), k) != End()
  {
    var kids := |t.nodes[r].children|;
    var n := 2 * SumSizes(t, r, kids);
    WalkSubtree(t, r, []);
    assert [] + [0] == [0] && [] + [kids] == [kids];
    var last := Iter(Some(r), [kids]);
    assert Iterate(t, Begin(r), n) == last;
    assert Next(t, last) == End();
    IterateAdd(t, Begin(r), n, 1);
    assert Iterate(t, last, 1) == Iterate(t, End(), 0);
    forall k | 0 <= k < 2 * Size(t, r) - 1
      ensures Iterate(t, Begin(r), k) != End()
    {
      assert |Iterate(t, Begin(r), k).position| > 0;
    }
  }

  // -------------------------------------------------- beginning below a root

  /**
    Begun at a node that has a parent, the walk climbs out of the subtree to
    the parent with an empty position stack and then stays there: it never
    equals `end()`, so a loop from `begin()` to `end()` does not stop.
   */
  lemma NonRootStalls(t: Tree, v: nat, p: nat)
    requires Ordered(t) && v < |t.nodes| && t.nodes[v].parent == Some(p)
    ensures Iterate(t, Begin(v), 2 * Size(t, v) - 1) == Iter(Some(p), [])
    ensures forall k: nat :: Iterate(t, Begin(v), k) != End()
  {
    assert Links(t, v);
    var kids := |t.nodes[v].children|;
    var n := 2 * SumSizes(t, v, kids);
    var stuck := Iter(Some(p), []);
    WalkSubtree(t, v, []);
    assert [] + [0] == [0] && [] + [kids] == [kids];
    var last := Iter(Some(v), [kids]);
    assert Iterate(t, Begin(v), n) == last;
    assert Next(t, last) == stuck;
    IterateAdd(t, Begin(v), n, 1);
    assert Iterate(t, last, 1) == Iterate(t, stuck, 0);
    forall k: nat
      ensures Iterate(t, Begin(v), k) != End()
    {
      if k <= n {
        assert |Iterate(t, Begin(v), k).position| > 0;
      } else {
        IterateAdd(t, Begin(v), n + 1, k - n - 1);
        StaysStuck(t, p, k - n - 1);
      }
    }
  }

  /** An iterator on a node with no positions left is a fixed point of `++`. */
  lemma {:induction false} StaysStuck(t: Tree, p: nat, k: nat)
    requires Closed(t) && p < |t.nodes|
    ensures Iterate(t, Iter(Some(p), []), k) == Iter(Some(p), [])
    decreases k
  {
    if k > 0 {
      StaysStuck(t, p, k - 1);
    }
  }

  /**
    The corrected `operator++`: as `Next`, except that the climb which pops
    the last position ends the iteration instead of moving to the parent.
   */
  function NextStopping(t: Tree, it: Iter): (r: Iter)
    requires Closed(t) && InRange(t, it)
    ensures InRange(t, r)
    ensures r.position == Next(t, it).position
    ensures |r.position| > 0 || it.node.None? || |it.position| == 0 ==> r == Next(t, it)
    ensures it.node.Some? && |it.position| > 0 && |r.position| == 0 ==> r == End()
  {
    if it.node.None? || |it.position| == 0 then it
    else
      var n := t.nodes[it.node.value];
      assert PointersIn(t, n);
      var L := |it.position|;
      var p := it.position[L - 1];
      if p < |n.children| then
        Iter(Some(n.children[p]), it.position[..L - 1] + [p + 1] + [0])
      else
        Iter(if L == 1 then None else n.parent, it.position[..L - 1])
  }

  /** The corrected iterator after k increments. */
  function IterateStopping(t: Tree, it: Iter, k: nat): (r: Iter)
    requires Closed(t) && InRange(t, it)
    ensures InRange(t, r)
    decreases k
  {
    if k == 0 then it else IterateStopping(t, NextStopping(t, it), k - 1)
  }

  lemma {:induction false} StoppingStep(t: Tree, it: Iter, n: nat)
    requires Closed(t) && InRange(t, it)
    ensures IterateStopping(t, it, n + 1) == NextStopping(t, IterateStopping(t, it, n))
    decreases n
  {
    if n > 0 {
      StoppingStep(t, NextStopping(t, it), n - 1);
    }
  }

  /** While the position stack stays non-empty, the two iterators move alike. */
  lemma {:induction false} StoppingAgrees(t: Tree, it: Iter, n: nat)
    requires Closed(t) && InRange(t, it) && DeepAll(t, it, n, 0)
    ensures forall k :: 0 <= k <= n ==> IterateStopping(t, it, k) == Iterate(t, it, k)
    decreases n
  {
    if n > 0 {
      var nx := Next(t, it);
      assert Iterate(t, it, 1) == Iterate(t, nx, 0);
      assert |Iterate(t, it, 1).position| > 0;
      assert NextStopping(t, it) == nx;
      forall k | 0 <= k <= n - 1
        ensures |Iterate(t, nx, k).position| > 0
      {
        assert Iterate(t, it, k + 1) == Iterate(t, nx, k);
      }
      StoppingAgrees(t, nx, n - 1);
      forall k | 0 < k <= n
        ensures IterateStopping(t, it, k) == Iterate(t, it, k)
      {
        assert IterateStopping(t, it, k) == IterateStopping(t, nx, k - 1);
        assert Iterate(t, it, k) == Iterate(t, nx, k - 1);
      }
    }
  }

  /**
    From `begin()` at any node, the corrected iterator follows the original
    through the node's subtree, 2·(subtree size)−1 positions, and then
    reaches `end()`, not before.
   */
  lemma TourFrom(t: Tree, v: nat)
    requires Ordered(t) && v < |t.nodes|
    ensures IterateStopping(t, Begin(v), 2 * Size(t, v) - 1) == End()
    ensures forall k :: 0 <= k < 2 * Size(t, v) - 1 ==>
      IterateStopping(t, Begin(v), k) == Iterate(t, Begin(v), k) && Iterate(t, Begin(v), k) != End()
  {
    var kids := |t.nodes[v].children|;
    var n := 2 * SumSizes(t, v, kids);
    WalkSubtree(t, v, []);
    assert [] + [0] == [0] && [] + [kids] == [kids];
    var last := Iter(Some(v), [kids]);
    assert Iterate(t, Begin(v), n) == last;
    StoppingAgrees(t, Begin(v), n);
    assert NextStopping(t, last) == End();
    StoppingStep(t, Begin(v), n);
    forall k | 0 <= k < 2 * Size(t, v) - 1
      ensures Iterate(t, Begin(v), k) != End()
    {
      assert |Iterate(t, Begin(v), k).position| > 0;
    }
  }

  // ------------------------------------------------------------- building

  /**
    `addChild(W)`: a null child changes nothing; otherwise W joins the end
    of v's children and its parent pointer is set to v. W is returned.
   */
  function AddChild(t: Tree, v: nat, w: Option<nat>): (r: (Tree, Option<nat>))
    requires v < |t.nodes| && (w.Some? ==> w.value < |t.nodes|)
    ensures r.1 == w && |r.0.nodes| == |t.nodes|
    ensures w.None? ==> r.0 == t
    ensures w.Some? ==>
      r.0.nodes[v].children == t.nodes[v].children + [w.value]
      && r.0.nodes[w.value].parent == Some(v)
      && forall u :: 0 <= u < |t.nodes| && u != v && u != w.value ==> r.0.nodes[u] == t.nodes[u]
  {
    if w.None? then (t, w)
    else
      var c := w.value;
      var nodes1 := t.nodes[v := t.nodes[v].(children := t.nodes[v].children + [c])];
      var nodes2 := nodes1[c := nodes1[c].(parent := Some(v))];
      (Tree(nodes2), w)
  }

  /**
    Attaching a parentless node that comes after v keeps the tree well
    formed.
   */
  lemma AddChildOrdered(t: Tree, v: nat, w: nat)
    requires Ordered(t) && v < w < |t.nodes| && t.nodes[w].parent.None?
    ensures Ordered(AddChild(t, v, Some(w)).0)
  {
    var t' := AddChild(t, v, Some(w)).0;
    forall u | 0 <= u < |t'.nodes|
      ensures Links(t', u)
    {
      assert Links(t, u);
      var n := t'.nodes[u];
      forall j | 0 <= j < |n.children|
        ensures ChildOf(t', u, n.children[j])
      {
        if u == v && j == |t.nodes[v].children| {
        } else {
          var c := n.children[j];
          assert c == t.nodes[u].children[j];
          assert ChildOf(t, u, c);
          assert c != w;
        }
      }
    }
  }
}

=== FILE: wrappers.dfy ===
/** Failure-carrying result types shared by the other modules. */
module Wrappers {

  /** An optional value: the model's stand-in for a null pointer or an absent entry. */
  datatype Option<+T> = None | Some(value: T)

  /** A value or an error: the model's stand-in for a thrown exception or a failed assertion. */
  datatype Result<+T, +E> = Ok(value: T) | Err(error: E) {
    predicate IsFailure() { Err? }

    function PropagateFailure<U>(): Result<U, E>
      requires Err?
    {
      Err(error)
    }

    function Extract(): T
      requires Ok?
    {
      value
    }
  }
}
